=== FILE: README.md ===
# Zebu core, modelled in Dafny

This project models the self-contained logic at the core of Zebu, a
micro virtual machine for the Mu client interface. It proves properties of
that model. Every operation is a pure function or a short method over
immutable data. Integers are unbounded `nat`/`int`; where the program
works on 8- or 64-bit words, the width is written out as a modulus.

- `MuApiParser` (muapi_parser.dfy) is the header parser of the client API
  binding generator. It reads the function-pointer fields of the `MuVM`,
  `MuCtx` and `MuIRBuilder` structs, the `#define` enum values, the
  `typedef` lines and the `/// MUAPIPARSER` pragmas. Each regular
  expression is replaced by an explicit deterministic matcher that accepts
  the same strings. A raised exception is an `Err`.
- `MuApiEmitter` (muapi_emitter.dfy) is the Rust binding emitter. It
  covers the C-type classifiers, the Rust type mapping, the v-table field,
  the forwarder and stub, the filler line, and the struct, enum and type
  sections.
- `BitArith` (bit_arith.dfy) holds word arithmetic on naturals: bits,
  masks, shifts and powers of two. It is shared by the modules below.
- `BitUtils` (bit_utils.dfy) holds the bit helpers of the utility crate.
- `Aarch64` and `Aarch64Logical` (aarch64.dfy, aarch64_logical.dfy) hold
  the AArch64 immediate helpers of the code generator:
  - unsigned and signed field readings;
  - the 16-bit split of a 64-bit immediate;
  - the arithmetic and logical (bitmask) immediate rules;
  - `round_up` and `log2`;
  - condition-code inversion;
  - register-alias length selection.
- `Bitmaps` (bitmap.dfy) is the garbage collector's word-array bitmap.
- `GcTypes` (gctype.dfy) is the GC type descriptor and its
  reference-offset generation.
- `Immix` (immix.dfy) holds the line and block tables of the Immix space:
  - sweeping;
  - conservative line marking;
  - block growth and the growth rule;
  - the line scans of a block.
- `Headers`, `MuTypes` and `IrCore` (headers.dfy, mutypes.dfy,
  ir_core.dfy) are the IR's entity headers, the Mu type system and the
  struct and hybrid tag registries. They also cover function versioning,
  the hottest-successor choice and the id ranges.
- `AsmBackend` (asm_backend.dfy) is the x86-64 assembly buffer:
  - instruction and label bookkeeping;
  - emission;
  - `is_move` and nop-ing;
  - the control-flow analysis that computes predecessors and successors;
  - block live-in and live-out recording.
- `GenMovPhi` (gen_mov_phi.dfy) is the pass that replaces branch
  arguments by moves in fresh intermediate blocks.
- `Handle` (handle.dfy) holds the client API's handle values and their
  accessors.
- `HeapDumps` (heap_dump.dfy) is the heap dump taken for the boot image:
  - reachability from the roots over an abstract memory;
  - reference-map decoding;
  - the relocatable labels.
- `Wrappers` and `Text` (wrappers.dfy, text.dfy) are the `Result`/`Option`
  types and the string helpers.

Where the program panics, raises or indexes out of range on inputs its
callers may pass, the model mostly returns an `Err` or `None`. Where a
`requires` rules such an input out instead, "## Left out" names the member
and the condition.

## Model

| member | source | states |
|---|---|---|
| MuApiParser.MatchParamAt | src/vm/api/muapiparser.py:28 | a parameter match anchored at a position cuts the text into an optional-star type group and a word name group as the parameter pattern requires |
| MuApiParser.SearchParam | src/vm/api/muapiparser.py:43 | a match `r_param.search` reports is the match of the pattern at its own position, at or after the start |
| MuApiParser.SearchParamLeftmost | src/vm/api/muapiparser.py:43 | the pattern matches at no position between the start and the reported match, so the search finds the leftmost match |
| MuApiParser.SearchParamNone | src/vm/api/muapiparser.py:43 | the search reports no match only when the pattern matches at no position from the start on |
| MuApiParser.MatchPragmaAt | src/vm/api/muapiparser.py:25 | an optional `/// MUAPIPARSER` comment yields a pragma span that stays on one line and runs to the line end |
| MuApiParser.MatchTypedefAt | src/vm/api/muapiparser.py:32 | a typedef match starts at a line start and has the `expand_to` and `name` groups the typedef pattern describes |
| MuApiParser.MatchAt | src/vm/api/muapiparser.py:26-32 | each of the three declaration patterns, anchored at a position, either fails or returns a match that satisfies that pattern's shape |
| MuApiParser.DeclSound | src/vm/api/muapiparser.py:27 | a method-declaration match has the return type, `(*name)` and parenthesised parameter groups, followed by `;` and an optional pragma |
| MuApiParser.DefineSound | src/vm/api/muapiparser.py:30 | a `#define NAME ((TYPE)VALUE)` match has its three word groups in order and ends at a line end |
| MuApiParser.FindAll | src/vm/api/muapiparser.py:103 | every match `findall` reports is a valid match of the pattern |
| MuApiParser.FindAllSpec | src/vm/api/muapiparser.py:103 | `findall` reports non-overlapping leftmost matches in text order, and no position it skips over holds a match |
| MuApiParser.FindAllOrdered | src/vm/api/muapiparser.py:131 | the matches `findall` reports start at strictly increasing positions |
| MuApiParser.ParseSegment | src/vm/api/muapiparser.py:43-45 | one comma segment parses exactly when the parameter pattern is found in it; the type then has no spaces and no pragma flag is set, and a failed search is reported for that segment |
| MuApiParser.ExtractParams | src/vm/api/muapiparser.py:40-47 | the result has one parameter per comma segment, in order, and fails exactly when some segment has no match |
| MuApiParser.ExtractPragmas | src/vm/api/muapiparser.py:49-54 | blank text gives no pragmas; otherwise the pragmas joined with `;` give back the stripped text and none contains `;` |
| MuApiParser.IndexOfName | src/vm/api/muapiparser.py:61 | the parameter a name selects is the last one with that name, as a dict built from the list keeps, and no index means no parameter has the name |
| MuApiParser.ApplyPragma | src/vm/api/muapiparser.py:63-91 | a pragma only sets flags: the parameters keep their names and types |
| MuApiParser.ApplyPragmas | src/vm/api/muapiparser.py:63-91 | applying the pragmas left to right keeps every parameter's name and type |
| MuApiParser.MarkArraySpec | src/vm/api/muapiparser.py:73-83 | an `array` pragma records the size parameter on the array parameter and flags the size parameter, or fails when that parameter does not exist |
| MuApiParser.PragmaArray | src/vm/api/muapiparser.py:64-83 | `pn:array:sz` fails for an unknown `pn` and otherwise marks `pn` as an array sized by `sz` |
| MuApiParser.PragmaOptional | src/vm/api/muapiparser.py:85-86 | `pn:optional` sets only the optional flag of `pn`, and fails for an unknown `pn` |
| MuApiParser.PragmaOut | src/vm/api/muapiparser.py:87-88 | `pn:out` sets only the out flag of `pn`, and fails for an unknown `pn` |
| MuApiParser.PragmaUnrecognised | src/vm/api/muapiparser.py:89-91 | any other kind of pragma for a known parameter is rejected as unrecognised |
| MuApiParser.PragmaWithoutKind | src/vm/api/muapiparser.py:72 | a pragma with no `:kind` part for a known parameter fails on the missing part |
| MuApiParser.ErrorsNameTheParam | src/vm/api/muapiparser.py:64-91 | the two pragma errors that print a parameter concern a known parameter, the one named before the first colon |
| MuApiParser.ExtractMethod | src/vm/api/muapiparser.py:56-98 | a method keeps its name and its return type without blanks; a parameter-list failure is passed on unchanged; otherwise the method is built exactly when the pragmas apply left to right to the extracted parameters, its parameters are what they give, flags included, and a pragma failure is the method's failure |
| MuApiParser.ExtractMethodAsWritten | src/vm/api/muapiparser.py:56-98 | the method as written succeeds exactly when the corrected one does |
| MuApiParser.RaisedAsWritten | src/vm/api/muapiparser.py:78-91 | the two messages that use the undefined `pn` raise a name error instead; every other error is raised as is |
| MuApiParser.NameErrorAsWritten | src/vm/api/muapiparser.py:77-80 | an `ids:array:n` pragma with no parameter `n` ends in a name error about `pn` rather than the intended message |
| MuApiParser.NameErrorMasksMessage | src/vm/api/muapiparser.py:77-91 | the method as written differs from the corrected one only by replacing those two messages with the name error |
| MuApiParser.MethodOfMatch | src/vm/api/muapiparser.py:103-105 | the method built from a declaration match carries the declared name and the return type without blanks; it is built exactly when the declared parameters parse and the declaration's pragmas apply to them, its parameters are what the pragmas give, and otherwise the failure is theirs |
| MuApiParser.ExtractMethods | src/vm/api/muapiparser.py:100-107 | one method per declaration match, in text order, each named as declared; the body's methods are extracted exactly when every declaration's method can be built, and method `k` is the one built from declaration `k` |
| MuApiParser.ExtractMethodsInTextOrder | src/vm/api/muapiparser.py:100-107 | the methods come from the leftmost declaration matches in text order, each with its declaration's name and its pragma-adjusted parameters |
| MuApiParser.MuNameOf | src/vm/api/muapiparser.py:120-125 | reading the `muname` pragmas fails exactly when one of them is a bare `muname` with no value |
| MuApiParser.MuNameOfLast | src/vm/api/muapiparser.py:120-127 | the last `muname` pragma decides the enum's mu name; without one the name is unset |
| MuApiParser.ExtractEnum | src/vm/api/muapiparser.py:112-127 | an enum definition keeps the `#define`'s name and value and takes the `muname` its pragmas give; it fails exactly when they hold a bare `muname`, with that failure |
| MuApiParser.SelectedDefines | src/vm/api/muapiparser.py:131-132 | the kept `#define`s are exactly the matches whose name the enum's pattern selects |
| MuApiParser.SelectedInTextOrder | src/vm/api/muapiparser.py:131-134 | the kept `#define`s come in the order they appear in the text |
| MuApiParser.ExtractEnums | src/vm/api/muapiparser.py:129-138 | the enum is named by its type name and has one definition per selected `#define`, in order, each selected by the pattern and carrying that `#define`'s value and the `muname` of its pragmas; it fails exactly when one of those pragmas holds a bare `muname` |
| MuApiParser.TypedefEntry | src/vm/api/muapiparser.py:158-159 | a typedef maps the matched alias to the expanded type with blanks removed |
| MuApiParser.ExtractTypedefs | src/vm/api/muapiparser.py:154-163 | the ordered list has one entry per typedef match, in order, and the dictionary's keys are exactly the aliases listed |
| MuApiParser.AssignAllLast | src/vm/api/muapiparser.py:157-161 | assigning entries one by one leaves each name with the value of its last entry |
| MuApiParser.TypedefLastWins | src/vm/api/muapiparser.py:160 | each alias maps to the type of its last definition |
| MuApiParser.StructOf | src/vm/api/muapiparser.py:169-171 | a struct is named by its top-level name and holds the methods extracted from its body; it is built exactly when those methods are |
| MuApiParser.StructsOf | src/vm/api/muapiparser.py:168-171 | one struct per top-level name, in order, each with the methods of its body; the structs are built exactly when every body's methods are |
| MuApiParser.EnumsOf | src/vm/api/muapiparser.py:175-176 | one enum per enum specification, in order, each the one extracted for it; the enums are built exactly when every specification's enum is |
| MuApiParser.ParseMuApi | src/vm/api/muapiparser.py:165-185 | the result lists the three top-level structs and the ten enums in their fixed order, and the typedefs as extracted; parsing succeeds exactly when the methods of all three struct bodies and all ten enums are extracted |
| MuApiParser.ParseMuApiSucceeds | src/vm/api/muapiparser.py:165-185 | parsing succeeds exactly when every declaration in the three struct bodies has parameters that parse and pragmas that apply, and every `#define` the ten enum specifications select has a usable `muname` |
| MuApiEmitter.NameRegexSpec | src/vm/api/muapi2rustapi.py:56-64 | the handle and node patterns accept a name exactly when it is `Mu`, word characters and one of the suffixes, optionally followed by one final line break |
| MuApiEmitter.HandleArraySpec | src/vm/api/muapi2rustapi.py:69-70 | a handle array is exactly a `*`-terminated type whose star-stripped base is a handle |
| MuApiEmitter.NodeArraySpec | src/vm/api/muapi2rustapi.py:72-73 | a node array is exactly a `*`-terminated type whose star-stripped base is a node |
| MuApiEmitter.ToRustType | src/vm/api/muapi2rustapi.py:75-85 | every C type has a non-empty Rust type |
| MuApiEmitter.ToRustTypeStars | src/vm/api/muapi2rustapi.py:76-79 | each trailing `*` of a C type becomes one leading `*mut ` around the Rust type of the base |
| MuApiEmitter.RustTypeHead | src/vm/api/muapi2rustapi.py:75-85 | pointers start with `*`, primitives with their table entry, and every other type with `C` |
| MuApiEmitter.ToRustTypeInjective | src/vm/api/muapi2rustapi.py:75-85 | different C types get different Rust types |
| MuApiEmitter.PrimitiveRoundTrip | src/vm/api/muapi2rustapi.py:22-39 | reading the primitive table backwards gives the C type back |
| MuApiEmitter.AvoidRustKws | src/vm/api/muapi2rustapi.py:408-413 | only `ref` is rewritten, and no result is `ref` |
| MuApiEmitter.AvoidRustKwsIdempotent | src/vm/api/muapi2rustapi.py:408-413 | rewriting twice is rewriting once, and `ref` and `reff` collide |
| MuApiEmitter.ToHighLevelRetTy | src/vm/api/muapi2rustapi.py:500-511 | a type in the return table gets its entry; otherwise a handle is `*mut APIMuValue`, a node is `MuID`, and any other type keeps its low-level Rust type |
| MuApiEmitter.RetTypeMatchesConversion | src/vm/api/muapi2rustapi.py:653-661 | the return type the stub declares agrees with the conversion the forwarder applies: a handle is declared `*mut APIMuValue` and converted by `to_handle`, a node is `MuID` and `to_MuID`, the VM, context and builder pointers and `MuName` come from the table and are returned as they are, and `MuBool` is `bool` and converted by `to_MuBool` |
| MuApiEmitter.ParamRustTypes | src/vm/api/muapi2rustapi.py:426-430 | the v-table field lists one Rust type per declared parameter, size parameters included, in order |
| MuApiEmitter.StructField | src/vm/api/muapi2rustapi.py:421-438 | the field is `pub <name>: extern fn(`, then the Rust type of every declared parameter in order, joined by `, `, then `)`, the return arrow and type unless `void`, and `,` |
| MuApiEmitter.StructFieldArrow | src/vm/api/muapi2rustapi.py:432-436 | the field has a ` -> ` return part exactly when the method does not return `void` |
| MuApiEmitter.ArrayConversion | src/vm/api/muapi2rustapi.py:578-599 | an array argument is converted by a call ending in its size parameter, and its stub type is a vector or a slice |
| MuApiEmitter.OptionalConversion | src/vm/api/muapi2rustapi.py:600-611 | only handles, nodes, `MuCString` and `MuID` can be optional, and an optional argument's stub type is an `Option` |
| MuApiEmitter.PlainConversion | src/vm/api/muapi2rustapi.py:612-630 | a plain argument fails only for an unknown type, and is passed unconverted exactly when its type needs no conversion |
| MuApiEmitter.ArgConversion | src/vm/api/muapi2rustapi.py:573-630 | the converter is chosen out, array, optional, plain, in that order; it fails exactly on a non-pointer out or array parameter, an unsupported optional type or an unknown type |
| MuApiEmitter.ArgPassedAsIs | src/vm/api/muapi2rustapi.py:573-625 | an argument is passed by name exactly when it is an out parameter or a plain one needing no conversion, and then its stub type is its Rust type |
| MuApiEmitter.ArgOptionalStub | src/vm/api/muapi2rustapi.py:600-611 | an argument's stub type is an `Option` exactly when it is an optional parameter |
| MuApiEmitter.ConvertArg | src/vm/api/muapi2rustapi.py:562-637 | an argument is named by its keyword-safe name and uses the chosen converter |
| MuApiEmitter.ConvertArgs | src/vm/api/muapi2rustapi.py:556-560 | size parameters are dropped; the others are converted in order, and the first failure is reported |
| MuApiEmitter.RetConversion | src/vm/api/muapi2rustapi.py:653-661 | the result is passed unchanged exactly for the directly returned types; other handles are converted with `to_handle`, other nodes with `to_MuID`, and any other type `T` with `to_T` |
| MuApiEmitter.ForwarderStmts | src/vm/api/muapi2rustapi.py:632-663 | one `let mut` per argument; the `unsafe` block, binding `_rv` unless `void`; the call through the first argument with exactly the other arguments, in order; the closing line; then, unless `void`, `let _rv_prep =` with the result's conversion, and `_rv_prep` |
| MuApiEmitter.Forwarder | src/vm/api/muapi2rustapi.py:671-675 | the forwarder is the `extern fn` named after the struct and the method, with every parameter as `name: type`, the low-level return type, and a body of the forwarder statements, one per line |
| MuApiEmitter.StubParams | src/vm/api/muapi2rustapi.py:637-680 | the stub has one parameter per argument and the receiver becomes `&mut self` |
| MuApiEmitter.Stub | src/vm/api/muapi2rustapi.py:682-686 | the stub is `pub fn <name>(` with `&mut self` and each remaining argument with its stub type, the high-level return type unless `void`, and a body that panics |
| MuApiEmitter.ForwarderAndStub | src/vm/api/muapi2rustapi.py:516-688 | both texts are produced exactly when the method has a receiver and every argument converts; they are then the forwarder and the stub of the converted arguments, a conversion failure is passed on, and a method with no receiver fails with `NoReceiver` |
| MuApiEmitter.MethodsOut | src/vm/api/muapi2rustapi.py:718-723 | every method of a struct is visited in order, and the struct fails exactly when one of its methods does |
| MuApiEmitter.Fields | src/vm/api/muapi2rustapi.py:718-725 | one field per method, in method order |
| MuApiEmitter.FillerStmts | src/vm/api/muapi2rustapi.py:690-697 | one filler line per method, in method order |
| MuApiEmitter.StructDefLines | src/vm/api/muapi2rustapi.py:729-735 | the struct definition's lines are its three head lines with `header` first, then exactly the fields, then the closing lines |
| MuApiEmitter.FillerLines | src/vm/api/muapi2rustapi.py:739-748 | the filler's lines are its head, then exactly the filler lines in method order, then its tail |
| MuApiEmitter.VisitStruct | src/vm/api/muapi2rustapi.py:707-758 | a struct succeeds exactly when all its methods do, with one forwarder per method named after it; its definition holds one field per method, its filler one entry per method, its forwarders are those of its methods in order, and its stub block holds the stubs of its methods in order |
| MuApiEmitter.VisitStructs | src/vm/api/muapi2rustapi.py:761-777 | the structs are visited in order and the first failure is reported |
| MuApiEmitter.AllForwardersCount | src/vm/api/muapi2rustapi.py:772 | the forwarders of all structs together number as many as their methods |
| MuApiEmitter.EnumConsts | src/vm/api/muapi2rustapi.py:785-788 | one constant per definition of an enum |
| MuApiEmitter.VisitEnumsLines | src/vm/api/muapi2rustapi.py:779-790 | the enum text has one line per definition, enum by enum |
| MuApiEmitter.TypeLines | src/vm/api/muapi2rustapi.py:792-803 | one alias per typedef that is not a function type |
| MuApiEmitter.TypeLinesSpec | src/vm/api/muapi2rustapi.py:794-801 | every typedef not expanding to a `_` type gets its line, and every line comes from such a typedef |
| MuApiEmitter.TypeLineInjective | src/vm/api/muapi2rustapi.py:799-801 | different typedefs give different alias lines |
| MuApiEmitter.Generate | src/vm/api/muapi2rustapi.py:761-803 | the generator succeeds exactly when every struct does; its type and enum texts are those of the typedefs and enums, and its struct, forwarder, filler and stub texts join, in struct order, the pieces visiting each struct gives |
| MuApiEmitter.GenerateStructPieces | src/vm/api/muapi2rustapi.py:761-777 | struct `k` contributes to the generated texts exactly its own definition, with one field per method, its own filler, with one entry per method, and the stubs of its own methods |
| MuApiEmitter.GenerateForwarders | src/vm/api/muapi2rustapi.py:761-777 | the forwarders text holds as many forwarders as the structs have methods, and the forwarder of every method of every struct is among them |
| Aarch64.GetAliasForLength | src/compiler/backend/arch/aarch64/mod.rs:206-230 | a register alias is found exactly when the id has an alias row and the length is 64, at most 32 for a general register, or exactly 32 for a floating-point register; the 64-bit alias is the row's first entry and the narrower one its second, and an unknown id is a distinct error from an unsupported length |
| Aarch64.GetUnsignedValue | src/compiler/backend/arch/aarch64/mod.rs:981-983 | the unsigned reading of a value's low `size` bits is the value modulo 2^size |
| Aarch64.GetBit | src/compiler/backend/arch/aarch64/mod.rs:879-881 | the test of bit `i` agrees with the `i`-th binary digit of the value |
| Aarch64.GetSignedValue | src/compiler/backend/arch/aarch64/mod.rs:986-998 | the signed reading of the low `size` bits is the unique integer in the two's-complement range of that width congruent to the value modulo 2^size |
| Aarch64.SignedFull | src/compiler/backend/arch/aarch64/mod.rs:986-998 | at width 64 the reinterpretation as a signed word is the two's-complement reading |
| Aarch64.SplitImm | src/compiler/backend/arch/aarch64/mod.rs:820-822 | each of the four parts of a 64-bit immediate fits in 16 bits |
| Aarch64.SplitImmRecombine | src/compiler/backend/arch/aarch64/mod.rs:820-822 | the four 16-bit parts, weighted by successive powers of 2^16, add back up to the immediate |
| Aarch64.IsValidArithmeticImm | src/compiler/backend/arch/aarch64/mod.rs:884-886 | an arithmetic immediate is valid exactly when it fits in 12 bits or is a multiple of 4096 below 2^24 |
| Aarch64.ArithmeticImmEncodable | src/compiler/backend/arch/aarch64/mod.rs:884-886 | a value is a valid arithmetic immediate exactly when it is a 12-bit value shifted left by 0 or 12 |
| Aarch64.RoundUp | src/compiler/backend/arch/aarch64/mod.rs:1128-1129 | the result is the least multiple of `d` that is at least `n` |
| Aarch64.Log2Scan | src/compiler/backend/arch/aarch64/mod.rs:1137-1142 | the scan ends on the highest set bit in the scanned range, or keeps its start value when no bit in the range is set |
| Aarch64.Log2AsWritten | src/compiler/backend/arch/aarch64/mod.rs:1134-1147 | the loop as written only inspects bits 0 to 62, so its answer is below 63 |
| Aarch64.Log2AsWrittenMisses63 | src/compiler/backend/arch/aarch64/mod.rs:1138 | the loop as written gives `k` for 2^k when `k < 63` but 0 for 2^63, where the full scan gives 63 |
| Aarch64.Log2 | src/compiler/backend/arch/aarch64/mod.rs:1134-1147 | the logarithm scan over all 64 bits stays below 64 |
| Aarch64.Log2OfPow2 | src/compiler/backend/arch/aarch64/mod.rs:1132-1145 | for every power of two 2^k of a 64-bit word the logarithm is `k`, as the closing check `val == 1 << ret` demands |
| Aarch64.InvertConditionAsWritten | src/compiler/backend/arch/aarch64/mod.rs:1000-1029 | `AL` and `NV` have no inverse |
| Aarch64.InvertConditionAsWrittenBroken | src/compiler/backend/arch/aarch64/mod.rs:1006-1027 | as written `CS` maps to `CV` and `VS` to `VN`, neither a condition code, and `VC` falls through to the unrecognised case |
| Aarch64.InvertCondition | src/compiler/backend/arch/aarch64/mod.rs:1000-1029 | `AL` and `NV` have no inverse, and every condition the corrected table inverts is a condition code whose inverse is one too |
| Aarch64.InvertConditionMatchesEncoding | src/compiler/backend/arch/aarch64/mod.rs:1000-1029 | inversion succeeds exactly for the fourteen codes below `AL`, and flips the lowest bit of the code's encoding |
| Aarch64.InvertConditionInvolution | src/compiler/backend/arch/aarch64/mod.rs:1000-1029 | inverting an invertible code twice gives the code back |
| Aarch64Logical.ReplicateLogicalImm | src/compiler/backend/arch/aarch64/mod.rs:888-902 | for `n < 32` the result holds `1 + (1 + 2 + … + (32/n - 1))` consecutive copies of the `n`-bit pattern, because each step ORs in the growing value shifted by `i*n`, cut to 64 bits; bit `j` is then bit `j mod n` of the pattern inside the copies and clear above them, and the low `n` bits are the pattern; a pattern of 32 or 64 bits is returned unchanged |
| Aarch64Logical.IsValidLogicalImm | src/compiler/backend/arch/aarch64/mod.rs:905-978 | all zeros and all ones are refused, and every value accepted is, after some rotation, `n/k` copies of `k - x` zeros over `x` ones with `k` dividing `n` and `0 < x < k` |
| Aarch64Logical.FindRunStart | src/compiler/backend/arch/aarch64/mod.rs:919-929 | the first loop stops at the lowest bit that is set while the bit cyclically below it is clear |
| Aarch64Logical.CountOnes | src/compiler/backend/arch/aarch64/mod.rs:940-947 | the second loop stops at the first clear bit, with every bit below it set |
| Aarch64Logical.NextOne | src/compiler/backend/arch/aarch64/mod.rs:949-957 | the third loop stops at the first set bit above `x`, or at `n` when there is none |
| Aarch64Logical.ChunksRepeat | src/compiler/backend/arch/aarch64/mod.rs:965-977 | the final loop succeeds exactly when every `k`-bit chunk of the rotated value equals the first |
| Aarch64Logical.RotatedBit | src/compiler/backend/arch/aarch64/mod.rs:931-938 | rotating right by `r` and folding the upper `n` bits into the lower ones gives the rotation of the `n`-bit element: bit `j` becomes bit `(j + r) mod n` |
| Aarch64Logical.RunStartExists | src/compiler/backend/arch/aarch64/mod.rs:919-929 | a value that is neither all zeros nor all ones has a bit where a run of ones starts, so the first loop ends before `n` |
| Aarch64Logical.ExcludedValues | src/compiler/backend/arch/aarch64/mod.rs:914-917 | neither all zeros nor all ones is a bitmask immediate, matching the early refusal |
| BitUtils.TestNthBitU8 | src/utils/src/bit_utils.rs:15-20 | the test holds exactly when `val` is 1 and bit `index` is set, or `val` is 0 and the bit is clear; any other `val` never matches |
| BitUtils.LowerBitsU8 | src/utils/src/bit_utils.rs:22-26 | keeping the lower `len` bits gives the value modulo 2^len |
| BitUtils.U8Examples | src/utils/src/bit_utils.rs:79-84 | bit 6 of `0b1100_0011` is set and its lower six bits are `0b11` |
| BitUtils.SetBitU8 | src/utils/src/bit_utils.rs:28-31 | setting a mask gives a byte whose set bits are those of the value together with those of the mask |
| BitUtils.ClearBitU8 | src/utils/src/bit_utils.rs:33-36 | clearing a mask keeps exactly the bits of the value that the mask does not have |
| BitUtils.TestBitU8 | src/utils/src/bit_utils.rs:38-41 | the test holds exactly when every bit of the mask is set in the value |
| BitUtils.SetClearTest | src/utils/src/bit_utils.rs:86-98 | after setting a mask the mask tests true, and after clearing a non-empty mask it tests false |
| BitUtils.BitsOnes | src/utils/src/bit_utils.rs:46-53 | `bits_ones(n)` is `2^n - 1`, a 64-bit value, including the special case `n == 64` |
| BitUtils.BitsOnesBits | src/utils/src/bit_utils.rs:46-53 | exactly the bits below `n` of `bits_ones(n)` are set |
| BitUtils.U64Asr | src/utils/src/bit_utils.rs:55-60 | the arithmetic shift, read as a signed word, is the signed reading of the input divided by 2^shift rounded towards minus infinity |
| BitUtils.U64AsrBits | src/utils/src/bit_utils.rs:55-60 | bit `i` of the arithmetic shift is bit `i + shift` of the input, or the sign bit when that lies beyond bit 63 |
| BitUtils.SetNthBitU64 | src/utils/src/bit_utils.rs:62-65 | the xor trick changes only bit `index`, which becomes bit `index` of the 64-bit word `-set_value` |
| BitUtils.SetNthBitSpec | src/utils/src/bit_utils.rs:43-45 | for a set value of 0 or 1, bit `index` becomes that value, every other bit is kept, and `test_nth_bit_u64` then confirms it |
| BitUtils.TestNthBitU64 | src/utils/src/bit_utils.rs:67-72 | the test holds exactly when `val` is 1 and bit `index` is set, or `val` is 0 and the bit is clear |
| BitUtils.SetNthBitExampleSet | src/utils/src/bit_utils.rs:100-105 | setting bit 2 of `0b0000` gives `0b100` |
| BitUtils.SetNthBitExampleClear | src/utils/src/bit_utils.rs:100-106 | clearing bit 2 of `0b1111` gives `0b1011` |
| Bitmaps.WordCount | src/gc/src/common/bitmap.rs:28-31 | the allocation of `(len >> 6) + 1` words has room for every bit index below `len` |
| Bitmaps.New | src/gc/src/common/bitmap.rs:26-37 | a new bitmap has the requested length and only zero words |
| Bitmaps.NewIsClear | src/gc/src/common/bitmap.rs:26-37 | no bit of a new bitmap is set |
| Bitmaps.TestBit | src/gc/src/common/bitmap.rs:51-55 | testing reads bit `index mod 64` of word `index / 64` |
| Bitmaps.SetBit | src/gc/src/common/bitmap.rs:39-43 | setting a bit keeps the length and the word count |
| Bitmaps.SetBitSpec | src/gc/src/common/bitmap.rs:39-43 | after setting, the bit tests true and every other bit tests as before |
| Bitmaps.ClearBitAsWritten | src/gc/src/common/bitmap.rs:45-49 | clearing as written keeps the length and the word count |
| Bitmaps.ClearBitAsWrittenSpec | src/gc/src/common/bitmap.rs:48 | clearing as written ANDs the word with `0 << k`, which is zero, so every bit of that word reads clear and all other words are untouched |
| Bitmaps.ClearBitLosesNeighbour | src/gc/src/common/bitmap.rs:45-49 | after setting bits 3 and 4, clearing bit 3 as written also clears bit 4 |
| Bitmaps.ClearBit | src/gc/src/common/bitmap.rs:45-49 | the corrected clear keeps the length and the word count |
| Bitmaps.ClearBitSpec | src/gc/src/common/bitmap.rs:45-49 | after the corrected clear the bit tests false and every other bit tests as before |
| Bitmaps.ClearAfterSet | src/gc/src/common/bitmap.rs:39-49 | setting a clear bit and then clearing it gives back the same bitmap |
| Bitmaps.NextBitDistanceUnique | src/gc/src/common/bitmap.rs:57-70 | the distance to the next set bit is determined by the bitmap and the start index |
| Bitmaps.LengthUntilNextBit | src/gc/src/common/bitmap.rs:57-70 | the search returns the distance to the first set bit after `index` and below the length, or 0 when none is set |
| Bitmaps.UnitTestBitmap | src/gc/src/common/bitmap.rs:149-170 | bit 3 tests true after being set and false after being cleared, and with bits 3, 4 and 6 set the distances from 3, 4, 5 and 6 are 1, 2, 1 and 0 |
| Bitmaps.Set | src/gc/src/common/bitmap.rs:72-94 | writing a field keeps the length and the word count |
| Bitmaps.SetFieldBits | src/gc/src/common/bitmap.rs:72-94 | for a value that fits in `length` bits, a bit is set afterwards exactly when it was set before or lies in the field where the value has a one; the field may spill into the next word |
| Bitmaps.SetOnlyAdds | src/gc/src/common/bitmap.rs:85-91 | writing a field ORs it in, so no bit that was set gets cleared |
| Bitmaps.SetBitAt | src/gc/src/common/bitmap.rs:72-94 | bit by bit, writing a field keeps the bits that were set, and for a value that fits adds exactly the value's ones inside the field |
| Bitmaps.Get | src/gc/src/common/bitmap.rs:96-120 | the read as written fails exactly for a whole aligned word, where the mask `(1 << 64) - 1` overflows |
| Bitmaps.GetAgrees | src/gc/src/common/bitmap.rs:96-120 | apart from a whole aligned word, the read as written gives the corrected value |
| Bitmaps.GetFixedSpec | src/gc/src/common/bitmap.rs:96-120 | the corrected read fits in `length` bits and its bit `i` is the bitmap's bit `index + i` |
| Bitmaps.GetAfterSet | src/gc/src/common/bitmap.rs:72-120 | reading back a field written over clear bits gives the value written |
| Bitmaps.GetAfterSetAsWritten | src/gc/src/common/bitmap.rs:72-120 | for fields narrower than 64 bits, the read as written also gives back the value written over clear bits |
| Bitmaps.GetWholeWord | src/gc/src/common/bitmap.rs:108-109 | writing 64 ones at index 0 and reading them back fails as written, while the corrected read gives the 64 ones |
| GcTypes.ShiftConcat | src/gc/src/common/gctype.rs:99-103 | moving the offsets of two consecutive lists by a base is the same as moving each list and joining the results |
| GcTypes.NewRefTypeOffsets | src/gc/src/common/gctype.rs:41-52 | the reference type is one pointer wide, has the initial id, and has one reference, at offset 0 |
| GcTypes.NewNoRefTypeOffsets | src/gc/src/common/gctype.rs:31-39 | a type made without references has the requested size and no reference offsets |
| GcTypes.AppendShift | src/gc/src/common/gctype.rs:87-111 | appending a pattern's offsets at a base gives the offsets it appends at 0, each moved by the base, and ends at its end at 0 plus the base |
| GcTypes.NestedShift | src/gc/src/common/gctype.rs:96-109 | from any point of the loop over nested types, the offsets produced at a base are those produced at 0 moved by the base |
| GcTypes.RepeatTiled | src/gc/src/common/gctype.rs:120-130 | the `count` repetitions of a pattern produce one copy of its offsets per repetition, each moved by a multiple of the pattern's extent, and end after `count` extents |
| GcTypes.GenRefOffsetsTiled | src/gc/src/common/gctype.rs:54-74 | a type's reference offsets are those of its fixed part followed by `count` copies of the repeated part's, laid end to end after the fixed part |
| GcTypes.NestedLoop | src/gc/src/common/gctype.rs:96-109 | the nested loop's offsets are those of the types already visited followed by those of the rest, and the final base is the start plus the sum of all nested sizes |
| GcTypes.NestedSpec | src/gc/src/common/gctype.rs:96-109 | a nested pattern gives each nested type's own offsets moved to where that type starts, and ends at the base plus the sum of the nested types' sizes |
| GcTypes.Progression | src/gc/src/common/gctype.rs:190-192 | the list has `n` entries and entry `k` is `start + k * step` |
| GcTypes.TiledProgression | src/gc/src/common/gctype.rs:120-130 | `n` copies of an arithmetic progression of `m` offsets with extent `m * step`, laid end to end, form one progression of `n * m` offsets |
| GcTypes.MapArrayOffsets | src/gc/src/common/gctype.rs:151-164 | an array of `n` cells with one reference per 16-byte cell has references at `0, 16, …, 16 (n - 1)` |
| GcTypes.NestedArrayOffsets | src/gc/src/common/gctype.rs:166-176 | an array of `n` nested arrays of `m` such cells has references at every 16 bytes, `n * m` of them |
| GcTypes.UnitTestListCell | src/gc/src/common/gctype.rs:139-149 | the list cell `{ref, int64}` has its reference at offset 0 |
| GcTypes.UnitTestCellArray | src/gc/src/common/gctype.rs:190-191 | the ten-cell array has references at 0, 16, …, 144 |
| GcTypes.UnitTestCellMatrix | src/gc/src/common/gctype.rs:192 | the ten-by-ten cell matrix has references at every multiple of 16 below 1600 |
| GcTypes.UnitTestInt64 | src/gc/src/common/gctype.rs:194-202 | an 8-byte integer type has no reference offsets |
| Headers.Unnamed | src/ast/src/ir.rs:739-744 | an unnamed header has the given id and no name |
| Headers.Named | src/ast/src/ir.rs:746-751 | a named header has the given id and name |
| Headers.SameEntityIgnoresName | src/ast/src/ir.rs:762-766 | headers are equal exactly when their ids are: the name plays no part |
| Headers.Display | src/ast/src/ir.rs:768-776 | an unnamed header shows as `#id`; a named one starts with its name and a space; both end in `#` and the decimal id |
| Headers.Parse | src/ast/src/ir.rs:768-776 | the source has no parser for headers: this is the inverse of the display format written at the cited lines, there only to state that the display loses nothing; a header it reads back carries the id written after the final `#` |
| Headers.DisplayParse | src/ast/src/ir.rs:768-776 | reading back the display of a header gives the same id and name |
| Headers.DisplayInjective | src/ast/src/ir.rs:768-776 | two headers with the same display have the same id and the same name |
| MuTypes.Erase | src/ast/src/types.rs:105-112 | erasing the headers of a type leaves an anonymous header at the top |
| MuTypes.EraseSig | src/ast/src/types.rs:838-842 | erasing a signature keeps the number of return and argument types and erases each of them |
| MuTypes.TypeEqErase | src/ast/src/types.rs:105-112 | two types are equal exactly when they are identical once every header in them is erased: equality looks only at the kind, all the way down |
| MuTypes.SigEqErase | src/ast/src/types.rs:838-842 | two signatures are equal exactly when their erased return and argument lists are identical; the signature header plays no part |
| MuTypes.TypeEqEquivalence | src/ast/src/types.rs:105-112 | type equality is reflexive, symmetric and transitive, and replacing a type's header keeps it equal |
| MuTypes.IntLengthSpec | src/ast/src/types.rs:442-452 | an integer length exists exactly for the non-floating-point scalars; it is the declared width for `int<n>` and 64 for every reference and pointer kind |
| MuTypes.IsIntNSpec | src/ast/src/types.rs:175-182 | `is_int_n(n)` holds exactly when the integer length is `n`: for an `int<n>` or, when `n` is 64, for a reference or pointer kind |
| MuTypes.ComparableSpec | src/ast/src/types.rs:199-209 | every ult-comparable type is eq-comparable, and every eq-comparable type has an integer length; the types with a length that are not eq-comparable are exactly `weakref` and `tagref64`; the types that are eq-comparable but not ult-comparable are exactly `ref` and the opaque references |
| MuTypes.KindPartition | src/ast/src/types.rs:227-294 | no type is both scalar and aggregate; every type is scalar, aggregate, a vector or void; heap references are scalars and neither opaque references nor raw pointers |
| MuTypes.GetStructHybridTag | src/ast/src/types.rs:246-253 | a tag is returned exactly for struct and hybrid types |
| MuTypes.GetElemTy | src/ast/src/types.rs:374-380 | an element type is returned exactly for array types |
| MuTypes.GetFuncSig | src/ast/src/types.rs:433-440 | a signature is returned exactly for `funcref` and `ufuncptr` types |
| MuTypes.ReferentSpec | src/ast/src/types.rs:423-431 | a referent is returned exactly for `ref`, `iref`, `weakref` and `uptr`; heap references are 64 bits wide; a type with a referent has no signature and no element type |
| MuTypes.ReferentOfBuilt | src/ast/src/types.rs:423-431 | the referent of each of the four pointer kinds built over a type is that type |
| MuTypes.StrongVariant | src/ast/src/types.rs:529-536 | the strong variant of a weak reference is the strong reference to the same type, and every other kind is its own strong variant |
| MuTypes.StrongVariantSpec | src/ast/src/types.rs:529-536 | taking the strong variant is idempotent, turns a weak reference into the strong reference to the same type and changes nothing else, and keeps the referent, the integer length and being a heap reference; the strong variant of a heap reference is eq-comparable |
| MuTypes.DisplayErase | src/ast/src/types.rs:541-569 | the text of a type does not depend on any header in it |
| MuTypes.SigDisplayErase | src/ast/src/types.rs:849-858 | the text of a signature does not depend on any header in it |
| MuTypes.DisplayRespectsEq | src/ast/src/types.rs:541-569 | equal types have the same text |
| MuTypes.DisplayExamples | src/ast/src/types.rs:547-569 | `ref<int<64>>` and `array<double 10>` are written as in the Mu text form |
| MuTypes.FieldsEqRefl | src/ast/src/types.rs:592-595 | every list of field types equals itself under type equality |
| MuTypes.HybridStringEmptyFix | src/ast/src/types.rs:657-669 | a hybrid with no fixed part prints as `hybrid< v>`, with a space before the variable part |
| MuTypes.MustructEmpty | src/ast/src/types.rs:718-728 | `mustruct_empty` registers the tag with no fields, replacing any earlier entry, leaves every other struct tag and all hybrid tags alone, and yields the struct type of that tag |
| MuTypes.MustructPut | src/ast/src/types.rs:729-743 | `mustruct_put` succeeds exactly when the tag is registered; it then replaces that tag's fields with the list and changes no other entry |
| MuTypes.Mustruct | src/ast/src/types.rs:744-768 | `mustruct` fails exactly when the tag is already registered with fields that differ from the list; otherwise it records the list under the tag, changes no other entry and yields the struct type |
| MuTypes.HybridEmpty | src/ast/src/types.rs:770-783 | `hybrid_empty` registers the tag with no fixed part and a void variable part, leaving the struct tags alone |
| MuTypes.HybridPut | src/ast/src/types.rs:785-801 | `hybrid_put` succeeds exactly when the tag is registered, and then records the given fixed and variable parts under it |
| MuTypes.MuHybrid | src/ast/src/types.rs:802-827 | `hybrid` fails exactly when the tag is already registered with different parts; otherwise it records the parts under the tag and yields the hybrid type |
| MuTypes.GetFieldTy | src/ast/src/types.rs:390-408 | field `index` of a registered struct, or of the fixed part of a registered hybrid, is its `index`th declared type; the lookup fails exactly when the struct or hybrid tag is unregistered or the index is past its fields; any other type has no field type |
| MuTypes.GetHybridVarpartTy | src/ast/src/types.rs:410-421 | the variable part of a registered hybrid is its declared variable-part type; the lookup fails exactly when the hybrid tag is unregistered; any other type has no variable part |
| MuTypes.EmptyThenPut | src/ast/src/types.rs:718-743 | after `mustruct_empty` and then `mustruct_put`, field `i` of the struct is the `i`-th listed type, and an index past the list is an error |
| MuTypes.MustructIdempotent | src/ast/src/types.rs:744-768 | registering the same struct twice is the same as registering it once |
| MuTypes.MustructReregister | src/ast/src/types.rs:748-760 | once a tag is registered, registering it again succeeds exactly when the new field list equals the old one |
| MuTypes.MustructFreshTag | src/ast/src/types.rs:744-768 | a fresh tag always registers, and its fields can then be read back |
| MuTypes.HybridRegistry | src/ast/src/types.rs:770-827 | after `hybrid_empty` and `hybrid_put`, the variable part reads back, and registering the same hybrid again succeeds |
| IrCore.NewMachineId | src/ast/src/ir.rs:43-49 | the counter always advances by one; the id is the counter's old value, and allocation fails with "machine id overflow" exactly when that value has reached 100 |
| IrCore.NewInternalId | src/ast/src/ir.rs:51-57 | the counter always advances by one; the id is the counter's old value, and allocation fails with "internal id overflow" exactly when that value has reached 200 |
| IrCore.MachineIds | src/ast/src/ir.rs:43-49 | `n` successive machine-id requests give `n` answers |
| IrCore.InternalIds | src/ast/src/ir.rs:51-57 | `n` successive internal-id requests give `n` answers |
| IrCore.MachineIdsSpec | src/ast/src/ir.rs:43-49 | the `k`-th machine-id request gets the counter plus `k`, or the overflow error once that reaches the end of the range |
| IrCore.InternalIdsSpec | src/ast/src/ir.rs:51-57 | the `k`-th internal-id request gets the counter plus `k`, or the overflow error once that reaches the end of the range |
| IrCore.IdRanges | src/ast/src/ir.rs:24-57 | from the initial counters, machine ids stay in `[0, 100)` and internal ids in `[101, 200)`; the machine, internal and user ranges are ordered and do not overlap; no id is handed out twice |
| IrCore.IdCapacity | src/ast/src/ir.rs:24-57 | from the initial counters exactly the first 100 machine-id requests and the first 99 internal-id requests succeed |
| IrCore.NewFunction | src/ast/src/ir.rs:69-76 | a new function is unnamed with the given id and signature, and has no versions |
| IrCore.History | src/ast/src/ir.rs:59-66 | a function's version history ends with the current version, when there is one |
| IrCore.NewVersion | src/ast/src/ir.rs:78-85 | a new version becomes current and is appended to the history; the header and signature are kept |
| IrCore.NewVersionsHistory | src/ast/src/ir.rs:78-85 | after a series of new versions, the history is the old history followed by the series in order, and the header is kept |
| IrCore.NewVersionsCurrent | src/ast/src/ir.rs:78-85 | after a non-empty series of new versions, the last one is current |
| IrCore.FreshFunctionVersions | src/ast/src/ir.rs:69-85 | for a new function given a non-empty series of versions, the last is current and all earlier ones are the obsolete versions, in order |
| IrCore.FirstHottestUnique | src/ast/src/ir.rs:253-270 | at most one edge is the first edge of greatest probability |
| IrCore.GetHottestSucc | src/ast/src/ir.rs:253-270 | there is no hottest successor exactly when the block has no successor edges; otherwise it is the target of the first edge of greatest probability, because the loop replaces its choice only on a strictly greater probability |
| Immix.BlockOfRange | src/gc/src/heap/immix/immix_space.rs:422-450 | a line belongs to block `b` exactly when its index lies in that block's run of 256 line indices |
| Immix.Range | src/gc/src/heap/immix/immix_space.rs:382-388 | the blocks added by one growth are the consecutive indices from the current block count on |
| Immix.GrowBlocks | src/gc/src/heap/immix/immix_space.rs:371-407 | growing by `n` blocks adds `n` to the block count and `n` blocks' bytes to the current size, records `n` as the growth rate, appends the new block indices to the usable list, and resets exactly the new blocks' marks to uninitialised and their lines to free |
| Immix.GrowKeepsComplete | src/gc/src/heap/immix/immix_space.rs:371-407 | after growing, the usable and used lists still hold each current block exactly once |
| Immix.NextGrowthSpec | src/gc/src/heap/immix/immix_space.rs:508-515 | the next growth is positive and stays within the total; it is twice the last growth when that fits, and otherwise the blocks that remain, which are then fewer |
| Immix.EmptySpace | src/gc/src/heap/immix/immix_space.rs:326-331 | a fresh space has no current blocks and as many total blocks as whole blocks fit in its size |
| Immix.NewSpace | src/gc/src/heap/immix/immix_space.rs:304-369 | a new space starts with `min(64, total)` blocks, all usable in index order and with free lines, none used, and every current block listed once |
| Immix.NextUsableBlock | src/gc/src/heap/immix/immix_space.rs:488-523 | the front of the usable list is taken when there is one; otherwise the space grows by the next growth and hands out the first new block; when the space is already at its total and has nothing usable, no block is returned and the space is unchanged; a block handed out is current and no longer uninitialised, and the used list is untouched |
| Immix.TakeFront | src/gc/src/heap/immix/immix_space.rs:496-505 | taking the front of the usable list removes it and marks an uninitialised block usable |
| Immix.GrowForNext | src/gc/src/heap/immix/immix_space.rs:506-516 | when nothing is usable, growing puts the first new block at the front of the usable list, followed by the other new blocks in order |
| Immix.ReturnUsedBlock | src/gc/src/heap/immix/immix_space.rs:483-485 | a returned block goes to the front of the used list; the usable list is untouched |
| Immix.TakeAndReturn | src/gc/src/heap/immix/immix_space.rs:483-523 | taking a usable block and returning it as used keeps every current block listed exactly once |
| Immix.MarkLineConservative | src/gc/src/heap/immix/immix_space.rs:427-433 | conservative marking makes the line live and the next line conservatively live, unless the line is the last current line; every other mark is unchanged |
| Immix.CountUnmarked | src/gc/src/heap/immix/immix_space.rs:180-190 | the count of lines that are neither live nor conservatively live in a range is at most the range's length, and is positive exactly when such a line exists |
| Immix.SweepBlock | src/gc/src/heap/immix/immix_space.rs:176-190 | sweeping one block frees exactly its lines that are neither live nor conservatively live, counts them as free and the rest as used (together 256), and reports whether it freed any |
| Immix.SweepStep | src/gc/src/heap/immix/immix_space.rs:171-201 | one iteration of the sweep loop keeps the loop invariant: the swept block gets its verdict and is pushed to the front of the usable or the used list |
| Immix.SweepNext | src/gc/src/heap/immix/immix_space.rs:171-201 | one iteration of the sweep loop keeps the loop invariant |
| Immix.SweepBlocks | src/gc/src/heap/immix/immix_space.rs:148-222 | sweeping all blocks frees exactly the current lines that are neither live nor conservatively live; a current block becomes usable when it has a freed line and full otherwise; the usable and used lists hold exactly those blocks, each once; free plus used lines equal all current lines |
| Immix.SweepDone | src/gc/src/heap/immix/immix_space.rs:148-232 | when the loop has visited every block, the result is a valid, complete, swept space |
| Immix.Sweep | src/gc/src/heap/immix/immix_space.rs:224-227 | the sweep stops with "out of memory" exactly when the space is at its total size (and not empty) and no current block has a line to free; otherwise it gives the swept space |
| Immix.OutOfMemoryVerdict | src/gc/src/heap/immix/immix_space.rs:224-227 | after a sweep, every block being used is the same as the space being full with no line to free |
| Immix.MarkedLinesSurviveSweep | src/gc/src/heap/immix/immix_space.rs:180-190 | a line marked live by conservative marking, and the line after it, are not freed by the next sweep |
| Immix.FirstFree | src/gc/src/heap/immix/immix_space.rs:577-594 | the first free line at or after the given line in the block, if any, with every line before it in that range not free |
| Immix.FirstUnfree | src/gc/src/heap/immix/immix_space.rs:596-613 | the first line at or after the given line that is not free, or 256 when all the rest are free |
| Immix.GetNextAvailableLine | src/gc/src/heap/immix/immix_space.rs:577-594 | the loop returns the first free line at or after `cur_line` in the block, or none |
| Immix.GetNextUnavailableLine | src/gc/src/heap/immix/immix_space.rs:596-613 | the loop returns the first line at or after `cur_line` that is not free, or the end of the block |
| Immix.HoleSearch | src/gc/src/heap/immix/immix_space.rs:577-613 | the two searches together find a hole: from the given line up to its end, a line is free exactly when it lies at or after the hole's start |
| AsmBackend.StartCode | src/compiler/backend/arch/x86_64/asm_backend.rs:771-785 | a new code sequence carries the function's name and starts with no lines, no labels and no live sets |
| AsmBackend.AddInst | src/compiler/backend/arch/x86_64/asm_backend.rs:477-511 | adding an instruction or a branch appends exactly one line carrying its text and branch target, and changes no label |
| AsmBackend.AddBlockLabel | src/compiler/backend/arch/x86_64/asm_backend.rs:414-420 | a block label line is appended, and the block name is mapped to that line's index, which becomes a block start |
| AsmBackend.SetInstNop | src/compiler/backend/arch/x86_64/asm_backend.rs:233-236 | replacing line `index` by an empty line succeeds exactly when the line exists, keeps the number of lines, and leaves every other line and all labels alone |
| AsmBackend.IsMoveSpec | src/compiler/backend/arch/x86_64/asm_backend.rs:141-147 | a line is a move exactly when it exists and its text starts with `mov` |
| AsmBackend.NopIsNoMove | src/compiler/backend/arch/x86_64/asm_backend.rs:141-236 | after a line is made empty it is no longer a move, and whether any other line is a move is unchanged |
| AsmBackend.Codes | src/compiler/backend/arch/x86_64/asm_backend.rs:238-247 | the texts of the lines, one per line, in order |
| AsmBackend.EmitJoin | src/compiler/backend/arch/x86_64/asm_backend.rs:238-247 | the emitted text is every line's text followed by a newline, that is the texts joined by newlines with a final newline |
| AsmBackend.EmitSplit | src/compiler/backend/arch/x86_64/asm_backend.rs:238-247 | when no line's text holds a newline, splitting the emitted text at newlines gives back the lines' texts, followed by one empty piece |
| AsmBackend.EmitLength | src/compiler/backend/arch/x86_64/asm_backend.rs:238-247 | the emitted text is as long as all the lines' texts plus one newline per line |
| AsmBackend.SetBlockLiveIn | src/compiler/backend/arch/x86_64/asm_backend.rs:878-894 | recording a block's live-in values succeeds exactly when the block has none recorded yet and every value is an SSA variable; it then records their ids in order and changes nothing else |
| AsmBackend.SetBlockLiveOut | src/compiler/backend/arch/x86_64/asm_backend.rs:896-915 | recording a block's live-out values succeeds exactly when the block has none recorded yet; it records the ids of the values that are SSA variables, skipping the others, and changes nothing else |
| AsmBackend.SsaIds | src/compiler/backend/arch/x86_64/asm_backend.rs:891-893 | the SSA ids of all values in order, or nothing when some value is not an SSA variable |
| AsmBackend.PresentIds | src/compiler/backend/arch/x86_64/asm_backend.rs:909-914 | the SSA ids of the values that have one, and no other ids |
| AsmBackend.PresentIdsAppend | src/compiler/backend/arch/x86_64/asm_backend.rs:909-914 | the loop over the live-out values collects ids value by value: the ids of two lists in a row are the ids of the first followed by those of the second |
| AsmBackend.LiveInOnce | src/compiler/backend/arch/x86_64/asm_backend.rs:878-894 | live-in values cannot be recorded twice for the same block, while another fresh block still accepts them |
| AsmBackend.LiveOutOnce | src/compiler/backend/arch/x86_64/asm_backend.rs:896-915 | live-out values cannot be recorded twice for the same block |
| AsmBackend.Next | src/compiler/backend/arch/x86_64/asm_backend.rs:737-752 | there is a next line exactly when the line is not the last |
| AsmBackend.VisitLine | src/compiler/backend/arch/x86_64/asm_backend.rs:695-755 | one step of the first pass succeeds exactly when the line's branch names a known label, and keeps the first-pass invariant |
| AsmBackend.EmptyAfterFirstPass | src/compiler/backend/arch/x86_64/asm_backend.rs:757-762 | after the first pass, a line has no predecessor exactly when it is the first line or a block start that no branch targets |
| AsmBackend.SecondPassLine | src/compiler/backend/arch/x86_64/asm_backend.rs:757-762 | the fall-through fix-up gives each line exactly its predecessors |
| AsmBackend.ControlFlowAnalysis | src/compiler/backend/arch/x86_64/asm_backend.rs:688-763 | the analysis succeeds exactly when every branch names a known label; each line's successors are then the next line for a plain line, the target for an unconditional branch, and the target then the next line for a conditional one; its predecessors are the branches to it and, unless it is a block start that some branch targets, the line before |
| AsmBackend.EveryLineReached | src/compiler/backend/arch/x86_64/asm_backend.rs:757-762 | every line but the first has at least one predecessor |
| AsmBackend.EdgesMirrored | src/compiler/backend/arch/x86_64/asm_backend.rs:688-763 | every branch edge and every fall-through into a line that is not a block start appears both as a successor of its source and as a predecessor of its target |
| GenMovPhi.ExtendsTrans | src/compiler/passes/gen_mov_phi.rs:57-304 | the list of intermediate-block records only grows during the first step, and ids are handed out in increasing order |
| GenMovPhi.NameText | src/compiler/passes/gen_mov_phi.rs:408-414 | a named target contributes its name to the new block's name, and an unnamed one contributes nothing |
| GenMovPhi.IntermediateName | src/compiler/passes/gen_mov_phi.rs:408-414 | the name of an intermediate block starts with the instruction's name, the destination's role and `:#` |
| GenMovPhi.FromArgs | src/compiler/passes/gen_mov_phi.rs:397-405 | the values passed are the operands named by the arguments, in order; a fresh-bound argument or an index past the operands fails |
| GenMovPhi.ProcessDest | src/compiler/passes/gen_mov_phi.rs:379-430 | a destination without arguments is kept unchanged and nothing is recorded; otherwise it is redirected, without arguments, to a new block named after the next id, and one record of that block, its target and the passed values is appended |
| GenMovPhi.ProcessDestSpec | src/compiler/passes/gen_mov_phi.rs:379-430 | the new destination never carries arguments; a record is added exactly when the destination had arguments, and it keeps the target, the new id and one passed value per argument |
| GenMovPhi.ProcessCases | src/compiler/passes/gen_mov_phi.rs:212-225 | every switch case keeps its key and loses its arguments, in order; it fails exactly when some case names a missing operand |
| GenMovPhi.ProcessResumption | src/compiler/passes/gen_mov_phi.rs:128-143 | both destinations of a resumption lose their arguments; one id is used for each destination that had arguments |
| GenMovPhi.RewriteTerminator | src/compiler/passes/gen_mov_phi.rs:79-291 | the corrected rewrite (a C call stays a C call): the terminator keeps its header, operands, results and kind, and no destination of a two-way branch, call, C call, switch or exceptional stack swap passes arguments any more; a one-way branch keeps its arguments and, like a move or any other instruction, is kept as it is |
| GenMovPhi.ProcessDestRedirects | src/compiler/passes/gen_mov_phi.rs:379-430 | a destination with arguments is replaced by one that leads to the block of a record holding its original target and the values it passed |
| GenMovPhi.RewriteTerminatorRedirects | src/compiler/passes/gen_mov_phi.rs:79-291 | every destination of the rewritten terminator is either the original one, when it passed no arguments, or leads to the record made for it, and every other field of the instruction is kept |
| GenMovPhi.RewriteTerminatorFails | src/compiler/passes/gen_mov_phi.rs:241-291 | rewriting fails exactly for a watchpoint, a watchpoint branch, an exception-throwing instruction, or when some destination names a missing operand |
| GenMovPhi.SwitchFails | src/compiler/passes/gen_mov_phi.rs:198-240 | a switch is rewritten unless one of its destinations names a missing operand |
| GenMovPhi.RewriteTerminatorAsWritten | src/compiler/passes/gen_mov_phi.rs:161-197 | as written, a C call is rewritten exactly like the corrected version but then rebuilt as a plain call; every other instruction is rewritten as in the corrected version |
| GenMovPhi.CCallBecomesCall | src/compiler/passes/gen_mov_phi.rs:182-193 | a C call with no arguments to pass comes out of the code as written as a plain call, while the corrected version keeps it unchanged |
| GenMovPhi.RewriteBody | src/compiler/passes/gen_mov_phi.rs:63-303 | a body is rewritten only when it ends in an instruction; all nodes but the last are kept and the last is the rewritten terminator |
| GenMovPhi.FirstStep | src/compiler/passes/gen_mov_phi.rs:59-304 | the corrected first step keeps every block's id, header, parameters and exception parameter, leaves blocks outside the visited order alone, and leaves no rewritten destination of a visited block passing arguments (a one-way branch keeps its arguments) |
| GenMovPhi.FirstStepRedirects | src/compiler/passes/gen_mov_phi.rs:59-304 | when each block is visited once, only the last instruction of a visited block changes, and each of its destinations leads to the record the step collected for it |
| GenMovPhi.MoveInst | src/compiler/passes/gen_mov_phi.rs:337-342 | a move instruction writes its one destination from its one operand |
| GenMovPhi.SeqMovesAt | src/compiler/passes/gen_mov_phi.rs:330-348 | as written, each passed value that differs from its parameter gets one move, in argument order |
| GenMovPhi.SeqMovesCount | src/compiler/passes/gen_mov_phi.rs:330-348 | as written, there are exactly as many moves as passed values that differ from their parameter |
| GenMovPhi.RunAppend | src/compiler/passes/gen_mov_phi.rs:330-360 | running two instruction lists one after the other is running their concatenation |
| GenMovPhi.SwapLosesValue | src/compiler/passes/gen_mov_phi.rs:330-348 | when a block passes its two parameters to itself swapped, the moves as written give both parameters the same value, so the passed values are not received |
| GenMovPhi.RunStash | src/compiler/passes/gen_mov_phi.rs:330-348 | after the first half, each temporary holds the value passed at its position and no other value below the temporaries has changed |
| GenMovPhi.RunUnstash | src/compiler/passes/gen_mov_phi.rs:330-348 | after the second half, each parameter holds its temporary and every other value is unchanged |
| GenMovPhi.ParallelMoves | src/compiler/passes/gen_mov_phi.rs:330-348 | the corrected moves, through fresh temporaries, use one id per instruction |
| GenMovPhi.ParallelMovesCorrect | src/compiler/passes/gen_mov_phi.rs:330-348 | running the corrected moves gives every parameter the value passed for it, as if all were assigned at once, and changes no other value in use |
| GenMovPhi.BuildBlock | src/compiler/passes/gen_mov_phi.rs:309-370 | the intermediate block has the recorded id and name, no parameters, the target's exception parameter and no keep-alives, and its body is the moves followed by an argument-free branch to the target |
| GenMovPhi.IntermediateBlock | src/compiler/passes/gen_mov_phi.rs:309-370 | the corrected intermediate block takes over the target's exception parameter and has no parameters of its own |
| GenMovPhi.IntermediateBlockMeaning | src/compiler/passes/gen_mov_phi.rs:309-370 | running the corrected intermediate block's body gives every target parameter the value passed for it, as if all at once, and changes no other value in use |
| GenMovPhi.InsertBlock | src/compiler/passes/gen_mov_phi.rs:306-373 | the corrected insertion succeeds exactly when the target exists, has content and has a parameter for every value passed; the new block is added under its id, the target loses its exception parameter, and every other block is unchanged |
| GenMovPhi.InsertBlockAsWritten | src/compiler/passes/gen_mov_phi.rs:306-373 | inserting as written succeeds under the same condition; the new block has the recorded header, no parameters and the target's exception parameter, the target loses its exception parameter, every other block is unchanged, and the VM's next id advances by one per differing value plus one for the branch |
| GenMovPhi.AsWrittenBlockShape | src/compiler/passes/gen_mov_phi.rs:330-360 | as written, the new block's body is one move per differing passed value, in order, followed by the branch to the target |
| GenMovPhi.SeqMovesShape | src/compiler/passes/gen_mov_phi.rs:330-348 | every instruction generated as written is a move |
| GenMovPhi.NewIds | src/compiler/passes/gen_mov_phi.rs:306-373 | the ids of the blocks to insert are exactly the ids in the records |
| GenMovPhi.SecondStep | src/compiler/passes/gen_mov_phi.rs:306-373 | the corrected second step adds exactly the recorded blocks and keeps the header and body of every other block |
| GenMovPhi.SecondStepInserts | src/compiler/passes/gen_mov_phi.rs:306-373 | with fresh, increasing block ids, the block left under each record's id is the intermediate block of that record for its target, and a block no record targets is unchanged |
| GenMovPhi.VisitFunction | src/compiler/passes/gen_mov_phi.rs:51-376 | the corrected pass, each block visited once, keeps every block; when all block ids are below the VM's next id, no rewritten destination of a visited block passes arguments, and there are records linking every redirected destination to a fresh block that is the intermediate block for its original target |
| GenMovPhi.PassLinks | src/compiler/passes/gen_mov_phi.rs:51-376 | the records of the first step are the ones that link the blocks the pass rewrites to the blocks it inserts |
| GenMovPhi.IntermediateForMeaning | src/compiler/passes/gen_mov_phi.rs:309-370 | a block the pass inserted for a record gives each parameter of the target the value passed for it, as if all at once, changes no other value below the VM's next id, and ends in an argument-free branch to the target |
| GenMovPhi.RedirectedMeaning | src/compiler/passes/gen_mov_phi.rs:51-376 | after the pass, a destination that passed arguments leads to a new block that delivers exactly those arguments to the original target and then branches there |
| GenMovPhi.SecondStepKeepsLowered | src/compiler/passes/gen_mov_phi.rs:306-373 | inserting the new blocks does not overwrite a visited block, so no rewritten destination of those blocks passes arguments |
| Handle.AsRefOrIref | src/vm/handle.rs:61-67 | accepts exactly the handles that `AsRef` or `AsIref` accepts and returns the same type and address; every other variant is an error |
| Handle.AsRef | src/vm/handle.rs:69-74 | succeeds exactly on a `Ref` and returns its type and address, refusing an `IRef` |
| Handle.AsIref | src/vm/handle.rs:76-81 | succeeds exactly on an `IRef` and returns its type and address, refusing a `Ref` |
| Handle.AsInt | src/vm/handle.rs:83-88 | succeeds exactly on an `Int` and returns its stored value whatever the width |
| Handle.AsFloat | src/vm/handle.rs:90-95 | succeeds exactly on a `Float` and returns its payload |
| Handle.AsDouble | src/vm/handle.rs:97-102 | succeeds exactly on a `Double` and returns its payload |
| Handle.AsUPtr | src/vm/handle.rs:104-109 | succeeds exactly on a `UPtr` and returns its type and address |
| Handle.AsUfp | src/vm/handle.rs:111-116 | succeeds exactly on a `Ufp` and returns its type and address |
| Handle.AsFunc | src/vm/handle.rs:118-123 | succeeds exactly on a `Func` and returns its function id |
| Handle.AccessorsInvertConstructors | src/vm/handle.rs:61-123 | each accessor gives back exactly what its matching variant stored |
| Handle.RefKindsDisjoint | src/vm/handle.rs:61-81 | no handle passes both `AsRef` and `AsIref`; a `Ref` fails `AsIref` and an `IRef` fails `AsRef`, but `AsRefOrIref` accepts both |
| Handle.OnlyFuncHasFunction | src/vm/handle.rs:118-123 | `AsFunc` succeeds if and only if the handle is a `Func`, so `FuncRef` and `FuncVer` are refused |
| HeapDumps.HasRefBit | src/gc/src/common/objectdump.rs:63 | the shift-and-mask test of slot `i` of a reference map agrees with bit `i` of the map |
| HeapDumps.RefMapOffsets | src/gc/src/common/objectdump.rs:56-70 | the offsets are strictly increasing and are exactly the byte offsets `i * 8` of the set bits `i` below the map length |
| HeapDumps.RefMapExtremes | src/gc/src/common/objectdump.rs:56-70 | an empty map yields no offsets, and a map with all bits set yields the offset of every slot |
| HeapDumps.Persist | src/gc/src/common/objectdump.rs:50-106 | a dump of an object with a reference map has the header's size plus the header size and the offsets of the map's set bits; any other object (fixed-size by type id, or hybrid) takes size and offsets from its GC type, and fails exactly when the type id is out of range |
| HeapDumps.Trace | src/gc/src/common/objectdump.rs:108-119 | tracing succeeds exactly when every reference field is inside the heap's memory |
| HeapDumps.TracePushes | src/gc/src/common/objectdump.rs:108-119 | an address is pushed if and only if it is stored in one of the object's reference fields, is not null, and is not yet dumped |
| HeapDumps.Drain | src/gc/src/common/objectdump.rs:33-44 | the work-queue loop only adds dumps, and only for objects that have headers |
| HeapDumps.DrainSound | src/gc/src/common/objectdump.rs:33-44 | when the loop finishes, every queued address is dumped, every dump is what `Persist` gives, every non-null edge of a dumped object is dumped, and every dumped object is a root or reachable from one |
| HeapDumps.DrainTotal | src/gc/src/common/objectdump.rs:33-44 | the loop cannot fail when the queue lies inside a set of dumpable objects closed under edges |
| HeapDumps.DerivedWithin | src/gc/src/common/objectdump.rs:33-44 | every object dumped by the loop lies in any edge-closed set that holds the roots |
| HeapDumps.Labels | src/gc/src/common/objectdump.rs:121-130 | exactly the dumped objects get a label |
| HeapDumps.LabelsAt | src/gc/src/common/objectdump.rs:121-130 | the object at position `i` of the order gets the label built from counter value `i` |
| HeapDumps.LabelCount | src/gc/src/common/objectdump.rs:125 | splitting a label at `_` gives back `GCDUMP`, the counter in decimal and the address |
| HeapDumps.LabelsDiffer | src/gc/src/common/objectdump.rs:125 | labels built from different counter values differ |
| HeapDumps.LabelsDistinct | src/gc/src/common/objectdump.rs:121-130 | two different dumped objects get different labels |
| HeapDumps.FromRoots | src/gc/src/common/objectdump.rs:26-48 | a dump labels exactly the objects it holds |
| HeapDumps.FromRootsSound | src/gc/src/common/objectdump.rs:26-48 | every root is dumped, every dump is what `Persist` gives, and the dump is closed under non-null edges |
| HeapDumps.FromRootsMinimal | src/gc/src/common/objectdump.rs:26-48 | the dump holds nothing outside any edge-closed set that holds the roots |
| HeapDumps.FromRootsTotal | src/gc/src/common/objectdump.rs:26-48 | the dump succeeds whenever the objects reachable from the roots lie in a dumpable, edge-closed set |
| HeapDumps.FromRootsLabels | src/gc/src/common/objectdump.rs:26-48 | different objects in a dump get different labels |

The functions below compute what the source computes and carry no
contract of their own. Each is described by the lemma rows named beside it.

- GcTypes.GenRefOffsets (`src/gc/src/common/gctype.rs` lines 54-74): GcTypes.GenRefOffsetsTiled, GcTypes.NewRefTypeOffsets, GcTypes.NewNoRefTypeOffsets and the unit-test rows.
- GcTypes.Append (`src/gc/src/common/gctype.rs` lines 87-111): GcTypes.AppendShift and GcTypes.NestedSpec.
- GcTypes.Nested (`src/gc/src/common/gctype.rs` lines 96-109): GcTypes.NestedShift, GcTypes.NestedLoop and GcTypes.NestedSpec.
- GcTypes.Repeat (`src/gc/src/common/gctype.rs` lines 120-130): GcTypes.RepeatTiled.
- GcTypes.NewRefType (`src/gc/src/common/gctype.rs` lines 41-52): GcTypes.NewRefTypeOffsets.
- GcTypes.NewNoRefType (`src/gc/src/common/gctype.rs` lines 31-39): GcTypes.NewNoRefTypeOffsets.
- AsmBackend.IsMove (`src/compiler/backend/arch/x86_64/asm_backend.rs` lines 141-147): AsmBackend.IsMoveSpec and AsmBackend.NopIsNoMove.
- AsmBackend.Emit (`src/compiler/backend/arch/x86_64/asm_backend.rs` lines 238-247): AsmBackend.EmitJoin, AsmBackend.EmitSplit and AsmBackend.EmitLength.
- MuApiEmitter.VisitEnums (`src/vm/api/muapi2rustapi.py` lines 779-790): MuApiEmitter.VisitEnumsLines.
- MuApiEmitter.VisitTypes (`src/vm/api/muapi2rustapi.py` lines 792-803): MuApiEmitter.TypeLines and MuApiEmitter.Generate.
- MuApiEmitter.HighLevelRet (`src/vm/api/muapi2rustapi.py` lines 481-486): MuApiEmitter.ToHighLevelRetTy.
- MuApiEmitter.StructDef (`src/vm/api/muapi2rustapi.py` lines 729-735): MuApiEmitter.StructDefLines.
- MuApiEmitter.Filler (`src/vm/api/muapi2rustapi.py` lines 739-748): MuApiEmitter.FillerLines.
- MuTypes.GetIntLength (`src/ast/src/types.rs` lines 444-452): MuTypes.IntLengthSpec and MuTypes.IsIntNSpec.
- MuTypes.IsScalar (`src/ast/src/types.rs` lines 228-243): MuTypes.IntLengthSpec and MuTypes.KindPartition.
- MuTypes.IsEqComparable and MuTypes.IsUltComparable (`src/ast/src/types.rs` lines 199-209): MuTypes.ComparableSpec.
- MuTypes.TypeEq (`src/ast/src/types.rs` lines 105-112): MuTypes.TypeEqErase.

## Left out

- File I/O and injection: the binding generator's `main` and `inject_many`, and the extraction of the struct bodies from `muapi.h`. `injecttools.extract_lines` is not part of this model, so the parser takes the extracted bodies as input.
- Floating point: the AArch64 float-immediate checks and float conversions. Edge probabilities in `get_hottest_succ` are compared only for order, so they are integers. `Handle.AsFloat` and `Handle.AsDouble` return the payload's bit pattern without reading it as a number.
- Raw memory and the OS: the bitmap's allocation, `Drop` and printing; memory mapping and zeroing in the Immix space; the loads of header words and fields in the heap dump. The heap dump reads them from an abstract `Heap` value instead.
- The object model's `REF_MAP_LENGTH` and `OBJECT_HEADER_OFFSET`, the header-word decoders, and the display of an address are not part of this model. They are fields of `Heap` and a `show` parameter.
- The heap dump labels objects in the order they were dumped. The source iterates a `HashMap`, whose order is unspecified, so only the distinctness and the shape of the labels are stated.
- Concurrency: mutexes, read-write locks, atomics and the global type and tag maps. They are plain state passed from call to call. The id counters are unbounded: a `usize` wrap-around of the atomic counters is not modelled, and the range checks panic long before it.
- `GCType::new`'s alignment check, `is_traced`/`is_native_safe`, `prepare_for_gc`, `trigger_gc`, `mark_object_traced` and `print_details` in the Immix space, and the `vec_utils` helpers: they are not among the operations modelled.
- The Immix layout constants beyond the block and line sizes: allocation thresholds and the space's own address range.
- Identifiers are ASCII. Python 3 compiles the parser's and the emitter's `str` patterns without `re.ASCII`, so their `\w` also matches every non-ASCII letter and digit (`é`, `É`). The model's word character (`Text.IsWordChar`) is only an ASCII letter, digit or `_`, because the Unicode letter and digit tables are not part of this model. Each member below states its property for ASCII identifiers only:
- MuApiParser.MatchParamAt: its type and name groups accept only ASCII word characters, so in `int é` the name `é` is not recognised.
- MuApiParser.MatchTypedefAt: its `expand_to` and `name` groups accept only ASCII word characters.
- MuApiParser.MatchAt: all three anchored matchers read `\w` as an ASCII word character.
- MuApiParser.DeclSound: the shape of a declaration match is stated with ASCII word characters.
- MuApiParser.DefineSound: the three word groups of a `#define` match are ASCII only.
- MuApiEmitter.NameRegexSpec: `Mu\w*` matches only an ASCII tail, so `MuÉtatValue` is not a handle type here.
- AsmBackend: a line's register uses and definitions, `is_using_mem_op`, and the symbol and directive helpers are not part of this model. `emit` produces characters, not bytes.
- AsmBackend.StartCode: does not add the two symbol-directive lines `start_code` appends, because the directive and symbol helpers are not part of this model.
- AsmBackend.ControlFlowAnalysis: states which lines are a line's predecessors and successors, not the order of the predecessor lists.
- Immix.SweepBlocks: states the free-line and block totals and the block classification, but does not tie the free-line count to individual line marks across blocks.
- Aarch64Logical.IsValidLogicalImm: proves only soundness: an accepted value is a replicated rotated run of ones. The converse is not proved.
- MuTypes: `get_sig` and the sizes and alignments computed elsewhere in the back end are not part of this model.
- GenMovPhi: the instructions other than the terminators that pass arguments are carried by their kind only. Trace output and the `hprof` timing are not modelled. The VM's id source is an explicit counter.
- GenMovPhi.VisitFunction: computes the corrected pass, in which a C call stays a C call and the moves go through fresh temporaries. The pass as written is modelled only piece by piece, by GenMovPhi.RewriteTerminatorAsWritten and GenMovPhi.InsertBlockAsWritten. So the VM's next id after the pass is not the one the source leaves: the source takes one id per differing value, the model two.
- GenMovPhi.FirstStep, GenMovPhi.SecondStep, GenMovPhi.InsertBlock and GenMovPhi.IntermediateBlock are the steps of that corrected pass, for the same reason.
- BitUtils.TestNthBitU8, BitUtils.LowerBitsU8, BitUtils.BitsOnes, BitUtils.U64Asr, BitUtils.SetNthBitU64 and BitUtils.TestNthBitU64: require the shift amount or bit index to be below the operand's width (`index < 8`, `len < 8`, `n <= 64`, `shift < 64`, `index < 64`). A larger shift panics in a debug build of the source and wraps in a release build; neither outcome is modelled.
- Aarch64.GetUnsignedValue: requires `size <= 64`; the source's `bits_ones(size)` shifts by `size` and panics beyond it.
- Aarch64.GetSignedValue: requires `1 <= size <= 64`; the source computes `1 << (size - 1)`, which underflows at `size == 0` and overflows beyond 64.
- GenMovPhi.NameText: the source formats the optional name of the target; the model writes an unnamed target's name as empty text.
- Aarch64.RoundUp: requires `d > 0`; the source divides by `d` and panics at zero. The model also computes `n + d - 1` on unbounded integers, while the source computes it in `usize` (src/compiler/backend/arch/aarch64/mod.rs:1129): when that sum passes 2^64 - 1 a debug build panics and a release build wraps to a small result, and neither is modelled.
- Aarch64Logical.ReplicateLogicalImm: requires `0 < n` and a value below `2^n`. At `n == 0` the source divides by zero in `32/n`; a wider value is outside what its callers pass.
- Aarch64Logical.IsValidLogicalImm: requires the width and value its `debug_assert!`s demand: a power of two up to 64 and a value that fits in it. Other widths are not modelled.
- Bitmaps.Set and Bitmaps.Get: require `index < len` and `length <= 64`, the two `assert!`s the source checks only in a debug build, and that the touched words are addressable. A release build reads or writes past the bitmap's words; that raw memory is not modelled.
- Immix.MarkLineConservative: requires the line index to lie inside the current blocks. The source indexes its line-mark table and panics past its end.
- The mock client API implementation, the trait-only code generator interface, the test drivers and the build scripts.

## Findings

| source | as written | input that shows it | evidently intended | confidence | as-written member | corrected member |
|---|---|---|---|---|---|---|
| src/vm/api/muapiparser.py:77-91 | the two error messages for an unknown array-size parameter and an unrecognised pragma kind format the undefined name `pn` | a pragma `p:array:n` where the method has no parameter `n` | raise the intended message naming the parameter | high; not executed | MuApiParser.NameErrorAsWritten | MuApiParser.ExtractMethod |
| src/compiler/backend/arch/aarch64/mod.rs:1006-1015 | `CS` is inverted to `CV` and `VS` to `VN`, which are not condition codes; `VN` is accepted as input | `invert_condition_code("CS")` | `CS` ↔ `CC` and `VS` ↔ `VC`, as in the Arm condition-code table | high; not executed | Aarch64.InvertConditionAsWrittenBroken | Aarch64.InvertConditionMatchesEncoding |
| src/compiler/backend/arch/aarch64/mod.rs:1138 | the scan `for i in 0..63` never looks at bit 63 | `log2(1 << 63)` gives 0 | 63 | high; not executed | Aarch64.Log2AsWrittenMisses63 | Aarch64.Log2OfPow2 |
| src/gc/src/common/bitmap.rs:48 | `clear_bit` ANDs the word with `0 << k`, clearing all 64 bits of the word | set bits 3 and 4, clear bit 3: bit 4 reads clear | AND with `!(1 << k)`, clearing only bit `k` | high; not executed | Bitmaps.ClearBitLosesNeighbour | Bitmaps.ClearBitSpec |
| src/gc/src/common/bitmap.rs:108-109 | a read of length 64 at a word boundary computes `1 << 64`, which overflows | `get(0, 64)` after `set(0, 2^64 - 1, 64)` | return the whole word | medium; not executed | Bitmaps.GetWholeWord | Bitmaps.GetAfterSet |
| src/compiler/passes/gen_mov_phi.rs:182-193 | a rewritten C call is rebuilt as a plain `Call` | a `CCall` in the last position of a block | keep the C call, with its destinations redirected | high; not executed | GenMovPhi.CCallBecomesCall | GenMovPhi.RewriteTerminator |
| src/compiler/passes/gen_mov_phi.rs:330-348 | the intermediate block moves each passed value into its parameter one after another | a block branching to itself with its two parameters swapped | parallel copy: both parameters receive the values passed | medium; not executed | GenMovPhi.SwapLosesValue | GenMovPhi.ParallelMovesCorrect |

=== FILE: aarch64.dfy ===
/**
 The immediate-encoding and condition-code helpers of the AArch64 back end
 (`aarch64/mod.rs`). Words are naturals below `2^64`; the back end's own
 `bits_ones` is the same function as the utilities crate's, modelled once
 as `BitUtils.BitsOnes`.
 */
module Aarch64 {
  import opened Wrappers
  import opened Text
  import opened BitArith
  import opened BitUtils

  // ---------------------------------------------------------------------
  // Register aliases

  /** The first id of the floating-point registers; lower ids are general purpose. */
  const FprIdStart: nat := 100

  datatype AliasError = NotARegister(id: nat) | UnexpectedLength(id: nat, length: nat)

  /** The alias table a register id is looked up in. */
  function AliasTable<V>(id: nat, gprAliases: map<nat, seq<V>>, fprAliases: map<nat, seq<V>>): map<nat, seq<V>>
  {
    if id < FprIdStart then gprAliases else fprAliases
  }

  /** `get_alias_for_length`: the 64-bit alias is entry 0 of the register's
      alias list and the 32-bit alias entry 1. A general-purpose register
      gives its 32-bit alias for any length up to 32; a floating-point
      register only for exactly 32. */
  function GetAliasForLength<V>(id: nat, length: nat, gprAliases: map<nat, seq<V>>, fprAliases: map<nat, seq<V>>)
    : (r: Result<V, AliasError>)
    ensures var tbl := AliasTable(id, gprAliases, fprAliases);
      r.Ok? <==> (id in tbl && |tbl[id]| >= 2
                  && (length == 64 || (id < FprIdStart && length <= 32) || (id >= FprIdStart && length == 32)))
    ensures var tbl := AliasTable(id, gprAliases, fprAliases);
      r.Ok? ==> id in tbl && |tbl[id]| >= 2 && r.value == tbl[id][if length == 64 then 0 else 1]
    ensures r.Err? ==> (r.error.NotARegister? <==> var tbl := AliasTable(id, gprAliases, fprAliases);
      id !in tbl || |tbl[id]| < 2)
  {
    var tbl := AliasTable(id, gprAliases, fprAliases);
    if id !in tbl || |tbl[id]| < 2 then Err(NotARegister(id))
    else if length == 64 then Ok(tbl[id][0])
    else if id < FprIdStart && length <= 32 then Ok(tbl[id][1])
    else if id >= FprIdStart && length == 32 then Ok(tbl[id][1])
    else Err(UnexpectedLength(id, length))
  }

  // ---------------------------------------------------------------------
  // Truncation and sign extension

  /** `get_unsigned_value`: the low `size` bits. */
  function GetUnsignedValue(val: nat, size: nat): (r: nat)
    requires size <= 64
    ensures r == val % Pow2(size)
  {
    AndOnes(val, size);
    And(val, BitsOnes(size))
  }

  /** `get_bit`: whether bit `i` is set, tested against the mask `1 << i`
      (which is `2^i`, as `i < 64`). */
  function GetBit(x: nat, i: nat): (r: bool)
    requires IsU64(x) && i < 64
    ensures r == Bit(x, i)
  {
    MaskTest(x, i);
    And(x, Pow2(i)) != 0
  }

  /** A `w`-bit value has its top bit set exactly when it is at least `2^(w-1)`. */
  lemma TopBit(x: nat, w: nat)
    requires 1 <= w && x < Pow2(w)
    ensures Bit(x, w - 1) <==> x >= Pow2(w - 1)
  {
    BitAbove(x, w - 1, w - 1);
    Pow2Add(w - 1, 1);
    var d := Pow2(w - 1);
    if x >= d {
      DivFloor(x, d, 1, x - d);
    } else {
      DivFloor(x, d, 0, x);
    }
  }

  /** `r` is the two's complement reading of the low `size` bits of `val`:
      it agrees with `val` modulo `2^size` and lies in the signed range. */
  predicate SignedReading(r: int, val: nat, size: nat)
    requires size >= 1
  {
    (r - val) % Pow2(size) == 0 && -(Pow2(size - 1) as int) <= r < Pow2(size - 1)
  }

  /** `get_signed_value`: the low `size` bits read as a two's complement
      number, by filling the bits above with copies of bit `size - 1`. */
  function GetSignedValue(val: nat, size: nat): (r: int)
    requires IsU64(val) && 1 <= size <= 64
    ensures SignedReading(r, val, size)
  {
    if size == 64 then
      SignedFull(val);
      ToSigned64(val)
    else if GetBit(val, size - 1) then
      SignedNegative(val, size);
      ToSigned64(Or(val, Shl(BitsOnes(64 - size), size, 64)))
    else
      SignedPositive(val, size);
      ToSigned64(And(val, BitsOnes(size)))
  }

  lemma SignedFull(val: nat)
    requires IsU64(val)
    ensures SignedReading(ToSigned64(val), val, 64)
  {
    Pow2Values();
    if val < Pow2(63) {
      DivFloor(0, Pow2(64), 0, 0);
    } else {
      DivFloor(-(Pow2(64) as int), Pow2(64), -1, 0);
    }
  }

  /** The low `size` bits as a number below `2^size`, split by its top bit. */
  lemma LowPart(val: nat, size: nat)
    requires 1 <= size < 64
    ensures val % Pow2(size) < Pow2(size) <= Pow2(63)
    ensures Pow2(size) == 2 * Pow2(size - 1)
    ensures Bit(val, size - 1) <==> val % Pow2(size) >= Pow2(size - 1)
  {
    Pow2Mono(size, 63);
    Pow2Add(size - 1, 1);
    TopBit(val % Pow2(size), size);
    BitMod(val, size, size - 1);
  }

  /** Taking away `k` multiples of `p` from the remainder keeps the difference
      with the dividend a multiple of `p`. */
  lemma RemainderDiff(val: nat, p: nat, k: int, r: int)
    requires p > 0 && r == val % p - k * p
    ensures (r - val) % p == 0
  {
    assert val == val % p + p * (val / p);
    assert r - val == p * (-(val / p) - k);
    DivFloor(r - val, p, -(val / p) - k, 0);
  }


  lemma SignedPositive(val: nat, size: nat)
    requires IsU64(val) && 1 <= size < 64 && !Bit(val, size - 1)
    ensures And(val, BitsOnes(size)) == val % Pow2(size) < Pow2(63)
    ensures IsU64(And(val, BitsOnes(size)))
    ensures SignedReading(ToSigned64(And(val, BitsOnes(size))), val, size)
  {
    var p := Pow2(size);
    var low := val % p;
    assert BitsOnes(size) == Ones(size);
    AndOnes(val, size);
    LowPart(val, size);
    Pow2Mono(63, 64);
    assert ToSigned64(low) == low;
    RemainderDiff(val, p, 0, low);
    assert SignedReading(low, val, size);
  }

  lemma SignedNegative(val: nat, size: nat)
    requires IsU64(val) && 1 <= size < 64 && Bit(val, size - 1)
    ensures Or(val, Shl(BitsOnes(64 - size), size, 64)) < Pow2(64)
    ensures SignedReading(ToSigned64(Or(val, Shl(BitsOnes(64 - size), size, 64))), val, size)
  {
    SignFill(val, size);
    NegativeReading(val, size);
  }

  /** With bit `size - 1` set, the sign-filled word read as an `i64` is the
      low bits less `2^size`, which is the reading. */
  lemma NegativeReading(val: nat, size: nat)
    requires 1 <= size < 64 && Bit(val, size - 1)
    ensures Pow2(size) < Pow2(64)
    ensures Pow2(64) - Pow2(size) + val % Pow2(size) < Pow2(64)
    ensures SignedReading(ToSigned64(Pow2(64) - Pow2(size) + val % Pow2(size)), val, size)
  {
    var p := Pow2(size);
    var low := val % p;
    LowPart(val, size);
    Pow2Mono(size, 63);
    assert Pow2(64) == 2 * Pow2(63);
    assert ToSigned64(Pow2(64) - p + low) == low - p;
    RemainderDiff(val, p, 1, low - p);
  }

  /** The ones above bit `size` of a 64-bit word. */
  lemma HighOnes(size: nat)
    requires size < 64
    ensures Ones(64 - size) * Pow2(size) == Pow2(64) - Pow2(size)
  {
    OnesTimes(64 - size, Pow2(size));
    Pow2Add(64 - size, size);
  }

  /** Or-ing ones above bit `size` into a 64-bit word gives those ones plus
      the low `size` bits. */
  lemma SignFill(val: nat, size: nat)
    requires IsU64(val) && 1 <= size < 64
    ensures Or(val, Shl(BitsOnes(64 - size), size, 64)) == Pow2(64) - Pow2(size) + val % Pow2(size)
    ensures Pow2(64) - Pow2(size) + val % Pow2(size) < Pow2(64)
  {
    var hi := Shl(BitsOnes(64 - size), size, 64);
    Pow2Mono(size, 64);
    var v := Pow2(64) - Pow2(size) + val % Pow2(size);
    HighMask(size, hi);
    FilledBits(val, size, v);
    OrHighLow(val, hi, v, size);
  }

  /** Or-ing a mask of the bits from `size` up gives the value whose bits are
      those of the mask or of `val`. */
  lemma OrHighLow(val: nat, hi: nat, v: nat, size: nat)
    requires IsU64(val) && hi < Pow2(64) && v < Pow2(64)
    requires forall i: nat :: i < 64 ==> (Bit(hi, i) <==> i >= size)
    requires forall i: nat :: i < 64 ==> (Bit(v, i) <==> i >= size || Bit(val, i))
    ensures Or(val, hi) == v
  {
    forall i: nat | i < 64 ensures Bit(Or(val, hi), i) == Bit(v, i) {
      BitOr(val, hi, i);
    }
    OrBound(val, hi, 64);
    BitExt(Or(val, hi), v, 64);
  }

  /** The bits of the sign-filled value. */
  lemma FilledBits(val: nat, size: nat, v: nat)
    requires 1 <= size < 64 && v == Pow2(64) - Pow2(size) + val % Pow2(size)
    ensures v < Pow2(64)
    ensures forall i: nat :: i < 64 ==> (Bit(v, i) <==> i >= size || Bit(val, i))
  {
    HighOnes(size);
    forall i: nat | i < 64 ensures Bit(v, i) <==> i >= size || Bit(val, i) {
      OnesAbove(val % Pow2(size), size, 64 - size, i);
      BitMod(val, size, i);
    }
  }

  lemma HighMask(size: nat, hi: nat)
    requires size < 64 && hi == Shl(BitsOnes(64 - size), size, 64)
    ensures hi < Pow2(64)
    ensures forall i: nat :: i < 64 ==> (Bit(hi, i) <==> i >= size)
  {
    forall i: nat | i < 64 ensures Bit(hi, i) <==> i >= size {
      HighOnesBits(size, i);
    }
  }

  /** The mask of ones shifted above bit `size`. */
  lemma HighOnesBits(size: nat, i: nat)
    requires size < 64 && i < 64
    ensures Bit(Shl(BitsOnes(64 - size), size, 64), i) <==> i >= size
  {
    BitShl(BitsOnes(64 - size), size, 64, i);
    if i >= size {
      BitsOnesBits(64 - size, i - size);
    }
  }

  // ---------------------------------------------------------------------
  // Immediates

  /** `split_aarch64_imm_u64`: the four 16-bit pieces, least significant first. */
  function SplitImm(val: nat): (r: (nat, nat, nat, nat))
    requires IsU64(val)
    ensures r.0 < Pow2(16) && r.1 < Pow2(16) && r.2 < Pow2(16) && r.3 < Pow2(16)
  {
    (val % Pow2(16), Shr(val, 16) % Pow2(16), Shr(val, 32) % Pow2(16), Shr(val, 48) % Pow2(16))
  }

  /** Putting the pieces back together, least significant first, gives the word. */
  lemma SplitImmRecombine(val: nat)
    requires IsU64(val)
    ensures var (a, b, c, d) := SplitImm(val);
      a + Pow2(16) * (b + Pow2(16) * (c + Pow2(16) * d)) == val
  {
    var p := Pow2(16);
    DivTwice16(val, 16);
    DivTwice16(val, 32);
    Pow2Values();
    Pow2Add(16, 16);
    Pow2Add(32, 16);
    Pow2Add(48, 16);
    assert Shr(val, 48) < p by {
      QuotLess(val, Pow2(48), p);
    }
    Digits(val, p, Shr(val, 16), Shr(val, 32), Shr(val, 48));
  }

  /** Base-`p` digits of a number with four digits. */
  lemma Digits(x: nat, p: nat, q1: nat, q2: nat, q3: nat)
    requires p > 0 && q1 == x / p && q2 == q1 / p && q3 == q2 / p && q3 < p
    ensures x % p + p * (q1 % p + p * (q2 % p + p * (q3 % p))) == x
  {
    DivMod(x, p);
    DivMod(q1, p);
    DivMod(q2, p);
    DivMod(q3, p);
    assert q3 / p == 0;
    var a, b, c := x % p, q1 % p, q2 % p;
    assert q2 == c + p * q3;
    assert q1 == b + p * q2;
    assert x == a + p * q1;
  }

  lemma DivMod(x: nat, p: nat)
    requires p > 0
    ensures x == x % p + p * (x / p)
  {
  }

  /** Shifting by 16 more bits is dividing the shifted value by `2^16`. */
  lemma DivTwice16(x: nat, s: nat)
    ensures Shr(x, s + 16) == Shr(x, s) / Pow2(16)
  {
    Pow2Add(s, 16);
    DivDiv(x, Pow2(s), Pow2(16));
  }

  lemma DivDiv(x: nat, a: nat, b: nat)
    requires a > 0 && b > 0
    ensures x / (a * b) == (x / a) / b
  {
    var q := (x / a) / b;
    var r := (x / a) % b;
    assert x / a == b * q + r;
    assert x == a * (x / a) + x % a;
    assert x == (a * b) * q + (a * r + x % a);
    assert a * r + x % a < a * b by {
      assert a * r <= a * (b - 1);
    }
    DivFloor(x, a * b, q, a * r + x % a);
  }

  /** `is_valid_arithmetic_imm`: fits in 12 bits, or is a 12-bit value
      shifted left by 12. */
  function IsValidArithmeticImm(val: nat): (r: bool)
    requires IsU64(val)
    ensures r <==> val < 4096 || (val % 4096 == 0 && val < 4096 * 4096)
  {
    Pow2Values();
    AndOnes(val, 12);
    assert Shl(4096, 12, 64) == 4096 * 4096;
    val < 4096 || (And(val, 4095) == 0 && val < Shl(4096, 12, 64))
  }

  /** The encoding view: a 12-bit `A` shifted left by 0 or 12. */
  lemma ArithmeticImmEncodable(val: nat)
    requires IsU64(val)
    ensures IsValidArithmeticImm(val) <==>
      exists a: nat, s: nat :: a < 4096 && (s == 0 || s == 12) && val == Shl(a, s, 64)
  {
    Pow2Values();
    assert Pow2(0) == 1;
    forall a: nat, s: nat | a < 4096 && (s == 0 || s == 12)
      ensures Shl(a, s, 64) == a * Pow2(s) && a * Pow2(s) < 4096 * 4096
    {
      assert a * Pow2(s) <= 4095 * 4096;
      ModSmall(a * Pow2(s), 64);
    }
    if IsValidArithmeticImm(val) {
      if val < 4096 {
        assert val == Shl(val, 0, 64);
      } else {
        var a := val / 4096;
        assert val == a * 4096;
        assert a < 4096 by {
          QuotLess(val, 4096, 4096);
        }
        assert val == Shl(a, 12, 64);
      }
    } else {
      forall a: nat, s: nat | a < 4096 && (s == 0 || s == 12) ensures val != Shl(a, s, 64) {
        if s == 12 {
          DivFloor(a * 4096, 4096, a, 0);
        }
      }
    }
  }

  /** `round_up`: `n` rounded up to a multiple of `d`. */
  function RoundUp(n: nat, d: nat): (r: nat)
    requires d > 0
    ensures r % d == 0 && n <= r < n + d
  {
    var q := (n + d - 1) / d;
    assert n + d - 1 == d * q + (n + d - 1) % d;
    assert (q * d) % d == 0 by {
      DivFloor(q * d, d, q, 0);
    }
    q * d
  }

  // ---------------------------------------------------------------------
  // Logarithm

  /** The scan of `log2`: for `i` from `from` up to (excluding) `bound`,
      remember `i` whenever bit `i` is set. */
  function Log2Scan(val: nat, from: nat, bound: nat, ret: nat): (r: nat)
    requires IsU64(val) && bound <= 64
    ensures (forall j :: from <= j < bound ==> !Bit(val, j)) ==> r == ret
    ensures (exists j :: from <= j < bound && Bit(val, j)) ==>
      from <= r < bound && Bit(val, r) && forall j :: r < j < bound ==> !Bit(val, j)
    decreases bound - from
  {
    if from >= bound then ret
    else Log2Scan(val, from + 1, bound, if GetBit(val, from) then from else ret)
  }

  /** `log2` as written: the loop runs over bits 0 to 62 only. */
  function Log2AsWritten(val: nat): (r: nat)
    requires IsU64(val)
    ensures r < 63
  {
    Log2Scan(val, 0, 63, 0)
  }

  /** `log2` with the loop over all 64 bits. */
  function Log2(val: nat): (r: nat)
    requires IsU64(val)
    ensures r < 64
  {
    Log2Scan(val, 0, 64, 0)
  }

  /** The logarithm of every power of two that fits in a word. */
  lemma Log2OfPow2(k: nat)
    requires k < 64
    ensures IsU64(Pow2(k)) && Log2(Pow2(k)) == k
  {
    Pow2Mono(k, 63);
    Pow2Values();
    BitPow2(k, k);
    var r := Log2(Pow2(k));
    BitPow2(k, r);
  }

  /** As written, the powers below `2^63` come out right but `2^63` gives 0. */
  lemma Log2AsWrittenMisses63(k: nat)
    requires k < 63
    ensures IsU64(Pow2(k)) && Log2AsWritten(Pow2(k)) == k
    ensures IsU64(Pow2(63)) && Log2AsWritten(Pow2(63)) == 0 && Log2(Pow2(63)) == 63
  {
    Log2OfPow2(k);
    Log2OfPow2(63);
    BitPow2(k, k);
    var r := Log2AsWritten(Pow2(k));
    BitPow2(k, r);
    forall j | 0 <= j < 63 ensures !Bit(Pow2(63), j) {
      BitPow2(63, j);
    }
  }

  // ---------------------------------------------------------------------
  // Condition codes

  /** The four-bit encodings of the condition codes in section C1.2.4 of the
      Arm Architecture Reference Manual for Armv8-A (`HS` and `LO` are the
      other names of `CS` and `CC`). */
  function Encoding(cond: String): (r: Option<nat>)
    ensures r.Some? ==> r.value < 16
  {
    match cond
    case "EQ" => Some(0)
    case "NE" => Some(1)
    case "CS" => Some(2)
    case "HS" => Some(2)
    case "CC" => Some(3)
    case "LO" => Some(3)
    case "MI" => Some(4)
    case "PL" => Some(5)
    case "VS" => Some(6)
    case "VC" => Some(7)
    case "HI" => Some(8)
    case "LS" => Some(9)
    case "GE" => Some(10)
    case "LT" => Some(11)
    case "GT" => Some(12)
    case "LE" => Some(13)
    case "AL" => Some(14)
    case "NV" => Some(15)
    case _ => None
  }

  datatype ConditionError = NoInverse(cond: String) | UnrecognisedCondition(cond: String)

  /** `invert_condition_code` as written: `CS` becomes `CV` and `VS`
      becomes `VN`, neither of which is a condition code, and `VC` is not
      recognised. */
  function InvertConditionAsWritten(cond: String): (r: Result<String, ConditionError>)
    ensures cond == "AL" || cond == "NV" ==> r == Err(NoInverse(cond))
  {
    match cond
    case "EQ" => Ok("NE")
    case "NE" => Ok("EQ")
    case "CC" => Ok("CS")
    case "CS" => Ok("CV")
    case "HS" => Ok("LO")
    case "LO" => Ok("HS")
    case "MI" => Ok("PL")
    case "PL" => Ok("MI")
    case "VS" => Ok("VN")
    case "VN" => Ok("VS")
    case "HI" => Ok("LS")
    case "LS" => Ok("HI")
    case "GE" => Ok("LT")
    case "LT" => Ok("GE")
    case "GT" => Ok("LE")
    case "LE" => Ok("GT")
    case "AL" => Err(NoInverse(cond))
    case "NV" => Err(NoInverse(cond))
    case _ => Err(UnrecognisedCondition(cond))
  }

  /** The table with `CS` inverted to `CC` and the pair `VS`/`VC`. */
  function InvertCondition(cond: String): (r: Result<String, ConditionError>)
    ensures cond == "AL" || cond == "NV" ==> r == Err(NoInverse(cond))
    ensures r.Ok? ==> Encoding(cond).Some? && Encoding(r.value).Some?
  {
    match cond
    case "EQ" => Ok("NE")
    case "NE" => Ok("EQ")
    case "CC" => Ok("CS")
    case "CS" => Ok("CC")
    case "HS" => Ok("LO")
    case "LO" => Ok("HS")
    case "MI" => Ok("PL")
    case "PL" => Ok("MI")
    case "VS" => Ok("VC")
    case "VC" => Ok("VS")
    case "HI" => Ok("LS")
    case "LS" => Ok("HI")
    case "GE" => Ok("LT")
    case "LT" => Ok("GE")
    case "GT" => Ok("LE")
    case "LE" => Ok("GT")
    case "AL" => Err(NoInverse(cond))
    case "NV" => Err(NoInverse(cond))
    case _ => Err(UnrecognisedCondition(cond))
  }

  /** The corrected inversion agrees with the architecture: it is defined for
      every condition code except `AL` and `NV`, and flips the low bit of
      the encoding. */
  lemma InvertConditionMatchesEncoding(cond: String)
    ensures InvertCondition(cond).Ok? <==> Encoding(cond).Some? && Encoding(cond).value < 14
    ensures InvertCondition(cond).Ok? ==>
      var e := Encoding(cond).value;
      Encoding(InvertCondition(cond).value) == Some(if e % 2 == 0 then e + 1 else e - 1)
  {
  }

  /** Inverting twice gives the condition back. */
  lemma InvertConditionInvolution(cond: String)
    requires InvertCondition(cond).Ok?
    ensures InvertCondition(InvertCondition(cond).value) == Ok(cond)
  {
  }

  /** As written, `CS` is inverted to a name that is not a condition code,
      which cannot be inverted back, and `VC` has no inverse at all. */
  lemma InvertConditionAsWrittenBroken()
    ensures InvertConditionAsWritten("CS") == Ok("CV") && Encoding("CV").None?
    ensures InvertConditionAsWritten("CV").Err?
    ensures InvertConditionAsWritten("VS") == Ok("VN") && Encoding("VN").None?
    ensures Encoding("VC").Some? && InvertConditionAsWritten("VC") == Err(UnrecognisedCondition("VC"))
  {
  }
}

=== FILE: aarch64_logical.dfy ===
/**
 The logical (bitmask) immediates of the AArch64 back end
 (`aarch64/mod.rs`): `replicate_logical_imm`, which copies an `n`-bit
 pattern upwards, and `is_valid_logical_imm`, which decides whether an
 `n`-bit value is a rotated, replicated run of ones.
 */
module Aarch64Logical {
  import opened BitArith
  import opened BitUtils
  import opened Aarch64

  /** The element sizes of a bitmask immediate: the powers of two up to 64. */
  predicate ValidWidth(n: nat)
  {
    n == 1 || n == 2 || n == 4 || n == 8 || n == 16 || n == 32 || n == 64
  }

  // ---------------------------------------------------------------------
  // Replication

  /** `1 + (1 + 2 + ... + (m - 1))`. */
  function Tri(m: nat): (c: nat)
    ensures c >= 1
  {
    if m == 0 then 1 else Tri(m - 1) + (m - 1)
  }

  /** The number of copies of the pattern `replicate_logical_imm` produces
      before truncation: the loop adds `1, 2, ..., 32/n - 1` copies to the
      one it starts with. */
  function Copies(n: nat): (c: nat)
    requires 0 < n
    ensures c >= 1
  {
    Tri(32 / n)
  }

  /** Bit `j` of the infinite repetition of the `n`-bit `val`. */
  function PatternBit(val: nat, n: nat, j: nat): bool
    requires 0 < n
  {
    Bit(val, j % n)
  }

  /** Bit `j` of a value that holds `copies` copies of the `n`-bit `val`. */
  predicate Replicated(v: nat, val: nat, n: nat, copies: nat)
    requires 0 < n
  {
    forall j: nat {:trigger Bit(v, j)} :: j < 64 ==> (Bit(v, j) <==> j < copies * n && PatternBit(val, n, j))
  }

  /** `replicate_logical_imm`: for `n < 32` the loop `val |= val << i*n`,
      `i` from 1 below `32/n`; otherwise the value itself. */
  method ReplicateLogicalImm(val: nat, n: nat) returns (r: nat)
    requires 0 < n && val < Pow2(n) && IsU64(val)
    ensures IsU64(r)
    ensures n >= 32 ==> r == val
    ensures n < 32 ==> Replicated(r, val, n, Copies(n))
    ensures r % Pow2(n) == val
  {
    if n >= 32 {
      ModSmall(val, n);
      return val;
    }
    ReplicateStart(val, n);
    var v := val;
    var copies := 1;
    var i := 1;
    var m := 32 / n;
    QuotPositive(32, n);
    while i < m
      invariant 1 <= i <= m
      invariant copies == Tri(i) && i <= copies
      invariant IsU64(v) && Replicated(v, val, n, copies)
      decreases m - i
    {
      assert i * n < 32 by {
        QuotMul(32, n, i);
      }
      ReplicateStep(v, val, n, copies, i);
      v := Or(v, Shl(v, i * n, 64));
      copies := copies + i;
      i := i + 1;
    }
    ReplicateLow(v, val, n, copies);
    return v;
  }

  lemma QuotPositive(x: nat, n: nat)
    requires 0 < n <= x
    ensures x / n >= 1
  {
  }

  lemma QuotMul(x: nat, n: nat, i: nat)
    requires n > 0 && i < x / n
    ensures i * n < x
  {
    var q := x / n;
    assert x == n * q + x % n;
    MulMonoLe(i, q - 1, n);
    assert (q - 1) * n == q * n - n;
  }

  lemma ReplicateStart(val: nat, n: nat)
    requires 0 < n && val < Pow2(n)
    ensures Replicated(val, val, n, 1)
  {
    forall j: nat | j < 64 ensures Bit(val, j) <==> j < n && PatternBit(val, n, j) {
      if j < n {
        DivFloor(j, n, 0, j);
      } else {
        BitHigh(val, n, j);
      }
    }
  }

  /** One step of the loop: or-ing in the value shifted by `i` copies adds
      `i` copies, as long as that does not leave a gap. */
  lemma ReplicateStep(v: nat, val: nat, n: nat, copies: nat, i: nat)
    requires 0 < n && IsU64(v) && Replicated(v, val, n, copies)
    requires 1 <= i <= copies
    ensures IsU64(Or(v, Shl(v, i * n, 64)))
    ensures Replicated(Or(v, Shl(v, i * n, 64)), val, n, copies + i)
  {
    var s := Shl(v, i * n, 64);
    OrBound(v, s, 64);
    forall j: nat | j < 64 ensures Bit(Or(v, s), j) <==> j < (copies + i) * n && PatternBit(val, n, j) {
      ReplicateStepBit(v, val, n, copies, i, j);
    }
  }

  lemma ReplicateStepBit(v: nat, val: nat, n: nat, copies: nat, i: nat, j: nat)
    requires 0 < n && Replicated(v, val, n, copies)
    requires 1 <= i <= copies && j < 64
    ensures Bit(Or(v, Shl(v, i * n, 64)), j) <==> j < (copies + i) * n && PatternBit(val, n, j)
  {
    var s := Shl(v, i * n, 64);
    BitOr(v, s, j);
    BitShl(v, i * n, 64, j);
    ShiftedRange(j, n, copies, i);
    if j >= i * n {
      ModMinusMultiple(j, n, i);
      assert Bit(v, j - i * n) <==> j - i * n < copies * n && PatternBit(val, n, j - i * n);
    }
  }

  /** The arithmetic of one step: the shifted copies start inside the old ones. */
  lemma ShiftedRange(j: nat, n: nat, copies: nat, i: nat)
    requires i <= copies
    ensures i * n <= copies * n
    ensures j < (copies + i) * n <==> j < copies * n || (j >= i * n && j - i * n < copies * n)
  {
    assert (copies + i) * n == copies * n + i * n;
  }

  lemma ModMinusMultiple(j: nat, n: nat, i: nat)
    requires 0 < n && j >= i * n
    ensures (j - i * n) % n == j % n
  {
    assert j == n * (j / n) + j % n;
    DivFloor(j - i * n, n, j / n - i, j % n);
  }

  lemma ReplicateLow(v: nat, val: nat, n: nat, copies: nat)
    requires 0 < n < 32 && copies >= 1 && val < Pow2(n) && IsU64(v)
    requires Replicated(v, val, n, copies)
    ensures v % Pow2(n) == val
  {
    Pow2Mono(n, 64);
    MulAtLeast(n, copies);
    forall j: nat | j < 64 ensures Bit(v % Pow2(n), j) == Bit(val, j) {
      ReplicateLowBit(v, val, n, copies, j);
    }
    BitExt(v % Pow2(n), val, 64);
  }

  lemma ReplicateLowBit(v: nat, val: nat, n: nat, copies: nat, j: nat)
    requires 0 < n <= copies * n && val < Pow2(n) && j < 64
    requires Replicated(v, val, n, copies)
    ensures Bit(v % Pow2(n), j) == Bit(val, j)
  {
    BitMod(v, n, j);
    if j < n {
      DivFloor(j, n, 0, j);
      assert Bit(v, j) <==> j < copies * n && PatternBit(val, n, j);
    } else {
      BitHigh(val, n, j);
    }
  }

  // ---------------------------------------------------------------------
  // Rotation and folding

  /** `val.rotate_right(r)` on a 64-bit word. */
  function RotateRight64(val: nat, r: nat): (w: nat)
    requires IsU64(val)
    ensures IsU64(w)
  {
    var s := r % 64;
    if s == 0 then val
    else
      var lo := Shr(val, s);
      QuotAtMost(val, Pow2(s));
      OrBound(lo, Shl(val, 64 - s, 64), 64);
      Or(lo, Shl(val, 64 - s, 64))
  }

  /** Bit `j` of the rotated word is bit `j + r` of the word, modulo 64. */
  lemma RotateRight64Bit(val: nat, r: nat, j: nat)
    requires IsU64(val) && r < 64 && j < 64
    ensures Bit(RotateRight64(val, r), j) == Bit(val, (j + r) % 64)
  {
    DivFloor(r, 64, 0, r);
    if r == 0 {
      DivFloor(j, 64, 0, j);
    } else {
      var lo := Shr(val, r);
      var hi := Shl(val, 64 - r, 64);
      assert RotateRight64(val, r) == Or(lo, hi);
      BitOr(lo, hi, j);
      BitShr(val, r, j);
      BitShl(val, 64 - r, 64, j);
      if j + r < 64 {
        DivFloor(j + r, 64, 0, j + r);
        assert Bit(Or(lo, hi), j) == Bit(val, j + r);
      } else {
        DivFloor(j + r, 64, 1, j + r - 64);
        BitHigh(val, 64, j + r);
        assert Bit(Or(lo, hi), j) == Bit(val, j + r - 64);
      }
    }
  }

  /** For `n < 64`: the low `n` bits or-ed with the top `n` bits moved down. */
  function Fold(v: nat, n: nat): (w: nat)
    requires IsU64(v) && 0 < n < 64
  {
    Or(And(v, BitsOnes(n)), Shr(And(v, Shl(BitsOnes(n), 64 - n, 64)), 64 - n))
  }

  lemma FoldBit(v: nat, n: nat, j: nat)
    requires IsU64(v) && 0 < n < 64
    ensures Bit(Fold(v, n), j) == (j < n && (Bit(v, j) || Bit(v, j + 64 - n)))
  {
    var hiMask := Shl(BitsOnes(n), 64 - n, 64);
    var c := And(v, hiMask);
    BitOr(And(v, BitsOnes(n)), Shr(c, 64 - n), j);
    BitAnd(v, BitsOnes(n), j);
    BitsOnesBits(n, j);
    BitShr(c, 64 - n, j);
    BitAnd(v, hiMask, j + 64 - n);
    BitShl(BitsOnes(n), 64 - n, 64, j + 64 - n);
  }

  /** Rotating an `n`-bit value within 64 bits and folding it back gives
      its rotation within `n` bits. */
  lemma RotateFoldBit(val: nat, n: nat, r: nat, j: nat)
    requires 0 < n <= 32 && val < Pow2(n) && IsU64(val) && r < n && j < n
    ensures Bit(Fold(RotateRight64(val, r), n), j) == Bit(val, (j + r) % n)
  {
    var m := WrapIndex(j + r, n);
    RotateFoldAt(val, n, r, j, m);
  }

  /** An index below `2n`, reduced modulo `n`. */
  lemma WrapIndex(a: nat, n: nat) returns (m: nat)
    requires 0 < n && a < 2 * n
    ensures m < n && m == a % n && (a == m || a == m + n)
  {
    if a < n {
      m := a;
      DivFloor(a, n, 0, m);
    } else {
      m := a - n;
      DivFloor(a, n, 1, m);
    }
  }

  /** `RotateFoldBit` with the index `m = (j + r) % n` given. */
  lemma RotateFoldAt(val: nat, n: nat, r: nat, j: nat, m: nat)
    requires 0 < n <= 32 && val < Pow2(n) && IsU64(val) && r < n && j < n
    requires m < n && (j + r == m || j + r == m + n)
    ensures Bit(Fold(RotateRight64(val, r), n), j) == Bit(val, m)
  {
    var rot := RotateRight64(val, r);
    FoldBit(rot, n, j);
    if j + r == m {
      RotateBitAt(val, r, j, m);
      FoldNoWrap(val, n, r, j, rot);
    } else {
      FoldWrap(val, n, r, j, m, rot);
    }
  }

  /** Without wrap-around the high half of the fold contributes nothing. */
  lemma FoldNoWrap(val: nat, n: nat, r: nat, j: nat, rot: nat)
    requires 0 < n <= 32 && val < Pow2(n) && IsU64(val) && r < n && j + r < n
    requires rot == RotateRight64(val, r)
    ensures !Bit(rot, j + 64 - n)
  {
    var i := j + 64 - n;
    RotateBitAt(val, r, i, i + r);
    BitHigh(val, n, i + r);
  }

  /** With wrap-around the bit comes from the high half of the fold. */
  lemma FoldWrap(val: nat, n: nat, r: nat, j: nat, m: nat, rot: nat)
    requires 0 < n <= 32 && val < Pow2(n) && IsU64(val) && r < n && j < n
    requires m < n && j + r == m + n
    requires rot == RotateRight64(val, r)
    ensures !Bit(rot, j) && Bit(rot, j + 64 - n) == Bit(val, m)
  {
    RotateBitAt(val, r, j, j + r);
    BitHigh(val, n, j + r);
    RotateBitAt(val, r, j + 64 - n, m);
  }

  /** `RotateRight64Bit` with the wrapped index `m` given. */
  lemma RotateBitAt(val: nat, r: nat, j: nat, m: nat)
    requires IsU64(val) && r < 64 && j < 64 && m < 64 && (j + r == m || j + r == m + 64)
    ensures Bit(RotateRight64(val, r), j) == Bit(val, m)
  {
    RotateRight64Bit(val, r, j);
    if j + r == m {
      DivFloor(j + r, 64, 0, m);
    } else {
      DivFloor(j + r, 64, 1, m);
    }
  }

  /** The word `is_valid_logical_imm` inspects: `val` rotated right by `r`
      within `n` bits. */
  function Rotated(val: nat, n: nat, r: nat): (w: nat)
    requires ValidWidth(n) && IsU64(val)
    ensures IsU64(w)
  {
    var rot := RotateRight64(val, r);
    if n < 64 then
      AndBound(rot, BitsOnes(n));
      AndBound(rot, Shl(BitsOnes(n), 64 - n, 64));
      QuotAtMost(And(rot, Shl(BitsOnes(n), 64 - n, 64)), Pow2(64 - n));
      OrBound(And(rot, BitsOnes(n)), Shr(And(rot, Shl(BitsOnes(n), 64 - n, 64)), 64 - n), 64);
      Fold(rot, n)
    else rot
  }

  lemma RotatedBit(val: nat, n: nat, r: nat, j: nat)
    requires ValidWidth(n) && IsU64(val) && (n == 64 || val < Pow2(n)) && r < n && j < n
    ensures Bit(Rotated(val, n, r), j) == Bit(val, (j + r) % n)
  {
    if n < 64 {
      RotateFoldBit(val, n, r, j);
    } else {
      RotateRight64Bit(val, r, j);
    }
  }

  // ---------------------------------------------------------------------
  // The bitmask-immediate rule

  /** Bit `j` of `val` rotated right by `rot` within `n` bits. */
  function RotBit(val: nat, n: nat, rot: nat, j: nat): bool
    requires 0 < n
  {
    Bit(val, (j + rot) % n)
  }

  /** `val` rotated right by `rot` is `n/k` copies of `k - x` zeros
      followed by `x` ones, with `k` dividing `n` and `0 < x < k`. */
  predicate BitmaskAt(val: nat, n: nat, rot: nat, k: nat, x: nat)
  {
    0 < n && rot < n && 2 <= k <= n && n % k == 0 && 0 < x < k
    && forall j :: 0 <= j < n ==> (RotBit(val, n, rot, j) <==> j % k < x)
  }

  /** The logical-immediate rule of the A64 instruction set: some rotation
      of the value is a replicated run of ones. */
  predicate IsBitmaskImm(val: nat, n: nat)
  {
    exists rot: nat, k: nat, x: nat | rot < n && k <= n && x < k :: BitmaskAt(val, n, rot, k, x)
  }

  /** Chunk `i` of width `k`, shifted down to bit 0. */
  function Chunk(w: nat, k: nat, i: nat): nat
  {
    Shr(w, k * i)
  }

  /** Bit `t` of chunk `i` (bit `k*i + t` of `w`). */
  function ChunkBit(w: nat, k: nat, i: nat, t: nat): bool
  {
    Bit(Chunk(w, k, i), t)
  }

  /** Chunk `i` equals chunk 0. */
  predicate ChunkMatches(w: nat, k: nat, i: nat)
  {
    forall t {:trigger ChunkBit(w, k, i, t)} :: 0 <= t < k ==> ChunkBit(w, k, i, t) == Bit(w, t)
  }

  /** The bit just below `j`, wrapping around within an element of `n` bits. */
  function Below(j: nat, n: nat): (p: nat)
    requires 0 < n
    ensures p < n
  {
    (j + n - 1) % n
  }

  /** Bit `j` is set and the bit below it (cyclically, within `n` bits) is
      clear: a run of ones starts at `j`. */
  predicate RunStart(val: nat, n: nat, j: nat)
    requires 0 < n
  {
    Bit(val, j) && !Bit(val, Below(j, n))
  }

  /** `is_valid_logical_imm`: rotate `val` so that a run of ones starts at
      bit 0, measure the run (`x`) and the distance to the next one (`k`),
      and check that `k` divides `n` and every `k`-bit chunk repeats the
      first. */
  method IsValidLogicalImm(val: nat, n: nat) returns (ok: bool)
    requires IsU64(val) && ValidWidth(n) && (n == 64 || val < Pow2(n))
    ensures val == 0 || val == BitsOnes(n) ==> !ok
    ensures ok ==> IsBitmaskImm(val, n)
  {
    if val == 0 || val == BitsOnes(n) {
      return false;
    }
    var r := FindRunStart(val, n);
    var w := Rotated(val, n, r);
    forall j | 0 <= j < n ensures Bit(w, j) == RotBit(val, n, r, j) {
      RotatedBit(val, n, r, j);
    }
    assert Bit(w, 0) by {
      DivFloor(r, n, 0, r);
    }
    ZeroExists(val, n, r, w);
    var x := CountOnes(w, n);
    var k := NextOne(w, n, x);
    if n % k != 0 {
      return false;
    }
    ok := ChunksRepeat(w, n, k);
    if ok {
      PatternFromChunks(val, n, r, w, k, x);
    }
  }

  /** The first loop: the lowest bit where a run of ones starts. */
  method FindRunStart(val: nat, n: nat) returns (r: nat)
    requires 0 < n <= 64 && val < Pow2(n) && IsU64(val)
    requires val != 0 && val != BitsOnes(n)
    ensures r < n && RunStart(val, n, r)
    ensures forall j :: 0 <= j < r ==> !RunStart(val, n, j)
  {
    RunStartExists(val, n);
    r := 0;
    while r < n && !(GetBit(val, r) && !GetBit(val, Below(r, n)))
      invariant r <= n
      invariant forall j :: 0 <= j < r ==> !RunStart(val, n, j)
    {
      r := r + 1;
    }
  }

  /** The second loop: the length of the run of ones at bit 0. */
  method CountOnes(w: nat, n: nat) returns (x: nat)
    requires IsU64(w) && 0 < n <= 64 && Bit(w, 0)
    requires exists t :: 0 <= t < n && !Bit(w, t)
    ensures 0 < x < n && !Bit(w, x)
    ensures forall t :: 0 <= t < x ==> Bit(w, t)
  {
    x := 0;
    while x < n && GetBit(w, x)
      invariant x <= n
      invariant forall t :: 0 <= t < x ==> Bit(w, t)
    {
      x := x + 1;
    }
  }

  /** The third loop: the position of the next one above the run, or `n`. */
  method NextOne(w: nat, n: nat, x: nat) returns (k: nat)
    requires IsU64(w) && x < n <= 64
    ensures x < k <= n
    ensures k < n ==> Bit(w, k)
    ensures forall t :: x < t < k ==> !Bit(w, t)
  {
    k := x + 1;
    while k < n && !GetBit(w, k)
      invariant x + 1 <= k <= n
      invariant forall t :: x < t < k ==> !Bit(w, t)
    {
      k := k + 1;
    }
  }

  /** The last loop: every `k`-bit chunk of the `n` bits equals the first. */
  method ChunksRepeat(w: nat, n: nat, k: nat) returns (ok: bool)
    requires IsU64(w) && 0 < k <= n <= 64 && n % k == 0
    ensures ok <==> forall i :: 1 <= i < n / k ==> ChunkMatches(w, k, i)
  {
    var kMask := BitsOnes(k);
    var val0 := And(w, kMask);
    QuotPositive(n, k);
    var i := 1;
    while i < n / k
      invariant 1 <= i <= n / k
      invariant forall i' :: 1 <= i' < i ==> ChunkMatches(w, k, i')
    {
      if val0 != And(Chunk(w, k, i), kMask) {
        ChunkDiffers(w, k, i);
        return false;
      }
      ChunkEqual(w, k, i);
      i := i + 1;
    }
    return true;
  }

  /** A nonzero value that is not all ones has a one with a zero below it
      (cyclically), which is where `is_valid_logical_imm` rotates to. */
  lemma RunStartExists(val: nat, n: nat)
    requires 0 < n <= 64 && val < Pow2(n)
    requires val != 0 && val != BitsOnes(n)
    ensures exists j :: 0 <= j < n && RunStart(val, n, j)
  {
    if forall j :: 0 <= j < n ==> !RunStart(val, n, j) {
      var b := SomeBitSet(val, n);
      DownClosed(val, n, b, b);
      assert !RunStart(val, n, 0);
      DivFloor(n - 1, n, 0, n - 1);
      forall j | 0 <= j < n ensures Bit(val, j) {
        DownClosed(val, n, n - 1, n - 1 - j);
      }
      AllBitsSet(val, n);
    }
  }

  /** The position of some set bit of a nonzero `n`-bit value. */
  lemma SomeBitSet(val: nat, n: nat) returns (b: nat)
    requires 0 < n <= 64 && val < Pow2(n) && val != 0
    ensures b < n && Bit(val, b)
  {
    if forall j: nat :: j < n ==> !Bit(val, j) {
      forall j: nat | j < n ensures Bit(val, j) == Bit(0, j) {
        BitZero(j);
      }
      BitExt(val, 0, n);
    }
    b :| b < n && Bit(val, b);
  }

  /** If every set bit has its lower (cyclic) neighbour set, the set bits
      run down from any set bit. */
  lemma {:induction false} DownClosed(val: nat, n: nat, b: nat, d: nat)
    requires 0 < n && b < n && d <= b && Bit(val, b)
    requires forall j :: 0 <= j < n ==> !RunStart(val, n, j)
    ensures Bit(val, b - d)
  {
    if d > 0 {
      DownClosed(val, n, b, d - 1);
      var j := b - (d - 1);
      assert !RunStart(val, n, j);
      DivFloor(j + n - 1, n, 1, j - 1);
    }
  }

  /** An `n`-bit value with all `n` bits set is `bits_ones(n)`. */
  lemma AllBitsSet(val: nat, n: nat)
    requires 0 < n <= 64 && val < Pow2(n)
    requires forall j :: 0 <= j < n ==> Bit(val, j)
    ensures val == BitsOnes(n)
  {
    forall j: nat | j < n ensures Bit(val, j) == Bit(BitsOnes(n), j) {
      BitsOnesBits(n, j);
    }
    BitExt(val, BitsOnes(n), n);
  }

  /** The rotated word has a zero below bit `n`, since `val` is not all ones. */
  lemma ZeroExists(val: nat, n: nat, r: nat, w: nat)
    requires ValidWidth(n) && IsU64(val) && (n == 64 || val < Pow2(n)) && r < n
    requires val != BitsOnes(n)
    requires forall j :: 0 <= j < n ==> Bit(w, j) == RotBit(val, n, r, j)
    ensures exists t :: 0 <= t < n && !Bit(w, t)
  {
    Pow2Values();
    if forall t :: 0 <= t < n ==> Bit(w, t) {
      forall j | 0 <= j < n ensures Bit(val, j) {
        var t := (j + n - r) % n;
        RotateBack(j, n, r);
        assert Bit(w, t);
      }
      AllBitsSet(val, n);
    }
  }

  /** Rotating right by `r` undoes rotating left by `r`. */
  lemma RotateBack(j: nat, n: nat, r: nat)
    requires j < n && r < n
    ensures ((j + n - r) % n + r) % n == j
  {
    if j >= r {
      DivFloor(j + n - r, n, 1, j - r);
      DivFloor(j, n, 0, j);
    } else {
      DivFloor(j + n - r, n, 0, j + n - r);
      DivFloor(j + n, n, 1, j);
    }
  }

  /** The chunk comparison of the last loop, bit by bit. */
  lemma ChunkEqual(w: nat, k: nat, i: nat)
    requires k <= 64 && And(w, BitsOnes(k)) == And(Chunk(w, k, i), BitsOnes(k))
    ensures ChunkMatches(w, k, i)
  {
    forall t | 0 <= t < k ensures ChunkBit(w, k, i, t) == Bit(w, t) {
      ChunkMaskBit(w, k, i, t);
    }
  }

  lemma ChunkDiffers(w: nat, k: nat, i: nat)
    requires k <= 64 && And(w, BitsOnes(k)) != And(Chunk(w, k, i), BitsOnes(k))
    ensures !ChunkMatches(w, k, i)
  {
    var a := And(w, BitsOnes(k));
    var b := And(Chunk(w, k, i), BitsOnes(k));
    AndBound(w, BitsOnes(k));
    AndBound(Chunk(w, k, i), BitsOnes(k));
    if ChunkMatches(w, k, i) {
      forall t: nat | t < k ensures Bit(a, t) == Bit(b, t) {
        ChunkMaskBit(w, k, i, t);
        assert ChunkBit(w, k, i, t) == Bit(w, t);
      }
      BitExt(a, b, k);
    }
  }

  lemma ChunkMaskBit(w: nat, k: nat, i: nat, t: nat)
    requires k <= 64 && t < k
    ensures Bit(And(w, BitsOnes(k)), t) == Bit(w, t)
    ensures Bit(And(Chunk(w, k, i), BitsOnes(k)), t) == ChunkBit(w, k, i, t)
  {
    LowMaskBit(w, k, t);
    var s := Chunk(w, k, i);
    LowMaskBit(s, k, t);
    assert ChunkBit(w, k, i, t) == Bit(s, t);
  }

  /** Masking with `bits_ones(k)` keeps the bits below `k`. */
  lemma LowMaskBit(w: nat, k: nat, t: nat)
    requires k <= 64 && t < k
    ensures Bit(And(w, BitsOnes(k)), t) == Bit(w, t)
  {
    BitAnd(w, BitsOnes(k), t);
    BitsOnesBits(k, t);
  }

  /** What the three scans and the chunk loop establish is the rule. */
  lemma PatternFromChunks(val: nat, n: nat, r: nat, w: nat, k: nat, x: nat)
    requires 0 < n && r < n && 0 < x < k <= n && n % k == 0
    requires forall j :: 0 <= j < n ==> Bit(w, j) == RotBit(val, n, r, j)
    requires forall t :: 0 <= t < x ==> Bit(w, t)
    requires !Bit(w, x)
    requires forall t :: x < t < k ==> !Bit(w, t)
    requires forall i :: 1 <= i < n / k ==> ChunkMatches(w, k, i)
    ensures BitmaskAt(val, n, r, k, x)
  {
    forall j | 0 <= j < n ensures RotBit(val, n, r, j) <==> j % k < x {
      var i := j / k;
      var t := j % k;
      ChunkIndex(j, n, k);
      if i >= 1 {
        assert ChunkMatches(w, k, i);
        assert ChunkBit(w, k, i, t) == Bit(w, t);
      }
      assert Bit(w, t) <==> t < x by {
        if t < x {
          assert Bit(w, t);
        } else if t > x {
          assert !Bit(w, t);
        }
      }
      PatternBitAt(w, k, i, t, j);
      assert Bit(w, j) == RotBit(val, n, r, j);
    }
    assert 2 <= k;
  }

  /** A bit in a chunk that matches chunk 0 equals the bit of chunk 0. */
  lemma PatternBitAt(w: nat, k: nat, i: int, t: nat, j: nat)
    requires 0 <= i && j == k * i + t
    requires i == 0 ==> j == t
    requires i >= 1 ==> ChunkBit(w, k, i, t) == Bit(w, t)
    ensures Bit(w, j) == Bit(w, t)
  {
    if i >= 1 {
      BitShr(w, k * i, t);
      assert ChunkBit(w, k, i, t) == Bit(w, j);
    }
  }

  /** Bit `j` is bit `j % k` of chunk `j / k`, and that chunk is one of the
      `n / k` chunks. */
  lemma ChunkIndex(j: nat, n: nat, k: nat)
    requires 0 < k && n % k == 0 && j < n
    ensures j == k * (j / k) + j % k && j % k < k && j / k < n / k
    ensures 0 <= j / k && (j / k == 0 ==> j % k == j)
  {
    assert n == k * (n / k) + n % k;
    assert j == k * (j / k) + j % k;
  }

  /** The rule excludes zero and the all-ones value, as
      `is_valid_logical_imm` does up front. */
  lemma ExcludedValues(n: nat)
    requires 0 < n <= 64
    ensures !IsBitmaskImm(0, n)
    ensures !IsBitmaskImm(BitsOnes(n), n)
  {
    forall rot: nat, k: nat, x: nat | rot < n && k <= n && x < k
      ensures !BitmaskAt(0, n, rot, k, x) && !BitmaskAt(BitsOnes(n), n, rot, k, x)
    {
      if 0 < x {
        DivFloor(0, k, 0, 0);
        BitZero(rot % n);
        DivFloor(x, k, 0, x);
        if x < n {
          BitsOnesBits(n, (x + rot) % n);
          assert RotBit(BitsOnes(n), n, rot, x);
        }
      }
      assert RotBit(0, n, rot, 0) == Bit(0, rot % n);
    }
  }
}

=== FILE: asm_backend.dfy ===
/**
 The textual x86-64 code the backend produces for one function: a list of
 assembly lines, the lines that start blocks, and the block labels branches
 refer to. Once the code is finished, a control-flow analysis gives every
 line its predecessor and successor lines.

 A line's register uses and definitions and the patch locations inside its
 text play no part in the operations modelled here and are not carried.
 Every line is created with empty predecessor and successor lists, which only
 the analysis fills, so the analysis returns them as a separate graph.
 A panic of the source (an unknown branch label, a removed line past the end,
 live-in set twice) is an `Err`.
 */
module AsmBackend {
  import opened Wrappers
  import opened Text

  datatype BranchTarget = NoBranch | Conditional(target: String) | Unconditional(target: String)

  datatype AsmInst = AsmInst(code: String, branch: BranchTarget)

  /** `labels` maps a block name to the index of its label line;
      `blockStarts` holds the index of every label line. */
  datatype AsmCode = AsmCode(
    name: String,
    insts: seq<AsmInst>,
    labels: map<String, nat>,
    blockStarts: set<nat>,
    liveIn: map<String, seq<nat>>,
    liveOut: map<String, seq<nat>>)

  /** An empty line: emitted as nothing, never a branch. */
  const Nop: AsmInst := AsmInst([], NoBranch)

  function StartCode(name: String): (c: AsmCode)
    ensures c.name == name && |c.insts| == 0 && LabelsInRange(c)
  {
    AsmCode(name, [], map[], {}, map[], map[])
  }

  /** Every label names a line of the code. */
  predicate LabelsInRange(c: AsmCode) {
    (forall t :: t in c.labels ==> c.labels[t] < |c.insts|)
    && (forall i :: i in c.blockStarts ==> i < |c.insts|)
  }

  /** Appends an instruction line, branching or not. */
  function AddInst(c: AsmCode, code: String, branch: BranchTarget): (r: AsmCode)
    ensures r.insts == c.insts + [AsmInst(code, branch)]
    ensures r.labels == c.labels && r.blockStarts == c.blockStarts
    ensures LabelsInRange(c) ==> LabelsInRange(r)
  {
    c.(insts := c.insts + [AsmInst(code, branch)])
  }

  /** Appends the label line of block `block`, which becomes the line
      branches to that block go to. */
  function AddBlockLabel(c: AsmCode, code: String, block: String): (r: AsmCode)
    ensures r.insts == c.insts + [AsmInst(code, NoBranch)]
    ensures r.labels == c.labels[block := |c.insts|]
    ensures r.blockStarts == c.blockStarts + {|c.insts|}
    ensures LabelsInRange(c) ==> LabelsInRange(r)
  {
    var l := |c.insts|;
    c.(insts := c.insts + [AsmInst(code, NoBranch)], labels := c.labels[block := l],
       blockStarts := c.blockStarts + {l})
  }

  // ---------------------------------------------------------------------
  // Line queries and edits
  // ---------------------------------------------------------------------

  /** A line is a move when its text starts with `mov`; past the end there
      is no move. */
  function IsMove(c: AsmCode, index: nat): (r: bool)
  {
    index < |c.insts| && StartsWith(c.insts[index].code, "mov")
  }

  /** Replaces line `index` by an empty line; the line must exist. */
  function SetInstNop(c: AsmCode, index: nat): (r: Result<AsmCode, String>)
    ensures r.Ok? <==> index < |c.insts|
    ensures r.Ok? ==> |r.value.insts| == |c.insts| && r.value.insts[index] == Nop
    ensures r.Ok? ==> forall j :: 0 <= j < |c.insts| && j != index ==> r.value.insts[j] == c.insts[j]
    ensures r.Ok? ==> r.value.labels == c.labels && r.value.blockStarts == c.blockStarts
  {
    if index < |c.insts| then Ok(c.(insts := c.insts[index := Nop])) else Err("removal index out of bounds")
  }

  /** An emptied line is no move, and no other line changes its kind. */
  lemma NopIsNoMove(c: AsmCode, index: nat, j: nat)
    requires SetInstNop(c, index).Ok?
    ensures !IsMove(SetInstNop(c, index).value, index)
    ensures j != index ==> IsMove(SetInstNop(c, index).value, j) == IsMove(c, j)
  {
  }

  /** The moves of a code: `IsMove` holds exactly on lines whose text
      begins with the three letters `mov`. */
  lemma IsMoveSpec(c: AsmCode, index: nat)
    ensures IsMove(c, index) <==>
      (index < |c.insts| && |c.insts[index].code| >= 3 && c.insts[index].code[..3] == "mov")
  {
  }

  /** The text of every line, in order. */
  function Codes(insts: seq<AsmInst>): (r: seq<String>)
    ensures |r| == |insts| && forall k :: 0 <= k < |insts| ==> r[k] == insts[k].code
  {
    seq(|insts|, k requires 0 <= k < |insts| => insts[k].code)
  }

  /** The assembly text: every line followed by a newline. */
  function Emit(insts: seq<AsmInst>): (r: String)
    decreases |insts|
  {
    if |insts| == 0 then [] else insts[0].code + "\n" + Emit(insts[1..])
  }

  /** The emitted text is the lines joined by newlines with one more newline
      at the end (nothing at all for no lines). */
  lemma {:induction false} EmitJoin(insts: seq<AsmInst>)
    ensures Emit(insts) == Join(Codes(insts) + [[]], "\n")
    decreases |insts|
  {
    if |insts| > 0 {
      EmitJoin(insts[1..]);
      var parts := Codes(insts) + [[]];
      assert parts[1..] == Codes(insts[1..]) + [[]];
    }
  }

  /** Splitting the emitted text at newlines gives back each line, and an
      empty piece after the final newline, when no line holds a newline. */
  lemma EmitSplit(insts: seq<AsmInst>)
    requires forall k :: 0 <= k < |insts| ==> '\n' !in insts[k].code
    ensures Split(Emit(insts), '\n') == Codes(insts) + [[]]
  {
    EmitJoin(insts);
    var parts := Codes(insts) + [[]];
    assert forall k :: 0 <= k < |parts| ==> '\n' !in parts[k] by {
      forall k | 0 <= k < |parts| ensures '\n' !in parts[k] {
        if k < |insts| {
          assert parts[k] == insts[k].code;
        }
      }
    }
    JoinSplit(parts, '\n');
  }

  /** The emitted text is as long as the lines plus one newline each. */
  lemma {:induction false} EmitLength(insts: seq<AsmInst>)
    ensures |Emit(insts)| == TotalLength(insts) + |insts|
    decreases |insts|
  {
    if |insts| > 0 {
      EmitLength(insts[1..]);
    }
  }

  function TotalLength(insts: seq<AsmInst>): (n: nat)
    decreases |insts|
  {
    if |insts| == 0 then 0 else |insts[0].code| + TotalLength(insts[1..])
  }

  // ---------------------------------------------------------------------
  // Live-in and live-out sets
  // ---------------------------------------------------------------------

  /** Records the live-in registers of a block, which must not have been
      recorded before. Each value is given by its SSA id, `None` for a value
      that is not an SSA variable, whose id cannot be taken. */
  function SetBlockLiveIn(c: AsmCode, block: String, values: seq<Option<nat>>): (r: Result<AsmCode, String>)
    ensures r.Ok? <==> block !in c.liveIn && forall k :: 0 <= k < |values| ==> values[k].Some?
    ensures r.Ok? ==> r.value.liveIn.Keys == c.liveIn.Keys + {block} && |r.value.liveIn[block]| == |values|
    ensures r.Ok? ==> forall k :: 0 <= k < |values| ==> r.value.liveIn[block][k] == values[k].value
    ensures r.Ok? ==> r.value == c.(liveIn := r.value.liveIn)
    ensures r.Ok? ==> forall b :: b in c.liveIn ==> b in r.value.liveIn && r.value.liveIn[b] == c.liveIn[b]
  {
    if block in c.liveIn then Err("live-in inserted twice")
    else
      match SsaIds(values)
      case None => Err("value is not an SSA variable")
      case Some(ids) => Ok(c.(liveIn := c.liveIn[block := ids]))
  }

  /** Records the live-out registers of a block, which must not have been
      recorded before; values without an SSA id are skipped. */
  function SetBlockLiveOut(c: AsmCode, block: String, values: seq<Option<nat>>): (r: Result<AsmCode, String>)
    ensures r.Ok? <==> block !in c.liveOut
    ensures r.Ok? ==> r.value.liveOut.Keys == c.liveOut.Keys + {block} && r.value == c.(liveOut := r.value.liveOut)
    ensures r.Ok? ==> forall b :: b in c.liveOut ==> b in r.value.liveOut && r.value.liveOut[b] == c.liveOut[b]
    ensures r.Ok? ==> forall x :: x in r.value.liveOut[block] <==> Some(x) in values
    ensures r.Ok? ==> r.value.liveOut[block] == PresentIds(values)
  {
    if block in c.liveOut then Err("live-out inserted twice")
    else Ok(c.(liveOut := c.liveOut[block := PresentIds(values)]))
  }

  /** All ids, or `None` as soon as one value has none. */
  function SsaIds(values: seq<Option<nat>>): (r: Option<seq<nat>>)
    ensures r.Some? <==> forall k :: 0 <= k < |values| ==> values[k].Some?
    ensures r.Some? ==> |r.value| == |values| && forall k :: 0 <= k < |values| ==> r.value[k] == values[k].value
    decreases |values|
  {
    if |values| == 0 then Some([])
    else if values[0].None? then None
    else
      match SsaIds(values[1..])
      case None => None
      case Some(rest) => Some([values[0].value] + rest)
  }

  /** The ids that are present, in order. */
  function PresentIds(values: seq<Option<nat>>): (r: seq<nat>)
    ensures forall x :: x in r <==> Some(x) in values
    ensures |r| <= |values|
    decreases |values|
  {
    if |values| == 0 then []
    else
      var rest := PresentIds(values[1..]);
      assert forall x :: Some(x) in values <==> Some(x) == values[0] || Some(x) in values[1..];
      if values[0].Some? then [values[0].value] + rest else rest
  }

  /** The ids keep the order of their values: collecting from two pieces
      and concatenating is collecting from the whole. */
  lemma {:induction false} PresentIdsAppend(a: seq<Option<nat>>, b: seq<Option<nat>>)
    ensures PresentIds(a + b) == PresentIds(a) + PresentIds(b)
    decreases |a|
  {
    if |a| == 0 {
      assert a + b == b;
    } else {
      assert (a + b)[1..] == a[1..] + b;
      PresentIdsAppend(a[1..], b);
    }
  }

  /** One value contributes its id, or nothing when it has none. */
  lemma PresentIdsSingle(v: Option<nat>)
    ensures PresentIds([v]) == if v.Some? then [v.value] else []
  {
    assert [v][1..] == [];
  }

  /** Live-in can be recorded once per block: a second attempt fails whatever
      the values, and other blocks are not affected. */
  lemma LiveInOnce(c: AsmCode, block: String, other: String, first: seq<Option<nat>>, second: seq<Option<nat>>)
    requires SetBlockLiveIn(c, block, first).Ok?
    ensures SetBlockLiveIn(SetBlockLiveIn(c, block, first).value, block, second).Err?
    ensures other != block && other !in c.liveIn ==>
      (SetBlockLiveIn(SetBlockLiveIn(c, block, first).value, other, second).Ok? <==>
        forall k :: 0 <= k < |second| ==> second[k].Some?)
  {
  }

  lemma LiveOutOnce(c: AsmCode, block: String, first: seq<Option<nat>>, second: seq<Option<nat>>)
    requires SetBlockLiveOut(c, block, first).Ok?
    ensures SetBlockLiveOut(SetBlockLiveOut(c, block, first).value, block, second).Err?
  {
  }

  // ---------------------------------------------------------------------
  // Control-flow analysis
  // ---------------------------------------------------------------------

  datatype Cfg = Cfg(preds: seq<seq<nat>>, succs: seq<seq<nat>>)

  /** The branch of line `i`, if any, names a known label whose line exists. */
  predicate Resolves(c: AsmCode, i: nat)
    requires i < |c.insts|
  {
    var b := c.insts[i].branch;
    b.NoBranch? || (b.target in c.labels && c.labels[b.target] < |c.insts|)
  }

  /** Line `j` is a branch, conditional or not, to line `x`. */
  predicate BranchesTo(c: AsmCode, j: nat, x: nat) {
    && j < |c.insts|
    && !c.insts[j].branch.NoBranch?
    && c.insts[j].branch.target in c.labels
    && c.labels[c.insts[j].branch.target] == x
  }

  /** The line after `i`, if there is one. */
  function Next(c: AsmCode, i: nat): (s: seq<nat>)
    ensures |s| <= 1 && (|s| == 1 <==> i + 1 < |c.insts|)
  {
    if i + 1 < |c.insts| then [i + 1] else []
  }

  /** The successors of line `i`: the next line for a plain line, the target
      alone for an unconditional branch, the target and then the next line
      for a conditional one. */
  predicate SuccsOf(c: AsmCode, i: nat, s: seq<nat>)
    requires i < |c.insts| && Resolves(c, i)
  {
    match c.insts[i].branch
    case NoBranch => s == Next(c, i)
    case Unconditional(t) => s == [c.labels[t]]
    case Conditional(t) => s == [c.labels[t]] + Next(c, i)
  }

  /** The predecessors of line `x`: every branch to it, and the line before
      it when `x` starts no block or, starting a block, has no branch to it. */
  ghost predicate PredsOf(c: AsmCode, x: nat, p: seq<nat>) {
    forall j: nat :: j in p <==>
      (BranchesTo(c, j, x) || (0 < x && j == x - 1 && (x !in c.blockStarts || !exists k: nat :: BranchesTo(c, k, x))))
  }

  /** The state after the first pass has visited lines `0..i`. */
  ghost predicate FirstPass(c: AsmCode, i: nat, preds: seq<seq<nat>>, succs: seq<seq<nat>>)
    requires i <= |c.insts|
  {
    && |preds| == |c.insts| && |succs| == |c.insts|
    && (forall j :: 0 <= j < i ==> Resolves(c, j) && SuccsOf(c, j, succs[j]))
    && (forall j :: i <= j < |c.insts| ==> succs[j] == [])
    && (forall x, j: nat :: 0 <= x < |c.insts| ==>
          (j in preds[x] <==> (j < i && BranchesTo(c, j, x)) || (0 < x < i && x !in c.blockStarts && j == x - 1)))
  }

  /** Visits line `i`: its own predecessor, then its successors and the
      predecessor it gives its branch target. */
  function VisitLine(c: AsmCode, i: nat, preds: seq<seq<nat>>, succs: seq<seq<nat>>): (r: Option<(seq<seq<nat>>, seq<seq<nat>>)>)
    requires i < |c.insts| && FirstPass(c, i, preds, succs)
    ensures r.Some? <==> Resolves(c, i)
    ensures r.Some? ==> FirstPass(c, i + 1, r.value.0, r.value.1)
  {
    var n := |c.insts|;
    var ps := if i !in c.blockStarts && i > 0 then preds[i := preds[i] + [i - 1]] else preds;
    assert forall x, j: nat :: 0 <= x < n ==>
      (j in ps[x] <==> (j < i && BranchesTo(c, j, x)) || (0 < x < i + 1 && x !in c.blockStarts && j == x - 1));
    match c.insts[i].branch
    case NoBranch =>
      Some((ps, succs[i := Next(c, i)]))
    case Unconditional(t) =>
      if t !in c.labels || c.labels[t] >= n then None
      else
        var tn := c.labels[t];
        Some((ps[tn := ps[tn] + [i]], succs[i := [tn]]))
    case Conditional(t) =>
      if t !in c.labels || c.labels[t] >= n then None
      else
        var tn := c.labels[t];
        Some((ps[tn := ps[tn] + [i]], succs[i := [tn] + Next(c, i)]))
  }

  /** A line with no predecessor after the first pass is the first line or a
      block start no branch goes to. */
  lemma EmptyAfterFirstPass(c: AsmCode, preds: seq<seq<nat>>, succs: seq<seq<nat>>, x: nat)
    requires FirstPass(c, |c.insts|, preds, succs) && x < |c.insts|
    ensures |preds[x]| == 0 <==> (x == 0 || x in c.blockStarts) && !exists k: nat :: BranchesTo(c, k, x)
  {
    if |preds[x]| > 0 {
      assert preds[x][0] in preds[x];
    }
    if exists k: nat :: BranchesTo(c, k, x) {
      var k: nat :| BranchesTo(c, k, x);
      assert k in preds[x];
    } else if x > 0 && x !in c.blockStarts {
      assert x - 1 in preds[x];
    }
  }

  /** The second pass gives a line without predecessors (other than the
      first) the line before it. */
  lemma SecondPassLine(c: AsmCode, preds: seq<seq<nat>>, succs: seq<seq<nat>>, x: nat)
    requires FirstPass(c, |c.insts|, preds, succs) && x < |c.insts|
    ensures PredsOf(c, x, if x != 0 && |preds[x]| == 0 then preds[x] + [x - 1] else preds[x])
  {
    EmptyAfterFirstPass(c, preds, succs, x);
  }

  /** Computes the predecessors and successors of every line. The analysis
      fails when a branch names a label that is unknown or past the end. */
  method ControlFlowAnalysis(c: AsmCode) returns (r: Result<Cfg, String>)
    ensures r.Ok? <==> forall i :: 0 <= i < |c.insts| ==> Resolves(c, i)
    ensures r.Ok? ==> |r.value.preds| == |c.insts| && |r.value.succs| == |c.insts|
    ensures r.Ok? ==> forall i :: 0 <= i < |c.insts| ==> SuccsOf(c, i, r.value.succs[i])
    ensures r.Ok? ==> forall x :: 0 <= x < |c.insts| ==> PredsOf(c, x, r.value.preds[x])
  {
    var n := |c.insts|;
    var preds: seq<seq<nat>> := seq(n, _ => []);
    var succs: seq<seq<nat>> := seq(n, _ => []);
    var i := 0;
    while i < n
      invariant i <= n && FirstPass(c, i, preds, succs)
    {
      var v := VisitLine(c, i, preds, succs);
      if v.None? {
        return Err("branch to an unknown block");
      }
      preds, succs := v.value.0, v.value.1;
      i := i + 1;
    }
    ghost var first := preds;
    var x := 0;
    while x < n
      invariant x <= n && |preds| == n
      invariant forall y :: 0 <= y < x ==> PredsOf(c, y, preds[y])
      invariant forall y :: x <= y < n ==> preds[y] == first[y]
    {
      SecondPassLine(c, first, succs, x);
      if x != 0 && |preds[x]| == 0 {
        preds := preds[x := preds[x] + [x - 1]];
      }
      x := x + 1;
    }
    return Ok(Cfg(preds, succs));
  }

  /** Every line but the first ends the analysis with a predecessor. */
  lemma EveryLineReached(c: AsmCode, p: seq<nat>, x: nat)
    requires x < |c.insts| && PredsOf(c, x, p) && x > 0
    ensures |p| > 0
  {
    if exists k: nat :: BranchesTo(c, k, x) {
      var k: nat :| BranchesTo(c, k, x);
      assert k in p;
    } else {
      assert x - 1 in p;
    }
  }

  /** Branch edges appear on both ends: the target is a successor of the
      branch and the branch a predecessor of the target. A plain line's edge
      to the next line is mirrored when that line starts no block. */
  lemma EdgesMirrored(c: AsmCode, g: Cfg, j: nat, x: nat)
    requires |g.preds| == |c.insts| && |g.succs| == |c.insts|
    requires forall i :: 0 <= i < |c.insts| ==> Resolves(c, i) && SuccsOf(c, i, g.succs[i])
    requires forall y :: 0 <= y < |c.insts| ==> PredsOf(c, y, g.preds[y])
    requires j < |c.insts| && x < |c.insts|
    ensures BranchesTo(c, j, x) ==> x in g.succs[j] && j in g.preds[x]
    ensures c.insts[j].branch.NoBranch? && x == j + 1 && x !in c.blockStarts ==> x in g.succs[j] && j in g.preds[x]
  {
    assert SuccsOf(c, j, g.succs[j]);
    assert PredsOf(c, x, g.preds[x]);
  }
}

=== FILE: bit_arith.dfy ===
/**
 Unsigned machine words as natural numbers.

 The Rust code works on `u8` and `u64` values with `&`, `|`, `^`, `!`,
 `<<` and `>>`. This module defines those operators on `nat`, so that the
 properties the code relies on (masks are remainders, shifts are products,
 a bit set by one operation is seen by another) can be stated and proved
 arithmetically. Bit `i` of `x` is `Bit(x, i)`, counted from the least
 significant end.
 */
module BitArith {

  function Pow2(n: nat): (r: nat)
    ensures r >= 1
  {
    if n == 0 then 1 else 2 * Pow2(n - 1)
  }

  /** The largest value of a `w`-bit word plus one. */
  predicate InWidth(x: nat, w: nat) {
    x < Pow2(w)
  }

  predicate IsU64(x: nat) {
    x < Pow2(64)
  }

  predicate IsU8(x: nat) {
    x < Pow2(8)
  }

  function Bit(x: nat, i: nat): bool
  {
    if i == 0 then x % 2 == 1 else Bit(x / 2, i - 1)
  }

  /** `a & b` */
  function And(a: nat, b: nat): nat
  {
    if a == 0 || b == 0 then 0
    else 2 * And(a / 2, b / 2) + (if a % 2 == 1 && b % 2 == 1 then 1 else 0)
  }

  /** `a | b` */
  function Or(a: nat, b: nat): nat
  {
    if a == 0 then b
    else if b == 0 then a
    else 2 * Or(a / 2, b / 2) + (if a % 2 == 1 || b % 2 == 1 then 1 else 0)
  }

  /** `a ^ b` */
  function Xor(a: nat, b: nat): nat
  {
    if a == 0 then b
    else if b == 0 then a
    else 2 * Xor(a / 2, b / 2) + (if a % 2 != b % 2 then 1 else 0)
  }

  /** The `w`-bit complement `!a`. */
  function Not(a: nat, w: nat): nat
    requires a < Pow2(w)
  {
    Pow2(w) - 1 - a
  }

  /** A value with the low `n` bits set (`bits_ones` in the utilities crate). */
  function Ones(n: nat): nat
  {
    Pow2(n) - 1
  }

  /** `x << n` on a `w`-bit word: the bits shifted past the top are lost. */
  function Shl(x: nat, n: nat, w: nat): nat
  {
    (x * Pow2(n)) % Pow2(w)
  }

  /** `x >> n` (logical shift). */
  function Shr(x: nat, n: nat): nat
  {
    DivNonNeg(x, Pow2(n));
    x / Pow2(n)
  }

  /** `x as u64` for a signed 64-bit value: the two's complement pattern. */
  function ToUnsigned64(x: int): (r: nat)
    requires -(Pow2(63) as int) <= x < Pow2(63)
    ensures IsU64(r) && ToSigned64(r) == x
  {
    Pow2Values();
    if x >= 0 then x else x + Pow2(64)
  }

  /** `x as i64` for a 64-bit pattern `x`. */
  function ToSigned64(x: nat): int
    requires IsU64(x)
  {
    if x < Pow2(63) then x else x - Pow2(64)
  }

  // ---------------------------------------------------------------------
  // Powers of two

  lemma {:induction false} Pow2Add(a: nat, b: nat)
    ensures Pow2(a + b) == Pow2(a) * Pow2(b)
  {
    if a > 0 {
      Pow2Add(a - 1, b);
    }
  }

  lemma {:induction false} Pow2Mono(a: nat, b: nat)
    requires a <= b
    ensures Pow2(a) <= Pow2(b)
  {
    if a < b {
      Pow2Mono(a, b - 1);
    }
  }

  lemma Pow2Values()
    ensures Pow2(8) == 256
    ensures Pow2(12) == 4096
    ensures Pow2(16) == 65536
    ensures Pow2(24) == 16777216
    ensures Pow2(32) == 4294967296
    ensures Pow2(63) == 9223372036854775808
    ensures Pow2(64) == 18446744073709551616
  {
    Pow2Add(8, 8);
    Pow2Add(16, 8);
    Pow2Add(16, 16);
    Pow2Add(32, 31);
    Pow2Add(32, 32);
    assert Pow2(31) == 2147483648 by { Pow2Add(16, 15); assert Pow2(15) == 32768; }
  }

  // ---------------------------------------------------------------------
  // Division helpers

  lemma DivNonNeg(a: nat, b: nat)
    requires b > 0
    ensures a / b >= 0
  {
  }

  lemma ModBelow(a: nat, b: nat)
    requires a < b
    ensures a % b == a
  {
  }

  lemma MulMonoLe(a: int, b: int, c: nat)
    requires a <= b
    ensures a * c <= b * c
  {
  }

  lemma DivTwice(x: nat, m: nat)
    requires m > 0
    ensures x / (2 * m) == (x / 2) / m
    ensures (x % (2 * m)) / 2 == (x / 2) % m
    ensures (x % (2 * m)) % 2 == x % 2
  {
    var q := x / (2 * m);
    var r := x % (2 * m);
    assert x == 2 * m * q + r;
    assert x / 2 == m * q + r / 2;
    assert r / 2 < m;
    assert (m * q + r / 2) / m == q && (m * q + r / 2) % m == r / 2 by {
      DivModUnique(m * q + r / 2, m, q, r / 2);
    }
    assert (2 * m * q + r) % 2 == r % 2 by {
      DivModUnique(x, 2, m * q + r / 2, r % 2);
    }
  }

  lemma DivModUnique(x: nat, m: nat, q: nat, r: nat)
    requires m > 0 && r < m && x == m * q + r
    ensures x / m == q && x % m == r
  {
    var q', r' := x / m, x % m;
    assert m * q + r == m * q' + r';
    if q' < q {
      var d := q - q';
      assert m * q == m * q' + m * d;
      MulAtLeast(m, d);
      assert false;
    } else if q' > q {
      var d := q' - q;
      assert m * q' == m * q + m * d;
      MulAtLeast(m, d);
      assert false;
    }
  }

  lemma MulAtLeast(m: nat, d: nat)
    requires d >= 1
    ensures m * d >= m
  {
    assert m * d == m + m * (d - 1);
  }

  // ---------------------------------------------------------------------
  // Bits of the basic values

  lemma {:induction false} BitZero(i: nat)
    ensures !Bit(0, i)
  {
    if i > 0 {
      BitZero(i - 1);
    }
  }

  lemma {:induction false} BitPow2(k: nat, i: nat)
    ensures Bit(Pow2(k), i) <==> i == k
  {
    if i == 0 {
    } else if k == 0 {
      BitZero(i - 1);
    } else {
      BitPow2(k - 1, i - 1);
    }
  }

  /** No bit at or above the width is set. */
  lemma {:induction false} BitHigh(x: nat, w: nat, i: nat)
    requires x < Pow2(w) && i >= w
    ensures !Bit(x, i)
  {
    if i == 0 {
    } else if w == 0 {
      BitZero(i - 1);
    } else {
      BitHigh(x / 2, w - 1, i - 1);
    }
  }

  /** A value is determined by its low `w` bits when it fits in `w` bits. */
  lemma {:induction false} BitExt(a: nat, b: nat, w: nat)
    requires a < Pow2(w) && b < Pow2(w)
    requires forall i: nat :: i < w ==> Bit(a, i) == Bit(b, i)
    ensures a == b
  {
    if w > 0 {
      assert Bit(a, 0) == Bit(b, 0);
      forall i: nat | i < w - 1
        ensures Bit(a / 2, i) == Bit(b / 2, i)
      {
        assert Bit(a, i + 1) == Bit(b, i + 1);
      }
      BitExt(a / 2, b / 2, w - 1);
    }
  }

  lemma {:induction false} BitAnd(a: nat, b: nat, i: nat)
    ensures Bit(And(a, b), i) <==> Bit(a, i) && Bit(b, i)
  {
    if a == 0 || b == 0 {
      BitZero(i);
    } else if i > 0 {
      BitAnd(a / 2, b / 2, i - 1);
    }
  }

  lemma {:induction false} BitOr(a: nat, b: nat, i: nat)
    ensures Bit(Or(a, b), i) <==> Bit(a, i) || Bit(b, i)
  {
    if a == 0 || b == 0 {
      BitZero(i);
    } else if i > 0 {
      BitOr(a / 2, b / 2, i - 1);
    }
  }

  lemma {:induction false} BitXor(a: nat, b: nat, i: nat)
    ensures Bit(Xor(a, b), i) <==> Bit(a, i) != Bit(b, i)
  {
    if a == 0 || b == 0 {
      BitZero(i);
    } else if i > 0 {
      BitXor(a / 2, b / 2, i - 1);
    }
  }

  lemma {:induction false} AndBound(a: nat, b: nat)
    ensures And(a, b) <= a && And(a, b) <= b
  {
    if a != 0 && b != 0 {
      AndBound(a / 2, b / 2);
    }
  }

  lemma {:induction false} OrBound(a: nat, b: nat, w: nat)
    requires a < Pow2(w) && b < Pow2(w)
    ensures Or(a, b) < Pow2(w)
  {
    if a != 0 && b != 0 {
      assert w > 0;
      OrBound(a / 2, b / 2, w - 1);
    }
  }

  lemma {:induction false} XorBound(a: nat, b: nat, w: nat)
    requires a < Pow2(w) && b < Pow2(w)
    ensures Xor(a, b) < Pow2(w)
  {
    if a != 0 && b != 0 {
      assert w > 0;
      XorBound(a / 2, b / 2, w - 1);
    }
  }

  lemma {:induction false} BitShr(x: nat, n: nat, i: nat)
    ensures Bit(Shr(x, n), i) == Bit(x, i + n)
  {
    if n > 0 {
      DivTwice(x, Pow2(n - 1));
      BitShr(x / 2, n - 1, i);
    }
  }

  lemma {:induction false} BitMulPow2(x: nat, n: nat, i: nat)
    ensures Bit(x * Pow2(n), i) <==> i >= n && Bit(x, i - n)
  {
    if n > 0 {
      var y := x * Pow2(n - 1);
      assert x * Pow2(n) == 2 * y;
      if i == 0 {
      } else {
        assert (2 * y) / 2 == y;
        BitMulPow2(x, n - 1, i - 1);
      }
    }
  }

  lemma {:induction false} BitMod(x: nat, w: nat, i: nat)
    ensures Bit(x % Pow2(w), i) <==> i < w && Bit(x, i)
  {
    if w == 0 {
      BitZero(i);
    } else {
      DivTwice(x, Pow2(w - 1));
      if i > 0 {
        BitMod(x / 2, w - 1, i - 1);
      }
    }
  }

  lemma BitShl(x: nat, n: nat, w: nat, i: nat)
    ensures Bit(Shl(x, n, w), i) <==> i < w && i >= n && Bit(x, i - n)
  {
    BitMod(x * Pow2(n), w, i);
    BitMulPow2(x, n, i);
  }

  lemma BitOnes(n: nat, i: nat)
    ensures Bit(Ones(n), i) <==> i < n
  {
    BitMod(Pow2(n) + Ones(n), n, i);
    BitLowPart(Pow2(n), Ones(n), n, i);
    assert (Pow2(n) + Ones(n)) % Pow2(n) == Ones(n) by {
      DivModUnique(Pow2(n) + Ones(n), Pow2(n), 1, Ones(n));
    }
    if i < n {
      BitAllOnes(n, i);
    }
  }

  lemma {:induction false} BitAllOnes(n: nat, i: nat)
    requires i < n
    ensures Bit(Ones(n), i)
  {
    if i > 0 {
      assert Ones(n) / 2 == Ones(n - 1);
      BitAllOnes(n - 1, i - 1);
    }
  }

  /** Adding a multiple of `2^w` leaves the low `w` bits alone. */
  lemma BitLowPart(hi: nat, lo: nat, w: nat, i: nat)
    requires lo < Pow2(w) && hi % Pow2(w) == 0
    ensures i < w ==> (Bit(hi + lo, i) <==> Bit(lo, i))
  {
    if i < w {
      assert (hi + lo) % Pow2(w) == lo by {
        DivModUnique(hi + lo, Pow2(w), hi / Pow2(w), lo);
      }
      BitMod(hi + lo, w, i);
    }
  }

  /** `x & bits_ones(n)` keeps exactly the remainder modulo `2^n`. */
  lemma AndOnes(x: nat, n: nat)
    ensures And(x, Ones(n)) == x % Pow2(n)
  {
    AndBound(x, Ones(n));
    forall i: nat | i < n
      ensures Bit(And(x, Ones(n)), i) == Bit(x % Pow2(n), i)
    {
      BitAnd(x, Ones(n), i);
      BitOnes(n, i);
      BitMod(x, n, i);
    }
    BitExt(And(x, Ones(n)), x % Pow2(n), n);
  }

  /** A value below `2^w` is unchanged by truncation to `w` bits. */
  lemma ModSmall(x: nat, w: nat)
    requires x < Pow2(w)
    ensures x % Pow2(w) == x
  {
    ModBelow(x, Pow2(w));
  }

  lemma {:induction false} OrZero(a: nat)
    ensures Or(a, 0) == a && Or(0, a) == a
  {
  }

  /** Or-ing in bits that are already set changes nothing. */
  lemma OrAbsorb(a: nat, b: nat, w: nat)
    requires a < Pow2(w) && b < Pow2(w)
    requires forall i: nat :: i < w && Bit(b, i) ==> Bit(a, i)
    ensures Or(a, b) == a
  {
    OrBound(a, b, w);
    forall i: nat | i < w
      ensures Bit(Or(a, b), i) == Bit(a, i)
    {
      BitOr(a, b, i);
    }
    BitExt(Or(a, b), a, w);
  }

  /** Bit `i` of the `w`-bit complement is the opposite of bit `i`, below `w`. */
  lemma {:induction false} BitNot(a: nat, w: nat, i: nat)
    requires a < Pow2(w)
    ensures Not(a, w) < Pow2(w)
    ensures i < w ==> (Bit(Not(a, w), i) <==> !Bit(a, i))
  {
    if w > 0 && i < w {
      var n := Not(a, w);
      assert n == 2 * Not(a / 2, w - 1) + (1 - a % 2);
      assert n / 2 == Not(a / 2, w - 1) && n % 2 == 1 - a % 2;
      if i > 0 {
        BitNot(a / 2, w - 1, i - 1);
      }
    }
  }

  /** Floor division by a positive divisor is determined by quotient and remainder. */
  lemma DivFloor(x: int, m: nat, q: int, r: nat)
    requires m > 0 && r < m && x == m * q + r
    ensures x / m == q && x % m == r
  {
    var q', r' := x / m, x % m;
    assert m * q + r == m * q' + r';
    if q' < q {
      assert m * (q - q') == r' - r;
      MulAtLeast(m, q - q');
      assert false;
    } else if q' > q {
      assert m * (q' - q) == r - r';
      MulAtLeast(m, q' - q);
      assert false;
    }
  }

  /** Bit `i` of a value is bit `i - w` of its quotient by `2^w`. */
  lemma BitAbove(x: nat, w: nat, i: nat)
    requires i >= w
    ensures Bit(x, i) == Bit(Shr(x, w), i - w)
  {
    BitShr(x, w, i - w);
  }

  /** `x & (1 << i)` is nonzero exactly when bit `i` of `x` is set. */
  lemma MaskTest(x: nat, i: nat)
    requires IsU64(x) && i < 64
    ensures (And(x, Pow2(i)) != 0) == Bit(x, i)
  {
    var m := Shl(1, i, 64);
    Pow2Mono(i, 64);
    Pow2Mono(i + 1, 64);
    ModBelow(Pow2(i), Pow2(64));
    assert m == Pow2(i);
    AndBound(x, m);
    forall j: nat | j < 64 ensures Bit(And(x, m), j) <==> j == i && Bit(x, i) {
      BitAnd(x, m, j);
      BitShl(1, i, 64, j);
      if j >= i {
        BitPow2(0, j - i);
      }
    }
    if Bit(x, i) {
      assert Bit(And(x, m), i);
      BitZero(i);
    } else {
      forall j: nat | j < 64 ensures Bit(And(x, m), j) == Bit(0, j) {
        BitZero(j);
      }
      Pow2Values();
      BitExt(And(x, m), 0, 64);
    }
  }
}

=== FILE: bit_utils.dfy ===
/**
 The bit helpers of the utilities crate (`bit_utils.rs`), on `u8` and `u64`
 values modelled as naturals below `2^8` and `2^64`.

 A Rust shift by at least the width of its operand panics in a debug build,
 so every shift amount is required to be below the width.
 */
module BitUtils {
  import opened BitArith

  /** Bit 0 of `x & 1` is bit 0 of `x`, and it is the whole value. */
  lemma AndOne(x: nat)
    ensures And(x, 1) == x % 2
  {
    AndOnes(x, 1);
  }

  /** `((value >> index) & 1) as u8 == val`, shared by the `u8` and `u64` versions. */
  function TestShifted(value: nat, index: nat, val: nat): (r: bool)
    ensures r <==> (val == 1 && Bit(value, index)) || (val == 0 && !Bit(value, index))
  {
    AndOne(Shr(value, index));
    BitShr(value, index, 0);
    And(Shr(value, index), 1) == val
  }

  /** `test_nth_bit_u8`: whether bit `index` equals `val` read as a boolean;
      a `val` other than 0 or 1 never matches. */
  function TestNthBitU8(value: nat, index: nat, val: nat): (r: bool)
    requires IsU8(value) && index < 8 && IsU8(val)
    ensures r <==> (val == 1 && Bit(value, index)) || (val == 0 && !Bit(value, index))
  {
    TestShifted(value, index, val)
  }

  /** `lower_bits_u8`: the low `len` bits. */
  function LowerBitsU8(value: nat, len: nat): (r: nat)
    requires IsU8(value) && len < 8
    ensures r == value % Pow2(len)
  {
    var m := Shl(1, len, 8);
    Pow2Mono(len + 1, 8);
    assert m == Pow2(len);
    AndOnes(value, len);
    And(value, m - 1)
  }

  /** The unit tests of the crate on `0b1100_0011`. */
  lemma U8Examples()
    ensures TestNthBitU8(0xC3, 6, 1)
    ensures LowerBitsU8(0xC3, 6) == 3
  {
    Pow2Values();
    assert Pow2(6) == 64;
  }

  /** `set_bit_u8`: `val | mask`. */
  function SetBitU8(val: nat, mask: nat): (r: nat)
    requires IsU8(val) && IsU8(mask)
    ensures IsU8(r)
    ensures forall i: nat :: Bit(r, i) <==> Bit(val, i) || Bit(mask, i)
  {
    OrBound(val, mask, 8);
    forall i: nat ensures Bit(Or(val, mask), i) <==> Bit(val, i) || Bit(mask, i) {
      BitOr(val, mask, i);
    }
    Or(val, mask)
  }

  /** `clear_bit_u8`: `val & !mask`. */
  function ClearBitU8(val: nat, mask: nat): (r: nat)
    requires IsU8(val) && IsU8(mask)
    ensures IsU8(r)
    ensures forall i: nat :: i < 8 ==> (Bit(r, i) <==> Bit(val, i) && !Bit(mask, i))
  {
    var nm := Not(mask, 8);
    AndBound(val, nm);
    forall i: nat | i < 8 ensures Bit(And(val, nm), i) <==> Bit(val, i) && !Bit(mask, i) {
      BitAnd(val, nm, i);
      BitNot(mask, 8, i);
    }
    And(val, nm)
  }

  /** `test_bit_u8`: whether every bit of the mask is set in `val`. */
  function TestBitU8(val: nat, mask: nat): (r: bool)
    requires IsU8(val) && IsU8(mask)
    ensures r <==> forall i: nat :: i < 8 && Bit(mask, i) ==> Bit(val, i)
  {
    var a := And(val, mask);
    AndBound(val, mask);
    forall i: nat | i < 8 ensures Bit(a, i) <==> Bit(val, i) && Bit(mask, i) {
      BitAnd(val, mask, i);
    }
    if a == mask then a == mask
    else
      assert exists i: nat :: i < 8 && Bit(a, i) != Bit(mask, i) by {
        if forall i: nat :: i < 8 ==> Bit(a, i) == Bit(mask, i) {
          BitExt(a, mask, 8);
        }
      }
      false
  }

  /** A mask is seen after it is set, and a non-zero mask is not seen after
      it is cleared. */
  lemma SetClearTest(v: nat, m: nat)
    requires IsU8(v) && IsU8(m)
    ensures TestBitU8(SetBitU8(v, m), m)
    ensures m != 0 ==> !TestBitU8(ClearBitU8(v, m), m)
  {
    if m != 0 {
      var i: nat :| i < 8 && Bit(m, i) by {
        if forall i: nat :: i < 8 ==> !Bit(m, i) {
          forall i: nat | i < 8 ensures Bit(m, i) == Bit(0, i) {
            BitZero(i);
          }
          BitExt(m, 0, 8);
        }
      }
      assert !Bit(ClearBitU8(v, m), i);
    }
  }

  /** `bits_ones`: the value with the low `n` bits set; `n = 64` is written
      as `-1` reinterpreted as `u64`, because `1 << 64` overflows. */
  function BitsOnes(n: nat): (r: nat)
    requires n <= 64
    ensures IsU64(r)
    ensures r == Pow2(n) - 1
  {
    Pow2Values();
    if n == 64 then ToUnsigned64(-1)
    else
      Pow2Mono(n + 1, 64);
      Shl(1, n, 64) - 1
  }

  /** `bits_ones(n)` has exactly the low `n` bits set. */
  lemma BitsOnesBits(n: nat, i: nat)
    requires n <= 64
    ensures Bit(BitsOnes(n), i) <==> i < n
  {
    BitOnes(n, i);
  }

  /** `u64_asr`: arithmetic shift right of the 64-bit pattern, so the sign
      bit is copied into the vacated high bits. */
  function U64Asr(val: nat, shift: nat): (r: nat)
    requires IsU64(val) && shift < 64
    ensures IsU64(r)
    ensures ToSigned64(r) == ToSigned64(val) / Pow2(shift)
  {
    AsrQuotient(val, shift);
    ToUnsigned64(ToSigned64(val) / Pow2(shift))
  }

  lemma MulLtCancel(d: nat, a: nat, b: nat)
    requires d * a < d * b
    ensures a < b
  {
  }

  /** A quotient by `d` of a value below `d * p` is below `p`. */
  lemma QuotLess(x: nat, d: nat, p: nat)
    requires d > 0 && x < d * p
    ensures x / d < p
  {
    assert x == d * (x / d) + x % d;
    MulLtCancel(d, x / d, p);
  }

  /** Subtracting `d * p` before dividing by `d` subtracts `p` after. */
  lemma QuotShift(x: nat, d: nat, p: nat)
    requires d > 0
    ensures (x - d * p) / d == x / d - p
  {
    var q := x / d;
    assert x == d * q + x % d;
    assert x - d * p == d * (q - p) + x % d;
    DivFloor(x - d * p, d, q - p, x % d);
  }

  lemma QuotAtMost(x: nat, d: nat)
    requires d > 0
    ensures x / d <= x
  {
    assert x == d * (x / d) + x % d;
    if x / d > 0 {
      MulAtLeast(x / d, d);
    }
  }

  /** The floor quotient of the signed value, in terms of the unsigned one. */
  lemma AsrQuotient(val: nat, shift: nat)
    requires IsU64(val) && shift < 64
    ensures Shr(val, shift) < Pow2(64 - shift)
    ensures ToSigned64(val) / Pow2(shift)
      == if val < Pow2(63) then Shr(val, shift) else Shr(val, shift) - Pow2(64 - shift)
    ensures -(Pow2(63) as int) <= ToSigned64(val) / Pow2(shift) < Pow2(63)
  {
    var w := 64 - shift;
    var d := Pow2(shift);
    var p := Pow2(w);
    Pow2Add(shift, w);
    QuotLess(val, d, p);
    if val < Pow2(63) {
      QuotAtMost(val, d);
    } else {
      QuotShift(val, d, p);
      assert ToSigned64(val) == val - d * p;
      if shift > 0 {
        Pow2Mono(w, 63);
      }
    }
  }

  /** Bit by bit: the low `64 - shift` bits are the shifted bits of `val`,
      and the top `shift` bits copy its sign bit. */
  lemma U64AsrBits(val: nat, shift: nat, i: nat)
    requires IsU64(val) && shift < 64 && i < 64
    ensures Bit(U64Asr(val, shift), i) == (if i + shift < 64 then Bit(val, i + shift) else Bit(val, 63))
  {
    AsrQuotient(val, shift);
    BitShr(val, shift, i);
    if val < Pow2(63) {
      if i + shift >= 64 {
        BitHigh(val, 64, i + shift);
        BitHigh(val, 63, 63);
      }
    } else {
      AsrNegativeBits(val, shift, i);
    }
  }

  /** The sign bit of a pattern at or above `2^63` is set. */
  lemma SignBit(val: nat)
    requires Pow2(63) <= val < Pow2(64)
    ensures Bit(val, 63)
  {
    BitAbove(val, 63, 63);
    Pow2Add(63, 1);
    DivFloor(val, Pow2(63), 1, val - Pow2(63));
  }

  lemma AsrNegativeBits(val: nat, shift: nat, i: nat)
    requires Pow2(63) <= val < Pow2(64) && shift < 64 && i < 64
    ensures Bit(U64Asr(val, shift), i) == (if i + shift < 64 then Bit(val, i + shift) else Bit(val, 63))
  {
    AsrQuotient(val, shift);
    SignBit(val);
    BitShr(val, shift, i);
    var w := 64 - shift;
    var q := Shr(val, shift);
    Pow2Add(shift, w);
    OnesTimes(shift, Pow2(w));
    assert U64Asr(val, shift) == Ones(shift) * Pow2(w) + q;
    OnesAbove(q, w, shift, i);
  }

  lemma OnesTimes(s: nat, p: nat)
    ensures Ones(s) * p == Pow2(s) * p - p
  {
    assert p * (Pow2(s) - 1) == p * Pow2(s) - p;
  }

  /** Setting the `s` bits above a `w`-bit value. */
  lemma OnesAbove(q: nat, w: nat, s: nat, i: nat)
    requires q < Pow2(w) && i < w + s
    ensures Bit(Ones(s) * Pow2(w) + q, i) == (i < w ==> Bit(q, i))
  {
    var hi := Ones(s) * Pow2(w);
    if i < w {
      assert hi % Pow2(w) == 0 by {
        DivFloor(hi, Pow2(w), Ones(s), 0);
      }
      BitLowPart(hi, q, w, i);
    } else {
      BitAbove(hi + q, w, i);
      DivFloor(hi + q, Pow2(w), Ones(s), q);
      BitOnes(s, i - w);
    }
  }

  /** `set_nth_bit_u64`: bit `index` is copied from `-set_value` read as a
      `u64`, and every other bit of `value` is kept. */
  function SetNthBitU64(value: nat, index: nat, setValue: nat): (r: nat)
    requires IsU64(value) && index < 64 && IsU8(setValue)
    ensures IsU64(r)
    ensures forall i: nat :: i < 64 ==>
      Bit(r, i) == (if i == index then Bit(ToUnsigned64(-(setValue as int)), index) else Bit(value, i))
  {
    Pow2Values();
    var neg := ToUnsigned64(-(setValue as int));
    var m := Shl(1, index, 64);
    var d := Xor(neg, value);
    var a := And(d, m);
    XorBound(neg, value, 64);
    AndBound(d, m);
    XorBound(value, a, 64);
    forall i: nat | i < 64
      ensures Bit(Xor(value, a), i) == (if i == index then Bit(neg, index) else Bit(value, i))
    {
      BitXor(value, a, i);
      BitAnd(d, m, i);
      BitXor(neg, value, i);
      BitShl(1, index, 64, i);
      if i >= index {
        BitPow2(0, i - index);
      }
    }
    Xor(value, a)
  }

  /** `test_nth_bit_u64` */
  function TestNthBitU64(value: nat, index: nat, val: nat): (r: bool)
    requires IsU64(value) && index < 64 && IsU8(val)
    ensures r <==> (val == 1 && Bit(value, index)) || (val == 0 && !Bit(value, index))
  {
    TestShifted(value, index, val)
  }

  /** With `set_value` 0 or 1, setting bit `index` makes it equal to the
      value, leaves the other bits alone, and the test sees it. */
  lemma SetNthBitSpec(value: nat, index: nat, b: nat)
    requires IsU64(value) && index < 64 && b <= 1
    ensures forall i: nat :: i < 64 ==>
      (Bit(SetNthBitU64(value, index, b), i) <==> if i == index then b == 1 else Bit(value, i))
    ensures TestNthBitU64(SetNthBitU64(value, index, b), index, b)
  {
    Pow2Values();
    if b == 1 {
      assert ToUnsigned64(-1) == Ones(64);
      BitOnes(64, index);
    } else {
      assert ToUnsigned64(0) == 0;
      BitZero(index);
    }
  }

  /** The unit test of `set_nth_bit_u64`: setting bit 2 of zero. */
  lemma SetNthBitExampleSet()
    ensures SetNthBitU64(0, 2, 1) == 4
  {
    Pow2Values();
    var r := SetNthBitU64(0, 2, 1);
    SetNthBitSpec(0, 2, 1);
    forall i: nat | i < 64 ensures Bit(r, i) == Bit(Pow2(2), i) {
      BitZero(i);
      BitPow2(2, i);
    }
    BitExt(r, Pow2(2), 64);
  }

  /** The unit test of `set_nth_bit_u64`: clearing bit 2 of `0b1111`. */
  lemma SetNthBitExampleClear()
    ensures SetNthBitU64(15, 2, 0) == 11
  {
    Pow2Values();
    var r := SetNthBitU64(15, 2, 0);
    SetNthBitSpec(15, 2, 0);
    forall i: nat | i < 64 ensures Bit(r, i) == Bit(11, i) {
      if i == 0 {
        assert Bit(15, 0) && Bit(11, 0);
      } else if i == 1 {
        assert Bit(15, 1) && Bit(11, 1);
      } else if i == 2 {
        assert !Bit(11, 2);
      } else if i == 3 {
        assert Bit(15, 3) && Bit(11, 3);
      } else {
        assert Pow2(4) == 16;
        BitHigh(15, 4, i);
        BitHigh(11, 4, i);
      }
    }
    BitExt(r, 11, 64);
  }
}

=== FILE: bitmap.dfy ===
/**
 The word-array bitmap of the garbage collector (`bitmap.rs`).

 The Rust structure owns a raw array of `u64` words and a length in bits.
 Here the array is a sequence of naturals below `2^64`. Bit `j` of the
 bitmap is bit `j % 64` of word `j / 64` (the code's `j & 63` and
 `j >> 6`). The constructor allocates one word more than `len / 64`, so
 every bit below `64 * |words|` can be addressed, a few of them past `len`.
 A read or write outside the words is undefined behaviour in the source;
 the model requires that it does not happen.
 */
module Bitmaps {
  import opened Wrappers
  import opened BitArith
  import opened BitUtils

  datatype Bitmap = Bitmap(words: seq<nat>, len: nat)

  /** The number of words `Bitmap::new` allocates for `len` bits. */
  function WordCount(len: nat): (r: nat)
    ensures 64 * r > len
  {
    len / 64 + 1
  }

  predicate Valid(bm: Bitmap) {
    |bm.words| == WordCount(bm.len) && forall k :: 0 <= k < |bm.words| ==> IsU64(bm.words[k])
  }

  /** Bit `j` lies in an allocated word. */
  predicate Addressable(bm: Bitmap, j: nat) {
    j < 64 * |bm.words|
  }

  /** The bits `index .. index + length` all lie in allocated words. */
  predicate SpanAddressable(bm: Bitmap, index: nat, length: nat) {
    index + length <= 64 * |bm.words|
  }

  /** `1 << k` for a bit position of a `u64`. */
  lemma SingleBitU64(k: nat)
    requires k < 64
    ensures IsU64(Pow2(k))
  {
    Pow2Mono(k + 1, 64);
  }

  // ---------------------------------------------------------------------
  // Single bits

  /** `Bitmap::new`: `(length >> 6) + 1` words, all zero. */
  function New(length: nat): (r: Bitmap)
    ensures Valid(r) && r.len == length
    ensures forall k :: 0 <= k < |r.words| ==> r.words[k] == 0
  {
    Bitmap(seq(WordCount(length), _ => 0), length)
  }

  /** `test_bit`: `word & (1 << (index & 63)) != 0`, which reads bit
      `index % 64` of word `index / 64`. */
  function TestBit(bm: Bitmap, index: nat): (r: bool)
    requires Valid(bm) && Addressable(bm, index)
    ensures r <==> Bit(bm.words[index / 64], index % 64)
  {
    MaskTest(bm.words[index / 64], index % 64);
    And(bm.words[index / 64], Pow2(index % 64)) != 0
  }

  /** A new bitmap has no bit set. */
  lemma NewIsClear(length: nat)
    ensures forall j: nat :: Addressable(New(length), j) ==> !TestBit(New(length), j)
  {
    forall j: nat | Addressable(New(length), j)
      ensures !TestBit(New(length), j)
    {
      BitZero(j % 64);
    }
  }

  /** `set_bit`: `word |= 1 << (index & 63)`. */
  function SetBit(bm: Bitmap, index: nat): (r: Bitmap)
    requires Valid(bm) && Addressable(bm, index)
    ensures Valid(r) && r.len == bm.len
  {
    var n := index / 64;
    SingleBitU64(index % 64);
    OrBound(bm.words[n], Pow2(index % 64), 64);
    bm.(words := bm.words[n := Or(bm.words[n], Pow2(index % 64))])
  }

  /** After `set_bit(index)` the bit is set and no other bit has changed. */
  lemma SetBitSpec(bm: Bitmap, index: nat)
    requires Valid(bm) && Addressable(bm, index)
    ensures TestBit(SetBit(bm, index), index)
    ensures forall j: nat :: Addressable(bm, j) && j != index ==>
      TestBit(SetBit(bm, index), j) == TestBit(bm, j)
  {
    var k := index % 64;
    BitOr(bm.words[index / 64], Pow2(k), k);
    BitPow2(k, k);
    forall j: nat | Addressable(bm, j) && j != index
      ensures TestBit(SetBit(bm, index), j) == TestBit(bm, j)
    {
      if j / 64 == index / 64 {
        BitOr(bm.words[index / 64], Pow2(k), j % 64);
        BitPow2(k, j % 64);
      }
    }
  }

  /** `clear_bit` as written: the mask `0 << (index & 63)` is zero, so the
      whole word holding the bit is cleared rather than the bit alone. */
  function ClearBitAsWritten(bm: Bitmap, index: nat): (r: Bitmap)
    requires Valid(bm) && Addressable(bm, index)
    ensures Valid(r) && r.len == bm.len
  {
    var n := index / 64;
    var mask := Shl(0, index % 64, 64);
    ShlZero(index % 64);
    bm.(words := bm.words[n := And(bm.words[n], mask)])
  }

  /** `0 << k` is zero. */
  lemma ShlZero(k: nat)
    ensures Shl(0, k, 64) == 0
  {
    assert 0 * Pow2(k) == 0;
  }

  /** The code as written clears bit `index` together with every other bit
      of its word, and leaves the other words alone. */
  lemma ClearBitAsWrittenSpec(bm: Bitmap, index: nat)
    requires Valid(bm) && Addressable(bm, index)
    ensures forall j: nat :: Addressable(bm, j) ==>
      (TestBit(ClearBitAsWritten(bm, index), j) <==> j / 64 != index / 64 && TestBit(bm, j))
  {
    var r := ClearBitAsWritten(bm, index);
    ShlZero(index % 64);
    assert r.words[index / 64] == 0;
    forall j: nat | Addressable(bm, j)
      ensures TestBit(r, j) <==> j / 64 != index / 64 && TestBit(bm, j)
    {
      BitZero(j % 64);
    }
  }

  /** Clearing bit 3 of a word in which bits 3 and 4 are set also loses bit 4. */
  lemma ClearBitLosesNeighbour()
    ensures TestBit(SetBit(SetBit(New(64), 3), 4), 4)
    ensures !TestBit(ClearBitAsWritten(SetBit(SetBit(New(64), 3), 4), 3), 4)
  {
    var bm := SetBit(SetBit(New(64), 3), 4);
    SetBitSpec(SetBit(New(64), 3), 4);
    ClearBitAsWrittenSpec(bm, 3);
  }

  /** `clear_bit` as evidently intended: `word &= !(1 << (index & 63))`. */
  function ClearBit(bm: Bitmap, index: nat): (r: Bitmap)
    requires Valid(bm) && Addressable(bm, index)
    ensures Valid(r) && r.len == bm.len
  {
    var n := index / 64;
    SingleBitU64(index % 64);
    AndBound(bm.words[n], Not(Pow2(index % 64), 64));
    bm.(words := bm.words[n := And(bm.words[n], Not(Pow2(index % 64), 64))])
  }

  /** After the corrected `clear_bit(index)` the bit is clear and no other bit has changed. */
  lemma ClearBitSpec(bm: Bitmap, index: nat)
    requires Valid(bm) && Addressable(bm, index)
    ensures !TestBit(ClearBit(bm, index), index)
    ensures forall j: nat :: Addressable(bm, j) && j != index ==>
      TestBit(ClearBit(bm, index), j) == TestBit(bm, j)
  {
    var k := index % 64;
    var m := Pow2(k);
    SingleBitU64(k);
    BitAnd(bm.words[index / 64], Not(m, 64), k);
    BitNot(m, 64, k);
    BitPow2(k, k);
    forall j: nat | Addressable(bm, j) && j != index
      ensures TestBit(ClearBit(bm, index), j) == TestBit(bm, j)
    {
      if j / 64 == index / 64 {
        BitAnd(bm.words[index / 64], Not(m, 64), j % 64);
        BitNot(m, 64, j % 64);
        BitPow2(k, j % 64);
      }
    }
  }

  /** Clearing a bit that was just set, and had been clear, restores the bitmap. */
  lemma ClearAfterSet(bm: Bitmap, index: nat)
    requires Valid(bm) && Addressable(bm, index)
    requires !TestBit(bm, index)
    ensures ClearBit(SetBit(bm, index), index) == bm
  {
    var n := index / 64;
    var k := index % 64;
    var w := bm.words[n];
    var m := Pow2(k);
    var w' := ClearBit(SetBit(bm, index), index).words[n];
    SingleBitU64(k);
    assert w' == And(Or(w, m), Not(m, 64));
    forall i: nat | i < 64 ensures Bit(w', i) == Bit(w, i) {
      BitAnd(Or(w, m), Not(m, 64), i);
      BitOr(w, m, i);
      BitNot(m, 64, i);
      BitPow2(k, i);
    }
    BitExt(w', w, 64);
    assert ClearBit(SetBit(bm, index), index).words == bm.words[n := w'];
  }

  // ---------------------------------------------------------------------
  // Distance to the next set bit

  /** `r` is the distance from `index` to the next set bit below `len`,
      or 0 when there is none. */
  predicate NextBitDistance(bm: Bitmap, index: nat, r: nat)
    requires Valid(bm)
  {
    if r == 0 then
      forall j: nat :: index < j < bm.len ==> !TestBit(bm, j)
    else
      index + r < bm.len && TestBit(bm, index + r) &&
      forall j: nat :: index < j < index + r ==> !TestBit(bm, j)
  }

  /** At most one distance fits the description. */
  lemma NextBitDistanceUnique(bm: Bitmap, index: nat, r1: nat, r2: nat)
    requires Valid(bm)
    requires NextBitDistance(bm, index, r1) && NextBitDistance(bm, index, r2)
    ensures r1 == r2
  {
  }

  /** `length_until_next_bit`: scans upwards from `index + 1` while below `len`. */
  method LengthUntilNextBit(bm: Bitmap, index: nat) returns (r: nat)
    requires Valid(bm)
    ensures NextBitDistance(bm, index, r)
  {
    var len := 1;
    while index + len < bm.len
      invariant len >= 1
      invariant forall j: nat :: index < j < index + len ==> j < bm.len && !TestBit(bm, j)
      decreases bm.len - index - len
    {
      if TestBit(bm, index + len) {
        return len;
      }
      len := len + 1;
    }
    return 0;
  }

  /** The unit test of the bitmap: one bit is set, tested and cleared, then
      bits 3, 4 and 6 are set and the distances are 1, 2, 1 and 0. */
  lemma UnitTestBitmap()
    ensures TestBit(SetBit(New(64), 3), 3)
    ensures !TestBit(ClearBitAsWritten(SetBit(New(64), 3), 3), 3)
    ensures var b := SetBit(SetBit(SetBit(ClearBitAsWritten(SetBit(New(64), 3), 3), 3), 4), 6);
      NextBitDistance(b, 3, 1) && NextBitDistance(b, 4, 2) &&
      NextBitDistance(b, 5, 1) && NextBitDistance(b, 6, 0)
  {
    var b0 := New(64);
    var b1 := SetBit(b0, 3);
    var b2 := ClearBitAsWritten(b1, 3);
    var b3 := SetBit(b2, 3);
    var b4 := SetBit(b3, 4);
    var b := SetBit(b4, 6);
    NewIsClear(64);
    SetBitSpec(b0, 3);
    ClearBitAsWrittenSpec(b1, 3);
    SetBitSpec(b2, 3);
    SetBitSpec(b3, 4);
    SetBitSpec(b4, 6);
    assert forall j: nat :: j < 64 * |b.words| ==> (TestBit(b, j) <==> j == 3 || j == 4 || j == 6);
  }

  // ---------------------------------------------------------------------
  // Multi-bit fields

  /** `set(index, value, length)`: ORs `value` into the word holding
      `index`, shifted to bit `index & 63`; when the field does not fit the
      remaining bits of the word, the bits that overflow are ORed into the
      low end of the next word. The debug assertions of the source are the
      first two preconditions. */
  function Set(bm: Bitmap, index: nat, value: nat, length: nat): (r: Bitmap)
    requires Valid(bm) && IsU64(value)
    requires index < bm.len && length <= 64
    requires SpanAddressable(bm, index, length)
    ensures Valid(r) && r.len == bm.len
  {
    var n := index / 64;
    var b := index % 64;
    var w := Shl(value, b, 64);
    OrBound(bm.words[n], w, 64);
    if length <= 64 - b then
      bm.(words := bm.words[n := Or(bm.words[n], w)])
    else
      var hi := Shr(value, 64 - b);
      QuotAtMost(value, Pow2(64 - b));
      OrBound(bm.words[n + 1], hi, 64);
      bm.(words := bm.words[n := Or(bm.words[n], w)][n + 1 := Or(bm.words[n + 1], hi)])
  }

  /** The word holding `index`: bit `j` of it gains bit `j - index` of `value`. */
  lemma SetLowWord(bm: Bitmap, index: nat, value: nat, length: nat, j: nat)
    requires Valid(bm) && IsU64(value)
    requires index < bm.len && length <= 64
    requires SpanAddressable(bm, index, length)
    requires Addressable(bm, j) && j / 64 == index / 64
    ensures TestBit(Set(bm, index, value, length), j) <==>
      TestBit(bm, j) || (j >= index && Bit(value, j - index))
  {
    var n := index / 64;
    var b := index % 64;
    BitOr(bm.words[n], Shl(value, b, 64), j % 64);
    BitShl(value, b, 64, j % 64);
  }

  /** The next word, written only when the field does not fit: its bit `j`
      gains bit `j - index` of `value`. */
  lemma SetHighWord(bm: Bitmap, index: nat, value: nat, length: nat, j: nat)
    requires Valid(bm) && IsU64(value)
    requires index < bm.len && length <= 64
    requires SpanAddressable(bm, index, length)
    requires length > 64 - index % 64
    requires Addressable(bm, j) && j / 64 == index / 64 + 1
    ensures j > index
    ensures TestBit(Set(bm, index, value, length), j) <==> TestBit(bm, j) || Bit(value, j - index)
  {
    var n := index / 64;
    var b := index % 64;
    BitOr(bm.words[n + 1], Shr(value, 64 - b), j % 64);
    BitShr(value, 64 - b, j % 64);
  }

  /** Every other word is left alone, and the field does not reach it. */
  lemma SetOtherWord(bm: Bitmap, index: nat, value: nat, length: nat, j: nat)
    requires Valid(bm) && IsU64(value)
    requires index < bm.len && length <= 64
    requires SpanAddressable(bm, index, length)
    requires Addressable(bm, j) && j / 64 != index / 64
    requires !(length > 64 - index % 64 && j / 64 == index / 64 + 1)
    ensures TestBit(Set(bm, index, value, length), j) == TestBit(bm, j)
    ensures !(index <= j < index + length)
  {
    assert Set(bm, index, value, length).words[j / 64] == bm.words[j / 64];
  }

  /** What `set` does to one bit `j`: it never clears a bit, and when
      `value` fits in `length` bits, bit `j` becomes set exactly when it
      was set or is the bit `j - index` of `value` inside the field. */
  lemma SetBitAt(bm: Bitmap, index: nat, value: nat, length: nat, j: nat)
    requires Valid(bm) && IsU64(value)
    requires index < bm.len && length <= 64
    requires SpanAddressable(bm, index, length)
    requires Addressable(bm, j)
    ensures TestBit(bm, j) ==> TestBit(Set(bm, index, value, length), j)
    ensures value < Pow2(length) ==>
      (TestBit(Set(bm, index, value, length), j) <==>
       TestBit(bm, j) || (index <= j < index + length && Bit(value, j - index)))
  {
    if j / 64 == index / 64 {
      SetLowWord(bm, index, value, length, j);
    } else if length > 64 - index % 64 && j / 64 == index / 64 + 1 {
      SetHighWord(bm, index, value, length, j);
    } else {
      SetOtherWord(bm, index, value, length, j);
    }
    if j >= index + length && value < Pow2(length) {
      BitHigh(value, length, j - index);
    }
  }

  /** `set` only ORs bits in: every bit set before is still set. */
  lemma SetOnlyAdds(bm: Bitmap, index: nat, value: nat, length: nat)
    requires Valid(bm) && IsU64(value)
    requires index < bm.len && length <= 64
    requires SpanAddressable(bm, index, length)
    ensures forall j: nat :: Addressable(bm, j) && TestBit(bm, j) ==>
      TestBit(Set(bm, index, value, length), j)
  {
    forall j: nat | Addressable(bm, j) && TestBit(bm, j)
      ensures TestBit(Set(bm, index, value, length), j)
    {
      SetBitAt(bm, index, value, length, j);
    }
  }

  /** With `value` below `2^length`, `set` ORs exactly the bits of `value`
      into the field `index .. index + length` and changes nothing else. */
  lemma SetFieldBits(bm: Bitmap, index: nat, value: nat, length: nat)
    requires Valid(bm) && IsU64(value)
    requires index < bm.len && length <= 64
    requires SpanAddressable(bm, index, length)
    requires value < Pow2(length)
    ensures forall j: nat :: Addressable(bm, j) ==>
      (TestBit(Set(bm, index, value, length), j) <==>
       TestBit(bm, j) || (index <= j < index + length && Bit(value, j - index)))
  {
    forall j: nat | Addressable(bm, j)
      ensures TestBit(Set(bm, index, value, length), j) <==>
        TestBit(bm, j) || (index <= j < index + length && Bit(value, j - index))
    {
      SetBitAt(bm, index, value, length, j);
    }
  }

  /** `get(index, length)` as written. The mask of the first branch is
      `(1 << length) - 1`, and shifting a `u64` by 64 overflows: a debug
      build panics, which the model reports as `None`. This happens exactly
      for a whole aligned word. */
  function Get(bm: Bitmap, index: nat, length: nat): (r: Option<nat>)
    requires Valid(bm) && index < bm.len && length <= 64
    requires SpanAddressable(bm, index, length)
    ensures r.None? <==> length == 64 && index % 64 == 0
  {
    var n := index / 64;
    var b := index % 64;
    if length <= 64 - b then
      if length == 64 then None
      else Some(And(Shr(bm.words[n], b), Ones(length)))
    else
      Some(Or(Shr(bm.words[n], b), Shl(And(bm.words[n + 1], Ones(b + length - 64)), 64 - b, 64)))
  }

  /** The `length` bits from bit `b` of `w` upwards, continued at the low
      end of `next` when they do not fit in `w`. */
  function ReadField(w: nat, next: nat, b: nat, length: nat): nat
    requires b < 64 && length <= 64
  {
    if length <= 64 - b then
      And(Shr(w, b), Ones(length))
    else
      Or(Shr(w, b), Shl(And(next, Ones(b + length - 64)), 64 - b, 64))
  }

  /** `get(index, length)` with a mask of `length` ones that is also right
      for a whole word, as `bits_ones` computes it. The next word is read
      only when the field spills into it. */
  function GetFixed(bm: Bitmap, index: nat, length: nat): (r: nat)
    requires Valid(bm) && index < bm.len && length <= 64
    requires SpanAddressable(bm, index, length)
  {
    var n := index / 64;
    var b := index % 64;
    if length <= 64 - b then ReadField(bm.words[n], 0, b, length)
    else ReadField(bm.words[n], bm.words[n + 1], b, length)
  }

  /** Apart from the whole aligned word, the code as written computes the corrected value. */
  lemma GetAgrees(bm: Bitmap, index: nat, length: nat)
    requires Valid(bm) && index < bm.len && length <= 64
    requires SpanAddressable(bm, index, length)
    requires !(length == 64 && index % 64 == 0)
    ensures Get(bm, index, length) == Some(GetFixed(bm, index, length))
  {
  }

  /** A field read from a `u64` has at most `length` bits. */
  lemma ReadFieldBound(w: nat, next: nat, b: nat, length: nat)
    requires IsU64(w) && b < 64 && length <= 64
    ensures ReadField(w, next, b, length) < Pow2(length)
  {
    if length <= 64 - b {
      AndBound(Shr(w, b), Ones(length));
    } else {
      SpillBelow(w, next, b, length);
    }
  }

  /** The value read across two words has at most `length` bits. */
  lemma SpillBelow(w: nat, next: nat, b: nat, length: nat)
    requires IsU64(w) && b < 64 && 64 - b < length <= 64
    ensures Or(Shr(w, b), Shl(And(next, Ones(b + length - 64)), 64 - b, 64)) < Pow2(length)
  {
    var c := b + length - 64;
    var mid := And(next, Ones(c));
    ShrBelow(w, b);
    Pow2Mono(64 - b, length);
    AndBound(next, Ones(c));
    ShlFieldBelow(mid, c, 64 - b);
    OrBound(Shr(w, b), Shl(mid, 64 - b, 64), length);
  }

  /** `x >> b` of a `u64` has at most `64 - b` bits. */
  lemma ShrBelow(x: nat, b: nat)
    requires IsU64(x) && b <= 64
    ensures Shr(x, b) < Pow2(64 - b)
  {
    Pow2Add(b, 64 - b);
    QuotLess(x, Pow2(b), Pow2(64 - b));
  }

  /** `m * p < q * p` when `m < q`. */
  lemma MulStrict(m: nat, q: nat, p: nat)
    requires m < q && p > 0
    ensures m * p < q * p
  {
    MulMonoLe(m + 1, q, p);
  }

  /** A `c`-bit value shifted left by `s` within a `u64` has at most `c + s` bits. */
  lemma ShlFieldBelow(m: nat, c: nat, s: nat)
    requires m < Pow2(c) && c + s <= 64
    ensures Shl(m, s, 64) < Pow2(c + s)
  {
    var prod := m * Pow2(s);
    MulStrict(m, Pow2(c), Pow2(s));
    Pow2Add(c, s);
    Pow2Mono(c + s, 64);
    ModBelow(prod, Pow2(64));
  }

  /** Bit `i` of a field is bit `b + i` of `w`, or of `next` past the end of `w`. */
  lemma ReadFieldBit(w: nat, next: nat, b: nat, length: nat, i: nat)
    requires IsU64(w) && b < 64 && length <= 64 && i < length
    ensures Bit(ReadField(w, next, b, length), i) <==>
      if b + i < 64 then Bit(w, b + i) else Bit(next, b + i - 64)
  {
    if length <= 64 - b {
      BitAnd(Shr(w, b), Ones(length), i);
      BitShr(w, b, i);
      BitOnes(length, i);
    } else {
      var c := b + length - 64;
      var mid := And(next, Ones(c));
      BitOr(Shr(w, b), Shl(mid, 64 - b, 64), i);
      BitShr(w, b, i);
      BitShl(mid, 64 - b, 64, i);
      if b + i >= 64 {
        BitHigh(w, 64, b + i);
        BitAnd(next, Ones(c), i - (64 - b));
        BitOnes(c, i - (64 - b));
      }
    }
  }

  /** Bit `i` of the corrected `get` is bit `index + i` of the bitmap. */
  lemma GetFixedBitAt(bm: Bitmap, index: nat, length: nat, i: nat)
    requires Valid(bm) && index < bm.len && length <= 64
    requires SpanAddressable(bm, index, length)
    requires i < length
    ensures Bit(GetFixed(bm, index, length), i) <==> TestBit(bm, index + i)
  {
    var n := index / 64;
    var b := index % 64;
    var next := if length <= 64 - b then 0 else bm.words[n + 1];
    var word := if b + i < 64 then n else n + 1;
    var bit := if b + i < 64 then b + i else b + i - 64;
    DivModUnique(index + i, 64, word, bit);
    assert TestBit(bm, index + i) <==> Bit(bm.words[word], bit);
    ReadFieldBit(bm.words[n], next, b, length, i);
  }

  /** The corrected `get` reads the field `index .. index + length`. */
  lemma GetFixedSpec(bm: Bitmap, index: nat, length: nat)
    requires Valid(bm) && index < bm.len && length <= 64
    requires SpanAddressable(bm, index, length)
    ensures GetFixed(bm, index, length) < Pow2(length)
    ensures forall i: nat :: i < length ==>
      (Bit(GetFixed(bm, index, length), i) <==> TestBit(bm, index + i))
  {
    var n := index / 64;
    var b := index % 64;
    ReadFieldBound(bm.words[n], if length <= 64 - b then 0 else bm.words[n + 1], b, length);
    forall i: nat | i < length
      ensures Bit(GetFixed(bm, index, length), i) <==> TestBit(bm, index + i)
    {
      GetFixedBitAt(bm, index, length, i);
    }
  }

  /** On a field whose bits are all clear, the corrected `get` returns the
      value `set` stored there, for every length up to a whole word. */
  lemma GetAfterSet(bm: Bitmap, index: nat, value: nat, length: nat)
    requires Valid(bm) && IsU64(value)
    requires index < bm.len && length <= 64
    requires SpanAddressable(bm, index, length)
    requires value < Pow2(length)
    requires forall j: nat :: index <= j < index + length ==> !TestBit(bm, j)
    ensures GetFixed(Set(bm, index, value, length), index, length) == value
  {
    var s := Set(bm, index, value, length);
    var r := GetFixed(s, index, length);
    GetFixedSpec(s, index, length);
    SetFieldBits(bm, index, value, length);
    forall i: nat | i < length ensures Bit(r, i) == Bit(value, i) {
      assert TestBit(s, index + i) <==> Bit(value, i);
    }
    BitExt(r, value, length);
  }

  /** The same round trip for the code as written, below a whole word. */
  lemma GetAfterSetAsWritten(bm: Bitmap, index: nat, value: nat, length: nat)
    requires Valid(bm) && IsU64(value)
    requires index < bm.len && length < 64
    requires SpanAddressable(bm, index, length)
    requires value < Pow2(length)
    requires forall j: nat :: index <= j < index + length ==> !TestBit(bm, j)
    ensures Get(Set(bm, index, value, length), index, length) == Some(value)
  {
    GetAfterSet(bm, index, value, length);
    GetAgrees(Set(bm, index, value, length), index, length);
  }

  /** Storing all ones in the first word and reading the whole word back:
      the code as written overflows its shift, the corrected `get` returns the word. */
  lemma GetWholeWord()
    ensures Get(Set(New(64), 0, Ones(64), 64), 0, 64).None?
    ensures GetFixed(Set(New(64), 0, Ones(64), 64), 0, 64) == Ones(64)
  {
    NewIsClear(64);
    GetAfterSet(New(64), 0, Ones(64), 64);
  }
}

=== FILE: gctype.dfy ===
/**
 Garbage-collector type descriptors and their reference offsets (`gctype.rs`).

 A `GcType` describes where an object of the type holds references: an
 optional non-repeating pattern at the start, then an optional pattern
 repeated `count` times. A pattern is either a map of offsets inside a
 block of `size` bytes, or a sequence of nested types laid out one after
 the other. `gen_ref_offsets` flattens this into the list of byte offsets
 of every reference.

 The Rust `append_offsets` methods push onto a vector and return the next
 base offset; here they return the pushed offsets and that base together,
 as an `Appended` value.
 */
module GcTypes {
  import opened Wrappers

  /** `POINTER_SIZE` on the 64-bit targets of the project. */
  const PointerSize: nat := 8

  /** `GCTYPE_INIT_ID`, the largest `u32`. */
  const InitId: nat := 0xFFFF_FFFF

  datatype GcType = GcType(
    id: nat,
    size: nat,
    alignment: nat,
    nonRepeatRefs: Option<RefPattern>,
    repeatRefs: Option<RepeatingRefPattern>)

  datatype RefPattern =
    | Map(offsets: seq<nat>, size: nat)
    | NestedType(types: seq<GcType>)

  datatype RepeatingRefPattern = RepeatingRefPattern(pattern: RefPattern, count: nat)

  /** The offsets an `append_offsets` call pushes, and the base it returns. */
  datatype Appended = Appended(offsets: seq<nat>, end: nat)

  /** Every offset moved up by `d`. */
  function Shift(xs: seq<nat>, d: nat): (r: seq<nat>)
    ensures |r| == |xs| && forall k :: 0 <= k < |xs| ==> r[k] == xs[k] + d
  {
    seq(|xs|, k requires 0 <= k < |xs| => xs[k] + d)
  }

  lemma ShiftConcat(a: seq<nat>, b: seq<nat>, d: nat)
    ensures Shift(a + b, d) == Shift(a, d) + Shift(b, d)
  {
  }

  lemma ShiftShift(a: seq<nat>, d: nat, e: nat)
    ensures Shift(Shift(a, d), e) == Shift(a, d + e)
  {
  }

  // ---------------------------------------------------------------------
  // Offsets

  /** `GCType::gen_ref_offsets`: the non-repeating part from offset 0, then
      the repeating part from where the non-repeating part ended. */
  function GenRefOffsets(t: GcType): seq<nat>
    decreases t
  {
    var front := if t.nonRepeatRefs.Some? then Append(t.nonRepeatRefs.value, 0) else Appended([], 0);
    if t.repeatRefs.Some? then front.offsets + Repeat(t.repeatRefs.value, 0, front.end).offsets
    else front.offsets
  }

  /** `RefPattern::append_offsets` from `base`. */
  function Append(p: RefPattern, base: nat): Appended
    decreases p, 1
  {
    match p
    case Map(offsets, size) => Appended(Shift(offsets, base), base + size)
    case NestedType(_) => Nested(p, 0, base)
  }

  /** The loop of the `NestedType` case from its `i`-th type on, with `base`
      the running offset at that point. */
  function Nested(p: RefPattern, i: nat, base: nat): Appended
    requires p.NestedType? && i <= |p.types|
    decreases p, 0, |p.types| - i
  {
    if i == |p.types| then Appended([], base)
    else
      var rest := Nested(p, i + 1, base + p.types[i].size);
      Appended(Shift(GenRefOffsets(p.types[i]), base) + rest.offsets, rest.end)
  }

  /** `RepeatingRefPattern::append_offsets` from its `k`-th repetition on. */
  function Repeat(rp: RepeatingRefPattern, k: nat, base: nat): Appended
    requires k <= rp.count
    decreases rp, rp.count - k
  {
    if k == rp.count then Appended([], base)
    else
      var once := Append(rp.pattern, base);
      var rest := Repeat(rp, k + 1, once.end);
      Appended(once.offsets + rest.offsets, rest.end)
  }

  // ---------------------------------------------------------------------
  // Constructors

  /** `GCType::new_reftype`: one pointer-sized slot holding a reference. */
  function NewRefType(): GcType
  {
    GcType(InitId, PointerSize, PointerSize, Some(Map([0], PointerSize)), None)
  }

  /** `GCType::new_noreftype` */
  function NewNoRefType(size: nat, align: nat): GcType
  {
    GcType(InitId, size, align, None, None)
  }

  /** The reference type has one reference, at offset 0, and is a pointer wide. */
  lemma NewRefTypeOffsets()
    ensures GenRefOffsets(NewRefType()) == [0]
    ensures NewRefType().size == PointerSize && NewRefType().id == InitId
  {
  }

  /** A type without patterns has no references. */
  lemma NewNoRefTypeOffsets(size: nat, align: nat)
    ensures GenRefOffsets(NewNoRefType(size, align)) == []
    ensures NewNoRefType(size, align).size == size
  {
  }

  // ---------------------------------------------------------------------
  // Shifting

  /** A pattern laid out from `base` gives the offsets and end it gives from
      0, moved up by `base`. */
  lemma {:induction false} AppendShift(p: RefPattern, base: nat)
    ensures Append(p, base) == Appended(Shift(Append(p, 0).offsets, base), Append(p, 0).end + base)
    decreases p, 1
  {
    match p
    case Map(offsets, size) =>
      ShiftShift(offsets, 0, base);
    case NestedType(_) =>
      NestedShift(p, 0, base);
  }

  lemma {:induction false} NestedShift(p: RefPattern, i: nat, base: nat)
    requires p.NestedType? && i <= |p.types|
    ensures Nested(p, i, base) == Appended(Shift(Nested(p, i, 0).offsets, base), Nested(p, i, 0).end + base)
    decreases p, 0, |p.types| - i
  {
    if i < |p.types| {
      var s := p.types[i].size;
      var g := GenRefOffsets(p.types[i]);
      var tail := Nested(p, i + 1, 0);
      NestedShift(p, i + 1, base + s);
      NestedShift(p, i + 1, s);
      ShiftShift(tail.offsets, s, base);
      ShiftShift(g, 0, base);
      ShiftConcat(Shift(g, 0), Shift(tail.offsets, s), base);
    }
  }

  /** `count - k` copies of `offs`, the `j`-th moved up by `base + j * stride`. */
  function Tiled(offs: seq<nat>, stride: nat, base: nat, n: nat): seq<nat>
    decreases n
  {
    if n == 0 then [] else Shift(offs, base) + Tiled(offs, stride, base + stride, n - 1)
  }

  /** A repeating pattern applies its pattern once per repetition, each copy
      starting where the previous one ended, so the copies are the offsets
      of one application from 0 tiled with that application's length as
      the stride. */
  lemma {:induction false} RepeatTiled(rp: RepeatingRefPattern, k: nat, base: nat)
    requires k <= rp.count
    ensures Repeat(rp, k, base).offsets ==
      Tiled(Append(rp.pattern, 0).offsets, Append(rp.pattern, 0).end, base, rp.count - k)
    ensures Repeat(rp, k, base).end == base + (rp.count - k) * Append(rp.pattern, 0).end
    decreases rp.count - k
  {
    if k < rp.count {
      var one := Append(rp.pattern, 0);
      AppendShift(rp.pattern, base);
      RepeatTiled(rp, k + 1, base + one.end);
      assert (rp.count - k) * one.end == one.end + (rp.count - (k + 1)) * one.end;
    }
  }

  /** `gen_ref_offsets` in closed form: the non-repeating offsets, then the
      repetitions tiled from where the non-repeating part ends. */
  lemma GenRefOffsetsTiled(t: GcType)
    requires t.repeatRefs.Some?
    ensures var front := if t.nonRepeatRefs.Some? then Append(t.nonRepeatRefs.value, 0) else Appended([], 0);
      var one := Append(t.repeatRefs.value.pattern, 0);
      GenRefOffsets(t) == front.offsets + Tiled(one.offsets, one.end, front.end, t.repeatRefs.value.count)
  {
    var front := if t.nonRepeatRefs.Some? then Append(t.nonRepeatRefs.value, 0) else Appended([], 0);
    RepeatTiled(t.repeatRefs.value, 0, front.end);
  }

  // ---------------------------------------------------------------------
  // Nested types, left to right

  /** The total size of `ts`, summed from the front. */
  function SumSizes(ts: seq<GcType>): nat
  {
    if |ts| == 0 then 0 else SumSizes(ts[..|ts| - 1]) + ts[|ts| - 1].size
  }

  /** What the loop of the `NestedType` case has pushed after visiting `ts`:
      each type's offsets moved up by `base` plus the sizes of the types before it. */
  function NestedRef(ts: seq<GcType>, base: nat): seq<nat>
  {
    if |ts| == 0 then []
    else NestedRef(ts[..|ts| - 1], base) + Shift(GenRefOffsets(ts[|ts| - 1]), base + SumSizes(ts[..|ts| - 1]))
  }

  /** The loop after its first `i` types: what is still to come, from the
      running base, completes the reference result. */
  lemma {:induction false} NestedLoop(p: RefPattern, i: nat, base: nat)
    requires p.NestedType? && i <= |p.types|
    ensures NestedRef(p.types, base) ==
      NestedRef(p.types[..i], base) + Nested(p, i, base + SumSizes(p.types[..i])).offsets
    ensures Nested(p, i, base + SumSizes(p.types[..i])).end == base + SumSizes(p.types)
    decreases |p.types| - i
  {
    var ts := p.types;
    if i == |ts| {
      assert ts[..i] == ts;
    } else {
      NestedLoop(p, i + 1, base);
      assert ts[..i + 1][..i] == ts[..i];
    }
  }

  /** The `NestedType` case pushes each nested type's offsets moved up by
      the running base, which advances by each type's size. */
  lemma NestedSpec(p: RefPattern, base: nat)
    requires p.NestedType?
    ensures Append(p, base) == Appended(NestedRef(p.types, base), base + SumSizes(p.types))
  {
    NestedLoop(p, 0, base);
    assert p.types[..0] == [];
  }

  // ---------------------------------------------------------------------
  // The unit tests

  /** `n` offsets from `start`, `step` apart. */
  function Progression(start: nat, step: nat, n: nat): (r: seq<nat>)
    ensures |r| == n
    ensures forall k :: 0 <= k < n ==> r[k] == start + k * step
    decreases n
  {
    if n == 0 then []
    else
      var rest := Progression(start + step, step, n - 1);
      assert forall k :: 1 <= k < n ==> start + step + (k - 1) * step == start + k * step;
      [start] + rest
  }

  lemma {:induction false} ProgressionAppend(start: nat, step: nat, m: nat, n: nat)
    ensures Progression(start, step, m) + Progression(start + m * step, step, n) ==
      Progression(start, step, m + n)
    decreases m
  {
    if m > 0 {
      ProgressionAppend(start + step, step, m - 1, n);
      assert start + step + (m - 1) * step == start + m * step;
    }
  }

  lemma {:induction false} ProgressionShift(start: nat, step: nat, n: nat, d: nat)
    ensures Shift(Progression(start, step, n), d) == Progression(start + d, step, n)
    decreases n
  {
    if n > 0 {
      ProgressionShift(start + step, step, n - 1, d);
      ShiftConcat([start], Progression(start + step, step, n - 1), d);
    }
  }

  /** Tiling `m` offsets `step` apart with stride `m * step` continues the progression. */
  lemma {:induction false} TiledProgression(step: nat, m: nat, base: nat, n: nat)
    ensures Tiled(Progression(0, step, m), m * step, base, n) == Progression(base, step, n * m)
    decreases n
  {
    if n > 0 {
      TiledProgression(step, m, base + m * step, n - 1);
      ProgressionShift(0, step, m, base);
      ProgressionAppend(base, step, m, (n - 1) * m);
      assert m + (n - 1) * m == n * m;
    }
  }

  /** The linked-list cell `struct {ref, int64}` of the tests. */
  const ListCell := GcType(0, 16, 8, Some(Map([0], 16)), None)

  /** An array of ten such cells. */
  const CellArray := GcType(1, 160, 8, None, Some(RepeatingRefPattern(Map([0], 16), 10)))

  /** An array of ten such arrays. */
  const CellMatrix := GcType(2, 1600, 8, None, Some(RepeatingRefPattern(NestedType([CellArray]), 10)))

  /** A plain `int64`. */
  const Int64 := GcType(3, 8, 8, None, None)

  /** An array of `n` reference slots 16 bytes apart. */
  lemma MapArrayOffsets(t: GcType, n: nat)
    requires t.nonRepeatRefs.None? && t.repeatRefs == Some(RepeatingRefPattern(Map([0], 16), n))
    ensures GenRefOffsets(t) == Progression(0, 16, n)
  {
    var one := Append(Map([0], 16), 0);
    assert one.offsets == Shift([0], 0) == [0] == Progression(0, 16, 1);
    GenRefOffsetsTiled(t);
    assert GenRefOffsets(t) == Tiled(one.offsets, one.end, 0, n);
    TiledProgression(16, 1, 0, n);
  }

  /** One nested array of `m` reference slots 16 bytes apart. */
  lemma NestedOnce(inner: GcType, m: nat)
    requires GenRefOffsets(inner) == Progression(0, 16, m) && inner.size == m * 16
    ensures Append(NestedType([inner]), 0) == Appended(Progression(0, 16, m), m * 16)
  {
    NestedSpec(NestedType([inner]), 0);
    assert [inner][..0] == [] && [inner][..1] == [inner];
    ProgressionShift(0, 16, m, 0);
  }

  /** An array of `n` arrays, each of `m` reference slots 16 bytes apart. */
  lemma NestedArrayOffsets(t: GcType, inner: GcType, n: nat, m: nat)
    requires GenRefOffsets(inner) == Progression(0, 16, m) && inner.size == m * 16
    requires t.nonRepeatRefs.None? && t.repeatRefs == Some(RepeatingRefPattern(NestedType([inner]), n))
    ensures GenRefOffsets(t) == Progression(0, 16, n * m)
  {
    NestedOnce(inner, m);
    GenRefOffsetsTiled(t);
    assert GenRefOffsets(t) == Tiled(Progression(0, 16, m), m * 16, 0, n);
    TiledProgression(16, m, 0, n);
  }

  /** The unit test `test_ref_offsets`: the list cell. */
  lemma UnitTestListCell()
    ensures GenRefOffsets(ListCell) == [0]
  {
    assert Shift([0], 0) == [0];
  }

  /** The unit test `test_ref_offsets`: the array of cells. */
  lemma UnitTestCellArray()
    ensures GenRefOffsets(CellArray) == [0, 16, 32, 48, 64, 80, 96, 112, 128, 144]
  {
    MapArrayOffsets(CellArray, 10);
    assert Progression(0, 16, 10) == [0, 16, 32, 48, 64, 80, 96, 112, 128, 144];
  }

  /** The unit test `test_ref_offsets`: the array of arrays, `(0..100).map(|x| x * 16)`. */
  lemma UnitTestCellMatrix()
    ensures GenRefOffsets(CellMatrix) == Progression(0, 16, 100)
  {
    MapArrayOffsets(CellArray, 10);
    NestedArrayOffsets(CellMatrix, CellArray, 10, 10);
  }

  /** The unit test `test_ref_offsets`: a plain integer. */
  lemma UnitTestInt64()
    ensures GenRefOffsets(Int64) == []
  {
  }
}

=== FILE: gen_mov_phi.dfy ===
/**
 The compiler pass that lowers block arguments to moves. A terminator that
 passes arguments to a destination block is redirected to a fresh
 intermediate block; that block copies the passed values into the target's
 parameters and branches on to the target without arguments.

 The pass works in two steps: a first step rewrites the last instruction of
 every block and collects one record per intermediate block needed; a second
 step builds and inserts those blocks. The VM's id source becomes an explicit
 counter threaded through both steps, and a panic or an unimplemented case
 is an `Err`. A one-way branch is not rewritten and keeps its arguments.

 The pass modelled as a whole is the corrected one: a C call stays a C
 call, where the source rebuilds it as a plain call, and the moves of an
 intermediate block go through fresh temporaries, where the source's
 sequential moves can lose a value. The source's versions of those two
 pieces are `RewriteTerminatorAsWritten` and `InsertBlockAsWritten`.

 A value is its id and an abstract type tag; two values are equal when both
 agree. A switch case key is carried as the text it is displayed as.
 */
module GenMovPhi {
  import opened Wrappers
  import opened Text
  import opened Headers

  datatype Value = Value(id: nat, ty: nat)

  datatype DestArg = Normal(index: nat) | Freshbound(index: nat)

  datatype Destination = Destination(target: Header, args: seq<DestArg>)

  datatype Resumption = Resumption(normalDest: Destination, exnDest: Destination)

  datatype InstKind =
    | Branch1(dest: Destination)
    | Branch2(cond: nat, trueDest: Destination, falseDest: Destination, trueProb: int)
    | Call(data: nat, resume: Resumption)
    | CCall(data: nat, resume: Resumption)
    | Switch(cond: nat, default: Destination, branches: seq<(String, Destination)>)
    | Watchpoint
    | WPBranch
    | SwapStackExc(stack: nat, isException: bool, args: seq<nat>, resume: Resumption)
    | ExnInstruction
    | Move(operand: nat)
    | Other(opcode: String)

  datatype Instruction = Instruction(hdr: Header, value: Option<seq<Value>>, ops: seq<Value>, v: InstKind)

  datatype TreeNode = InstNode(inst: Instruction) | ValueNode(val: Value)

  datatype BlockContent = BlockContent(args: seq<Value>, exnArg: Option<Value>, body: seq<TreeNode>,
                                       keepalives: Option<seq<Value>>)

  datatype Block = Block(hdr: Header, content: Option<BlockContent>)

  /** What the first step records for one intermediate block. */
  datatype Info = Info(blkId: nat, blkName: String, target: nat, fromArgs: seq<Value>)

  /** The records collected so far and the next id the VM hands out. */
  datatype Pending = Pending(infos: seq<Info>, next: nat)

  /** `q` is a later state than `p`: the records of `p` are kept, and every
      record added since names a block id handed out in between. */
  predicate Extends(p: Pending, q: Pending) {
    && |p.infos| <= |q.infos| && q.infos[..|p.infos|] == p.infos && p.next <= q.next
    && (forall i :: |p.infos| <= i < |q.infos| ==> p.next <= q.infos[i].blkId < q.next && |q.infos[i].fromArgs| > 0)
    && (forall i, j :: |p.infos| <= i < j < |q.infos| ==> q.infos[i].blkId < q.infos[j].blkId)
  }

  lemma ExtendsTrans(p: Pending, q: Pending, r: Pending)
    requires Extends(p, q) && Extends(q, r)
    ensures Extends(p, r)
  {
    assert r.infos[..|p.infos|] == r.infos[..|q.infos|][..|p.infos|];
    forall i | |p.infos| <= i < |q.infos| ensures r.infos[i] == q.infos[i] {
      assert r.infos[..|q.infos|][i] == r.infos[i];
    }
  }

  /** The name text of a header. The source interpolates `target.name()`,
      an optional name, into the new block's name; here a named target
      contributes its name and an unnamed one contributes nothing. */
  function NameText(h: Header): (s: String)
    ensures h.name.Some? ==> s == h.name.value
    ensures h.name.None? ==> s == []
  {
    match h.name
    case Some(n) => n
    case None => []
  }

  /** The name of an intermediate block: the instruction, the role of the
      destination, the new block's id and the target's name. */
  function IntermediateName(inst: String, role: String, id: nat, target: Header): (s: String)
    ensures StartsWith(s, inst + ":" + role + ":#")
  {
    inst + ":" + role + ":#" + NatToDecimal(id) + "-#" + NameText(target)
  }

  // ---------------------------------------------------------------------
  // First step: destinations
  // ---------------------------------------------------------------------

  /** The operands passed by a destination's arguments; a fresh-bound
      argument is not implemented and an index past the operands panics. */
  function FromArgs(args: seq<DestArg>, ops: seq<Value>): (r: Result<seq<Value>, String>)
    ensures r.Ok? <==> forall k :: 0 <= k < |args| ==> args[k].Normal? && args[k].index < |ops|
    ensures r.Ok? ==> |r.value| == |args| && forall k :: 0 <= k < |args| ==> r.value[k] == ops[args[k].index]
    decreases |args|
  {
    if |args| == 0 then Ok([])
    else
      match args[0]
      case Freshbound(_) => Err("fresh-bound arguments are not implemented")
      case Normal(i) =>
        if i >= |ops| then Err("operand index out of bounds")
        else
          match FromArgs(args[1..], ops)
          case Err(e) => Err(e)
          case Ok(rest) => Ok([ops[i]] + rest)
  }

  /** A destination without arguments is kept; one with arguments is replaced
      by a fresh, argument-less destination whose intermediate block is
      recorded. */
  function ProcessDest(dest: Destination, p: Pending, ops: seq<Value>, inst: String, role: String)
    : (r: Result<(Destination, Pending), String>)
    ensures |dest.args| == 0 ==> r == Ok((dest, p))
    ensures |dest.args| > 0 ==> (r.Ok? <==> FromArgs(dest.args, ops).Ok?)
    ensures r.Ok? ==> Extends(p, r.value.1)
    ensures |dest.args| > 0 && r.Ok? ==>
      var name := IntermediateName(inst, role, p.next, dest.target);
      && r.value.0 == Destination(Named(p.next, name), [])
      && r.value.1 == Pending(p.infos + [Info(p.next, name, dest.target.id, FromArgs(dest.args, ops).value)], p.next + 1)
  {
    if |dest.args| == 0 then Ok((dest, p))
    else
      match FromArgs(dest.args, ops)
      case Err(e) => Err(e)
      case Ok(from) =>
        var id := p.next;
        var name := IntermediateName(inst, role, id, dest.target);
        Ok((Destination(Named(id, name), []), Pending(p.infos + [Info(id, name, dest.target.id, from)], id + 1)))
  }

  /** A successful `ProcessDest` leaves a destination without arguments, and
      records a block exactly when the destination had arguments; the record
      carries `ops[i]` for each argument `Normal(i)`, in order. */
  lemma ProcessDestSpec(dest: Destination, p: Pending, ops: seq<Value>, inst: String, role: String)
    requires ProcessDest(dest, p, ops, inst, role).Ok?
    ensures var (d, q) := ProcessDest(dest, p, ops, inst, role).value;
      && |d.args| == 0
      && (|q.infos| == |p.infos| + 1 <==> |dest.args| > 0)
      && (|dest.args| == 0 ==> q == p && d == dest)
      && q.infos[..|p.infos|] == p.infos
      && (|dest.args| > 0 ==>
            && q.infos[|p.infos|].target == dest.target.id && q.infos[|p.infos|].blkId == p.next
            && d.target.id == p.next && q.next == p.next + 1
            && |q.infos[|p.infos|].fromArgs| == |dest.args|
            && forall k :: 0 <= k < |dest.args| ==> q.infos[|p.infos|].fromArgs[k] == ops[dest.args[k].index])
  {
  }

  /** Processes the case destinations of a switch in order. */
  function ProcessCases(cases: seq<(String, Destination)>, p: Pending, ops: seq<Value>, inst: String)
    : (r: Result<(seq<(String, Destination)>, Pending), String>)
    ensures r.Ok? <==> forall k :: 0 <= k < |cases| ==> |cases[k].1.args| == 0 || FromArgs(cases[k].1.args, ops).Ok?
    ensures r.Ok? ==> |r.value.0| == |cases| && Extends(p, r.value.1)
    ensures r.Ok? ==> forall k :: 0 <= k < |cases| ==> r.value.0[k].0 == cases[k].0 && |r.value.0[k].1.args| == 0
    decreases |cases|
  {
    if |cases| == 0 then Ok(([], p))
    else
      match ProcessDest(cases[0].1, p, ops, inst, "case_" + cases[0].0)
      case Err(e) => Err(e)
      case Ok((d, q)) =>
        match ProcessCases(cases[1..], q, ops, inst)
        case Err(e) => Err(e)
        case Ok((rest, q')) =>
          ExtendsTrans(p, q, q');
          Ok(([(cases[0].0, d)] + rest, q'))
  }

  function ProcessResumption(res: Resumption, p: Pending, ops: seq<Value>, inst: String)
    : (r: Result<(Resumption, Pending), String>)
    ensures r.Ok? ==> |r.value.0.normalDest.args| == 0 && |r.value.0.exnDest.args| == 0
    ensures r.Ok? <==>
      ((|res.normalDest.args| == 0 || FromArgs(res.normalDest.args, ops).Ok?)
       && (|res.exnDest.args| == 0 || FromArgs(res.exnDest.args, ops).Ok?))
    ensures r.Ok? ==> Extends(p, r.value.1)
    ensures r.Ok? ==> r.value.1.next == p.next + (if |res.normalDest.args| > 0 then 1 else 0)
                                              + (if |res.exnDest.args| > 0 then 1 else 0)
  {
    match ProcessDest(res.normalDest, p, ops, inst, "norm")
    case Err(e) => Err(e)
    case Ok((nd, q)) =>
      match ProcessDest(res.exnDest, q, ops, inst, "exc")
      case Err(e) => Err(e)
      case Ok((ed, q')) =>
        ExtendsTrans(p, q, q');
        Ok((Resumption(nd, ed), q'))
  }

  /** No destination the pass rewrites passes arguments. A one-way branch
      is not rewritten and keeps its arguments. */
  predicate ArgumentFree(v: InstKind) {
    match v
    case Branch1(_) => true
    case Branch2(_, t, f, _) => |t.args| == 0 && |f.args| == 0
    case Call(_, res) => |res.normalDest.args| == 0 && |res.exnDest.args| == 0
    case CCall(_, res) => |res.normalDest.args| == 0 && |res.exnDest.args| == 0
    case Switch(_, d, cases) => |d.args| == 0 && forall k :: 0 <= k < |cases| ==> |cases[k].1.args| == 0
    case SwapStackExc(_, _, _, res) => |res.normalDest.args| == 0 && |res.exnDest.args| == 0
    case _ => true
  }

  /** Every destination's arguments name operands of the instruction. */
  predicate ArgumentsResolve(inst: Instruction) {
    var ok := (d: Destination) => |d.args| == 0 || FromArgs(d.args, inst.ops).Ok?;
    match inst.v
    case Branch2(_, t, f, _) => ok(t) && ok(f)
    case Call(_, res) => ok(res.normalDest) && ok(res.exnDest)
    case CCall(_, res) => ok(res.normalDest) && ok(res.exnDest)
    case Switch(_, d, cases) => ok(d) && forall k :: 0 <= k < |cases| ==> ok(cases[k].1)
    case SwapStackExc(_, _, _, res) => ok(res.normalDest) && ok(res.exnDest)
    case _ => true
  }

  /** The kind of instruction, ignoring its operands and destinations. */
  function Opcode(v: InstKind): (n: nat)
  {
    match v
    case Branch1(_) => 0
    case Branch2(_, _, _, _) => 1
    case Call(_, _) => 2
    case CCall(_, _) => 3
    case Switch(_, _, _) => 4
    case Watchpoint => 5
    case WPBranch => 6
    case SwapStackExc(_, _, _, _) => 7
    case ExnInstruction => 8
    case Move(_) => 9
    case Other(_) => 10
  }

  /** Rewrites a block's last instruction: each destination of a two-way
      branch, a call, a C call, a switch or an exceptional stack swap goes
      through `ProcessDest`, and any other instruction is kept as it is. A C
      call stays a C call. */
  function RewriteTerminator(inst: Instruction, p: Pending): (r: Result<(Instruction, Pending), String>)
    ensures r.Ok? ==> r.value.0.hdr == inst.hdr && r.value.0.ops == inst.ops && r.value.0.value == inst.value
    ensures r.Ok? ==> Opcode(r.value.0.v) == Opcode(inst.v) && ArgumentFree(r.value.0.v) && Extends(p, r.value.1)
    ensures inst.v.Branch1? || inst.v.Move? || inst.v.Other? ==> r == Ok((inst, p))
  {
    var name := NameText(inst.hdr);
    var ops := inst.ops;
    match inst.v
    case Branch2(cond, t, f, prob) =>
      (match ProcessDest(t, p, ops, name, "true")
       case Err(e) => Err(e)
       case Ok((t', q)) =>
         match ProcessDest(f, q, ops, name, "false")
         case Err(e) => Err(e)
         case Ok((f', q')) =>
           ExtendsTrans(p, q, q');
           Ok((inst.(v := Branch2(cond, t', f', prob)), q')))
    case Call(data, res) =>
      (match ProcessResumption(res, p, ops, name)
       case Err(e) => Err(e)
       case Ok((res', q)) => Ok((inst.(v := Call(data, res')), q)))
    case CCall(data, res) =>
      (match ProcessResumption(res, p, ops, name)
       case Err(e) => Err(e)
       case Ok((res', q)) => Ok((inst.(v := CCall(data, res')), q)))
    case Switch(cond, d, cases) =>
      (match ProcessDest(d, p, ops, name, "default")
       case Err(e) => Err(e)
       case Ok((d', q)) =>
         match ProcessCases(cases, q, ops, name)
         case Err(e) => Err(e)
         case Ok((cases', q')) =>
           ExtendsTrans(p, q, q');
           Ok((inst.(v := Switch(cond, d', cases')), q')))
    case Watchpoint => Err("watchpoint is not implemented")
    case WPBranch => Err("watchpoint branch is not implemented")
    case SwapStackExc(stack, isExc, args, res) =>
      (match ProcessResumption(res, p, ops, name)
       case Err(e) => Err(e)
       case Ok((res', q)) => Ok((inst.(v := SwapStackExc(stack, isExc, args, res')), q)))
    case ExnInstruction => Err("exception instruction is not implemented")
    case _ => Ok((inst, p))
  }

  /** The rewrite fails exactly on the instructions not implemented and on
      a destination whose arguments do not name operands. */
  lemma RewriteTerminatorFails(inst: Instruction, p: Pending)
    ensures RewriteTerminator(inst, p).Err? <==>
      (inst.v.Watchpoint? || inst.v.WPBranch? || inst.v.ExnInstruction? || !ArgumentsResolve(inst))
  {
    var name := NameText(inst.hdr);
    match inst.v
    case Switch(_, _, _) => SwitchFails(inst, p);
    case Branch2(_, t, f, _) =>
      if ProcessDest(t, p, inst.ops, name, "true").Ok? {
        var q := ProcessDest(t, p, inst.ops, name, "true").value.1;
        assert ProcessDest(f, q, inst.ops, name, "false").Ok? <==> |f.args| == 0 || FromArgs(f.args, inst.ops).Ok?;
      }
    case _ =>
  }

  lemma SwitchFails(inst: Instruction, p: Pending)
    requires inst.v.Switch?
    ensures RewriteTerminator(inst, p).Err? <==> !ArgumentsResolve(inst)
  {
    var name := NameText(inst.hdr);
    var d, cases := inst.v.default, inst.v.branches;
    if ProcessDest(d, p, inst.ops, name, "default").Ok? {
      var q := ProcessDest(d, p, inst.ops, name, "default").value.1;
      assert ProcessCases(cases, q, inst.ops, name).Ok? <==>
        forall k :: 0 <= k < |cases| ==> |cases[k].1.args| == 0 || FromArgs(cases[k].1.args, inst.ops).Ok?;
    }
  }

  // ---------------------------------------------------------------------
  // Which record each rewritten destination refers to
  // ---------------------------------------------------------------------

  /** `d` is what the first step made of `orig`: the same destination when
      `orig` passes no arguments, and otherwise an argument-less destination
      to a block recorded in `infos`, whose record names the original target
      and carries the operands passed. */
  predicate Redirected(orig: Destination, d: Destination, ops: seq<Value>, infos: seq<Info>) {
    if |orig.args| == 0 then d == orig
    else
      && |d.args| == 0 && FromArgs(orig.args, ops).Ok?
      && exists k :: 0 <= k < |infos| && infos[k] == Info(d.target.id, NameText(d.target), orig.target.id, FromArgs(orig.args, ops).value)
  }

  predicate ResumptionRedirected(orig: Resumption, res: Resumption, ops: seq<Value>, infos: seq<Info>) {
    Redirected(orig.normalDest, res.normalDest, ops, infos) && Redirected(orig.exnDest, res.exnDest, ops, infos)
  }

  /** The terminator `v` became `w`: the same kind with the same other
      fields, each destination redirected. */
  predicate KindRedirected(v: InstKind, w: InstKind, ops: seq<Value>, infos: seq<Info>) {
    match v
    case Branch2(cond, t, f, prob) =>
      w.Branch2? && w.cond == cond && w.trueProb == prob
      && Redirected(t, w.trueDest, ops, infos) && Redirected(f, w.falseDest, ops, infos)
    case Call(data, res) => w.Call? && w.data == data && ResumptionRedirected(res, w.resume, ops, infos)
    case CCall(data, res) => w.CCall? && w.data == data && ResumptionRedirected(res, w.resume, ops, infos)
    case Switch(cond, d, cases) =>
      && w.Switch? && w.cond == cond && Redirected(d, w.default, ops, infos) && |w.branches| == |cases|
      && forall k :: 0 <= k < |cases| ==> w.branches[k].0 == cases[k].0 && Redirected(cases[k].1, w.branches[k].1, ops, infos)
    case SwapStackExc(stack, isExc, args, res) =>
      w.SwapStackExc? && w.stack == stack && w.isException == isExc && w.args == args
      && ResumptionRedirected(res, w.resume, ops, infos)
    case _ => w == v
  }

  /** Records added later do not change what a destination refers to. */
  lemma RedirectedExtends(orig: Destination, d: Destination, ops: seq<Value>, infos: seq<Info>, infos': seq<Info>)
    requires Redirected(orig, d, ops, infos)
    requires |infos| <= |infos'| && infos'[..|infos|] == infos
    ensures Redirected(orig, d, ops, infos')
  {
    if |orig.args| > 0 {
      var k :| 0 <= k < |infos| && infos[k] == Info(d.target.id, NameText(d.target), orig.target.id, FromArgs(orig.args, ops).value);
      assert infos'[..|infos|][k] == infos'[k];
    }
  }

  lemma {:induction false} CasesRedirectedExtends(cases: seq<(String, Destination)>, cases': seq<(String, Destination)>,
                                                  ops: seq<Value>, infos: seq<Info>, infos': seq<Info>)
    requires |cases'| == |cases| && forall k :: 0 <= k < |cases| ==> Redirected(cases[k].1, cases'[k].1, ops, infos)
    requires |infos| <= |infos'| && infos'[..|infos|] == infos
    ensures forall k :: 0 <= k < |cases| ==> Redirected(cases[k].1, cases'[k].1, ops, infos')
  {
    forall k | 0 <= k < |cases| ensures Redirected(cases[k].1, cases'[k].1, ops, infos') {
      RedirectedExtends(cases[k].1, cases'[k].1, ops, infos, infos');
    }
  }

  lemma KindRedirectedExtends(v: InstKind, w: InstKind, ops: seq<Value>, infos: seq<Info>, infos': seq<Info>)
    requires KindRedirected(v, w, ops, infos)
    requires |infos| <= |infos'| && infos'[..|infos|] == infos
    ensures KindRedirected(v, w, ops, infos')
  {
    match v
    case Branch2(_, t, f, _) =>
      RedirectedExtends(t, w.trueDest, ops, infos, infos');
      RedirectedExtends(f, w.falseDest, ops, infos, infos');
    case Call(_, res) =>
      RedirectedExtends(res.normalDest, w.resume.normalDest, ops, infos, infos');
      RedirectedExtends(res.exnDest, w.resume.exnDest, ops, infos, infos');
    case CCall(_, res) =>
      RedirectedExtends(res.normalDest, w.resume.normalDest, ops, infos, infos');
      RedirectedExtends(res.exnDest, w.resume.exnDest, ops, infos, infos');
    case Switch(_, d, cases) =>
      RedirectedExtends(d, w.default, ops, infos, infos');
      CasesRedirectedExtends(cases, w.branches, ops, infos, infos');
    case SwapStackExc(_, _, _, res) =>
      RedirectedExtends(res.normalDest, w.resume.normalDest, ops, infos, infos');
      RedirectedExtends(res.exnDest, w.resume.exnDest, ops, infos, infos');
    case _ =>
  }

  /** `ProcessDest` redirects its destination to the record it adds. */
  lemma ProcessDestRedirects(dest: Destination, p: Pending, ops: seq<Value>, inst: String, role: String)
    requires ProcessDest(dest, p, ops, inst, role).Ok?
    ensures var (d, q) := ProcessDest(dest, p, ops, inst, role).value; Redirected(dest, d, ops, q.infos)
  {
    var (d, q) := ProcessDest(dest, p, ops, inst, role).value;
    if |dest.args| > 0 {
      var k := |p.infos|;
      assert q.infos[k] == Info(d.target.id, NameText(d.target), dest.target.id, FromArgs(dest.args, ops).value);
    }
  }

  lemma {:induction false} ProcessCasesRedirects(cases: seq<(String, Destination)>, p: Pending, ops: seq<Value>, inst: String)
    requires ProcessCases(cases, p, ops, inst).Ok?
    ensures var (cases', q) := ProcessCases(cases, p, ops, inst).value;
      forall k :: 0 <= k < |cases| ==> Redirected(cases[k].1, cases'[k].1, ops, q.infos)
    decreases |cases|
  {
    if |cases| > 0 {
      var (d, q) := ProcessDest(cases[0].1, p, ops, inst, "case_" + cases[0].0).value;
      var (rest, q') := ProcessCases(cases[1..], q, ops, inst).value;
      ProcessDestRedirects(cases[0].1, p, ops, inst, "case_" + cases[0].0);
      RedirectedExtends(cases[0].1, d, ops, q.infos, q'.infos);
      ProcessCasesRedirects(cases[1..], q, ops, inst);
      var cases' := ProcessCases(cases, p, ops, inst).value.0;
      assert cases' == [(cases[0].0, d)] + rest;
      forall k | 0 < k < |cases| ensures Redirected(cases[k].1, cases'[k].1, ops, q'.infos) {
        assert cases[1..][k - 1] == cases[k];
      }
    }
  }

  lemma ProcessResumptionRedirects(res: Resumption, p: Pending, ops: seq<Value>, inst: String)
    requires ProcessResumption(res, p, ops, inst).Ok?
    ensures var (res', q) := ProcessResumption(res, p, ops, inst).value; ResumptionRedirected(res, res', ops, q.infos)
  {
    var (nd, q) := ProcessDest(res.normalDest, p, ops, inst, "norm").value;
    var (ed, q') := ProcessDest(res.exnDest, q, ops, inst, "exc").value;
    ProcessDestRedirects(res.normalDest, p, ops, inst, "norm");
    ProcessDestRedirects(res.exnDest, q, ops, inst, "exc");
    RedirectedExtends(res.normalDest, nd, ops, q.infos, q'.infos);
  }

  /** Every destination of the rewritten terminator refers to the record
      made for it, or is the original when it passed no arguments. */
  lemma RewriteTerminatorRedirects(inst: Instruction, p: Pending)
    requires RewriteTerminator(inst, p).Ok?
    ensures var (i, q) := RewriteTerminator(inst, p).value; KindRedirected(inst.v, i.v, inst.ops, q.infos)
  {
    var name := NameText(inst.hdr);
    var ops := inst.ops;
    match inst.v
    case Branch2(_, t, f, _) =>
      var (t', q) := ProcessDest(t, p, ops, name, "true").value;
      var (f', q') := ProcessDest(f, q, ops, name, "false").value;
      ProcessDestRedirects(t, p, ops, name, "true");
      ProcessDestRedirects(f, q, ops, name, "false");
      RedirectedExtends(t, t', ops, q.infos, q'.infos);
    case Call(_, res) => ProcessResumptionRedirects(res, p, ops, name);
    case CCall(_, res) => ProcessResumptionRedirects(res, p, ops, name);
    case Switch(_, d, cases) =>
      var (d', q) := ProcessDest(d, p, ops, name, "default").value;
      var (cases', q') := ProcessCases(cases, q, ops, name).value;
      ProcessDestRedirects(d, p, ops, name, "default");
      RedirectedExtends(d, d', ops, q.infos, q'.infos);
      ProcessCasesRedirects(cases, q, ops, name);
    case SwapStackExc(_, _, _, res) => ProcessResumptionRedirects(res, p, ops, name);
    case _ =>
  }

  /** The rewrite as the source writes it: identical, except that a C call
      comes out as an ordinary call. */
  function RewriteTerminatorAsWritten(inst: Instruction, p: Pending): (r: Result<(Instruction, Pending), String>)
    ensures inst.v.CCall? ==> r == match RewriteTerminator(inst, p)
      case Ok((i, q)) => Ok((i.(v := Call(i.v.data, i.v.resume)), q))
      case Err(e) => Err(e)
    ensures !inst.v.CCall? ==> r == RewriteTerminator(inst, p)
  {
    match RewriteTerminator(inst, p)
    case Err(e) => Err(e)
    case Ok((i, q)) => if i.v.CCall? then Ok((i.(v := Call(i.v.data, i.v.resume)), q)) else Ok((i, q))
  }

  /** A C call without arguments to pass is rewritten as written into a
      different instruction: an ordinary call. */
  lemma CCallBecomesCall(hdr: Header, data: nat, res: Resumption, p: Pending)
    requires |res.normalDest.args| == 0 && |res.exnDest.args| == 0
    ensures var inst := Instruction(hdr, None, [], CCall(data, res));
      && RewriteTerminatorAsWritten(inst, p) == Ok((inst.(v := Call(data, res)), p))
      && Opcode(RewriteTerminatorAsWritten(inst, p).value.0.v) != Opcode(inst.v)
      && RewriteTerminator(inst, p) == Ok((inst, p))
  {
  }

  /** Rewrites a block body: every instruction but the last is copied, and
      the last, which must be an instruction, is rewritten. An empty body
      has no last instruction. */
  function RewriteBody(body: seq<TreeNode>, p: Pending): (r: Result<(seq<TreeNode>, Pending), String>)
    ensures r.Ok? ==> |body| > 0 && body[|body| - 1].InstNode?
    ensures r.Ok? ==> |r.value.0| == |body| && r.value.0[..|body| - 1] == body[..|body| - 1]
    ensures r.Ok? ==>
      (r.value.0[|body| - 1].InstNode? &&
       RewriteTerminator(body[|body| - 1].inst, p) == Ok((r.value.0[|body| - 1].inst, r.value.1)))
  {
    if |body| == 0 then Err("block without a terminator")
    else
      match body[|body| - 1]
      case ValueNode(_) => Err("expect a terminal instruction")
      case InstNode(inst) =>
        match RewriteTerminator(inst, p)
        case Err(e) => Err(e)
        case Ok((inst', q)) => Ok((body[..|body| - 1] + [InstNode(inst')], q))
  }

  /** The block ends in an instruction none of whose destinations the pass
      rewrites passes arguments. */
  predicate Lowered(b: Block) {
    && b.content.Some? && |b.content.value.body| > 0
    && var last := b.content.value.body[|b.content.value.body| - 1];
       last.InstNode? && ArgumentFree(last.inst.v)
  }

  /** The first step over blocks `order`, in that order (the order of the
      function's block table). */
  function FirstStep(blocks: map<nat, Block>, order: seq<nat>, p: Pending): (r: Result<(map<nat, Block>, Pending), String>)
    requires forall k :: 0 <= k < |order| ==> order[k] in blocks
    ensures r.Ok? ==> r.value.0.Keys == blocks.Keys && Extends(p, r.value.1)
    ensures r.Ok? ==> forall id :: id in blocks ==> SameShape(r.value.0[id], blocks[id])
    ensures r.Ok? ==> forall id :: id in blocks && id !in order ==> r.value.0[id] == blocks[id]
    ensures r.Ok? ==> forall k :: 0 <= k < |order| ==> Lowered(r.value.0[order[k]])
    decreases |order|
  {
    if |order| == 0 then Ok((blocks, p))
    else
      var b := blocks[order[0]];
      match b.content
      case None => Err("block without content")
      case Some(c) =>
        match RewriteBody(c.body, p)
        case Err(e) => Err(e)
        case Ok((body, q)) =>
          var nb := b.(content := Some(c.(body := body)));
          match FirstStep(blocks[order[0] := nb], order[1..], q)
          case Err(e) => Err(e)
          case Ok((blocks', q')) =>
            RewrittenBlockLowered(b, p);
            FirstStepCombine(blocks, order, nb, blocks');
            ExtendsTrans(p, q, q');
            Ok((blocks', q'))
  }

  /** A block whose body is rewritten keeps its shape and ends in an
      argument-free terminator. */
  lemma RewrittenBlockLowered(b: Block, p: Pending)
    requires b.content.Some? && RewriteBody(b.content.value.body, p).Ok?
    ensures var nb := b.(content := Some(b.content.value.(body := RewriteBody(b.content.value.body, p).value.0)));
      Lowered(nb) && SameShape(nb, b)
  {
  }

  /** What the first step over `order[1..]` gives, after block `order[0]` was
      replaced by its lowered rewrite `nb`, is what the first step over
      `order` promises. */
  lemma FirstStepCombine(blocks: map<nat, Block>, order: seq<nat>, nb: Block, blocks': map<nat, Block>)
    requires |order| > 0 && forall k :: 0 <= k < |order| ==> order[k] in blocks
    requires SameShape(nb, blocks[order[0]]) && Lowered(nb)
    requires var mid := blocks[order[0] := nb];
      && blocks'.Keys == mid.Keys
      && (forall id :: id in mid ==> SameShape(blocks'[id], mid[id]))
      && (forall id :: id in mid && id !in order[1..] ==> blocks'[id] == mid[id])
      && (forall k :: 1 <= k < |order| ==> Lowered(blocks'[order[k]]))
    ensures blocks'.Keys == blocks.Keys
    ensures forall id :: id in blocks ==> SameShape(blocks'[id], blocks[id])
    ensures forall id :: id in blocks && id !in order ==> blocks'[id] == blocks[id]
    ensures forall k :: 0 <= k < |order| ==> Lowered(blocks'[order[k]])
  {
    var mid := blocks[order[0] := nb];
    if order[0] !in order[1..] {
      assert blocks'[order[0]] == nb;
    }
    forall id | id in blocks && id !in order ensures blocks'[id] == blocks[id] {
      assert id !in order[1..];
    }
  }

  /** Two blocks with the same header, parameters and exception argument. */
  predicate SameShape(a: Block, b: Block) {
    && a.hdr == b.hdr && a.content.Some? == b.content.Some?
    && (a.content.Some? ==> a.content.value.args == b.content.value.args && a.content.value.exnArg == b.content.value.exnArg)
  }

  /** `b'` is `b` with only its last instruction rewritten, each destination
      of it redirected as recorded in `infos`. */
  predicate BlockRewritten(b: Block, b': Block, infos: seq<Info>) {
    && b.content.Some? && b'.content.Some?
    && var body, body' := b.content.value.body, b'.content.value.body;
       && |body| > 0 && |body'| == |body| && body'[..|body| - 1] == body[..|body| - 1]
       && body[|body| - 1].InstNode? && body'[|body| - 1].InstNode?
       && var i, i' := body[|body| - 1].inst, body'[|body| - 1].inst;
          i'.hdr == i.hdr && i'.ops == i.ops && i'.value == i.value && KindRedirected(i.v, i'.v, i.ops, infos)
  }

  /** Rewriting one block's body redirects its terminator. */
  lemma RewriteBlockRedirects(b: Block, p: Pending)
    requires b.content.Some? && RewriteBody(b.content.value.body, p).Ok?
    ensures var (body, q) := RewriteBody(b.content.value.body, p).value;
      BlockRewritten(b, b.(content := Some(b.content.value.(body := body))), q.infos)
  {
    var c := b.content.value;
    RewriteTerminatorRedirects(c.body[|c.body| - 1].inst, p);
  }

  lemma BlockRewrittenExtends(b: Block, b': Block, infos: seq<Info>, infos': seq<Info>)
    requires BlockRewritten(b, b', infos)
    requires |infos| <= |infos'| && infos'[..|infos|] == infos
    ensures BlockRewritten(b, b', infos')
  {
    var body, body' := b.content.value.body, b'.content.value.body;
    var i, i' := body[|body| - 1].inst, body'[|body| - 1].inst;
    KindRedirectedExtends(i.v, i'.v, i.ops, infos, infos');
  }

  /** Visiting each block once, the first step leaves every visited block
      with its terminator redirected to the records it collects. */
  lemma {:induction false} FirstStepRedirects(blocks: map<nat, Block>, order: seq<nat>, p: Pending)
    requires forall k :: 0 <= k < |order| ==> order[k] in blocks
    requires forall i, j :: 0 <= i < j < |order| ==> order[i] != order[j]
    requires FirstStep(blocks, order, p).Ok?
    ensures var (out, q) := FirstStep(blocks, order, p).value;
      forall k :: 0 <= k < |order| ==> BlockRewritten(blocks[order[k]], out[order[k]], q.infos)
    decreases |order|
  {
    if |order| > 0 {
      var b := blocks[order[0]];
      var (body, q) := RewriteBody(b.content.value.body, p).value;
      var b1 := b.(content := Some(b.content.value.(body := body)));
      var blocks1 := blocks[order[0] := b1];
      var (out, q') := FirstStep(blocks1, order[1..], q).value;
      assert FirstStep(blocks, order, p).value == (out, q');
      forall k | 0 <= k < |order[1..]| ensures order[1..][k] in blocks1 && order[1..][k] != order[0] {
        assert order[1..][k] == order[k + 1];
      }
      FirstStepRedirects(blocks1, order[1..], q);
      RewriteBlockRedirects(b, p);
      BlockRewrittenExtends(b, b1, q.infos, q'.infos);
      assert out[order[0]] == b1;
      forall k | 1 <= k < |order| ensures BlockRewritten(blocks[order[k]], out[order[k]], q'.infos) {
        assert order[1..][k - 1] == order[k];
      }
    }
  }

  // ---------------------------------------------------------------------
  // Second step: intermediate blocks
  // ---------------------------------------------------------------------

  function MoveInst(id: nat, dst: Value, src: Value): (i: Instruction)
    ensures i.v == Move(0) && i.value == Some([dst]) && i.ops == [src]
  {
    Instruction(Unnamed(id), Some([dst]), [src], Move(0))
  }

  /** The moves as the source emits them, one after another: for each
      position, from `pos` on, whose passed value differs from the target's
      parameter, a move of the passed value into the parameter. */
  function SeqMoves(from: seq<Value>, to: seq<Value>, pos: nat, next: nat): (r: (seq<Instruction>, nat))
    requires pos <= |from| <= |to|
    ensures r.1 == next + |r.0|
    decreases |from| - pos
  {
    if pos == |from| then ([], next)
    else if from[pos] != to[pos] then
      var (rest, n) := SeqMoves(from, to, pos + 1, next + 1);
      ([MoveInst(next, to[pos], from[pos])] + rest, n)
    else SeqMoves(from, to, pos + 1, next)
  }

  /** The move for a differing position `k` comes after one move for each
      differing position before it. */
  lemma {:induction false} SeqMovesAt(from: seq<Value>, to: seq<Value>, pos: nat, next: nat, k: nat)
    requires pos <= k < |from| <= |to| && from[k] != to[k]
    ensures var ms := SeqMoves(from, to, pos, next).0; var d := Differing(from, to, pos, k);
      d < |ms| && ms[d] == MoveInst(next + d, to[k], from[k])
    decreases |from| - pos
  {
    if k > pos {
      if from[pos] != to[pos] {
        SeqMovesAt(from, to, pos + 1, next + 1, k);
      } else {
        SeqMovesAt(from, to, pos + 1, next, k);
      }
    }
  }

  /** One move per differing position, and nothing else. */
  lemma {:induction false} SeqMovesCount(from: seq<Value>, to: seq<Value>, pos: nat, next: nat)
    requires pos <= |from| <= |to|
    ensures |SeqMoves(from, to, pos, next).0| == Differing(from, to, pos, |from|)
    decreases |from| - pos
  {
    if pos < |from| {
      if from[pos] != to[pos] {
        SeqMovesCount(from, to, pos + 1, next + 1);
      } else {
        SeqMovesCount(from, to, pos + 1, next);
      }
    }
  }

  /** The number of differing positions in `lo..hi`. */
  function Differing(from: seq<Value>, to: seq<Value>, lo: nat, hi: nat): (n: nat)
    requires lo <= hi <= |from| <= |to|
    ensures n <= hi - lo
    decreases hi - lo
  {
    if lo == hi then 0 else (if from[lo] != to[lo] then 1 else 0) + Differing(from, to, lo + 1, hi)
  }

  // ---------------------------------------------------------------------
  // What the moves do
  // ---------------------------------------------------------------------

  /** The contents of all values at one moment. */
  type Env = Value -> int

  function Assign(env: Env, x: Value, val: int): (e: Env)
    ensures e(x) == val && forall y :: y != x ==> e(y) == env(y)
  {
    y => if y == x then val else env(y)
  }

  /** Executes a move; any other instruction leaves the values alone. */
  function Exec(i: Instruction, env: Env): (e: Env)
  {
    if i.v.Move? && i.value.Some? && |i.value.value| == 1 && i.v.operand < |i.ops|
    then Assign(env, i.value.value[0], env(i.ops[i.v.operand]))
    else env
  }

  /** Executes instructions one after another. */
  function Run(insts: seq<Instruction>, env: Env): (e: Env)
    decreases |insts|
  {
    if |insts| == 0 then env else Run(insts[1..], Exec(insts[0], env))
  }

  lemma {:induction false} RunAppend(a: seq<Instruction>, b: seq<Instruction>, env: Env)
    ensures Run(a + b, env) == Run(b, Run(a, env))
    decreases |a|
  {
    if |a| > 0 {
      assert (a + b)[1..] == a[1..] + b;
      RunAppend(a[1..], b, Exec(a[0], env));
    } else {
      assert a + b == b;
    }
  }

  /** What passing `from` to a block with parameters `to` means: every
      parameter receives the value passed for it, all at once, and no other
      value below `base` changes. */
  ghost predicate PhiDone(env: Env, e: Env, from: seq<Value>, to: seq<Value>, base: nat)
    requires |from| <= |to|
  {
    && (forall k :: 0 <= k < |from| ==> e(to[k]) == env(from[k]))
    && (forall y: Value :: y.id < base && (forall k :: 0 <= k < |from| ==> y != to[k]) ==> e(y) == env(y))
  }

  /** The moves in sequence lose a value when a block passes its own two
      parameters to itself swapped: the second move reads the parameter the
      first has already overwritten. */
  lemma SwapLosesValue()
    ensures var a, b := Value(1, 0), Value(2, 0);
      var env: Env := (v: Value) => v.id as int;
      var e := Run(SeqMoves([b, a], [a, b], 0, 10).0, env);
      && e(a) == 2 && e(b) == 2
      && !PhiDone(env, e, [b, a], [a, b], 3)
  {
    var a, b := Value(1, 0), Value(2, 0);
    var env: Env := (v: Value) => v.id as int;
    assert SeqMoves([b, a], [a, b], 2, 12).0 == [];
    assert SeqMoves([b, a], [a, b], 1, 11).0 == [MoveInst(11, b, a)];
    var ms := SeqMoves([b, a], [a, b], 0, 10).0;
    assert ms == [MoveInst(10, a, b), MoveInst(11, b, a)];
    var e1 := Exec(ms[0], env);
    assert e1(a) == 2;
    assert Run(ms, env) == Run([ms[1]], e1);
    assert Run([ms[1]], e1)(b) == 2;
  }

  // ---------------------------------------------------------------------
  // Moves that keep the meaning of block arguments
  // ---------------------------------------------------------------------

  /** The temporary that holds the value passed at position `k`; its id is
      `base + k`, past every id in use when `base` is the VM's next id. */
  function Temp(to: seq<Value>, base: nat, k: nat): (t: Value)
    requires k < |to|
    ensures t.id == base + k
  {
    Value(base + k, to[k].ty)
  }

  /** First half: each differing position's passed value into its temporary. */
  function Stash(from: seq<Value>, to: seq<Value>, base: nat, pos: nat, next: nat): (r: (seq<Instruction>, nat))
    requires pos <= |from| <= |to|
    ensures r.1 == next + |r.0|
    decreases |from| - pos
  {
    if pos == |from| then ([], next)
    else if from[pos] != to[pos] then
      var (rest, n) := Stash(from, to, base, pos + 1, next + 1);
      ([MoveInst(next, Temp(to, base, pos), from[pos])] + rest, n)
    else Stash(from, to, base, pos + 1, next)
  }

  /** Second half: each temporary into its parameter. */
  function Unstash(from: seq<Value>, to: seq<Value>, base: nat, pos: nat, next: nat): (r: (seq<Instruction>, nat))
    requires pos <= |from| <= |to|
    ensures r.1 == next + |r.0|
    decreases |from| - pos
  {
    if pos == |from| then ([], next)
    else if from[pos] != to[pos] then
      var (rest, n) := Unstash(from, to, base, pos + 1, next + 1);
      ([MoveInst(next, to[pos], Temp(to, base, pos))] + rest, n)
    else Unstash(from, to, base, pos + 1, next)
  }

  /** The moves of an intermediate block: every passed value is first saved
      in a fresh temporary, and only then copied into its parameter, so no
      move reads a parameter already overwritten. Positions where the value
      passed is the parameter itself need no move. */
  function ParallelMoves(from: seq<Value>, to: seq<Value>, base: nat, next: nat): (r: (seq<Instruction>, nat))
    requires |from| <= |to|
    ensures r.1 == next + |r.0|
  {
    var (stash, n) := Stash(from, to, base, 0, next);
    var (unstash, n') := Unstash(from, to, base, 0, n);
    (stash + unstash, n')
  }

  lemma {:induction false} RunStash(from: seq<Value>, to: seq<Value>, base: nat, pos: nat, next: nat, env: Env)
    requires pos <= |from| <= |to|
    requires forall k :: 0 <= k < |from| ==> from[k].id < base
    ensures var e := Run(Stash(from, to, base, pos, next).0, env);
      && (forall k :: pos <= k < |from| && from[k] != to[k] ==> e(Temp(to, base, k)) == env(from[k]))
      && (forall y: Value :: y.id < base + pos || y.id >= base + |from| ==> e(y) == env(y))
    decreases |from| - pos
  {
    if pos < |from| {
      if from[pos] != to[pos] {
        var env1 := Assign(env, Temp(to, base, pos), env(from[pos]));
        RunStash(from, to, base, pos + 1, next + 1, env1);
        var rest := Stash(from, to, base, pos + 1, next + 1).0;
        assert Stash(from, to, base, pos, next).0 == [MoveInst(next, Temp(to, base, pos), from[pos])] + rest;
        assert Run(Stash(from, to, base, pos, next).0, env) == Run(rest, env1);
      } else {
        RunStash(from, to, base, pos + 1, next, env);
      }
    }
  }

  lemma {:induction false} RunUnstash(from: seq<Value>, to: seq<Value>, base: nat, pos: nat, next: nat, env: Env)
    requires pos <= |from| <= |to|
    requires forall k :: 0 <= k < |from| ==> to[k].id < base
    requires forall k, k' :: 0 <= k < k' < |from| ==> to[k] != to[k']
    ensures var e := Run(Unstash(from, to, base, pos, next).0, env);
      && (forall k :: pos <= k < |from| && from[k] != to[k] ==> e(to[k]) == env(Temp(to, base, k)))
      && (forall y: Value :: (forall k :: pos <= k < |from| && from[k] != to[k] ==> y != to[k]) ==> e(y) == env(y))
    decreases |from| - pos
  {
    if pos < |from| {
      if from[pos] != to[pos] {
        var env1 := Assign(env, to[pos], env(Temp(to, base, pos)));
        RunUnstash(from, to, base, pos + 1, next + 1, env1);
        var rest := Unstash(from, to, base, pos + 1, next + 1).0;
        assert Unstash(from, to, base, pos, next).0 == [MoveInst(next, to[pos], Temp(to, base, pos))] + rest;
        assert Run(Unstash(from, to, base, pos, next).0, env) == Run(rest, env1);
      } else {
        RunUnstash(from, to, base, pos + 1, next, env);
      }
    }
  }

  /** With distinct parameters and every id in play below `base`, the moves
      give each parameter the value passed for it, as if all at once, and
      change no other value in play: the meaning of passing block arguments. */
  lemma ParallelMovesCorrect(from: seq<Value>, to: seq<Value>, base: nat, next: nat, env: Env)
    requires |from| <= |to|
    requires forall k :: 0 <= k < |from| ==> from[k].id < base && to[k].id < base
    requires forall k, k' :: 0 <= k < k' < |from| ==> to[k] != to[k']
    ensures PhiDone(env, Run(ParallelMoves(from, to, base, next).0, env), from, to, base)
  {
    var (stash, n) := Stash(from, to, base, 0, next);
    var unstash := Unstash(from, to, base, 0, n).0;
    RunAppend(stash, unstash, env);
    var e1 := Run(stash, env);
    RunStash(from, to, base, 0, next, env);
    RunUnstash(from, to, base, 0, n, e1);
    var e := Run(unstash, e1);
    forall k | 0 <= k < |from| ensures e(to[k]) == env(from[k]) {
      if from[k] == to[k] {
        assert forall k' :: 0 <= k' < |from| && from[k'] != to[k'] ==> to[k] != to[k'];
      }
    }
  }

  // ---------------------------------------------------------------------
  // Second step: intermediate blocks
  // ---------------------------------------------------------------------

  /** An instruction that does nothing to values, standing for a value node
      in a block body. */
  const Inert: Instruction := Instruction(Unnamed(0), None, [], Other([]))

  /** The instructions of a block body. */
  function BodyInsts(body: seq<TreeNode>): (r: seq<Instruction>)
    ensures |r| == |body| && forall k :: 0 <= k < |body| && body[k].InstNode? ==> r[k] == body[k].inst
  {
    seq(|body|, k requires 0 <= k < |body| => if body[k].InstNode? then body[k].inst else Inert)
  }

  /** The intermediate block for `info`: the moves, then a branch without
      arguments to the target; it takes over the exception argument `exn`. */
  function BuildBlock(info: Info, target: Header, exn: Option<Value>, moves: seq<Instruction>, branchId: nat): (b: Block)
    ensures b.hdr == Named(info.blkId, info.blkName) && b.content.Some?
    ensures var c := b.content.value;
      && c.args == [] && c.exnArg == exn && c.keepalives.None? && |c.body| == |moves| + 1
      && BodyInsts(c.body) == moves + [Instruction(Unnamed(branchId), None, [], Branch1(Destination(target, [])))]
  {
    var br := Instruction(Unnamed(branchId), None, [], Branch1(Destination(target, [])));
    var body := seq(|moves|, k requires 0 <= k < |moves| => InstNode(moves[k])) + [InstNode(br)];
    assert BodyInsts(body) == moves + [br];
    Block(Named(info.blkId, info.blkName), Some(BlockContent([], exn, body, None)))
  }

  /** The target block of `info` exists, has content, and has a parameter
      for every value passed. */
  predicate TargetReady(blocks: map<nat, Block>, info: Info) {
    && info.target in blocks && blocks[info.target].content.Some?
    && |info.fromArgs| <= |blocks[info.target].content.value.args|
  }

  /** The intermediate block of `info` for a target with header `target`,
      parameters `args` and exception argument `exn`, and the VM's next id
      afterwards. The moves go through fresh temporaries whose ids are the
      next `|fromArgs|` ids. */
  function IntermediateBlock(info: Info, target: Header, args: seq<Value>, exn: Option<Value>, next: nat): (r: (Block, nat))
    requires |info.fromArgs| <= |args|
    ensures r.0.hdr == Named(info.blkId, info.blkName) && r.0.content.Some?
    ensures r.0.content.value.exnArg == exn && r.0.content.value.args == []
    ensures next + |info.fromArgs| <= r.1
  {
    var (moves, n) := ParallelMoves(info.fromArgs, args, next, next + |info.fromArgs|);
    (BuildBlock(info, target, exn, moves, n), n + 1)
  }

  /** The intermediate block carries out the argument passing: each target
      parameter receives its passed value, as if all at once, and no other
      value in use changes. */
  lemma IntermediateBlockMeaning(info: Info, target: Header, args: seq<Value>, exn: Option<Value>, next: nat, env: Env)
    requires |info.fromArgs| <= |args|
    requires forall k :: 0 <= k < |info.fromArgs| ==> info.fromArgs[k].id < next && args[k].id < next
    requires forall k, k' :: 0 <= k < k' < |info.fromArgs| ==> args[k] != args[k']
    ensures var b := IntermediateBlock(info, target, args, exn, next).0;
      PhiDone(env, Run(BodyInsts(b.content.value.body), env), info.fromArgs, args, next)
  {
    var (moves, n) := ParallelMoves(info.fromArgs, args, next, next + |info.fromArgs|);
    var br := Instruction(Unnamed(n), None, [], Branch1(Destination(target, [])));
    ParallelMovesCorrect(info.fromArgs, args, next, next + |info.fromArgs|, env);
    RunAppend(moves, [br], env);
  }

  /** Adds the intermediate block of `info` to the function; the target
      loses its exception argument to the new block. */
  function InsertBlock(blocks: map<nat, Block>, info: Info, next: nat): (r: Result<(map<nat, Block>, nat), String>)
    ensures r.Ok? <==> TargetReady(blocks, info)
    ensures r.Ok? ==>
      var t := blocks[info.target]; var c := t.content.value; var out := r.value.0;
      && out.Keys == blocks.Keys + {info.blkId}
      && (out[info.blkId], r.value.1) == IntermediateBlock(info, t.hdr, c.args, c.exnArg, next)
      && (info.blkId != info.target ==> out[info.target] == t.(content := Some(c.(exnArg := None))))
      && (forall id :: id in blocks && id != info.blkId && id != info.target ==> out[id] == blocks[id])
  {
    if !TargetReady(blocks, info) then
      if info.target !in blocks then Err("cannot find block") else Err("target block without content")
    else
      var t := blocks[info.target];
      var c := t.content.value;
      var (b, n) := IntermediateBlock(info, t.hdr, c.args, c.exnArg, next);
      var blocks' := blocks[info.target := t.(content := Some(c.(exnArg := None)))];
      Ok((blocks'[info.blkId := b], n))
  }

  /** The intermediate block as the source builds it: the same, except
      that the moves are the sequential ones of `SeqMoves`. */
  function InsertBlockAsWritten(blocks: map<nat, Block>, info: Info, next: nat): (r: Result<(map<nat, Block>, nat), String>)
    ensures r.Ok? <==> TargetReady(blocks, info)
    ensures r.Ok? ==>
      var t := blocks[info.target]; var c := t.content.value; var out := r.value.0;
      && out.Keys == blocks.Keys + {info.blkId}
      && out[info.blkId].hdr == Named(info.blkId, info.blkName) && out[info.blkId].content.Some?
      && out[info.blkId].content.value.exnArg == c.exnArg && out[info.blkId].content.value.args == []
      && r.value.1 == next + Differing(info.fromArgs, c.args, 0, |info.fromArgs|) + 1
      && (info.blkId != info.target ==> out[info.target] == t.(content := Some(c.(exnArg := None))))
      && (forall id :: id in blocks && id != info.blkId && id != info.target ==> out[id] == blocks[id])
  {
    if !TargetReady(blocks, info) then
      if info.target !in blocks then Err("cannot find block") else Err("target block without content")
    else
      var t := blocks[info.target];
      var c := t.content.value;
      SeqMovesCount(info.fromArgs, c.args, 0, next);
      var (moves, n) := SeqMoves(info.fromArgs, c.args, 0, next);
      var b := BuildBlock(info, t.hdr, c.exnArg, moves, n);
      var blocks' := blocks[info.target := t.(content := Some(c.(exnArg := None)))];
      Ok((blocks'[info.blkId := b], n + 1))
  }

  /** As written, the block holds one move per position whose passed value
      differs from the parameter, each copying that value into that
      parameter, in order, and then a single branch to the target without
      arguments. */
  lemma AsWrittenBlockShape(blocks: map<nat, Block>, info: Info, next: nat, k: nat)
    requires InsertBlockAsWritten(blocks, info, next).Ok?
    ensures var args := blocks[info.target].content.value.args;
      var b := InsertBlockAsWritten(blocks, info, next).value.0[info.blkId];
      var insts := BodyInsts(b.content.value.body);
      var d := Differing(info.fromArgs, args, 0, |info.fromArgs|);
      && |insts| == d + 1
      && insts[d].v == Branch1(Destination(blocks[info.target].hdr, []))
      && (forall m :: 0 <= m < d ==> insts[m].v == Move(0))
      && (k < |info.fromArgs| && info.fromArgs[k] != args[k] ==>
            var m := Differing(info.fromArgs, args, 0, k);
            m < d && insts[m].ops == [info.fromArgs[k]] && insts[m].value == Some([args[k]]))
  {
    var args := blocks[info.target].content.value.args;
    var moves := SeqMoves(info.fromArgs, args, 0, next).0;
    SeqMovesCount(info.fromArgs, args, 0, next);
    SeqMovesShape(info.fromArgs, args, 0, next);
    if k < |info.fromArgs| && info.fromArgs[k] != args[k] {
      SeqMovesAt(info.fromArgs, args, 0, next, k);
    }
  }

  /** Every instruction `SeqMoves` emits is a move. */
  lemma {:induction false} SeqMovesShape(from: seq<Value>, to: seq<Value>, pos: nat, next: nat)
    requires pos <= |from| <= |to|
    ensures forall m :: 0 <= m < |SeqMoves(from, to, pos, next).0| ==> SeqMoves(from, to, pos, next).0[m].v == Move(0)
    decreases |from| - pos
  {
    if pos < |from| {
      if from[pos] != to[pos] {
        SeqMovesShape(from, to, pos + 1, next + 1);
      } else {
        SeqMovesShape(from, to, pos + 1, next);
      }
    }
  }

  /** The ids of the blocks recorded. */
  function NewIds(infos: seq<Info>): (ids: set<nat>)
    ensures forall k :: 0 <= k < |infos| ==> infos[k].blkId in ids
    ensures forall id :: id in ids ==> exists k :: 0 <= k < |infos| && infos[k].blkId == id
  {
    set k | 0 <= k < |infos| :: infos[k].blkId
  }

  /** The second step: inserts the recorded blocks in order. */
  function SecondStep(blocks: map<nat, Block>, infos: seq<Info>, next: nat): (r: Result<(map<nat, Block>, nat), String>)
    ensures r.Ok? ==> r.value.0.Keys == blocks.Keys + NewIds(infos) && next <= r.value.1
    ensures r.Ok? ==> forall id :: id in blocks && id !in NewIds(infos) ==>
      r.value.0[id].hdr == blocks[id].hdr && SameBody(r.value.0[id], blocks[id])
    decreases |infos|
  {
    if |infos| == 0 then Ok((blocks, next))
    else
      match InsertBlock(blocks, infos[0], next)
      case Err(e) => Err(e)
      case Ok((blocks', n)) =>
        assert NewIds(infos) == {infos[0].blkId} + NewIds(infos[1..]) by {
          forall id | id in NewIds(infos) ensures id in {infos[0].blkId} + NewIds(infos[1..]) {
            var k :| 0 <= k < |infos| && infos[k].blkId == id;
            if k > 0 {
              assert infos[1..][k - 1] == infos[k];
            }
          }
        }
        SecondStep(blocks', infos[1..], n)
  }

  /** `b` is the intermediate block of `info` for its target as the target
      stands in `blocks`, built when the VM's next id was some `base` at or
      after `next`; it took whatever exception argument the target still had
      at that point. */
  ghost predicate IsIntermediateFor(b: Block, info: Info, blocks: map<nat, Block>, next: nat) {
    && TargetReady(blocks, info)
    && var t := blocks[info.target];
       exists base: nat, exn: Option<Value> :: next <= base
         && b == IntermediateBlock(info, t.hdr, t.content.value.args, exn, base).0
  }

  /** With fresh, increasing block ids, the second step leaves under each
      record's id the intermediate block of that record, and leaves every
      block that no record targets as it was. */
  lemma {:induction false} SecondStepInserts(blocks: map<nat, Block>, infos: seq<Info>, next: nat)
    requires SecondStep(blocks, infos, next).Ok?
    requires forall k :: 0 <= k < |infos| ==> infos[k].blkId !in blocks && |infos[k].fromArgs| > 0
    requires forall i, j :: 0 <= i < j < |infos| ==> infos[i].blkId < infos[j].blkId
    ensures var out := SecondStep(blocks, infos, next).value.0;
      forall k :: 0 <= k < |infos| ==> IsIntermediateFor(out[infos[k].blkId], infos[k], blocks, next)
    ensures var out := SecondStep(blocks, infos, next).value.0;
      forall id :: id in blocks && (forall k :: 0 <= k < |infos| ==> infos[k].target != id) ==> out[id] == blocks[id]
    decreases |infos|
  {
    if |infos| > 0 {
      var info := infos[0];
      var (blocks1, n) := InsertBlock(blocks, info, next).value;
      var out := SecondStep(blocks1, infos[1..], n).value.0;
      assert SecondStep(blocks, infos, next).value.0 == out;
      TailRecordsFresh(blocks, blocks1, infos, next, n);
      SecondStepInserts(blocks1, infos[1..], n);
      HeadRecordInserted(blocks, blocks1, infos, next, n, out);
    }
  }

  /** After the first record's insertion, the remaining records still have
      fresh, increasing ids. */
  lemma TailRecordsFresh(blocks: map<nat, Block>, blocks1: map<nat, Block>, infos: seq<Info>, next: nat, n: nat)
    requires |infos| > 0 && InsertBlock(blocks, infos[0], next) == Ok((blocks1, n))
    requires forall k :: 0 <= k < |infos| ==> infos[k].blkId !in blocks && |infos[k].fromArgs| > 0
    requires forall i, j :: 0 <= i < j < |infos| ==> infos[i].blkId < infos[j].blkId
    ensures forall k :: 0 <= k < |infos[1..]| ==> infos[1..][k].blkId !in blocks1 && |infos[1..][k].fromArgs| > 0
    ensures forall i, j :: 0 <= i < j < |infos[1..]| ==> infos[1..][i].blkId < infos[1..][j].blkId
  {
    forall k | 0 <= k < |infos[1..]| ensures infos[1..][k].blkId !in blocks1 && |infos[1..][k].fromArgs| > 0 {
      assert infos[1..][k] == infos[k + 1];
      assert infos[0].blkId < infos[k + 1].blkId;
    }
    forall i, j | 0 <= i < j < |infos[1..]| ensures infos[1..][i].blkId < infos[1..][j].blkId {
      assert infos[1..][i] == infos[i + 1] && infos[1..][j] == infos[j + 1];
    }
  }

  /** Given what the rest of the second step did from `blocks1`, the first
      record's block and every later one are intermediate blocks for `blocks`,
      and the untargeted blocks of `blocks` are unchanged. */
  lemma HeadRecordInserted(blocks: map<nat, Block>, blocks1: map<nat, Block>, infos: seq<Info>, next: nat, n: nat, out: map<nat, Block>)
    requires |infos| > 0 && InsertBlock(blocks, infos[0], next) == Ok((blocks1, n)) && infos[0].blkId !in blocks
    requires forall k :: 0 <= k < |infos| ==> |infos[k].fromArgs| > 0
    requires forall k :: 0 <= k < |infos[1..]| ==> infos[1..][k].blkId != infos[0].blkId
    requires forall k :: 0 <= k < |infos[1..]| ==> infos[1..][k].blkId in out
    requires forall k :: 0 <= k < |infos[1..]| ==> IsIntermediateFor(out[infos[1..][k].blkId], infos[1..][k], blocks1, n)
    requires forall id :: id in blocks1 && (forall k :: 0 <= k < |infos[1..]| ==> infos[1..][k].target != id) ==> id in out && out[id] == blocks1[id]
    ensures forall k :: 0 <= k < |infos| ==> infos[k].blkId in out && IsIntermediateFor(out[infos[k].blkId], infos[k], blocks, next)
    ensures forall id :: id in blocks && (forall k :: 0 <= k < |infos| ==> infos[k].target != id) ==> id in out && out[id] == blocks[id]
  {
    var info := infos[0];
    forall k | 1 <= k < |infos| ensures infos[k].target != info.blkId && infos[k].blkId in out && IsIntermediateFor(out[infos[k].blkId], infos[k], blocks, next) {
      assert infos[1..][k - 1] == infos[k];
      LaterRecordTargetsOld(blocks, blocks1, info, infos[k], next, n, out[infos[k].blkId]);
    }
    assert blocks1[info.blkId].content.value.args == [];
    assert out[info.blkId] == blocks1[info.blkId];
    var t := blocks[info.target];
    assert out[info.blkId] == IntermediateBlock(info, t.hdr, t.content.value.args, t.content.value.exnArg, next).0;
  }

  /** A record inserted after `info` cannot target `info`'s new block, which
      has no parameters, so it targets a block of `blocks` whose header and
      parameters `info`'s insertion did not change. */
  lemma LaterRecordTargetsOld(blocks: map<nat, Block>, blocks1: map<nat, Block>, info: Info, later: Info, next: nat, n: nat, b: Block)
    requires InsertBlock(blocks, info, next) == Ok((blocks1, n)) && info.blkId !in blocks
    requires |later.fromArgs| > 0 && IsIntermediateFor(b, later, blocks1, n)
    ensures later.target != info.blkId && IsIntermediateFor(b, later, blocks, next)
  {
    var t := later.target;
    assert blocks1[info.blkId].content.value.args == [];
    assert t != info.blkId;
    assert blocks1[t].hdr == blocks[t].hdr && blocks1[t].content.Some? && blocks1[t].content.value.args == blocks[t].content.value.args;
    var base, exn :| n <= base && b == IntermediateBlock(later, blocks1[t].hdr, blocks1[t].content.value.args, exn, base).0;
    assert next <= base;
  }

  /** Two blocks with the same body, present or absent alike. */
  predicate SameBody(a: Block, b: Block) {
    a.content.Some? == b.content.Some? && (a.content.Some? ==> a.content.value.body == b.content.value.body)
  }

  /** What the pass did, stated against the records `infos` it collected:
      each visited block has its terminator redirected as the records say,
      the new blocks are exactly the recorded ids, all fresh, and each holds
      the intermediate block of its record. */
  ghost predicate PassLinked(blocks: map<nat, Block>, order: seq<nat>, out: map<nat, Block>, infos: seq<Info>, next: nat) {
    && out.Keys == blocks.Keys + NewIds(infos)
    && (forall k :: 0 <= k < |order| ==> order[k] in blocks && BlockRewritten(blocks[order[k]], out[order[k]], infos))
    && (forall k :: 0 <= k < |infos| ==>
          next <= infos[k].blkId && IsIntermediateFor(out[infos[k].blkId], infos[k], blocks, next))
  }

  /** The pass over a whole function, each block visited once: rewrites the
      terminators of the blocks in `order`, then inserts the intermediate
      blocks. This is the corrected pass: a C call stays a C call, and the
      moves go through temporaries. When all block ids are below the VM's
      next id, every block in `order` ends up with no rewritten destination
      passing arguments, and the pass is linked to the records it made. */
  function VisitFunction(blocks: map<nat, Block>, order: seq<nat>, next: nat): (r: Result<(map<nat, Block>, nat), String>)
    requires forall k :: 0 <= k < |order| ==> order[k] in blocks
    requires forall i, j :: 0 <= i < j < |order| ==> order[i] != order[j]
    ensures r.Ok? ==> blocks.Keys <= r.value.0.Keys && next <= r.value.1
    ensures r.Ok? && (forall id :: id in blocks ==> id < next) ==>
      forall k :: 0 <= k < |order| ==> Lowered(r.value.0[order[k]])
    ensures r.Ok? && (forall id :: id in blocks ==> id < next) ==>
      exists infos: seq<Info> :: PassLinked(blocks, order, r.value.0, infos, next)
  {
    match FirstStep(blocks, order, Pending([], next))
    case Err(e) => Err(e)
    case Ok((blocks', p)) =>
      match SecondStep(blocks', p.infos, p.next)
      case Err(e) => Err(e)
      case Ok((out, n)) =>
        SecondStepKeepsLowered(blocks, order, next, blocks', p, out);
        if forall id :: id in blocks ==> id < next then
          PassLinks(blocks, order, next);
          Ok((out, n))
        else
          Ok((out, n))
  }

  /** The two steps together satisfy `PassLinked` with the records of the
      first step. */
  lemma PassLinks(blocks: map<nat, Block>, order: seq<nat>, next: nat)
    requires forall k :: 0 <= k < |order| ==> order[k] in blocks
    requires forall i, j :: 0 <= i < j < |order| ==> order[i] != order[j]
    requires forall id :: id in blocks ==> id < next
    requires FirstStep(blocks, order, Pending([], next)).Ok?
    requires var (blocks', p) := FirstStep(blocks, order, Pending([], next)).value;
      SecondStep(blocks', p.infos, p.next).Ok?
    ensures var (blocks', p) := FirstStep(blocks, order, Pending([], next)).value;
      PassLinked(blocks, order, SecondStep(blocks', p.infos, p.next).value.0, p.infos, next)
  {
    var (blocks', p) := FirstStep(blocks, order, Pending([], next)).value;
    var out := SecondStep(blocks', p.infos, p.next).value.0;
    FirstStepRedirects(blocks, order, Pending([], next));
    SecondStepInserts(blocks', p.infos, p.next);
    forall k | 0 <= k < |order| ensures BlockRewritten(blocks[order[k]], out[order[k]], p.infos) {
      assert SameBody(out[order[k]], blocks'[order[k]]);
    }
    forall k | 0 <= k < |p.infos| ensures IsIntermediateFor(out[p.infos[k].blkId], p.infos[k], blocks, next) {
      IntermediateForTransfer(out[p.infos[k].blkId], p.infos[k], blocks', blocks, p.next, next);
    }
  }

  /** Moving to blocks of the same shape and to an earlier next id keeps a
      block the intermediate block of its record. */
  lemma IntermediateForTransfer(b: Block, info: Info, blocks': map<nat, Block>, blocks: map<nat, Block>, next': nat, next: nat)
    requires IsIntermediateFor(b, info, blocks', next') && next <= next'
    requires blocks'.Keys == blocks.Keys && forall id :: id in blocks ==> SameShape(blocks'[id], blocks[id])
    ensures IsIntermediateFor(b, info, blocks, next)
  {
    var t := blocks'[info.target];
    var base, exn :| next' <= base && b == IntermediateBlock(info, t.hdr, t.content.value.args, exn, base).0;
    assert SameShape(t, blocks[info.target]);
  }

  /** The meaning of a block the pass inserted: it gives each parameter of
      its target the value passed for it, as if all at once, changes no
      other value in use, and ends in a branch to the target without
      arguments. Values in use are those below the VM's next id. */
  lemma IntermediateForMeaning(b: Block, info: Info, blocks: map<nat, Block>, next: nat, env: Env)
    requires IsIntermediateFor(b, info, blocks, next)
    requires var args := blocks[info.target].content.value.args;
      && (forall k :: 0 <= k < |info.fromArgs| ==> info.fromArgs[k].id < next && args[k].id < next)
      && (forall k, k' :: 0 <= k < k' < |info.fromArgs| ==> args[k] != args[k'])
    ensures b.content.Some? && |b.content.value.body| > 0
    ensures var t := blocks[info.target]; var insts := BodyInsts(b.content.value.body);
      && PhiDone(env, Run(insts, env), info.fromArgs, t.content.value.args, next)
      && insts[|insts| - 1].v == Branch1(Destination(t.hdr, []))
  {
    var t := blocks[info.target];
    var args := t.content.value.args;
    var base, exn :| next <= base && b == IntermediateBlock(info, t.hdr, args, exn, base).0;
    IntermediateBlockMeaning(info, t.hdr, args, exn, base, env);
  }

  /** Through the pass, a destination that passed arguments now leads to a
      new block that delivers those arguments to the original target. */
  lemma RedirectedMeaning(blocks: map<nat, Block>, order: seq<nat>, out: map<nat, Block>, infos: seq<Info>, next: nat,
                          orig: Destination, d: Destination, ops: seq<Value>, env: Env)
    requires PassLinked(blocks, order, out, infos, next)
    requires Redirected(orig, d, ops, infos) && |orig.args| > 0
    requires orig.target.id in blocks && blocks[orig.target.id].content.Some?
    requires var from, args := FromArgs(orig.args, ops).value, blocks[orig.target.id].content.value.args;
      && (forall k :: 0 <= k < |from| && k < |args| ==> from[k].id < next && args[k].id < next)
      && (forall k, k' :: 0 <= k < k' < |from| && k' < |args| ==> args[k] != args[k'])
    ensures d.target.id in out && out[d.target.id].content.Some? && d.args == []
    ensures var b := out[d.target.id]; var t := blocks[orig.target.id]; var insts := BodyInsts(b.content.value.body);
      && |insts| > 0
      && PhiDone(env, Run(insts, env), FromArgs(orig.args, ops).value, t.content.value.args, next)
      && insts[|insts| - 1].v == Branch1(Destination(t.hdr, []))
  {
    var j :| 0 <= j < |infos| && infos[j] == Info(d.target.id, NameText(d.target), orig.target.id, FromArgs(orig.args, ops).value);
    assert d.target.id in NewIds(infos);
    IntermediateForMeaning(out[d.target.id], infos[j], blocks, next, env);
  }

  lemma SecondStepKeepsLowered(blocks: map<nat, Block>, order: seq<nat>, next: nat,
                               blocks': map<nat, Block>, p: Pending, out: map<nat, Block>)
    requires forall k :: 0 <= k < |order| ==> order[k] in blocks
    requires blocks'.Keys == blocks.Keys && Extends(Pending([], next), p)
    requires forall k :: 0 <= k < |order| ==> Lowered(blocks'[order[k]])
    requires out.Keys == blocks'.Keys + NewIds(p.infos)
    requires forall id :: id in blocks' && id !in NewIds(p.infos) ==> SameBody(out[id], blocks'[id])
    ensures (forall id :: id in blocks ==> id < next) ==> forall k :: 0 <= k < |order| ==> Lowered(out[order[k]])
  {
    if forall id :: id in blocks ==> id < next {
      forall k | 0 <= k < |order| ensures Lowered(out[order[k]]) {
        var id := order[k];
        if id in NewIds(p.infos) {
          assert false;
        }
        assert SameBody(out[id], blocks'[id]);
      }
    }
  }
}

=== FILE: handle.dfy ===
/**
 Handles of the client API: the values a client holds and the accessors
 that unwrap them. Each accessor expects one variant (or, for
 `AsRefOrIref`, two) and panics on any other; the panic is an `Err` here.

 Addresses are plain naturals, floating-point payloads are kept as their
 bit patterns, and the variants that carry no data keep none.
 */
module Handle {
  import opened Wrappers
  import opened Text
  import MuTypes

  newtype U64 = x: int | 0 <= x < 0x1_0000_0000_0000_0000

  type Address = nat

  datatype HandleValue =
    | Int(val: U64, bits: nat)
    | Float(fbits: nat)
    | Double(dbits: nat)
    | UPtr(pty: MuTypes.MuType, paddr: Address)
    | Ufp(fty: MuTypes.MuType, faddr: Address)
    | Struct(fields: seq<HandleValue>)
    | Array(elems: seq<HandleValue>)
    | Vector(lanes: seq<HandleValue>)
    | Ref(rty: MuTypes.MuType, raddr: Address)
    | IRef(ity: MuTypes.MuType, iaddr: Address)
    | TagRef64(tag: U64)
    | FuncRef
    | ThreadRef
    | StackRef
    | FrameCursorRef
    | Bundle
    | Type(typeId: nat)
    | FuncSig(sigId: nat)
    | FuncVer(verId: nat)
    | BasicBlock
    | Inst
    | Global(globalId: nat)
    | Func(funcId: nat)
    | ExpFunc
    | NorParam
    | ExcParam
    | InstRes

  /** A handle pairs the id it was issued under with its value. */
  datatype ApiHandle = ApiHandle(id: nat, v: HandleValue)

  /** The referenced type and address of a `Ref` or an `IRef`. */
  function AsRefOrIref(h: HandleValue): (r: Result<(MuTypes.MuType, Address), String>)
    ensures r.Ok? <==> AsRef(h).Ok? || AsIref(h).Ok?
    ensures AsRef(h).Ok? ==> r == AsRef(h)
    ensures AsIref(h).Ok? ==> r == AsIref(h)
  {
    match h
    case Ref(ty, addr) => Ok((ty, addr))
    case IRef(ty, addr) => Ok((ty, addr))
    case _ => Err("expected Ref or IRef handle")
  }

  /** The referenced type and address of a `Ref`; an `IRef` is refused. */
  function AsRef(h: HandleValue): (r: Result<(MuTypes.MuType, Address), String>)
    ensures r.Ok? ==> h == Ref(r.value.0, r.value.1)
    ensures h.Ref? ==> r.Ok?
  {
    match h
    case Ref(ty, addr) => Ok((ty, addr))
    case _ => Err("expected Ref handle")
  }

  /** The referenced type and address of an `IRef`; a `Ref` is refused. */
  function AsIref(h: HandleValue): (r: Result<(MuTypes.MuType, Address), String>)
    ensures r.Ok? ==> h == IRef(r.value.0, r.value.1)
    ensures h.IRef? ==> r.Ok?
  {
    match h
    case IRef(ty, addr) => Ok((ty, addr))
    case _ => Err("expected IRef handle")
  }

  /** The stored integer of an `Int`, whatever its width. */
  function AsInt(h: HandleValue): (r: Result<U64, String>)
    ensures r.Ok? ==> h.Int? && h.val == r.value
    ensures h.Int? ==> r.Ok?
  {
    match h
    case Int(val, _) => Ok(val)
    case _ => Err("expected Int handle")
  }

  /** The bit pattern of a `Float`; the value itself is not interpreted. */
  function AsFloat(h: HandleValue): (r: Result<nat, String>)
    ensures r.Ok? ==> h == Float(r.value)
    ensures h.Float? ==> r.Ok?
  {
    match h
    case Float(b) => Ok(b)
    case _ => Err("expected Float handle")
  }

  /** The bit pattern of a `Double`. */
  function AsDouble(h: HandleValue): (r: Result<nat, String>)
    ensures r.Ok? ==> h == Double(r.value)
    ensures h.Double? ==> r.Ok?
  {
    match h
    case Double(b) => Ok(b)
    case _ => Err("expected Double handle")
  }

  function AsUPtr(h: HandleValue): (r: Result<(MuTypes.MuType, Address), String>)
    ensures r.Ok? ==> h == UPtr(r.value.0, r.value.1)
    ensures h.UPtr? ==> r.Ok?
  {
    match h
    case UPtr(ty, addr) => Ok((ty, addr))
    case _ => Err("expected UPtr handle")
  }

  function AsUfp(h: HandleValue): (r: Result<(MuTypes.MuType, Address), String>)
    ensures r.Ok? ==> h == Ufp(r.value.0, r.value.1)
    ensures h.Ufp? ==> r.Ok?
  {
    match h
    case Ufp(ty, addr) => Ok((ty, addr))
    case _ => Err("expected UFP handle")
  }

  /** The id of the function a `Func` handle names; a `FuncRef` carries none
      and is refused like every other variant. */
  function AsFunc(h: HandleValue): (r: Result<nat, String>)
    ensures r.Ok? ==> h == Func(r.value)
    ensures h.Func? ==> r.Ok?
  {
    match h
    case Func(id) => Ok(id)
    case _ => Err("expected FuncRef")
  }

  /** Every accessor gives back exactly what the matching constructor stored. */
  lemma AccessorsInvertConstructors(ty: MuTypes.MuType, addr: Address, val: U64, bits: nat, id: nat)
    ensures AsInt(Int(val, bits)) == Ok(val)
    ensures AsFloat(Float(bits)) == Ok(bits) && AsDouble(Double(bits)) == Ok(bits)
    ensures AsRef(Ref(ty, addr)) == Ok((ty, addr))
    ensures AsIref(IRef(ty, addr)) == Ok((ty, addr))
    ensures AsRefOrIref(Ref(ty, addr)) == Ok((ty, addr))
    ensures AsRefOrIref(IRef(ty, addr)) == Ok((ty, addr))
    ensures AsUPtr(UPtr(ty, addr)) == Ok((ty, addr))
    ensures AsUfp(Ufp(ty, addr)) == Ok((ty, addr))
    ensures AsFunc(Func(id)) == Ok(id)
  {
  }

  /** A handle is never both a `Ref` and an `IRef`, and the two kinds of
      reference are not interchangeable: a `Ref` refused by `AsIref` and an
      `IRef` refused by `AsRef` are both still accepted by `AsRefOrIref`. */
  lemma RefKindsDisjoint(h: HandleValue)
    ensures !(AsRef(h).Ok? && AsIref(h).Ok?)
    ensures h.IRef? ==> AsRef(h).Err? && AsRefOrIref(h).Ok?
    ensures h.Ref? ==> AsIref(h).Err? && AsRefOrIref(h).Ok?
  {
  }

  /** Only a `Func` handle yields a function id; the untyped `FuncRef` and the
      version handle `FuncVer` do not. */
  lemma OnlyFuncHasFunction(h: HandleValue)
    ensures AsFunc(h).Ok? <==> h.Func?
    ensures AsFunc(FuncRef).Err? && AsFunc(FuncVer(0)).Err?
  {
  }
}

=== FILE: headers.dfy ===
/**
 The header every Mu IR entity carries: a numeric id and an optional name.
 Two headers denote the same entity exactly when their ids agree; the name
 plays no part in equality. A header is displayed as `#id` when unnamed and
 as `name #id` otherwise.
 */
module Headers {
  import opened Wrappers
  import opened Text

  datatype Header = Header(id: nat, name: Option<String>)

  function Unnamed(id: nat): (h: Header)
    ensures h.id == id && h.name.None?
  {
    Header(id, None)
  }

  function Named(id: nat, name: String): (h: Header)
    ensures h.id == id && h.name == Some(name)
  {
    Header(id, Some(name))
  }

  /** The entity equality of headers: ids only. */
  predicate SameEntity(a: Header, b: Header) {
    a.id == b.id
  }

  /** Naming an entity never changes which entity it is, and distinct ids are
      always distinct entities. */
  lemma SameEntityIgnoresName(id: nat, name: String, other: nat)
    ensures SameEntity(Unnamed(id), Named(id, name))
    ensures SameEntity(Named(id, name), Unnamed(other)) <==> id == other
  {
  }

  function Display(h: Header): (r: String)
    ensures EndsWith(r, ['#'] + NatToDecimal(h.id))
    ensures h.name.None? ==> r == ['#'] + NatToDecimal(h.id)
    ensures h.name.Some? ==> StartsWith(r, h.name.value + [' '])
  {
    var idText := ['#'] + NatToDecimal(h.id);
    match h.name
    case None => idText
    case Some(n) => n + [' '] + idText
  }

  predicate IsDigit(c: char) {
    '0' <= c <= '9'
  }

  /** The length of the run of decimal digits at the end of `s`. */
  function TrailingDigits(s: String): (k: nat)
    ensures k <= |s|
    ensures forall i :: |s| - k <= i < |s| ==> IsDigit(s[i])
    ensures k < |s| ==> !IsDigit(s[|s| - k - 1])
    decreases |s|
  {
    if |s| > 0 && IsDigit(s[|s| - 1]) then TrailingDigits(s[..|s| - 1]) + 1 else 0
  }

  /** Reads a displayed header back: the trailing digits after `#` are the id,
      and whatever precedes ` #` is the name. The program has no such parser;
      this one is the partner of `Display` in `DisplayParse`. */
  function Parse(s: String): (r: Option<Header>)
    ensures r.Some? ==> EndsWith(s, ['#'] + NatToDecimal(r.value.id))
  {
    var k := TrailingDigits(s);
    if k == 0 || k == |s| || s[|s| - k - 1] != '#' then None
    else
      var digits := s[|s| - k..];
      var id := DecimalValue(digits);
      var prefix := s[..|s| - k - 1];
      if DropZeros(digits) != digits then None
      else
        ParseWitness(digits, id);
        assert s[|s| - k - 1..] == ['#'] + digits;
        if |prefix| == 0 then Some(Unnamed(id))
        else if prefix[|prefix| - 1] == ' ' then Some(Named(id, prefix[..|prefix| - 1]))
        else None
  }

  /** Leading zeros are stripped, keeping at least one digit; only the
      canonical spelling of a number is accepted back. */
  function DropZeros(s: String): (r: String)
    ensures |r| <= |s|
    decreases |s|
  {
    if |s| > 1 && s[0] == '0' then DropZeros(s[1..]) else s
  }

  lemma ParseWitness(digits: String, id: nat)
    requires forall i :: 0 <= i < |digits| ==> '0' <= digits[i] <= '9'
    requires |digits| >= 1 && DropZeros(digits) == digits && id == DecimalValue(digits)
    ensures NatToDecimal(id) == digits
  {
    CanonicalDecimal(digits);
  }

  /** A canonical digit string is the rendering of its value. */
  lemma {:induction false} CanonicalDecimal(s: String)
    requires |s| >= 1 && forall i :: 0 <= i < |s| ==> '0' <= s[i] <= '9'
    requires DropZeros(s) == s
    ensures NatToDecimal(DecimalValue(s)) == s
    decreases |s|
  {
    var last := DigitValue(s[|s| - 1]);
    if |s| == 1 {
      assert DigitChar(last) == s[0];
    } else {
      var front := s[..|s| - 1];
      assert s[0] != '0';
      assert front[0] == s[0];
      assert DropZeros(front) == front;
      CanonicalDecimal(front);
      var v := DecimalValue(front);
      LeadingNonZero(front);
      assert v >= 1;
      assert DecimalValue(s) == 10 * v + last;
      assert (10 * v + last) / 10 == v && (10 * v + last) % 10 == last;
      assert s == front + [s[|s| - 1]];
    }
  }

  /** A digit string that does not start with `0` denotes a positive number. */
  lemma {:induction false} LeadingNonZero(s: String)
    requires |s| >= 1 && forall i :: 0 <= i < |s| ==> '0' <= s[i] <= '9'
    requires s[0] != '0'
    ensures DecimalValue(s) >= 1
    decreases |s|
  {
    if |s| > 1 {
      var front := s[..|s| - 1];
      assert front[0] == s[0];
      LeadingNonZero(front);
    } else {
      assert DigitValue(s[0]) != 0;
    }
  }

  /** The rendering of a number has no superfluous leading zero. */
  lemma RenderingCanonical(n: nat)
    ensures DropZeros(NatToDecimal(n)) == NatToDecimal(n)
  {
    var r := NatToDecimal(n);
    if |r| > 1 {
      FirstDigitNonZero(n);
    }
  }

  lemma {:induction false} FirstDigitNonZero(n: nat)
    requires n >= 10
    ensures NatToDecimal(n)[0] != '0'
    decreases n
  {
    var r := NatToDecimal(n);
    assert r == NatToDecimal(n / 10) + [DigitChar(n % 10)];
    if n / 10 >= 10 {
      FirstDigitNonZero(n / 10);
    } else {
      assert NatToDecimal(n / 10) == [DigitChar(n / 10)];
      assert n / 10 != 0;
    }
  }

  /** The digits of `a + ['#'] + d` that trail are exactly `d`. */
  lemma {:induction false} TrailingOfSuffix(a: String, d: String)
    requires forall i :: 0 <= i < |d| ==> IsDigit(d[i])
    ensures TrailingDigits(a + ['#'] + d) == |d|
    decreases |d|
  {
    var s := a + ['#'] + d;
    if |d| == 0 {
      assert s[|s| - 1] == '#';
    } else {
      assert s[..|s| - 1] == a + ['#'] + d[..|d| - 1];
      TrailingOfSuffix(a, d[..|d| - 1]);
    }
  }

  /** Display followed by Parse gives the header back, name included: the
      displayed form loses nothing. */
  lemma DisplayParse(h: Header)
    ensures Parse(Display(h)) == Some(h)
  {
    var digits := NatToDecimal(h.id);
    var pre: String := if h.name.Some? then h.name.value + [' '] else [];
    var s := Display(h);
    assert s == pre + ['#'] + digits;
    TrailingOfSuffix(pre, digits);
    assert s[|s| - |digits|..] == digits;
    assert s[..|s| - |digits| - 1] == pre;
    DecimalRoundTrip(h.id);
    RenderingCanonical(h.id);
    if h.name.Some? {
      assert pre[..|pre| - 1] == h.name.value;
    }
  }

  /** Headers that display identically are identical. */
  lemma DisplayInjective(a: Header, b: Header)
    requires Display(a) == Display(b)
    ensures a == b
  {
    DisplayParse(a);
    DisplayParse(b);
  }
}

=== FILE: heap_dump.dfy ===
/**
 The heap dump the boot-image writer takes: starting from a list of root
 addresses, every object reachable through its reference fields is
 persisted once (its address, where its memory starts, its size and the
 offsets of its reference fields), and every persisted object then gets a
 relocatable label.

 Memory is abstract. `Heap.headers` gives, for every object address, what
 the header word says about the object's layout; `Heap.words` gives the
 address stored at each field address; `gcTypes` is the GC's type table.
 Reading a header of a non-object or an unmapped field, and an out-of-range
 type id, are undefined or a panic in the program and an `Err` here.
 */
module HeapDumps {
  import opened Wrappers
  import opened Text
  import opened BitArith
  import GcTypes

  type Address = nat

  /** `OBJECT_HEADER_SIZE` of the object model. */
  const ObjectHeaderSize: nat := 0

  /** What persisting needs from an object's header word: a fixed-size object
      either describes its reference fields in a bit map, one bit per word, or
      names its GC type, as a hybrid always does. */
  datatype ObjHeader =
    | FixWithRefMap(refMap: nat, objectSize: nat)
    | FixByType(fixTypeId: nat)
    | HybridByType(hybridTypeId: nat)

  /** `refMapLength` is the object model's `REF_MAP_LENGTH` and `headerOffset`
      its `OBJECT_HEADER_OFFSET`. */
  datatype Heap = Heap(
    headers: map<Address, ObjHeader>,
    words: map<Address, Address>,
    gcTypes: seq<GcTypes.GcType>,
    refMapLength: nat,
    headerOffset: int)

  datatype ObjectDump = ObjectDump(referenceAddr: Address, memStart: int, memSize: nat, referenceOffsets: seq<nat>)

  datatype HeapDump = HeapDump(objects: map<Address, ObjectDump>, relocatableRefs: map<Address, String>)

  // ---------------------------------------------------------------------
  // Persisting one object
  // ---------------------------------------------------------------------

  /** The byte offset of word `i` of an object. */
  function Offset(i: nat): nat {
    i * GcTypes.PointerSize
  }

  /** The word a byte offset falls in. */
  function Slot(o: nat): nat {
    o / GcTypes.PointerSize
  }

  lemma OffsetSlot(i: nat)
    ensures Slot(Offset(i)) == i
  {
  }

  lemma OffsetMono(i: nat, j: nat)
    requires i < j
    ensures Offset(i) < Offset(j)
  {
  }

  /** `((ref_map >> i) & 1) == 1` */
  predicate HasRef(refMap: nat, i: nat) {
    And(Shr(refMap, i), 1) == 1
  }

  lemma HasRefBit(refMap: nat, i: nat)
    ensures HasRef(refMap, i) <==> Bit(refMap, i)
  {
    var y := Shr(refMap, i);
    BitShr(refMap, i, 0);
    if y != 0 {
      assert And(y, 1) == 2 * And(y / 2, 0) + (if y % 2 == 1 then 1 else 0);
    }
  }

  /** The offsets of the reference fields among the first `n` words of a
      ref-mapped object, in the order the decoding loop finds them: word-aligned,
      one for each set bit below `n`, ascending. */
  function RefMapOffsets(refMap: nat, n: nat): (r: seq<nat>)
    ensures forall k :: 0 <= k < |r| ==> r[k] == Offset(Slot(r[k])) && Slot(r[k]) < n && Bit(refMap, Slot(r[k]))
    ensures forall i :: 0 <= i < n && Bit(refMap, i) ==> Offset(i) in r
    ensures forall k, j :: 0 <= k < j < |r| ==> r[k] < r[j]
    decreases n
  {
    if n == 0 then []
    else
      var front := RefMapOffsets(refMap, n - 1);
      HasRefBit(refMap, n - 1);
      OffsetSlot(n - 1);
      RefMapTail(front, n - 1);
      front + (if HasRef(refMap, n - 1) then [Offset(n - 1)] else [])
  }

  /** Offsets of words below `i` all lie below the offset of word `i`. */
  lemma RefMapTail(front: seq<nat>, i: nat)
    requires forall k :: 0 <= k < |front| ==> front[k] == Offset(Slot(front[k])) && Slot(front[k]) < i
    ensures forall k :: 0 <= k < |front| ==> front[k] < Offset(i)
  {
    forall k | 0 <= k < |front| ensures front[k] < Offset(i) {
      OffsetMono(Slot(front[k]), i);
    }
  }

  /** The record of the object at `obj`: a ref-mapped object has its size and
      field offsets in the header, any other object takes both from its GC type. */
  function Persist(heap: Heap, obj: Address): (r: Result<ObjectDump, String>)
    ensures r.Ok? ==> obj in heap.headers
    ensures r.Ok? ==> r.value.referenceAddr == obj && r.value.memStart == obj + heap.headerOffset
    ensures obj in heap.headers && heap.headers[obj].FixWithRefMap? ==>
      r.Ok? && r.value.memSize == heap.headers[obj].objectSize + ObjectHeaderSize
      && r.value.referenceOffsets == RefMapOffsets(heap.headers[obj].refMap, heap.refMapLength)
    ensures obj in heap.headers && !heap.headers[obj].FixWithRefMap? ==>
      (r.Ok? <==> TypeId(heap.headers[obj]) < |heap.gcTypes|)
    ensures r.Ok? && !heap.headers[obj].FixWithRefMap? ==>
      r.value.memSize == heap.gcTypes[TypeId(heap.headers[obj])].size
      && r.value.referenceOffsets == GcTypes.GenRefOffsets(heap.gcTypes[TypeId(heap.headers[obj])])
  {
    if obj !in heap.headers then Err("not a heap object")
    else
      var hdr := heap.headers[obj];
      var hdrAddr := obj + heap.headerOffset;
      match hdr
      case FixWithRefMap(refMap, size) =>
        Ok(ObjectDump(obj, hdrAddr, size + ObjectHeaderSize, RefMapOffsets(refMap, heap.refMapLength)))
      case _ =>
        var id := TypeId(hdr);
        if id >= |heap.gcTypes| then Err("GC type id out of range")
        else
          var t := heap.gcTypes[id];
          Ok(ObjectDump(obj, hdrAddr, t.size, GcTypes.GenRefOffsets(t)))
  }

  function TypeId(hdr: ObjHeader): nat
    requires !hdr.FixWithRefMap?
  {
    if hdr.FixByType? then hdr.fixTypeId else hdr.hybridTypeId
  }

  /** A ref map with no bit set gives an object no reference fields, and one
      with every bit set gives it one reference field per word. */
  lemma RefMapExtremes(n: nat, k: nat)
    requires k < n
    ensures RefMapOffsets(0, n) == []
    ensures Offset(k) in RefMapOffsets(Ones(n), n)
  {
    var none := RefMapOffsets(0, n);
    if |none| > 0 {
      BitZero(Slot(none[0]));
    }
    BitOnes(n, k);
  }

  // ---------------------------------------------------------------------
  // Tracing
  // ---------------------------------------------------------------------

  function Field(base: Address, offset: nat): Address {
    base + offset
  }

  /** Every field at one of `offs` from `base` can be read. */
  predicate Traceable(heap: Heap, base: Address, offs: seq<nat>) {
    forall k :: 0 <= k < |offs| ==> Field(base, offs[k]) in heap.words
  }

  /** `e` is the address stored in one of the fields at `offs` from `base`. */
  ghost predicate EdgeAt(heap: Heap, base: Address, offs: seq<nat>, e: Address) {
    exists k :: 0 <= k < |offs| && Field(base, offs[k]) in heap.words && heap.words[Field(base, offs[k])] == e
  }

  ghost predicate EdgeOf(heap: Heap, d: ObjectDump, e: Address) {
    EdgeAt(heap, d.referenceAddr, d.referenceOffsets, e)
  }

  /** The addresses `keep_tracing` pushes for the fields at `offs` from `base`:
      each non-null field value not yet dumped, in field order. */
  function Trace(heap: Heap, base: Address, offs: seq<nat>, objects: map<Address, ObjectDump>): (r: Result<seq<Address>, String>)
    ensures r.Ok? <==> Traceable(heap, base, offs)
    decreases |offs|
  {
    if |offs| == 0 then Ok([])
    else
      var field := Field(base, offs[0]);
      if field !in heap.words then Err("unmapped field")
      else
        var edge := heap.words[field];
        match Trace(heap, base, offs[1..], objects)
        case Err(e) => Err(e)
        case Ok(rest) => if edge != 0 && edge !in objects then Ok([edge] + rest) else Ok(rest)
  }

  /** Exactly the non-null, not yet dumped field values are pushed. */
  lemma {:induction false} TracePushes(heap: Heap, base: Address, offs: seq<nat>, objects: map<Address, ObjectDump>, e: Address)
    requires Trace(heap, base, offs, objects).Ok?
    ensures e in Trace(heap, base, offs, objects).value <==> e != 0 && e !in objects && EdgeAt(heap, base, offs, e)
    decreases |offs|
  {
    if |offs| > 0 {
      TracePushes(heap, base, offs[1..], objects, e);
      var field := Field(base, offs[0]);
      if EdgeAt(heap, base, offs, e) && heap.words[field] != e {
        var k :| 0 <= k < |offs| && Field(base, offs[k]) in heap.words && heap.words[Field(base, offs[k])] == e;
        assert offs[1..][k - 1] == offs[k];
      }
      if EdgeAt(heap, base, offs[1..], e) {
        var k :| 0 <= k < |offs[1..]| && Field(base, offs[1..][k]) in heap.words && heap.words[Field(base, offs[1..][k])] == e;
        assert offs[k + 1] == offs[1..][k];
      }
      assert heap.words[field] == e ==> Field(base, offs[0]) in heap.words;
    }
  }

  // ---------------------------------------------------------------------
  // The work-queue loop
  // ---------------------------------------------------------------------

  lemma Shrinks(a: set<Address>, b: set<Address>, o: Address)
    requires o in a && o !in b
    ensures |a - (b + {o})| < |a - b|
  {
    assert a - b == (a - (b + {o})) + {o};
  }

  /** The loop of `from_roots`, one iteration per call: the last queued
      address is popped; unless it is already dumped, it is persisted and the
      addresses its fields lead to are queued. `order` lists the dumped
      addresses as they were inserted. */
  function Drain(heap: Heap, queue: seq<Address>, objects: map<Address, ObjectDump>, order: seq<Address>)
    : (r: Result<(map<Address, ObjectDump>, seq<Address>), String>)
    requires objects.Keys <= heap.headers.Keys
    ensures r.Ok? ==> objects.Keys <= r.value.0.Keys && r.value.0.Keys <= heap.headers.Keys
    decreases |heap.headers.Keys - objects.Keys|, |queue|
  {
    if |queue| == 0 then Ok((objects, order))
    else
      var obj := queue[|queue| - 1];
      var rest := queue[..|queue| - 1];
      if obj in objects then Drain(heap, rest, objects, order)
      else
        match Persist(heap, obj)
        case Err(e) => Err(e)
        case Ok(d) =>
          var objects' := objects[obj := d];
          match Trace(heap, d.referenceAddr, d.referenceOffsets, objects')
          case Err(e) => Err(e)
          case Ok(pushed) =>
            Shrinks(heap.headers.Keys, objects.Keys, obj);
            Drain(heap, rest + pushed, objects', order + [obj])
  }

  /** `HeapDump::from_roots`. The map's key order, which the labelling loop
      follows, is taken to be the insertion order. */
  function FromRoots(heap: Heap, roots: seq<Address>, show: Address -> String): (r: Result<HeapDump, String>)
    ensures r.Ok? ==> r.value.relocatableRefs.Keys == r.value.objects.Keys
  {
    DrainSound(heap, roots, roots, map[], []);
    match Drain(heap, roots, map[], [])
    case Err(e) => Err(e)
    case Ok((objects, order)) => Ok(HeapDump(objects, Labels(order, show, 0)))
  }

  // ---------------------------------------------------------------------
  // What the loop keeps
  // ---------------------------------------------------------------------

  /** Every dumped object is recorded exactly as persisting its address gives it. */
  ghost predicate Persisted(heap: Heap, objects: map<Address, ObjectDump>) {
    forall a :: a in objects ==> Persist(heap, a) == Ok(objects[a])
  }

  /** `order` lists the dumped addresses, each once. */
  ghost predicate Listed(objects: map<Address, ObjectDump>, order: seq<Address>) {
    (forall a :: a in objects <==> a in order) && Distinct(order)
  }

  /** Every non-null field value of a dumped object is dumped or still queued. */
  ghost predicate Pending(heap: Heap, objects: map<Address, ObjectDump>, queue: seq<Address>) {
    forall a, e :: a in objects && e != 0 && EdgeOf(heap, objects[a], e) ==> e in objects || e in queue
  }

  /** Every non-null field value of a dumped object is dumped. */
  ghost predicate Closed(heap: Heap, objects: map<Address, ObjectDump>) {
    forall a, e :: a in objects && e != 0 && EdgeOf(heap, objects[a], e) ==> e in objects
  }

  /** `e` is stored in a field of one of the first `i` addresses of `order`. */
  ghost predicate FromEarlier(heap: Heap, order: seq<Address>, i: nat, e: Address) {
    exists j :: 0 <= j < i && j < |order| && Persist(heap, order[j]).Ok? && EdgeOf(heap, Persist(heap, order[j]).value, e)
  }

  /** Each address of `order` is a root or a non-null field value of an earlier one. */
  ghost predicate Derived(heap: Heap, roots: seq<Address>, order: seq<Address>) {
    forall i :: 0 <= i < |order| ==> order[i] in roots || (order[i] != 0 && FromEarlier(heap, order, i, order[i]))
  }

  ghost predicate QueueDerived(heap: Heap, roots: seq<Address>, order: seq<Address>, queue: seq<Address>) {
    forall q :: q in queue ==> q in roots || (q != 0 && FromEarlier(heap, order, |order|, q))
  }

  ghost predicate Inv(heap: Heap, roots: seq<Address>, queue: seq<Address>, objects: map<Address, ObjectDump>, order: seq<Address>) {
    && objects.Keys <= heap.headers.Keys
    && Persisted(heap, objects)
    && Listed(objects, order)
    && Pending(heap, objects, queue)
    && Derived(heap, roots, order)
    && QueueDerived(heap, roots, order, queue)
  }

  /** A set closed under the non-null field values of its persistable members. */
  ghost predicate ClosedSet(heap: Heap, s: set<Address>) {
    forall a, e :: a in s && Persist(heap, a).Ok? && e != 0 && EdgeOf(heap, Persist(heap, a).value, e) ==> e in s
  }

  /** Every member of `s` can be persisted and its fields read. */
  ghost predicate Dumpable(heap: Heap, s: set<Address>) {
    forall a :: a in s ==> Persist(heap, a).Ok? && Traceable(heap, a, Persist(heap, a).value.referenceOffsets)
  }

  /** Popping an address that is already dumped keeps the invariant. */
  lemma SkipKeeps(heap: Heap, roots: seq<Address>, queue: seq<Address>, objects: map<Address, ObjectDump>, order: seq<Address>)
    requires |queue| > 0 && queue[|queue| - 1] in objects
    requires Inv(heap, roots, queue, objects, order)
    ensures Inv(heap, roots, queue[..|queue| - 1], objects, order)
  {
    var rest := queue[..|queue| - 1];
    assert queue == rest + [queue[|queue| - 1]];
    forall a, e | a in objects && e != 0 && EdgeOf(heap, objects[a], e) ensures e in objects || e in rest {
      assert e in objects || e in queue;
    }
    forall q | q in rest ensures q in roots || (q != 0 && FromEarlier(heap, order, |order|, q)) {
      assert q in queue;
    }
  }

  /** Persisting a new address and queueing its untraced fields keeps the invariant. */
  lemma StepKeeps(heap: Heap, roots: seq<Address>, queue: seq<Address>, objects: map<Address, ObjectDump>, order: seq<Address>,
                  d: ObjectDump, pushed: seq<Address>)
    requires |queue| > 0 && queue[|queue| - 1] !in objects
    requires Inv(heap, roots, queue, objects, order)
    requires Persist(heap, queue[|queue| - 1]) == Ok(d)
    requires Trace(heap, d.referenceAddr, d.referenceOffsets, objects[queue[|queue| - 1] := d]) == Ok(pushed)
    ensures Inv(heap, roots, queue[..|queue| - 1] + pushed, objects[queue[|queue| - 1] := d], order + [queue[|queue| - 1]])
  {
    var obj := queue[|queue| - 1];
    var rest := queue[..|queue| - 1];
    assert queue == rest + [obj];
    forall e | e in pushed ensures e != 0 && EdgeOf(heap, d, e) {
      TracePushes(heap, d.referenceAddr, d.referenceOffsets, objects[obj := d], e);
    }
    StepPending(heap, objects, obj, rest, d, pushed);
    StepDerived(heap, roots, order, obj);
    StepQueue(heap, roots, order, rest, obj, d, pushed);
    assert obj !in order;
  }

  lemma StepPending(heap: Heap, objects: map<Address, ObjectDump>, obj: Address, rest: seq<Address>, d: ObjectDump, pushed: seq<Address>)
    requires Pending(heap, objects, rest + [obj])
    requires Trace(heap, d.referenceAddr, d.referenceOffsets, objects[obj := d]) == Ok(pushed)
    ensures Pending(heap, objects[obj := d], rest + pushed)
  {
    var objects', queue' := objects[obj := d], rest + pushed;
    forall a, e | a in objects' && e != 0 && EdgeOf(heap, objects'[a], e) ensures e in objects' || e in queue' {
      if a == obj && e !in objects' {
        TracePushes(heap, d.referenceAddr, d.referenceOffsets, objects', e);
      } else if a != obj {
        assert e in objects || e in rest + [obj];
      }
    }
  }

  lemma StepDerived(heap: Heap, roots: seq<Address>, order: seq<Address>, obj: Address)
    requires Derived(heap, roots, order)
    requires obj in roots || (obj != 0 && FromEarlier(heap, order, |order|, obj))
    ensures Derived(heap, roots, order + [obj])
  {
    var order' := order + [obj];
    forall i | 0 <= i < |order'| ensures order'[i] in roots || (order'[i] != 0 && FromEarlier(heap, order', i, order'[i])) {
      if i < |order| {
        if order[i] !in roots {
          var j :| 0 <= j < i && j < |order| && Persist(heap, order[j]).Ok? && EdgeOf(heap, Persist(heap, order[j]).value, order[i]);
          assert order'[j] == order[j];
        }
      } else if obj !in roots {
        var j :| 0 <= j < |order| && Persist(heap, order[j]).Ok? && EdgeOf(heap, Persist(heap, order[j]).value, obj);
        assert order'[j] == order[j];
      }
    }
  }

  lemma StepQueue(heap: Heap, roots: seq<Address>, order: seq<Address>, rest: seq<Address>, obj: Address, d: ObjectDump, pushed: seq<Address>)
    requires QueueDerived(heap, roots, order, rest)
    requires Persist(heap, obj) == Ok(d)
    requires forall e :: e in pushed ==> e != 0 && EdgeOf(heap, d, e)
    ensures QueueDerived(heap, roots, order + [obj], rest + pushed)
  {
    var order' := order + [obj];
    forall q | q in rest + pushed ensures q in roots || (q != 0 && FromEarlier(heap, order', |order'|, q)) {
      if q in rest {
        if q !in roots {
          var j :| 0 <= j < |order| && Persist(heap, order[j]).Ok? && EdgeOf(heap, Persist(heap, order[j]).value, q);
          assert order'[j] == order[j];
        }
      } else {
        assert order'[|order|] == obj;
      }
    }
  }

  /** When the loop finishes, every dumped object is persisted once, all its
      non-null fields lead to dumped objects, every queued address has been
      dumped, and every dumped address is a root or reached from an earlier one. */
  lemma {:induction false} DrainSound(heap: Heap, roots: seq<Address>, queue: seq<Address>, objects: map<Address, ObjectDump>, order: seq<Address>)
    requires Inv(heap, roots, queue, objects, order)
    ensures Drain(heap, queue, objects, order).Ok? ==>
      var (objects', order') := Drain(heap, queue, objects, order).value;
      (&& Persisted(heap, objects') && Listed(objects', order') && Closed(heap, objects')
       && Derived(heap, roots, order') && (forall q :: q in queue ==> q in objects'))
    decreases |heap.headers.Keys - objects.Keys|, |queue|
  {
    if |queue| > 0 {
      var obj := queue[|queue| - 1];
      var rest := queue[..|queue| - 1];
      assert queue == rest + [obj];
      if obj in objects {
        SkipKeeps(heap, roots, queue, objects, order);
        DrainSound(heap, roots, rest, objects, order);
      } else if Persist(heap, obj).Ok? {
        var d := Persist(heap, obj).value;
        var objects' := objects[obj := d];
        if Trace(heap, d.referenceAddr, d.referenceOffsets, objects').Ok? {
          var pushed := Trace(heap, d.referenceAddr, d.referenceOffsets, objects').value;
          StepKeeps(heap, roots, queue, objects, order, d, pushed);
          Shrinks(heap.headers.Keys, objects.Keys, obj);
          DrainSound(heap, roots, rest + pushed, objects', order + [obj]);
        }
      }
    }
  }

  /** The dump succeeds whenever the queued addresses lie in a closed set whose
      members can all be persisted and traced. */
  lemma {:induction false} DrainTotal(heap: Heap, queue: seq<Address>, objects: map<Address, ObjectDump>, order: seq<Address>, s: set<Address>)
    requires objects.Keys <= heap.headers.Keys
    requires (forall q :: q in queue ==> q in s) && ClosedSet(heap, s) && Dumpable(heap, s)
    ensures Drain(heap, queue, objects, order).Ok?
    decreases |heap.headers.Keys - objects.Keys|, |queue|
  {
    if |queue| > 0 {
      var obj := queue[|queue| - 1];
      var rest := queue[..|queue| - 1];
      assert obj in s;
      if obj !in objects {
        var d := Persist(heap, obj).value;
        var objects' := objects[obj := d];
        var pushed := Trace(heap, d.referenceAddr, d.referenceOffsets, objects').value;
        forall e | e in rest + pushed ensures e in s {
          if e !in rest {
            TracePushes(heap, d.referenceAddr, d.referenceOffsets, objects', e);
          }
        }
        Shrinks(heap.headers.Keys, objects.Keys, obj);
        DrainTotal(heap, rest + pushed, objects', order + [obj], s);
      } else {
        DrainTotal(heap, rest, objects, order, s);
      }
    }
  }

  /** Every address of a derivation from `roots` lies in any closed set that
      holds the roots: nothing unreachable is dumped. */
  lemma {:induction false} DerivedWithin(heap: Heap, roots: seq<Address>, order: seq<Address>, s: set<Address>, n: nat)
    requires Derived(heap, roots, order) && n <= |order|
    requires (forall q :: q in roots ==> q in s) && ClosedSet(heap, s)
    ensures forall i :: 0 <= i < n ==> order[i] in s
  {
    if n > 0 {
      DerivedWithin(heap, roots, order, s, n - 1);
      var x := order[n - 1];
      if x !in roots {
        var j :| 0 <= j < n - 1 && j < |order| && Persist(heap, order[j]).Ok? && EdgeOf(heap, Persist(heap, order[j]).value, x);
        assert order[j] in s;
      }
    }
  }

  // ---------------------------------------------------------------------
  // Labels
  // ---------------------------------------------------------------------

  /** `GCDUMP_<count>_<address>`, where `show` renders the address. */
  function Label(count: nat, addr: Address, show: Address -> String): String {
    "GCDUMP_" + NatToDecimal(count) + "_" + show(addr)
  }

  ghost predicate Distinct(xs: seq<Address>) {
    forall i, j :: 0 <= i < j < |xs| ==> xs[i] != xs[j]
  }

  /** `label_relocatable_refs` over the addresses `order`, counting from `count`. */
  function Labels(order: seq<Address>, show: Address -> String, count: nat): (m: map<Address, String>)
    ensures m.Keys == set a | a in order
    decreases |order|
  {
    if |order| == 0 then map[]
    else
      var last := order[|order| - 1];
      Labels(order[..|order| - 1], show, count)[last := Label(count + |order| - 1, last, show)]
  }

  /** Without repeated addresses, the address at position `i` gets the label
      numbered `count + i`. */
  lemma {:induction false} LabelsAt(order: seq<Address>, show: Address -> String, count: nat, i: nat)
    requires Distinct(order) && i < |order|
    ensures Labels(order, show, count)[order[i]] == Label(count + i, order[i], show)
    decreases |order|
  {
    if i < |order| - 1 {
      LabelsAt(order[..|order| - 1], show, count, i);
    }
  }

  /** The count can be read back from a label when the rendered address has no
      underscore, so different counts give different labels. */
  lemma LabelCount(count: nat, addr: Address, show: Address -> String)
    requires '_' !in show(addr)
    ensures Split(Label(count, addr, show), '_') == ["GCDUMP", NatToDecimal(count), show(addr)]
  {
    var parts := ["GCDUMP", NatToDecimal(count), show(addr)];
    assert Join(parts[1..], "_") == NatToDecimal(count) + "_" + show(addr);
    assert Join(parts, "_") == Label(count, addr, show);
    forall k | 0 <= k < |parts| ensures '_' !in parts[k] {
      if k == 1 {
        DigitsNoUnderscore(NatToDecimal(count));
      }
    }
    JoinSplit(parts, '_');
  }

  lemma DigitsNoUnderscore(s: String)
    requires forall i :: 0 <= i < |s| ==> '0' <= s[i] <= '9'
    ensures '_' !in s
  {
  }

  /** Different addresses of a duplicate-free listing get different labels. */
  lemma LabelsDistinct(order: seq<Address>, show: Address -> String, a: Address, b: Address)
    requires Distinct(order) && a in order && b in order && a != b
    requires '_' !in show(a) && '_' !in show(b)
    ensures Labels(order, show, 0)[a] != Labels(order, show, 0)[b]
  {
    var i :| 0 <= i < |order| && order[i] == a;
    var j :| 0 <= j < |order| && order[j] == b;
    LabelsAt(order, show, 0, i);
    LabelsAt(order, show, 0, j);
    LabelsDiffer(i, a, j, b, show);
  }

  lemma LabelsDiffer(c1: nat, a1: Address, c2: nat, a2: Address, show: Address -> String)
    requires '_' !in show(a1) && '_' !in show(a2) && c1 != c2
    ensures Label(c1, a1, show) != Label(c2, a2, show)
  {
    LabelCount(c1, a1, show);
    LabelCount(c2, a2, show);
    if NatToDecimal(c1) == NatToDecimal(c2) {
      DecimalInjective(c1, c2);
    }
  }

  // ---------------------------------------------------------------------
  // The dump as a whole
  // ---------------------------------------------------------------------

  /** A successful dump holds every root, each object exactly as persisting
      its address gives it, and every non-null reference of a dumped object
      leads to a dumped object. */
  lemma FromRootsSound(heap: Heap, roots: seq<Address>, show: Address -> String)
    ensures FromRoots(heap, roots, show).Ok? ==>
      var objects := FromRoots(heap, roots, show).value.objects;
      (&& (forall q :: q in roots ==> q in objects)
       && Persisted(heap, objects)
       && Closed(heap, objects))
  {
    DrainSound(heap, roots, roots, map[], []);
  }

  /** Nothing else is dumped: the objects lie within every closed set of
      addresses that holds the roots. */
  lemma FromRootsMinimal(heap: Heap, roots: seq<Address>, show: Address -> String, s: set<Address>)
    requires (forall q :: q in roots ==> q in s) && ClosedSet(heap, s)
    ensures FromRoots(heap, roots, show).Ok? ==> FromRoots(heap, roots, show).value.objects.Keys <= s
  {
    DrainSound(heap, roots, roots, map[], []);
    if Drain(heap, roots, map[], []).Ok? {
      var (objects, order) := Drain(heap, roots, map[], []).value;
      DerivedWithin(heap, roots, order, s, |order|);
      forall a | a in objects ensures a in s {
        var i :| 0 <= i < |order| && order[i] == a;
      }
    }
  }

  /** The dump fails only on an address that cannot be persisted or traced:
      when the roots lie in a closed set whose members all can, it succeeds. */
  lemma FromRootsTotal(heap: Heap, roots: seq<Address>, show: Address -> String, s: set<Address>)
    requires (forall q :: q in roots ==> q in s) && ClosedSet(heap, s) && Dumpable(heap, s)
    ensures FromRoots(heap, roots, show).Ok?
  {
    DrainTotal(heap, roots, map[], [], s);
  }

  /** Every dumped object gets one label, and no two objects share one as long
      as rendered addresses contain no underscore. */
  lemma FromRootsLabels(heap: Heap, roots: seq<Address>, show: Address -> String, a: Address, b: Address)
    requires forall x :: '_' !in show(x)
    ensures FromRoots(heap, roots, show).Ok? ==>
      var dump := FromRoots(heap, roots, show).value;
      (a in dump.objects && b in dump.objects && a != b ==> dump.relocatableRefs[a] != dump.relocatableRefs[b])
  {
    DrainSound(heap, roots, roots, map[], []);
    if Drain(heap, roots, map[], []).Ok? {
      var (objects, order) := Drain(heap, roots, map[], []).value;
      if a in objects && b in objects && a != b {
        LabelsDistinct(order, show, a, b);
      }
    }
  }
}

=== FILE: immix.dfy ===
/**
 The Immix space's block and line bookkeeping.

 The heap is cut into blocks, each block into lines. One mark table holds a
 mark per line and another a mark per block; the usable and used block lists
 hold block indices. The space grows by whole blocks up to its total, each
 growth twice the previous one. Sweeping frees every line that survived no
 marking, and files each block as usable (at least one free line) or full.
 The allocator looks for holes inside a block: the next free line, then the
 next line that is not free.

 The tables are sequences; memory mapping, zeroing and the objects' own
 bytes are not modelled. One block is 64 KiB and holds 256 lines, as the
 space's layout description (256K blocks, 64M lines) gives.
 */
module Immix {
  import opened Wrappers
  import opened Text

  const LinesInBlock: nat := 256
  const BytesInBlock: nat := 65536
  const InitialBlocks: nat := 64

  /** The line marks the sweep distinguishes; `FreshAlloc` and `PrevLive`
      are the remaining marks of the enumeration, untouched here. */
  datatype LineMark = Free | Live | FreshAlloc | ConservLive | PrevLive

  datatype BlockMark = Uninitialized | Usable | Full

  datatype Space = Space(
    totalBlocks: nat,
    curBlocks: nat,
    curSize: nat,
    curGrowthRate: nat,
    lineMarks: seq<LineMark>,
    blockMarks: seq<BlockMark>,
    usable: seq<nat>,
    used: seq<nat>,
    lastGcFreeLines: nat,
    lastGcUsedLines: nat)

  /** The block a line belongs to. */
  function BlockOf(line: nat): (b: nat)
  {
    line / LinesInBlock
  }

  /** The first line of block `b`. */
  function LineBase(b: nat): (l: nat)
  {
    b * LinesInBlock
  }

  lemma BlockOfRange(line: nat, b: nat)
    ensures BlockOf(line) == b <==> LineBase(b) <= line < LineBase(b) + LinesInBlock
  {
  }

  lemma LinesOfBlockInTable(b: nat, blocks: nat)
    requires b < blocks
    ensures LineBase(b) + LinesInBlock <= blocks * LinesInBlock
  {
  }

  /** A line the sweep may reclaim: it was marked neither live nor conservatively live. */
  predicate Unmarked(m: LineMark) {
    m != Live && m != ConservLive
  }

  /** The shape of the tables and lists that every operation keeps. */
  predicate Valid(s: Space) {
    && |s.lineMarks| == s.totalBlocks * LinesInBlock
    && |s.blockMarks| == s.totalBlocks
    && s.curBlocks <= s.totalBlocks
    && s.curSize == s.curBlocks * BytesInBlock
    && (forall b :: b in s.usable ==> b < s.curBlocks)
    && (forall b :: b in s.used ==> b < s.curBlocks)
  }

  /** A space that can still grow grew by at least one block last time, so
      doubling the last growth makes progress. */
  predicate Growable(s: Space) {
    s.curBlocks < s.totalBlocks ==> s.curGrowthRate > 0
  }

  /** Every current block is on exactly one of the two lists: the state the
      collector expects when it sweeps, with no block held by an allocator. */
  ghost predicate Complete(s: Space) {
    && |s.usable| + |s.used| == s.curBlocks
    && forall b: nat :: b in s.usable + s.used <==> b < s.curBlocks
  }

  // ---------------------------------------------------------------------
  // Growth
  // ---------------------------------------------------------------------

  function Range(start: nat, n: nat): (r: seq<nat>)
    ensures |r| == n && forall i :: 0 <= i < n ==> r[i] == start + i
  {
    seq(n, i requires 0 <= i < n => start + i)
  }

  /** Adds `n` fresh blocks at the end of the current space: they go to the
      back of the usable list with uninitialised block marks and free lines. */
  function GrowBlocks(s: Space, n: nat): (t: Space)
    requires Valid(s) && s.curBlocks + n <= s.totalBlocks
    requires s.curBlocks + n < s.totalBlocks ==> n > 0
    ensures Valid(t) && Growable(t)
    ensures t.curBlocks == s.curBlocks + n && t.totalBlocks == s.totalBlocks
    ensures t.curSize == s.curSize + n * BytesInBlock && t.curGrowthRate == n
    ensures t.usable == s.usable + Range(s.curBlocks, n) && t.used == s.used
    ensures forall b :: 0 <= b < |t.blockMarks| ==>
      t.blockMarks[b] == if s.curBlocks <= b < s.curBlocks + n then Uninitialized else s.blockMarks[b]
    ensures forall i :: 0 <= i < |t.lineMarks| ==>
      t.lineMarks[i] == if s.curBlocks <= BlockOf(i) < s.curBlocks + n then Free else s.lineMarks[i]
  {
    var cur := s.curBlocks;
    var lines := seq(|s.lineMarks|, i requires 0 <= i < |s.lineMarks| =>
      if cur <= BlockOf(i) < cur + n then Free else s.lineMarks[i]);
    var blocks := seq(|s.blockMarks|, b requires 0 <= b < |s.blockMarks| =>
      if cur <= b < cur + n then Uninitialized else s.blockMarks[b]);
    assert (cur + n) * BytesInBlock == cur * BytesInBlock + n * BytesInBlock;
    s.(lineMarks := lines, blockMarks := blocks, usable := s.usable + Range(cur, n),
       curBlocks := cur + n, curSize := s.curSize + n * BytesInBlock, curGrowthRate := n)
  }

  /** Growing keeps every current block on exactly one list. */
  lemma GrowKeepsComplete(s: Space, n: nat)
    requires Valid(s) && s.curBlocks + n <= s.totalBlocks
    requires s.curBlocks + n < s.totalBlocks ==> n > 0
    requires Complete(s)
    ensures Complete(GrowBlocks(s, n))
  {
    var t := GrowBlocks(s, n);
    forall b: nat ensures b in t.usable + t.used <==> b < t.curBlocks {
      if s.curBlocks <= b < t.curBlocks {
        assert Range(s.curBlocks, n)[b - s.curBlocks] == b;
      }
      assert b in t.usable + t.used <==> b in s.usable + s.used || b in Range(s.curBlocks, n);
    }
  }

  /** The size of the next growth: twice the last one, cut down to what is
      left of the space. */
  function NextGrowth(s: Space): (n: nat)
    requires s.curBlocks < s.totalBlocks
  {
    var next := s.curGrowthRate * 2;
    if s.curBlocks + next < s.totalBlocks then next else s.totalBlocks - s.curBlocks
  }

  /** The next growth never passes the end of the space, reaches it exactly
      when doubling would not fit, and is otherwise a doubling; it is never empty. */
  lemma NextGrowthSpec(s: Space)
    requires Valid(s) && Growable(s) && s.curBlocks < s.totalBlocks
    ensures 0 < NextGrowth(s) && s.curBlocks + NextGrowth(s) <= s.totalBlocks
    ensures NextGrowth(s) == 2 * s.curGrowthRate <==> s.curBlocks + 2 * s.curGrowthRate <= s.totalBlocks
    ensures NextGrowth(s) <= 2 * s.curGrowthRate
    ensures s.curBlocks + NextGrowth(s) < s.totalBlocks ==> NextGrowth(s) == 2 * s.curGrowthRate
  {
  }

  /** A space of `spaceSize` bytes with nothing grown yet: every table is zero. */
  function EmptySpace(spaceSize: nat): (s: Space)
    ensures s.totalBlocks == spaceSize / BytesInBlock && s.curBlocks == 0
  {
    var total := spaceSize / BytesInBlock;
    Space(total, 0, 0, 0, seq(total * LinesInBlock, _ => Free), seq(total, _ => Uninitialized),
          [], [], 0, 0)
  }

  /** Creates the space and grows it by its first 64 blocks, or by all of
      them when the space is smaller. */
  function NewSpace(spaceSize: nat): (s: Space)
    ensures Valid(s) && Growable(s) && Complete(s)
    ensures s.totalBlocks == spaceSize / BytesInBlock
    ensures s.curBlocks == if InitialBlocks < s.totalBlocks then InitialBlocks else s.totalBlocks
    ensures s.usable == Range(0, s.curBlocks) && s.used == []
    ensures forall i :: 0 <= i < |s.lineMarks| ==> s.lineMarks[i] == Free
  {
    var e := EmptySpace(spaceSize);
    var n := if InitialBlocks < e.totalBlocks then InitialBlocks else e.totalBlocks;
    GrowKeepsComplete(e, n);
    GrowBlocks(e, n)
  }

  datatype NextBlock = NextBlock(space: Space, block: Option<nat>)

  /** Hands the allocator the block at the front of the usable list, marking
      an uninitialised one usable. With no usable block left the space grows
      by the next growth and tries again; once it cannot grow it gives up
      (the collector is asked to run). */
  function NextUsableBlock(s: Space): (r: NextBlock)
    requires Valid(s) && Growable(s)
    ensures Valid(r.space) && Growable(r.space)
    ensures r.block.None? <==> |s.usable| == 0 && s.curBlocks == s.totalBlocks
    ensures r.block.None? ==> r.space == s
    ensures |s.usable| > 0 ==>
      (r.block == Some(s.usable[0]) && r.space.usable == s.usable[1..] && r.space.curBlocks == s.curBlocks)
    ensures |s.usable| == 0 && s.curBlocks < s.totalBlocks ==>
      (r.block == Some(s.curBlocks) && r.space.curBlocks == s.curBlocks + NextGrowth(s)
       && r.space.usable == Range(s.curBlocks + 1, NextGrowth(s) - 1))
    ensures r.space.used == s.used && r.space.totalBlocks == s.totalBlocks
    ensures r.block.Some? ==>
      (r.block.value < r.space.curBlocks && r.space.blockMarks[r.block.value] != Uninitialized)
    decreases s.totalBlocks - s.curBlocks, |s.usable|
  {
    if |s.usable| > 0 then
      TakeFront(s)
    else if s.curBlocks < s.totalBlocks then
      GrowForNext(s);
      NextUsableBlock(GrowBlocks(s, NextGrowth(s)))
    else
      NextBlock(s, None)
  }

  /** Pops the front of the usable list, marking it usable if it was never
      initialised. */
  function TakeFront(s: Space): (r: NextBlock)
    requires Valid(s) && Growable(s) && |s.usable| > 0
    ensures Valid(r.space) && Growable(r.space)
    ensures r.block == Some(s.usable[0]) && r.space.usable == s.usable[1..]
    ensures r.space.curBlocks == s.curBlocks && r.space.used == s.used && r.space.totalBlocks == s.totalBlocks
    ensures s.usable[0] < r.space.curBlocks && r.space.blockMarks[s.usable[0]] != Uninitialized
  {
    var b := s.usable[0];
    assert b in s.usable;
    assert forall x :: x in s.usable[1..] ==> x in s.usable;
    var marks := if s.blockMarks[b] == Uninitialized then s.blockMarks[b := Usable] else s.blockMarks;
    NextBlock(s.(usable := s.usable[1..], blockMarks := marks), Some(b))
  }

  /** Growing an exhausted space puts the first new block at the front of
      the usable list and brings the space closer to its end. */
  lemma GrowForNext(s: Space)
    requires Valid(s) && Growable(s) && |s.usable| == 0 && s.curBlocks < s.totalBlocks
    ensures var t := GrowBlocks(s, NextGrowth(s));
      && Valid(t) && Growable(t) && |t.usable| > 0
      && t.usable[0] == s.curBlocks && t.usable[1..] == Range(s.curBlocks + 1, NextGrowth(s) - 1)
      && t.curBlocks == s.curBlocks + NextGrowth(s) && t.used == s.used && t.totalBlocks == s.totalBlocks
  {
    var n := NextGrowth(s);
    var t := GrowBlocks(s, n);
    assert t.usable == Range(s.curBlocks, n);
    assert t.usable[1..] == Range(s.curBlocks + 1, n - 1);
  }

  /** An allocator gives a block back to the used list. */
  function ReturnUsedBlock(s: Space, b: nat): (t: Space)
    requires Valid(s) && b < s.curBlocks
    ensures Valid(t) && t.used == [b] + s.used && t.usable == s.usable
  {
    s.(used := [b] + s.used)
  }

  /** Taking a block and giving it back restores the state the collector
      needs: every current block on exactly one list. */
  lemma TakeAndReturn(s: Space)
    requires Valid(s) && Growable(s) && Complete(s)
    requires NextUsableBlock(s).block.Some?
    ensures var r := NextUsableBlock(s);
      Complete(ReturnUsedBlock(r.space, r.block.value))
  {
    var r := NextUsableBlock(s);
    var b := r.block.value;
    var t := ReturnUsedBlock(r.space, b);
    if |s.usable| > 0 {
      assert s.usable == [b] + r.space.usable;
      assert forall x :: x in t.usable + t.used <==> x in s.usable + s.used;
    } else {
      var n := NextGrowth(s);
      assert Range(s.curBlocks, n) == [b] + r.space.usable;
      assert t.usable + t.used == r.space.usable + ([b] + s.used);
      assert s.usable + s.used == s.used;
      forall x: nat ensures x in t.usable + t.used <==> x < t.curBlocks {
        if s.curBlocks <= x < t.curBlocks {
          assert Range(s.curBlocks, n)[x - s.curBlocks] == x;
          assert x in [b] + r.space.usable;
        }
        assert x in t.usable + t.used <==> x in s.used || x in [b] + r.space.usable;
      }
    }
  }

  // ---------------------------------------------------------------------
  // Marking
  // ---------------------------------------------------------------------

  /** Marks the line of a small object live and, unless it is the last line
      of the current space, the following line conservatively live (the
      object may spill into it). */
  function MarkLineConservative(s: Space, index: nat): (t: Space)
    requires Valid(s) && index < s.curBlocks * LinesInBlock
    ensures Valid(t) && t.blockMarks == s.blockMarks && t.usable == s.usable && t.used == s.used
    ensures |t.lineMarks| == |s.lineMarks| && t.lineMarks[index] == Live
    ensures index + 1 < s.curBlocks * LinesInBlock ==> t.lineMarks[index + 1] == ConservLive
    ensures forall i :: 0 <= i < |s.lineMarks| && i != index && (i != index + 1 || index + 1 == s.curBlocks * LinesInBlock) ==>
      t.lineMarks[i] == s.lineMarks[i]
  {
    var marks := s.lineMarks[index := Live];
    if index < s.curBlocks * LinesInBlock - 1 then s.(lineMarks := marks[index + 1 := ConservLive])
    else s.(lineMarks := marks)
  }

  // ---------------------------------------------------------------------
  // Sweeping
  // ---------------------------------------------------------------------

  /** The number of reclaimable lines in `[lo, hi)`. */
  function CountUnmarked(marks: seq<LineMark>, lo: nat, hi: nat): (n: nat)
    requires lo <= hi <= |marks|
    ensures n <= hi - lo
    ensures n > 0 <==> exists j :: lo <= j < hi && Unmarked(marks[j])
    decreases hi
  {
    if lo == hi then 0
    else CountUnmarked(marks, lo, hi - 1) + (if Unmarked(marks[hi - 1]) then 1 else 0)
  }

  /** Block `b` has a line the sweep reclaims. */
  predicate HasFree(marks: seq<LineMark>, b: nat) {
    exists j :: LineBase(b) <= j < LineBase(b) + LinesInBlock && j < |marks| && Unmarked(marks[j])
  }

  /** The table after sweeping block `b`. */
  function SweptBlock(marks: seq<LineMark>, b: nat): (r: seq<LineMark>)
    ensures |r| == |marks|
  {
    seq(|marks|, i requires 0 <= i < |marks| => if BlockOf(i) == b && Unmarked(marks[i]) then Free else marks[i])
  }

  /** Sweeps the lines of block `b`: each reclaimable line becomes free.
      Returns the new table, the numbers of freed and kept lines, and whether
      any line was freed. */
  method SweepBlock(marks: seq<LineMark>, b: nat) returns (m: seq<LineMark>, free: nat, used: nat, hasFree: bool)
    requires LineBase(b) + LinesInBlock <= |marks|
    ensures m == SweptBlock(marks, b)
    ensures free == CountUnmarked(marks, LineBase(b), LineBase(b) + LinesInBlock)
    ensures free + used == LinesInBlock
    ensures hasFree <==> HasFree(marks, b)
  {
    var base := LineBase(b);
    m, free, used, hasFree := marks, 0, 0, false;
    var i := base;
    while i < base + LinesInBlock
      invariant base <= i <= base + LinesInBlock && |m| == |marks|
      invariant forall j :: 0 <= j < |m| ==> m[j] == if base <= j < i && Unmarked(marks[j]) then Free else marks[j]
      invariant free == CountUnmarked(marks, base, i) && free + used == i - base
      invariant hasFree <==> free > 0
    {
      if m[i] != Live && m[i] != ConservLive {
        hasFree := true;
        m := m[i := Free];
        free := free + 1;
      } else {
        used := used + 1;
      }
      i := i + 1;
    }
    forall j | 0 <= j < |m| ensures m[j] == SweptBlock(marks, b)[j] {
      BlockOfRange(j, b);
    }
  }

  /** Line `i` once the blocks in `blocks` have been swept. */
  function SweptLine(before: seq<LineMark>, blocks: seq<nat>, i: nat): (m: LineMark)
    requires i < |before|
  {
    if BlockOf(i) in blocks && Unmarked(before[i]) then Free else before[i]
  }

  /** The verdict the sweep records for block `b`. */
  function Verdict(marks: seq<LineMark>, b: nat): (m: BlockMark)
  {
    if HasFree(marks, b) then Usable else Full
  }

  /** Two tables agree on which lines are reclaimable. */
  predicate SameReclaimable(a: seq<LineMark>, c: seq<LineMark>) {
    |a| == |c| && forall j :: 0 <= j < |a| ==> (Unmarked(a[j]) <==> Unmarked(c[j]))
  }

  lemma HasFreeOfSame(a: seq<LineMark>, c: seq<LineMark>, b: nat)
    requires SameReclaimable(a, c) && LineBase(b) + LinesInBlock <= |a|
    ensures HasFree(a, b) <==> HasFree(c, b)
  {
    if HasFree(a, b) {
      var j :| LineBase(b) <= j < LineBase(b) + LinesInBlock && j < |a| && Unmarked(a[j]);
      assert Unmarked(c[j]);
    }
    if HasFree(c, b) {
      var j :| LineBase(b) <= j < LineBase(b) + LinesInBlock && j < |c| && Unmarked(c[j]);
      assert Unmarked(a[j]);
    }
  }

  /** What a sweep of a complete space leaves behind. */
  ghost predicate SweptSpace(s: Space, t: Space)
    requires Valid(s)
  {
    && t.totalBlocks == s.totalBlocks && t.curBlocks == s.curBlocks && t.curSize == s.curSize
    && t.curGrowthRate == s.curGrowthRate
    && |t.lineMarks| == |s.lineMarks| && |t.blockMarks| == |s.blockMarks|
    && (forall i :: 0 <= i < |s.lineMarks| ==>
          t.lineMarks[i] == if BlockOf(i) < s.curBlocks && Unmarked(s.lineMarks[i]) then Free else s.lineMarks[i])
    && (forall b :: 0 <= b < |s.blockMarks| ==>
          t.blockMarks[b] == if b < s.curBlocks then Verdict(s.lineMarks, b) else s.blockMarks[b])
    && (forall b: nat :: b in t.usable <==> b < s.curBlocks && HasFree(s.lineMarks, b))
    && (forall b: nat :: b in t.used <==> b < s.curBlocks && !HasFree(s.lineMarks, b))
    && |t.usable| + |t.used| == s.curBlocks
    && t.lastGcFreeLines + t.lastGcUsedLines == s.curBlocks * LinesInBlock
  }

  /** The loop invariant of the sweep after `k` blocks of `all`. */
  ghost predicate SweepProgress(s: Space, all: seq<nat>, k: nat, marks: seq<LineMark>, bm: seq<BlockMark>,
                          nu: seq<nat>, nd: seq<nat>, free: nat, used: nat)
    requires Valid(s) && k <= |all| && forall x :: x in all ==> x < s.curBlocks
  {
    && |marks| == |s.lineMarks| && |bm| == |s.blockMarks|
    && (forall i :: 0 <= i < |marks| ==> marks[i] == SweptLine(s.lineMarks, all[..k], i))
    && (forall b :: 0 <= b < |bm| ==> bm[b] == if b in all[..k] then Verdict(s.lineMarks, b) else s.blockMarks[b])
    && (forall b: nat :: b in nu <==> b in all[..k] && HasFree(s.lineMarks, b))
    && (forall b: nat :: b in nd <==> b in all[..k] && !HasFree(s.lineMarks, b))
    && |nu| + |nd| == k
    && free + used == k * LinesInBlock
  }

  lemma SweptLinesReclaimable(s: Space, all: seq<nat>, k: nat, marks: seq<LineMark>)
    requires k <= |all| && |marks| == |s.lineMarks|
    requires forall i :: 0 <= i < |marks| ==> marks[i] == SweptLine(s.lineMarks, all[..k], i)
    ensures SameReclaimable(marks, s.lineMarks)
  {
  }

  /** One more block swept keeps the invariant. */
  lemma SweepStep(s: Space, all: seq<nat>, k: nat, marks: seq<LineMark>, bm: seq<BlockMark>,
                  nu: seq<nat>, nd: seq<nat>, free: nat, used: nat,
                  m: seq<LineMark>, f: nat, u: nat, hasFree: bool)
    requires Valid(s) && k < |all| && forall x :: x in all ==> x < s.curBlocks
    requires SweepProgress(s, all, k, marks, bm, nu, nd, free, used)
    requires LineBase(all[k]) + LinesInBlock <= |marks|
    requires m == SweptBlock(marks, all[k]) && f + u == LinesInBlock && (hasFree <==> HasFree(marks, all[k]))
    ensures var b := all[k];
      SweepProgress(s, all, k + 1, m, bm[b := if hasFree then Usable else Full],
                    if hasFree then [b] + nu else nu, if hasFree then nd else [b] + nd, free + f, used + u)
  {
    var b := all[k];
    assert all[..k + 1] == all[..k] + [b];
    SweptLinesReclaimable(s, all, k, marks);
    HasFreeOfSame(marks, s.lineMarks, b);
    forall i | 0 <= i < |m| ensures m[i] == SweptLine(s.lineMarks, all[..k + 1], i) {
    }
  }

  /** Sweeps block `all[k]` and files it on the list its verdict chooses. */
  method SweepNext(s: Space, all: seq<nat>, k: nat, marks: seq<LineMark>, bm: seq<BlockMark>,
                   nu: seq<nat>, nd: seq<nat>, free: nat, used: nat)
    returns (marks': seq<LineMark>, bm': seq<BlockMark>, nu': seq<nat>, nd': seq<nat>, free': nat, used': nat)
    requires Valid(s) && k < |all| && forall x :: x in all ==> x < s.curBlocks
    requires SweepProgress(s, all, k, marks, bm, nu, nd, free, used)
    ensures SweepProgress(s, all, k + 1, marks', bm', nu', nd', free', used')
  {
    var b := all[k];
    assert b in all;
    LinesOfBlockInTable(b, s.totalBlocks);
    var m, f, u, hasFree := SweepBlock(marks, b);
    SweepStep(s, all, k, marks, bm, nu, nd, free, used, m, f, u, hasFree);
    marks', bm' := m, bm[b := if hasFree then Usable else Full];
    nu', nd' := if hasFree then [b] + nu else nu, if hasFree then nd else [b] + nd;
    free', used' := free + f, used + u;
  }

  /** Sweeps every block on either list, rebuilding both lists: a block with
      a reclaimable line goes to the front of the usable list, any other to
      the front of the used list. */
  method SweepBlocks(s: Space) returns (t: Space)
    requires Valid(s) && Complete(s)
    ensures Valid(t) && Complete(t) && SweptSpace(s, t)
  {
    var all := s.used + s.usable;
    assert forall x :: x in all ==> x < s.curBlocks;
    var marks, bm := s.lineMarks, s.blockMarks;
    var nu: seq<nat>, nd: seq<nat> := [], [];
    var free, used := 0, 0;
    var k := 0;
    while k < |all|
      invariant k <= |all|
      invariant SweepProgress(s, all, k, marks, bm, nu, nd, free, used)
    {
      marks, bm, nu, nd, free, used := SweepNext(s, all, k, marks, bm, nu, nd, free, used);
      k := k + 1;
    }
    assert all[..k] == all;
    t := s.(lineMarks := marks, blockMarks := bm, usable := nu, used := nd,
            lastGcFreeLines := free, lastGcUsedLines := used);
    SweepDone(s, all, t);
  }

  lemma SweepDone(s: Space, all: seq<nat>, t: Space)
    requires Valid(s) && Complete(s) && all == s.used + s.usable
    requires t.totalBlocks == s.totalBlocks && t.curBlocks == s.curBlocks && t.curSize == s.curSize
    requires t.curGrowthRate == s.curGrowthRate
    requires SweepProgress(s, all, |all|, t.lineMarks, t.blockMarks, t.usable, t.used, t.lastGcFreeLines, t.lastGcUsedLines)
    ensures Valid(t) && Complete(t) && SweptSpace(s, t)
  {
    assert all[..|all|] == all;
    forall x: nat ensures x in all <==> x < s.curBlocks {
      assert x in all <==> x in s.usable + s.used;
    }
    forall i | 0 <= i < |s.lineMarks|
      ensures t.lineMarks[i] == if BlockOf(i) < s.curBlocks && Unmarked(s.lineMarks[i]) then Free else s.lineMarks[i]
    {
    }
    forall b | 0 <= b < |s.blockMarks|
      ensures t.blockMarks[b] == if b < s.curBlocks then Verdict(s.lineMarks, b) else s.blockMarks[b]
    {
    }
    forall x: nat ensures x in t.usable + t.used <==> x < t.curBlocks {
      assert x in t.usable + t.used <==> x in t.usable || x in t.used;
    }
  }

  /** The collector's sweep: after sweeping, a space with no usable block
      left is out of memory (the process exits). */
  method Sweep(s: Space) returns (r: Result<Space, String>)
    requires Valid(s) && Complete(s)
    ensures r.Err? <==>
      (s.curBlocks == s.totalBlocks && s.totalBlocks != 0 && forall b :: 0 <= b < s.curBlocks ==> !HasFree(s.lineMarks, b))
    ensures r.Ok? ==> Valid(r.value) && Complete(r.value) && SweptSpace(s, r.value)
  {
    var t := SweepBlocks(s);
    OutOfMemoryVerdict(s, t);
    if |t.used| == t.totalBlocks && t.totalBlocks != 0 {
      return Err("Out of memory in Immix Space");
    }
    return Ok(t);
  }

  /** After a sweep, every block of the space is on the used list exactly
      when the space has grown to its end and no block has a free line. */
  lemma OutOfMemoryVerdict(s: Space, t: Space)
    requires Valid(s) && SweptSpace(s, t)
    ensures (|t.used| == t.totalBlocks && t.totalBlocks != 0) <==>
      (s.curBlocks == s.totalBlocks && s.totalBlocks != 0 && forall b :: 0 <= b < s.curBlocks ==> !HasFree(s.lineMarks, b))
  {
    if |t.used| == t.totalBlocks && t.totalBlocks != 0 {
      FullMeansNoFree(s, t);
    }
    if s.curBlocks == s.totalBlocks && s.totalBlocks != 0 && forall b :: 0 <= b < s.curBlocks ==> !HasFree(s.lineMarks, b) {
      NotFullMeansFree(s, t);
    }
  }

  lemma FullMeansNoFree(s: Space, t: Space)
    requires Valid(s) && SweptSpace(s, t) && |t.used| == s.totalBlocks
    ensures s.curBlocks == s.totalBlocks && forall b :: 0 <= b < s.curBlocks ==> !HasFree(s.lineMarks, b)
  {
    assert |t.usable| == 0;
    forall b | 0 <= b < s.curBlocks ensures !HasFree(s.lineMarks, b) {
      assert b !in t.usable;
    }
  }

  lemma NotFullMeansFree(s: Space, t: Space)
    requires Valid(s) && SweptSpace(s, t)
    requires s.curBlocks == s.totalBlocks && s.totalBlocks != 0
    requires forall b :: 0 <= b < s.curBlocks ==> !HasFree(s.lineMarks, b)
    ensures |t.used| == t.totalBlocks
  {
    HeadIsMember(t.usable);
  }

  lemma HeadIsMember(xs: seq<nat>)
    ensures |xs| > 0 ==> xs[0] in xs
  {
  }

  /** A line marked by the conservative marker survives the next sweep with
      its mark, and so does the following line when it was marked too; the
      block of a marked line keeps that line. */
  lemma MarkedLinesSurviveSweep(s: Space, index: nat, t: Space)
    requires Valid(s) && index < s.curBlocks * LinesInBlock
    requires var m := MarkLineConservative(s, index); Valid(m) && SweptSpace(m, t)
    ensures t.lineMarks[index] == Live
    ensures index + 1 < s.curBlocks * LinesInBlock ==> t.lineMarks[index + 1] == ConservLive
  {
  }

  // ---------------------------------------------------------------------
  // Holes inside a block
  // ---------------------------------------------------------------------

  /** Line `j` of block `b`. */
  function Line(marks: seq<LineMark>, b: nat, j: nat): (m: LineMark)
    requires LineBase(b) + j < |marks|
  {
    marks[LineBase(b) + j]
  }

  /** The first free line of block `b` at or after `line`, counted from the
      start of the block. */
  function FirstFree(marks: seq<LineMark>, b: nat, line: nat): (r: Option<nat>)
    requires LineBase(b) + LinesInBlock <= |marks|
    ensures r.Some? ==> line <= r.value < LinesInBlock && Line(marks, b, r.value) == Free
    ensures r.Some? ==> forall j :: line <= j < r.value ==> Line(marks, b, j) != Free
    ensures r.None? ==> forall j :: line <= j < LinesInBlock ==> Line(marks, b, j) != Free
    decreases LinesInBlock - line
  {
    if line >= LinesInBlock then None
    else if Line(marks, b, line) == Free then Some(line)
    else FirstFree(marks, b, line + 1)
  }

  /** The first line of block `b` at or after `line` that is not free, or the
      end of the block; a start past the end is returned as it is. */
  function FirstUnfree(marks: seq<LineMark>, b: nat, line: nat): (r: nat)
    requires LineBase(b) + LinesInBlock <= |marks|
    ensures r >= line && (line <= LinesInBlock ==> r <= LinesInBlock)
    ensures line >= LinesInBlock ==> r == line
    ensures forall j :: line <= j < r ==> Line(marks, b, j) == Free
    ensures r < LinesInBlock ==> Line(marks, b, r) != Free
    decreases LinesInBlock - line
  {
    if line >= LinesInBlock then line
    else if Line(marks, b, line) != Free then line
    else FirstUnfree(marks, b, line + 1)
  }

  method GetNextAvailableLine(marks: seq<LineMark>, b: nat, curLine: nat) returns (r: Option<nat>)
    requires LineBase(b) + LinesInBlock <= |marks|
    ensures r == FirstFree(marks, b, curLine)
  {
    var baseLine := LineBase(b);
    var baseEnd := baseLine + LinesInBlock;
    var i := baseLine + curLine;
    while i < baseEnd
      invariant baseLine + curLine <= i
      invariant FirstFree(marks, b, curLine) == FirstFree(marks, b, i - baseLine)
      decreases baseEnd - i
    {
      if marks[i] == Free {
        return Some(i - baseLine);
      }
      i := i + 1;
    }
    return None;
  }

  method GetNextUnavailableLine(marks: seq<LineMark>, b: nat, curLine: nat) returns (r: nat)
    requires LineBase(b) + LinesInBlock <= |marks|
    ensures r == FirstUnfree(marks, b, curLine)
  {
    var baseLine := LineBase(b);
    var baseEnd := baseLine + LinesInBlock;
    var i := baseLine + curLine;
    while i < baseEnd
      invariant baseLine + curLine <= i
      invariant FirstUnfree(marks, b, curLine) == FirstUnfree(marks, b, i - baseLine)
      decreases baseEnd - i
    {
      if marks[i] != Free {
        return i - baseLine;
      }
      i := i + 1;
    }
    return i - baseLine;
  }

  /** The allocator's hole search: the next free line starts a run of free
      lines that ends at the next line that is not free; the search for the
      next hole after that run skips nothing free. */
  lemma HoleSearch(marks: seq<LineMark>, b: nat, line: nat)
    requires LineBase(b) + LinesInBlock <= |marks|
    requires FirstFree(marks, b, line).Some?
    ensures var start := FirstFree(marks, b, line).value;
      var end := FirstUnfree(marks, b, start);
      start < end <= LinesInBlock
      && (forall j :: line <= j < end ==> (Line(marks, b, j) == Free <==> start <= j))
  {
  }
}

=== FILE: ir_core.dfy ===
/**
 Pieces of the Mu IR that the compiler relies on: the id ranges reserved for
 machine and internal entities and their allocators, the version history of
 a function, and the choice of the hottest successor of a block.

 The allocators' atomic counters become an explicit state threaded through
 each call; a panic is an `Err`, and (as with `fetch_add`) the counter has
 already advanced when it is reported. Edge probabilities are compared only
 for order, so they are modelled as integers.
 */
module IrCore {
  import opened Wrappers
  import opened Text
  import opened Headers
  import opened MuTypes

  // ---------------------------------------------------------------------
  // Id ranges
  // ---------------------------------------------------------------------

  const MachineIdStart: nat := 0
  const MachineIdEnd: nat := 100
  const InternalIdStart: nat := 101
  const InternalIdEnd: nat := 200
  const UserIdStart: nat := 201

  datatype IdCounters = IdCounters(machine: nat, internal: nat)

  const InitialCounters: IdCounters := IdCounters(MachineIdStart, InternalIdStart)

  /** Hands out the current machine id and advances the counter; an id at or
      past the end of the machine range is an overflow. */
  function NewMachineId(c: IdCounters): (r: (IdCounters, Result<nat, String>))
    ensures r.0 == c.(machine := c.machine + 1)
    ensures r.1.Ok? <==> c.machine < MachineIdEnd
    ensures r.1.Ok? ==> r.1.value == c.machine
  {
    var ret := c.machine;
    var next := c.(machine := ret + 1);
    if ret >= MachineIdEnd then (next, Err("machine id overflow")) else (next, Ok(ret))
  }

  function NewInternalId(c: IdCounters): (r: (IdCounters, Result<nat, String>))
    ensures r.0 == c.(internal := c.internal + 1)
    ensures r.1.Ok? <==> c.internal < InternalIdEnd
    ensures r.1.Ok? ==> r.1.value == c.internal
  {
    var ret := c.internal;
    var next := c.(internal := ret + 1);
    if ret >= InternalIdEnd then (next, Err("internal id overflow")) else (next, Ok(ret))
  }

  /** The results of `n` successive machine-id allocations from `c`. */
  function MachineIds(c: IdCounters, n: nat): (r: seq<Result<nat, String>>)
    ensures |r| == n
    decreases n
  {
    if n == 0 then []
    else
      var (c', first) := NewMachineId(c);
      [first] + MachineIds(c', n - 1)
  }

  function InternalIds(c: IdCounters, n: nat): (r: seq<Result<nat, String>>)
    ensures |r| == n
    decreases n
  {
    if n == 0 then []
    else
      var (c', first) := NewInternalId(c);
      [first] + InternalIds(c', n - 1)
  }

  /** The `k`th machine allocation from counter value `m` yields `m + k` while
      that is in range, and overflows from then on. */
  lemma {:induction false} MachineIdsSpec(c: IdCounters, n: nat, k: nat)
    requires k < n
    ensures MachineIds(c, n)[k] ==
      if c.machine + k < MachineIdEnd then Ok(c.machine + k) else Err("machine id overflow")
    decreases n
  {
    if k > 0 {
      MachineIdsSpec(NewMachineId(c).0, n - 1, k - 1);
    }
  }

  lemma {:induction false} InternalIdsSpec(c: IdCounters, n: nat, k: nat)
    requires k < n
    ensures InternalIds(c, n)[k] ==
      if c.internal + k < InternalIdEnd then Ok(c.internal + k) else Err("internal id overflow")
    decreases n
  {
    if k > 0 {
      InternalIdsSpec(NewInternalId(c).0, n - 1, k - 1);
    }
  }

  /** From the initial counters, every id handed out lies in its own range,
      the ranges of machine, internal and user ids are disjoint, and no id is
      handed out twice. */
  lemma IdRanges(n: nat, k: nat, j: nat)
    requires k < n && j < n
    ensures MachineIds(InitialCounters, n)[k].Ok? ==>
      MachineIdStart <= MachineIds(InitialCounters, n)[k].value < MachineIdEnd
    ensures InternalIds(InitialCounters, n)[k].Ok? ==>
      InternalIdStart <= InternalIds(InitialCounters, n)[k].value < InternalIdEnd
    ensures MachineIdEnd <= InternalIdStart && InternalIdEnd <= UserIdStart
    ensures k != j && MachineIds(InitialCounters, n)[k].Ok? && MachineIds(InitialCounters, n)[j].Ok? ==>
      MachineIds(InitialCounters, n)[k].value != MachineIds(InitialCounters, n)[j].value
    ensures k != j && InternalIds(InitialCounters, n)[k].Ok? && InternalIds(InitialCounters, n)[j].Ok? ==>
      InternalIds(InitialCounters, n)[k].value != InternalIds(InitialCounters, n)[j].value
  {
    MachineIdsSpec(InitialCounters, n, k);
    MachineIdsSpec(InitialCounters, n, j);
    InternalIdsSpec(InitialCounters, n, k);
    InternalIdsSpec(InitialCounters, n, j);
  }

  /** Exactly one hundred machine ids and ninety-nine internal ids can be
      handed out before the allocators overflow. */
  lemma IdCapacity(n: nat, k: nat)
    requires k < n
    ensures MachineIds(InitialCounters, n)[k].Ok? <==> k < 100
    ensures InternalIds(InitialCounters, n)[k].Ok? <==> k < 99
  {
    MachineIdsSpec(InitialCounters, n, k);
    InternalIdsSpec(InitialCounters, n, k);
  }

  // ---------------------------------------------------------------------
  // Function versions
  // ---------------------------------------------------------------------

  datatype MuFunction = MuFunction(hdr: Header, sig: FuncSig, curVer: Option<nat>, allVers: seq<nat>)

  /** A function declared with no version yet. */
  function NewFunction(id: nat, sig: FuncSig): (f: MuFunction)
    ensures f.hdr == Unnamed(id) && f.sig == sig
    ensures History(f) == []
  {
    MuFunction(Unnamed(id), sig, None, [])
  }

  /** Every version the function has had, oldest first, the current one last. */
  function History(f: MuFunction): (h: seq<nat>)
    ensures f.curVer.Some? ==> |h| > 0 && h[|h| - 1] == f.curVer.value
  {
    match f.curVer
    case None => f.allVers
    case Some(v) => f.allVers + [v]
  }

  /** Installs `fv` as the current version, keeping the previous current
      version, if any, among the obsolete ones. */
  function NewVersion(f: MuFunction, fv: nat): (r: MuFunction)
    ensures r.curVer == Some(fv) && r.hdr == f.hdr && r.sig == f.sig
    ensures History(r) == History(f) + [fv]
  {
    var obsolete := if f.curVer.Some? then f.allVers + [f.curVer.value] else f.allVers;
    f.(allVers := obsolete, curVer := Some(fv))
  }

  function NewVersions(f: MuFunction, vs: seq<nat>): (r: MuFunction)
    decreases |vs|
  {
    if |vs| == 0 then f else NewVersions(NewVersion(f, vs[0]), vs[1..])
  }

  /** Installing versions one after another records every one of them in
      order; the last installed is current and all earlier ones are obsolete. */
  lemma {:induction false} NewVersionsHistory(f: MuFunction, vs: seq<nat>)
    ensures History(NewVersions(f, vs)) == History(f) + vs
    ensures NewVersions(f, vs).hdr == f.hdr
    decreases |vs|
  {
    if |vs| > 0 {
      NewVersionsHistory(NewVersion(f, vs[0]), vs[1..]);
      assert [vs[0]] + vs[1..] == vs;
    }
  }

  lemma FreshFunctionVersions(id: nat, sig: FuncSig, vs: seq<nat>)
    requires |vs| > 0
    ensures NewVersions(NewFunction(id, sig), vs).curVer == Some(vs[|vs| - 1])
    ensures NewVersions(NewFunction(id, sig), vs).allVers == vs[..|vs| - 1]
  {
    var f := NewVersions(NewFunction(id, sig), vs);
    NewVersionsHistory(NewFunction(id, sig), vs);
    NewVersionsCurrent(NewFunction(id, sig), vs);
    assert History(f) == f.allVers + [f.curVer.value];
    assert vs == vs[..|vs| - 1] + [vs[|vs| - 1]];
  }

  lemma {:induction false} NewVersionsCurrent(f: MuFunction, vs: seq<nat>)
    requires |vs| > 0
    ensures NewVersions(f, vs).curVer == Some(vs[|vs| - 1])
    decreases |vs|
  {
    if |vs| > 1 {
      NewVersionsCurrent(NewVersion(f, vs[0]), vs[1..]);
    }
  }

  // ---------------------------------------------------------------------
  // Control flow
  // ---------------------------------------------------------------------

  datatype EdgeKind = Forward | Backward

  datatype BlockEdge = BlockEdge(target: nat, kind: EdgeKind, isException: bool, probability: int)

  datatype ControlFlow = ControlFlow(preds: seq<nat>, succs: seq<BlockEdge>)

  /** `k` is the first edge of greatest probability. */
  predicate FirstHottest(succs: seq<BlockEdge>, k: nat) {
    && k < |succs|
    && (forall j :: 0 <= j < |succs| ==> succs[j].probability <= succs[k].probability)
    && (forall j :: 0 <= j < k ==> succs[j].probability < succs[k].probability)
  }

  lemma FirstHottestUnique(succs: seq<BlockEdge>, k: nat, k': nat)
    requires FirstHottest(succs, k) && FirstHottest(succs, k')
    ensures k == k'
  {
    assert succs[k].probability <= succs[k'].probability && succs[k'].probability <= succs[k].probability;
  }

  /** The target of the first successor edge with the highest probability,
      or `None` for a block without successors. */
  method GetHottestSucc(cf: ControlFlow) returns (r: Option<nat>)
    ensures r.None? <==> |cf.succs| == 0
    ensures r.Some? ==> exists k: nat :: FirstHottest(cf.succs, k) && r.value == cf.succs[k].target
  {
    if |cf.succs| == 0 {
      return None;
    }
    var hot := 0;
    var i := 0;
    while i < |cf.succs|
      invariant hot <= i <= |cf.succs| && hot < |cf.succs|
      invariant forall j :: 0 <= j < i ==> cf.succs[j].probability <= cf.succs[hot].probability
      invariant forall j :: 0 <= j < hot ==> cf.succs[j].probability < cf.succs[hot].probability
    {
      if cf.succs[i].probability > cf.succs[hot].probability {
        hot := i;
      }
      i := i + 1;
    }
    return Some(cf.succs[hot].target);
  }
}

=== FILE: muapi_emitter.dfy ===
/**
 The Rust binding generator (`src/vm/api/muapi2rustapi.py`).

 From the parsed header it produces, for every method of the three
 top-level structs, the `extern fn` field of the Rust v-table struct, a
 forwarder that converts the C arguments to high-level Rust values and
 calls the implementation, the filler line that stores the forwarder in
 the v-table, and a stub signature of the implementation method. It also
 emits one Rust constant per enum definition and one Rust type alias per
 typedef.

 C type names are classified as explicit pointers (`T*`), handles
 (`Mu...Value`), nodes (`Mu...Node` or `Mu...Clause`) and the members of a
 few fixed tables. The regular expressions of the two name classes are
 replaced by a matcher that follows the order Python's engine tries them,
 and a lemma characterises what they accept.
 */
module MuApiEmitter {
  import opened Wrappers
  import opened Text
  import opened MuApiParser

  // ---------------------------------------------------------------------
  // The name classes: ^Mu\w*(Value)$ and ^Mu\w*(Node|Clause)$ with `match`

  /** `$` without `re.MULTILINE`: the end of the text, or a line break that
      is its last character. */
  predicate DollarAt(s: String, p: nat) {
    p == |s| || (p + 1 == |s| && s[p] == '\n')
  }

  /** The group of alternatives, tried left to right, followed by `$`. */
  predicate AltAt(s: String, j: nat, alts: seq<String>) {
    |alts| > 0
    && ((LiteralAt(s, j, alts[0]) && DollarAt(s, j + |alts[0]|)) || AltAt(s, j, alts[1..]))
  }

  /** The greedy `\w*` gave back characters until the group matched at `j`. */
  predicate Backtrack(s: String, j: nat, alts: seq<String>)
    requires 2 <= j
    decreases j
  {
    AltAt(s, j, alts) || (j > 2 && Backtrack(s, j - 1, alts))
  }

  predicate NameRegex(s: String, alts: seq<String>) {
    LiteralAt(s, 0, "Mu") && Backtrack(s, SkipWord(s, 2), alts)
  }

  /** `Mu`, then word characters, ending in `a`. */
  predicate Shape(s: String, a: String) {
    |s| >= 2 + |a| && s[..2] == "Mu" && s[|s| - |a|..] == a && AllWord(s)
  }

  /** What the name pattern accepts, stated without the engine: the name, or
      the name followed by one line break, has the shape of one alternative. */
  predicate NameSpec(s: String, alts: seq<String>) {
    exists k :: 0 <= k < |alts|
      && (Shape(s, alts[k]) || (|s| > 0 && s[|s| - 1] == '\n' && Shape(DropLast(s), alts[k])))
  }

  const HandleSuffixes: seq<String> := ["Value"]
  const NodeSuffixes: seq<String> := ["Node", "Clause"]

  predicate IsExplicitPtr(ty: String) {
    EndsWith(ty, "*")
  }

  predicate IsHandle(ty: String) {
    NameRegex(ty, HandleSuffixes)
  }

  predicate IsNode(ty: String) {
    NameRegex(ty, NodeSuffixes)
  }

  /** `type_is_ptr`: the table of other pointer types is empty. */
  predicate IsPtr(ty: String) {
    IsExplicitPtr(ty) || IsHandle(ty)
  }

  predicate IsHandleArray(ty: String) {
    IsPtr(ty) && IsHandle(DropLast(ty))
  }

  predicate IsNodeArray(ty: String) {
    IsPtr(ty) && IsNode(DropLast(ty))
  }

  lemma {:induction false} AltAtSpec(s: String, j: nat, alts: seq<String>)
    ensures AltAt(s, j, alts) <==>
      exists k :: 0 <= k < |alts| && LiteralAt(s, j, alts[k]) && DollarAt(s, j + |alts[k]|)
  {
    if |alts| > 0 {
      AltAtSpec(s, j, alts[1..]);
      if AltAt(s, j, alts[1..]) {
        var k :| 0 <= k < |alts[1..]| && LiteralAt(s, j, alts[1..][k]) && DollarAt(s, j + |alts[1..][k]|);
        assert alts[k + 1] == alts[1..][k];
      }
      if exists k :: 0 <= k < |alts| && LiteralAt(s, j, alts[k]) && DollarAt(s, j + |alts[k]|) {
        var k :| 0 <= k < |alts| && LiteralAt(s, j, alts[k]) && DollarAt(s, j + |alts[k]|);
        if k > 0 {
          assert alts[1..][k - 1] == alts[k];
        }
      }
    }
  }

  lemma {:induction false} BacktrackSpec(s: String, j: nat, alts: seq<String>)
    requires 2 <= j
    ensures Backtrack(s, j, alts) <==> exists i :: 2 <= i <= j && AltAt(s, i, alts)
    decreases j
  {
    if Backtrack(s, j, alts) {
      if AltAt(s, j, alts) {
        assert 2 <= j <= j && AltAt(s, j, alts);
      } else {
        BacktrackSpec(s, j - 1, alts);
        var i :| 2 <= i <= j - 1 && AltAt(s, i, alts);
        assert 2 <= i <= j;
      }
      assert exists i :: 2 <= i <= j && AltAt(s, i, alts);
    }
    if exists i :: 2 <= i <= j && AltAt(s, i, alts) {
      var i :| 2 <= i <= j && AltAt(s, i, alts);
      BacktrackFrom(s, i, j, alts);
    }
  }

  /** Giving back characters one at a time reaches every earlier position. */
  lemma {:induction false} BacktrackFrom(s: String, i: nat, j: nat, alts: seq<String>)
    requires 2 <= i <= j && AltAt(s, i, alts)
    ensures Backtrack(s, j, alts)
    decreases j
  {
    if i < j {
      BacktrackFrom(s, i, j - 1, alts);
    }
  }

  /** Every character of `s` up to `q` from `p` on is a word character, so
      the greedy `\w*` from `p` reaches at least `q`. */
  lemma {:induction false} SkipWordReaches(s: String, p: nat, q: nat)
    requires p <= q <= |s| && WordIn(s, p, q)
    ensures SkipWord(s, p) >= q
    decreases |s| - p
  {
    if p < q {
      SkipWordReaches(s, p + 1, q);
    }
  }

  /** A shaped prefix of the text, seen through the matcher. */
  lemma ShapeMatches(s: String, core: String, alts: seq<String>, k: nat)
    requires 0 <= k < |alts| && Shape(core, alts[k])
    requires (s == core) || (s == core + "\n")
    ensures NameRegex(s, alts)
  {
    var a := alts[k];
    var i := |core| - |a|;
    assert s[..|core|] == core;
    assert LiteralAt(s, 0, "Mu") by { assert s[..2] == core[..2]; }
    assert WordIn(s, 2, |core|) by {
      forall x | 2 <= x < |core| ensures IsWordChar(s[x]) {
        assert s[x] == core[x];
      }
    }
    SkipWordReaches(s, 2, |core|);
    assert s[i..i + |a|] == core[i..] == a;
    AltAtSpec(s, i, alts);
    BacktrackSpec(s, SkipWord(s, 2), alts);
  }

  /** The matcher accepts exactly the names of the stated form. */
  lemma NameRegexSpec(s: String, alts: seq<String>)
    requires forall k :: 0 <= k < |alts| ==> |alts[k]| > 0 && AllWord(alts[k])
    ensures NameRegex(s, alts) <==> NameSpec(s, alts)
  {
    if NameRegex(s, alts) {
      var e := SkipWord(s, 2);
      BacktrackSpec(s, e, alts);
      var i :| 2 <= i <= e && AltAt(s, i, alts);
      AltAtSpec(s, i, alts);
      var k :| 0 <= k < |alts| && LiteralAt(s, i, alts[k]) && DollarAt(s, i + |alts[k]|);
      var a := alts[k];
      var c := i + |a|;
      var core := s[..c];
      assert core[..2] == s[..2] == "Mu";
      assert core[|core| - |a|..] == s[i..c] == a;
      assert AllWord(core) by {
        forall x | 0 <= x < |core| ensures IsWordChar(core[x]) {
          if x < 2 {
            assert core[x] == "Mu"[x];
          } else if x < i {
            assert IsWordChar(s[x]);
          } else {
            assert core[x] == a[x - i];
          }
        }
      }
      assert Shape(core, a);
      if c == |s| {
        assert core == s;
      } else {
        assert DropLast(s) == core;
      }
    }
    if NameSpec(s, alts) {
      var k :| 0 <= k < |alts|
        && (Shape(s, alts[k]) || (|s| > 0 && s[|s| - 1] == '\n' && Shape(DropLast(s), alts[k])));
      if Shape(s, alts[k]) {
        ShapeMatches(s, s, alts, k);
      } else {
        assert s == DropLast(s) + "\n";
        ShapeMatches(s, DropLast(s), alts, k);
      }
    }
  }

  /** A handle name without line breaks ends in `ue`, a node name in `e`. */
  lemma HandleEnds(s: String)
    requires '\n' !in s
    ensures IsHandle(s) ==> |s| >= 2 && s[|s| - 1] == 'e' && s[|s| - 2] == 'u'
  {
    NameRegexSpec(s, HandleSuffixes);
    if IsHandle(s) {
      assert Shape(s, "Value");
      assert s[|s| - 5..] == "Value";
    }
  }

  lemma NodeEnds(s: String)
    requires '\n' !in s
    ensures IsNode(s) ==> |s| >= 1 && s[|s| - 1] == 'e'
  {
    NameRegexSpec(s, NodeSuffixes);
    if IsNode(s) {
      var k :| 0 <= k < |NodeSuffixes| && Shape(s, NodeSuffixes[k]);
      var a := NodeSuffixes[k];
      assert s[|s| - |a|..] == a;
      assert s[|s| - 1] == a[|a| - 1];
    }
  }

  /** A node name without line breaks ends in `de` or `se`. */
  lemma NodeEndsTwo(s: String)
    requires '\n' !in s
    ensures IsNode(s) ==> |s| >= 2 && s[|s| - 1] == 'e' && (s[|s| - 2] == 'd' || s[|s| - 2] == 's')
  {
    NameRegexSpec(s, NodeSuffixes);
    if IsNode(s) {
      var k :| 0 <= k < |NodeSuffixes| && Shape(s, NodeSuffixes[k]);
      var a := NodeSuffixes[k];
      assert s[|s| - |a|..] == a;
      assert s[|s| - 1] == a[|a| - 1] && s[|s| - 2] == a[|a| - 2];
    }
  }

  lemma DropLastNoBreak(ty: String)
    requires '\n' !in ty
    ensures '\n' !in DropLast(ty)
  {
    if |ty| > 0 {
      assert forall i :: 0 <= i < |ty| - 1 ==> DropLast(ty)[i] == ty[i];
    }
  }

  /** Without a line break, a handle array is exactly a pointer to a handle:
      a name ending in `Value` never loses its last character to another one. */
  lemma HandleArraySpec(ty: String)
    requires '\n' !in ty
    ensures IsHandleArray(ty) <==> |ty| > 0 && ty[|ty| - 1] == '*' && IsHandle(ty[..|ty| - 1])
  {
    DropLastNoBreak(ty);
    HandleEnds(ty);
    HandleEnds(DropLast(ty));
  }

  /** Node arrays likewise are exactly pointers to nodes. */
  lemma NodeArraySpec(ty: String)
    requires '\n' !in ty
    ensures IsNodeArray(ty) <==> |ty| > 0 && ty[|ty| - 1] == '*' && IsNode(ty[..|ty| - 1])
  {
    DropLastNoBreak(ty);
    HandleEnds(ty);
    NodeEnds(DropLast(ty));
  }

  /** With the trailing line break `$` allows, a non-pointer counts as a
      handle array: `MuValue` followed by a line break. */
  lemma HandleArrayLineBreak()
    ensures IsHandleArray("MuValue\n") && !IsExplicitPtr("MuValue\n")
  {
    MuValueIsHandle();
    assert DropLast("MuValue\n") == "MuValue";
  }

  /** `MuValue` is a handle, with or without a trailing line break. */
  lemma MuValueIsHandle()
    ensures IsHandle("MuValue") && IsHandle("MuValue\n")
  {
    assert Shape("MuValue", "Value");
    NameRegexSpec("MuValue", HandleSuffixes);
    assert DropLast("MuValue\n") == "MuValue";
    NameRegexSpec("MuValue\n", HandleSuffixes);
  }

  // ---------------------------------------------------------------------
  // C types to Rust types

  /** The primitive C types and their Rust names (`_primitive_types`). */
  function Primitive(cty: String): (r: Option<String>)
  {
    match cty
    case "void" => Some("c_void")
    case "char" => Some("c_char")
    case "int" => Some("c_int")
    case "long" => Some("c_long")
    case "int8_t" => Some("i8")
    case "uint8_t" => Some("u8")
    case "int16_t" => Some("i16")
    case "uint16_t" => Some("u16")
    case "int32_t" => Some("i32")
    case "uint32_t" => Some("u32")
    case "int64_t" => Some("i64")
    case "uint64_t" => Some("u64")
    case "intptr_t" => Some("isize")
    case "uintptr_t" => Some("usize")
    case "float" => Some("f32")
    case "double" => Some("f64")
    case _ => None
  }

  /** The table read backwards: the C type of a Rust primitive name. */
  function PrimitiveOf(rty: String): (r: Option<String>)
  {
    match rty
    case "c_void" => Some("void")
    case "c_char" => Some("char")
    case "c_int" => Some("int")
    case "c_long" => Some("long")
    case "i8" => Some("int8_t")
    case "u8" => Some("uint8_t")
    case "i16" => Some("int16_t")
    case "u16" => Some("uint16_t")
    case "i32" => Some("int32_t")
    case "u32" => Some("uint32_t")
    case "i64" => Some("int64_t")
    case "u64" => Some("uint64_t")
    case "isize" => Some("intptr_t")
    case "usize" => Some("uintptr_t")
    case "f32" => Some("float")
    case "f64" => Some("double")
    case _ => None
  }

  /** The first letters of the Rust primitive names. */
  predicate PrimitiveHead(c: char) {
    c == 'c' || c == 'i' || c == 'u' || c == 'f'
  }

  /** Every Rust primitive name is a non-empty identifier starting with one
      of four letters. */
  lemma PrimitiveShape(cty: String)
    requires Primitive(cty).Some?
    ensures var r := Primitive(cty).value; |r| > 0 && PrimitiveHead(r[0]) && AllWord(r)
  {
  }

  /** Every Rust primitive name names its C type back. */
  lemma PrimitiveRoundTrip(cty: String)
    requires Primitive(cty).Some?
    ensures PrimitiveOf(Primitive(cty).value) == Some(cty)
  {
  }

  /** Different primitive C types have different Rust names. */
  lemma PrimitiveInjective(a: String, b: String)
    requires Primitive(a).Some? && Primitive(a) == Primitive(b)
    ensures a == b
  {
    PrimitiveRoundTrip(a);
    PrimitiveRoundTrip(b);
  }

  /** `to_rust_type`: `T*` becomes `*mut ` and the Rust type of `T`, a
      primitive is looked up, and any other name gets a `C` prefix. */
  function ToRustType(ty: String): (r: String)
    ensures |r| > 0
    decreases |ty|
  {
    if IsExplicitPtr(ty) then "*mut " + ToRustType(DropLast(ty))
    else match Primitive(ty)
      case Some(p) => PrimitiveShape(ty); p
      case None => "C" + ty
  }

  function Stars(n: nat): (s: String)
    ensures |s| == n && forall i :: 0 <= i < n ==> s[i] == '*'
  {
    if n == 0 then "" else Stars(n - 1) + "*"
  }

  function MutPrefix(n: nat): String {
    if n == 0 then "" else "*mut " + MutPrefix(n - 1)
  }

  /** Each star of the C type becomes one `*mut ` in front of the base type. */
  lemma {:induction false} ToRustTypeStars(base: String, n: nat)
    requires !IsExplicitPtr(base)
    ensures ToRustType(base + Stars(n)) == MutPrefix(n) + ToRustType(base)
  {
    if n > 0 {
      ToRustTypeStars(base, n - 1);
      var prev := base + Stars(n - 1);
      StarsSnoc(base, n);
      ToRustTypePtr(prev);
      MutPrefixCons(n, ToRustType(base));
    } else {
      StarsNone(base, ToRustType(base));
    }
  }

  lemma StarsSnoc(base: String, n: nat)
    requires n > 0
    ensures base + Stars(n) == (base + Stars(n - 1)) + "*"
  {
    assert Stars(n) == Stars(n - 1) + "*";
  }

  lemma MutPrefixCons(n: nat, t: String)
    requires n > 0
    ensures MutPrefix(n) + t == "*mut " + (MutPrefix(n - 1) + t)
  {
  }

  lemma StarsNone(base: String, t: String)
    ensures base + Stars(0) == base && MutPrefix(0) + t == t
  {
    assert base + Stars(0) == base;
    assert MutPrefix(0) + t == t;
  }

  lemma ToRustTypePtr(base: String)
    ensures ToRustType(base + "*") == "*mut " + ToRustType(base)
  {
    var ty := base + "*";
    assert ty[|ty| - 1..] == "*";
    assert DropLast(ty) == base;
  }

  predicate RustHead(c: char) {
    c == '*' || c == 'C' || PrimitiveHead(c)
  }

  /** The first character tells the three kinds of Rust type apart. */
  lemma RustTypeHead(ty: String)
    ensures IsExplicitPtr(ty) ==> ToRustType(ty)[0] == '*'
    ensures !IsExplicitPtr(ty) && Primitive(ty).None? ==> ToRustType(ty)[0] == 'C'
    ensures !IsExplicitPtr(ty) && Primitive(ty).Some? ==> PrimitiveHead(ToRustType(ty)[0])
    ensures RustHead(ToRustType(ty)[0])
  {
    if !IsExplicitPtr(ty) && Primitive(ty).Some? {
      PrimitiveShape(ty);
    }
  }

  /** Different C types give different Rust types. */
  lemma {:induction false} ToRustTypeInjective(a: String, b: String)
    requires ToRustType(a) == ToRustType(b)
    ensures a == b
    decreases |a|
  {
    RustTypeHead(a);
    RustTypeHead(b);
    var r := ToRustType(a);
    if IsExplicitPtr(a) && IsExplicitPtr(b) {
      assert ToRustType(DropLast(a)) == r[5..] == ToRustType(DropLast(b));
      ToRustTypeInjective(DropLast(a), DropLast(b));
      assert a == DropLast(a) + "*" && b == DropLast(b) + "*";
    } else if !IsExplicitPtr(a) && !IsExplicitPtr(b) && Primitive(a).Some? && Primitive(b).Some? {
      PrimitiveInjective(a, b);
    } else if !IsExplicitPtr(a) && !IsExplicitPtr(b) && Primitive(a).None? && Primitive(b).None? {
      assert a == r[1..] == b;
    }
  }

  /** A character that is neither a word character, a blank nor `*` appears
      in the Rust type only if it appears in the C type. */
  lemma {:induction false} RustTypeFree(ty: String, c: char)
    requires c !in ty && !IsWordChar(c) && c != ' ' && c != '*'
    ensures c !in ToRustType(ty)
    decreases |ty|
  {
    if IsExplicitPtr(ty) {
      assert forall i :: 0 <= i < |ty| - 1 ==> DropLast(ty)[i] == ty[i];
      RustTypeFree(DropLast(ty), c);
    } else if Primitive(ty).Some? {
      PrimitiveShape(ty);
    }
  }

  // ---------------------------------------------------------------------
  // Names and tables

  /** `avoid_rust_kws`: the Rust keyword `ref` is renamed. */
  function AvoidRustKws(name: String): (r: String)
    ensures r != "ref"
    ensures name != "ref" ==> r == name
  {
    if name == "ref" then "reff" else name
  }

  /** Renaming twice changes nothing more; `ref` and `reff` end up the same. */
  lemma AvoidRustKwsIdempotent(name: String)
    ensures AvoidRustKws(AvoidRustKws(name)) == AvoidRustKws(name)
    ensures AvoidRustKws("ref") == AvoidRustKws("reff")
  {
  }

  function ForwarderName(structName: String, methName: String): String {
    "_forwarder__" + structName + "__" + methName
  }

  /** `_cty_to_high_level_ty`: the types both tables share. */
  function HighLevelCommon(cty: String): Option<String> {
    match cty
    case "MuVM*" => Some("*mut CMuVM")
    case "MuCtx*" => Some("*mut CMuCtx")
    case "MuIRBuilder*" => Some("*mut CMuIRBuilder")
    case "MuBool" => Some("bool")
    case "MuID" => Some("MuID")
    case _ => None
  }

  /** `_cty_to_high_level_param_ty`: strings become Rust strings. */
  function HighLevelParam(cty: String): Option<String> {
    match cty
    case "MuName" => Some("MuName")
    case "MuCString" => Some("String")
    case _ => HighLevelCommon(cty)
  }

  /** `_cty_to_high_level_ret_ty`: a returned name stays a C string. */
  function HighLevelRet(cty: String): Option<String> {
    match cty
    case "MuName" => Some("CMuCString")
    case _ => HighLevelCommon(cty)
  }

  /** The types passed through as they are: raw data, client callbacks, the
      watch point id, the enums, and the primitives. */
  predicate NoConversion(cty: String) {
    cty in ["MuCPtr", "MuCFP", "MuValueFreer", "MuTrapHandler", "MuWPID",
            "MuBinOpStatus", "MuBinOptr", "MuCmpOptr", "MuConvOptr", "MuMemOrd",
            "MuAtomicRMWOptr", "MuCallConv", "MuCommInst"]
    || Primitive(cty).Some?
  }

  predicate DirectlyReturned(cty: String) {
    NoConversion(cty) || cty in ["MuCString", "MuName", "MuVM*", "MuCtx*", "MuIRBuilder*"]
  }

  /** `to_high_level_ret_ty`: the table first, then handles and nodes, and
      otherwise the low-level Rust type. */
  function ToHighLevelRetTy(cty: String, rty: String): (r: String)
    requires cty != "void"
    ensures HighLevelRet(cty).Some? ==> r == HighLevelRet(cty).value
    ensures HighLevelRet(cty).None? && IsHandle(cty) ==> r == "*mut APIMuValue"
    ensures HighLevelRet(cty).None? && !IsHandle(cty) && IsNode(cty) ==> r == "MuID"
    ensures HighLevelRet(cty).None? && !IsHandle(cty) && !IsNode(cty) ==> r == rty
  {
    match HighLevelRet(cty)
    case Some(h) => h
    case None =>
      if IsHandle(cty) then "*mut APIMuValue"
      else if IsNode(cty) then "MuID"
      else rty
  }

  /** The return type a stub declares agrees with the conversion its
      forwarder applies to `_rv`: a handle is declared `*mut APIMuValue` and
      converted by `to_handle`, a node is declared `MuID` and converted by
      `to_MuID`, the VM, context and builder pointers and `MuName` are
      declared by the table and returned as they are, and `MuBool` is
      declared `bool` and converted by `to_MuBool`, whatever the low-level
      Rust type `rty` is. */
  lemma RetTypeMatchesConversion(cty: String, rty: String)
    requires cty != "void" && '\n' !in cty
    ensures IsHandle(cty) ==>
      ToHighLevelRetTy(cty, rty) == "*mut APIMuValue" && RetConversion(cty) == "to_handle(_rv)"
    ensures IsNode(cty) ==>
      ToHighLevelRetTy(cty, rty) == "MuID" && RetConversion(cty) == "to_MuID(_rv)"
    ensures cty in ["MuVM*", "MuCtx*", "MuIRBuilder*", "MuName"] ==>
      ToHighLevelRetTy(cty, rty) == HighLevelRet(cty).value && RetConversion(cty) == "_rv"
    ensures cty == "MuBool" ==>
      ToHighLevelRetTy(cty, rty) == "bool" && RetConversion(cty) == "to_MuBool(_rv)"
  {
    if IsHandle(cty) {
      HandleUntabled(cty);
    }
    if IsNode(cty) {
      NodeUntabled(cty);
    }
    if cty == "MuBool" {
      BoolUntabled();
    }
    TabledReturned(cty);
  }

  /** The VM, context and builder pointers and `MuName` are in the return
      table and returned as they are. */
  lemma TabledReturned(cty: String)
    ensures cty in ["MuVM*", "MuCtx*", "MuIRBuilder*", "MuName"] ==>
      HighLevelRet(cty).Some? && DirectlyReturned(cty)
  {
  }

  /** A handle name is in neither table nor returned as it is. */
  lemma HandleUntabled(cty: String)
    requires '\n' !in cty && IsHandle(cty)
    ensures HighLevelRet(cty).None? && !DirectlyReturned(cty) && !IsNode(cty)
  {
    HandleEnds(cty);
    NodeEndsTwo(cty);
    EndsIn(cty, 'u');
  }

  /** A node name is in neither table nor returned as it is. */
  lemma NodeUntabled(cty: String)
    requires '\n' !in cty && IsNode(cty)
    ensures HighLevelRet(cty).None? && !DirectlyReturned(cty) && !IsHandle(cty)
  {
    HandleEnds(cty);
    NodeEndsTwo(cty);
    EndsIn(cty, cty[|cty| - 2]);
  }

  /** `MuBool` is neither a handle nor a node, and is converted. */
  lemma BoolUntabled()
    ensures !IsHandle("MuBool") && !IsNode("MuBool") && !DirectlyReturned("MuBool")
  {
    HandleEnds("MuBool");
    NodeEndsTwo("MuBool");
  }

  /** No type in the tables, and none returned as it is, ends in `ue`, `de`
      or `se`, the endings of handle and node names. */
  lemma EndsIn(cty: String, a: char)
    requires |cty| >= 2 && cty[|cty| - 2] == a && cty[|cty| - 1] == 'e' && a in "uds"
    ensures HighLevelRet(cty).None? && !DirectlyReturned(cty)
  {
  }

  // ---------------------------------------------------------------------
  // The v-table field

  function ParamRustTypes(ps: seq<Param>): (tys: seq<String>)
    ensures |tys| == |ps| && forall k :: 0 <= k < |ps| ==> tys[k] == ToRustType(ps[k].ty)
  {
    if |ps| == 0 then [] else [ToRustType(ps[0].ty)] + ParamRustTypes(ps[1..])
  }

  /** ` -> T` after a signature, nothing for `void`. */
  function RetText(retTy: String): String {
    if retTy == "void" then "" else " -> " + ToRustType(retTy)
  }

  /** `generate_struct_field` */
  function StructField(m: Method): (field: String)
    ensures StartsWith(field, "    pub " + m.name + ": extern fn(")
    ensures field == "    pub " + m.name + ": extern fn(" + Join(ParamRustTypes(m.params), ", ") + ")" + RetText(m.retTy) + ","
  {
    var head := "    pub " + m.name + ": extern fn(";
    var rest := Join(ParamRustTypes(m.params), ", ") + ")" + RetText(m.retTy) + ",";
    StartsWithConcat(head, rest);
    head + rest
  }

  /** The field has a return arrow exactly when the method does not return
      `void` (names and types never hold `>`). */
  lemma StructFieldArrow(m: Method)
    requires '>' !in m.name
    requires forall k :: 0 <= k < |m.params| ==> '>' !in m.params[k].ty
    ensures '>' in StructField(m) <==> m.retTy != "void"
  {
    var tys := ParamRustTypes(m.params);
    forall k | 0 <= k < |tys| ensures '>' !in tys[k] {
      RustTypeFree(m.params[k].ty, '>');
    }
    var args := Join(tys, ", ");
    JoinFree(tys, ", ", '>');
    var head := "    pub " + m.name + ": extern fn(";
    assert '>' !in head;
    var rt := RetText(m.retTy);
    var field := head + args + ")" + rt + ",";
    assert StructField(m) == field;
    if m.retTy != "void" {
      assert rt[2] == '>';
      assert '>' in rt;
    } else {
      assert rt == [];
    }
  }

  // ---------------------------------------------------------------------
  // Argument conversion

  datatype EmitError =
    | NotAPointer(param: String, cty: String)
    | NotExpectingOptional(cty: String)
    | UnknownParamType(cty: String)
    | NoReceiver(methodName: String)

  /** The forwarder's conversion of one argument, and the argument's type in
      the stub. */
  datatype Conv = Conv(code: String, stubTy: String)

  predicate NotSize(p: Param) {
    !p.isSzParam
  }

  /** An array parameter `T* xs` with size parameter `n`: the elements are
      copied out of the C array. */
  function ArrayConversion(base: String, rpn: String, szr: String): (c: Conv)
    ensures EndsWith(c.code, ", " + szr + ")")
    ensures c.code != rpn && |c.stubTy| > 0 && (c.stubTy[0] == 'V' || c.stubTy[0] == '&')
  {
    var tail := ", " + szr + ")";
    var conv :=
      if IsHandle(base) then "from_handle_array("
      else if IsNode(base) || base == "MuID" then "from_MuID_array("
      else "from_" + base + "_array(";
    var stubTy :=
      if IsHandle(base) then "Vec<&APIMuValue>"
      else if IsNode(base) || base == "MuID" then "Vec<MuID>"
      else if base == "MuCString" then "Vec<String>" else "&[" + ToRustType(base) + "]";
    EndsWithConcat(conv + rpn, tail);
    Conv(conv + rpn + tail, stubTy)
  }

  /** An optional parameter: only handles, nodes, strings and ids may be absent. */
  function OptionalConversion(cty: String, rpn: String): (r: Result<Conv, EmitError>)
    ensures r.Err? <==> !IsHandle(cty) && !IsNode(cty) && cty != "MuCString" && cty != "MuID"
    ensures r.Ok? ==> r.value.code != rpn && StartsWith(r.value.stubTy, "Option<")
  {
    if IsHandle(cty) then Ok(Conv("from_handle_optional(" + rpn + ")", "Option<&APIMuValue>"))
    else if IsNode(cty) then Ok(Conv("from_MuID_optional(" + rpn + ")", "Option<MuID>"))
    else if cty == "MuCString" then Ok(Conv("from_MuCString_optional(" + rpn + ")", "Option<String>"))
    else if cty == "MuID" then Ok(Conv("from_MuID_optional(" + rpn + ")", "Option<MuID>"))
    else Err(NotExpectingOptional(cty))
  }

  /** The values of the high-level parameter table start with none of `O`, `V`, `&`. */
  lemma HighLevelParamHead(cty: String)
    requires HighLevelParam(cty).Some?
    ensures var h := HighLevelParam(cty).value; |h| > 0 && h[0] in "*bMS"
  {
  }

  /** A plain parameter: pointers to the top-level structs, handles, nodes,
      types passed as they are, and the few with a high-level counterpart. */
  function PlainConversion(cty: String, rpn: String): (r: Result<Conv, EmitError>)
    ensures r.Err? <==> !IsExplicitPtr(cty) && !IsHandle(cty) && !IsNode(cty)
                        && !NoConversion(cty) && HighLevelParam(cty).None?
    ensures r.Ok? ==> (r.value.code == rpn <==> !IsExplicitPtr(cty) && !IsHandle(cty) && !IsNode(cty) && NoConversion(cty))
    ensures r.Ok? && r.value.code == rpn ==> r.value.stubTy == ToRustType(cty)
  {
    if IsExplicitPtr(cty) then
      var base := DropLast(cty);
      Ok(Conv("from_" + base + "_ptr(" + rpn + ")", ToRustType(base)))
    else if IsHandle(cty) then Ok(Conv("from_handle(" + rpn + ")", "&APIMuValue"))
    else if IsNode(cty) then Ok(Conv("from_MuID(" + rpn + ")", "MuID"))
    else if NoConversion(cty) then Ok(Conv(rpn, ToRustType(cty)))
    else match HighLevelParam(cty)
      case Some(h) => Ok(Conv("from_" + cty + "(" + rpn + ")", h))
      case None => Err(UnknownParamType(cty))
  }

  /** No plain parameter's stub type starts like an `Option` or a `Vec`. */
  lemma PlainStubHead(cty: String, rpn: String)
    requires PlainConversion(cty, rpn).Ok?
    ensures var t := PlainConversion(cty, rpn).value.stubTy; |t| > 0 && t[0] != 'O' && t[0] != 'V'
  {
    if IsExplicitPtr(cty) {
      RustTypeHead(DropLast(cty));
    } else if !IsHandle(cty) && !IsNode(cty) {
      if NoConversion(cty) {
        RustTypeHead(cty);
      } else {
        HighLevelParamHead(cty);
      }
    }
  }

  /** The conversion of a parameter, decided in the order out, array,
      optional, plain. Out and array parameters must be explicit pointers. */
  function ArgConversion(p: Param): (r: Result<Conv, EmitError>)
    ensures r.Err? <==>
      || (p.isOut && !IsExplicitPtr(p.ty))
      || (!p.isOut && p.arraySzParam.Some? && !IsExplicitPtr(p.ty))
      || (!p.isOut && p.arraySzParam.None? && p.isOptional
          && !IsHandle(p.ty) && !IsNode(p.ty) && p.ty != "MuCString" && p.ty != "MuID")
      || (!p.isOut && p.arraySzParam.None? && !p.isOptional && !IsExplicitPtr(p.ty)
          && !IsHandle(p.ty) && !IsNode(p.ty) && !NoConversion(p.ty) && HighLevelParam(p.ty).None?)
    ensures r.Ok? && !p.isOut && p.arraySzParam.Some? ==>
      EndsWith(r.value.code, ", " + AvoidRustKws(p.arraySzParam.value) + ")")
  {
    var rpn := AvoidRustKws(p.name);
    if p.isOut then
      if !IsExplicitPtr(p.ty) then Err(NotAPointer(p.name, p.ty))
      else Ok(Conv(rpn, ToRustType(p.ty)))
    else if p.arraySzParam.Some? then
      if !IsExplicitPtr(p.ty) then Err(NotAPointer(p.name, p.ty))
      else Ok(ArrayConversion(DropLast(p.ty), rpn, AvoidRustKws(p.arraySzParam.value)))
    else if p.isOptional then OptionalConversion(p.ty, rpn)
    else PlainConversion(p.ty, rpn)
  }

  /** Exactly out parameters and the types without a converter reach the
      call unchanged, and then the stub shows the low-level Rust type. */
  lemma ArgPassedAsIs(p: Param)
    requires ArgConversion(p).Ok?
    ensures ArgConversion(p).value.code == AvoidRustKws(p.name) <==>
      p.isOut || (p.arraySzParam.None? && !p.isOptional && !IsExplicitPtr(p.ty)
                  && !IsHandle(p.ty) && !IsNode(p.ty) && NoConversion(p.ty))
    ensures ArgConversion(p).value.code == AvoidRustKws(p.name) ==>
      ArgConversion(p).value.stubTy == ToRustType(p.ty)
  {
  }

  /** The stub takes an `Option` exactly for optional parameters. */
  lemma ArgOptionalStub(p: Param)
    requires ArgConversion(p).Ok?
    ensures ArgConversion(p).value.stubTy[0] == 'O' <==> !p.isOut && p.arraySzParam.None? && p.isOptional
  {
    var rpn := AvoidRustKws(p.name);
    var c := ArgConversion(p).value;
    if p.isOut {
      RustTypeHead(p.ty);
      assert c.stubTy == ToRustType(p.ty);
    } else if p.arraySzParam.Some? {
      assert c == ArrayConversion(DropLast(p.ty), rpn, AvoidRustKws(p.arraySzParam.value));
    } else if p.isOptional {
      assert Ok(c) == OptionalConversion(p.ty, rpn);
    } else {
      assert Ok(c) == PlainConversion(p.ty, rpn);
      PlainStubHead(p.ty, rpn);
    }
  }

  /** A converted argument: the Rust parameter name and its conversion. */
  datatype Arg = Arg(rpn: String, conv: Conv)

  /** One converted argument, or the error that stops the generator. */
  function ConvertArg(p: Param): (r: Result<Arg, EmitError>)
    ensures r.Ok? <==> ArgConversion(p).Ok?
    ensures r.Ok? ==> r.value.rpn == AvoidRustKws(p.name) && Ok(r.value.conv) == ArgConversion(p)
    ensures r.Err? ==> ArgConversion(p) == Err(r.error)
  {
    match ArgConversion(p)
    case Err(e) => Err(e)
    case Ok(c) => Ok(Arg(AvoidRustKws(p.name), c))
  }

  /** The conversions of the parameters that are not array sizes, in order;
      the first parameter that cannot be converted stops the generator. */
  function ConvertArgs(ps: seq<Param>): (r: Result<seq<Arg>, EmitError>)
    ensures var args := Filter(ps, NotSize);
      r.Ok? <==> forall k :: 0 <= k < |args| ==> ArgConversion(args[k]).Ok?
    ensures r.Ok? ==> |r.value| == |Filter(ps, NotSize)|
    ensures r.Ok? ==> forall k :: 0 <= k < |r.value| ==>
      r.value[k].rpn == AvoidRustKws(Filter(ps, NotSize)[k].name)
      && Ok(r.value[k].conv) == ArgConversion(Filter(ps, NotSize)[k])
    ensures var args := Filter(ps, NotSize);
      r.Err? ==> exists k :: 0 <= k < |args| && ArgConversion(args[k]) == Err(r.error)
                   && forall j :: 0 <= j < k ==> ArgConversion(args[j]).Ok?
  {
    ConvertAllOk(Filter(ps, NotSize));
    MapResult(Filter(ps, NotSize), ConvertArg)
  }

  lemma ConvertAllOk(args: seq<Param>)
    ensures MapResult(args, ConvertArg).Ok? <==> forall k :: 0 <= k < |args| ==> ArgConversion(args[k]).Ok?
  {
    if forall k :: 0 <= k < |args| ==> ArgConversion(args[k]).Ok? {
      assert forall k :: 0 <= k < |args| ==> ConvertArg(args[k]).Ok?;
    }
  }

  /** A method has a receiver when some parameter is not an array size. */
  lemma HasReceiver(ps: seq<Param>)
    ensures |Filter(ps, NotSize)| > 0 <==> exists k :: 0 <= k < |ps| && NotSize(ps[k])
  {
    if exists k :: 0 <= k < |ps| && NotSize(ps[k]) {
      var k :| 0 <= k < |ps| && NotSize(ps[k]);
      assert ps[k] in ps;
    }
    if |Filter(ps, NotSize)| > 0 {
      var p := Filter(ps, NotSize)[0];
      assert p in Filter(ps, NotSize);
      var k :| 0 <= k < |ps| && ps[k] == p;
      assert NotSize(ps[k]);
    }
  }

  /** How the forwarder hands the callee's result back. */
  function RetConversion(retTy: String): (code: String)
    requires retTy != "void"
    ensures code == "_rv" <==> DirectlyReturned(retTy)
    ensures IsHandle(retTy) && !DirectlyReturned(retTy) ==> code == "to_handle(_rv)"
    ensures !DirectlyReturned(retTy) && !IsHandle(retTy) ==>
      code == (if IsNode(retTy) then "to_MuID(_rv)" else "to_" + retTy + "(_rv)")
  {
    if DirectlyReturned(retTy) then "_rv"
    else if IsHandle(retTy) then "to_handle(_rv)"
    else if IsNode(retTy) then "to_MuID(_rv)"
    else "to_" + retTy + "(_rv)"
  }

  function ArgName(a: Arg): String {
    "_arg_" + a.rpn
  }

  /** `rpn: rty` for every parameter, array sizes included. */
  function FormalParams(ps: seq<Param>): (decls: seq<String>)
    ensures |decls| == |ps|
  {
    seq(|ps|, k requires 0 <= k < |ps| => AvoidRustKws(ps[k].name) + ": " + ToRustType(ps[k].ty))
  }

  /** The body of a forwarder: one conversion per argument, the call through
      the receiver, and the conversion of the result unless it is `void`. */
  function ForwarderStmts(args: seq<Arg>, m: Method): (stmts: seq<String>)
    requires |args| > 0
    ensures |stmts| == |args| + 3 + (if m.retTy == "void" then 0 else 2)
    ensures forall k :: 0 <= k < |args| ==>
      stmts[k] == "    let mut " + ArgName(args[k]) + " = " + args[k].conv.code + ";"
    ensures StartsWith(stmts[|args| + 1], "        (*" + ArgName(args[0]) + ")." + m.name + "(")
    ensures stmts[|args|] == "    " + (if m.retTy == "void" then "" else "let _rv = ") + "unsafe {"
    ensures stmts[|args| + 1] == "        (*" + ArgName(args[0]) + ")." + m.name + "("
      + Join(seq(|args| - 1, k requires 0 <= k < |args| - 1 => ArgName(args[k + 1])), ", ") + ")"
    ensures stmts[|args| + 2] == "    };"
    ensures m.retTy != "void" ==>
      stmts[|args| + 3] == "    let _rv_prep = " + RetConversion(m.retTy) + ";" && stmts[|args| + 4] == "    _rv_prep"
  {
    var names := seq(|args|, k requires 0 <= k < |args| => ArgName(args[k]));
    var convs := seq(|args|, k requires 0 <= k < |args| =>
      "    let mut " + ArgName(args[k]) + " = " + args[k].conv.code + ";");
    var callHead := "        (*" + names[0] + ")." + m.name + "(";
    assert names[1..] == seq(|args| - 1, k requires 0 <= k < |args| - 1 => ArgName(args[k + 1]));
    var call := callHead + Join(names[1..], ", ") + ")";
    assert call[..|callHead|] == callHead;
    var bind := if m.retTy == "void" then "" else "let _rv = ";
    var ret := if m.retTy == "void" then []
               else ["    let _rv_prep = " + RetConversion(m.retTy) + ";", "    _rv_prep"];
    convs + ["    " + bind + "unsafe {", call, "    };"] + ret
  }

  function RetTyText(m: Method): String {
    if m.retTy == "void" then ""
    else " -> " + ToHighLevelRetTy(m.retTy, ToRustType(m.retTy))
  }

  /** The `extern fn` the v-table points to. */
  function Forwarder(structName: String, m: Method, args: seq<Arg>): (f: String)
    requires |args| > 0
    ensures StartsWith(f, "extern fn " + ForwarderName(structName, m.name) + "(")
    ensures f == "extern fn " + ForwarderName(structName, m.name) + "(" + Join(FormalParams(m.params), ", ") + ")"
      + RetText(m.retTy) + " {\n" + Join(ForwarderStmts(args, m), "\n") + "\n}\n"
  {
    var head := "extern fn " + ForwarderName(structName, m.name) + "(";
    var rest := Join(FormalParams(m.params), ", ") + ")" + RetText(m.retTy) + " {\n"
      + Join(ForwarderStmts(args, m), "\n") + "\n}\n";
    StartsWithConcat(head, rest);
    head + rest
  }

  /** The parameters of a stub: `&mut self` in place of the receiver, then
      the remaining arguments with their high-level types. */
  function StubParams(args: seq<Arg>): (ps: seq<String>)
    requires |args| > 0
    ensures |ps| == |args| && ps[0] == "&mut self"
    ensures forall k :: 0 < k < |args| ==> ps[k] == args[k].rpn + ": " + args[k].conv.stubTy
  {
    ["&mut self"] + seq(|args| - 1, k requires 0 <= k < |args| - 1 => args[k + 1].rpn + ": " + args[k + 1].conv.stubTy)
  }

  /** The stub method of the implementation, which only panics. */
  function Stub(m: Method, args: seq<Arg>): (s: String)
    requires |args| > 0
    ensures StartsWith(s, "    pub fn " + m.name + "(&mut self")
    ensures s == "    pub fn " + m.name + "(" + Join(StubParams(args), ", ") + ")" + RetTyText(m)
      + " {\n        panic!(\"Not implemented\")\n    }\n"
  {
    var ps := StubParams(args);
    var head := "    pub fn " + m.name + "(";
    var joined := Join(ps, ", ");
    assert joined[..9] == "&mut self";
    var s := head + joined + ")" + RetTyText(m) + " {\n" + "        panic!(\"Not implemented\")\n    }\n";
    assert s[..|head| + 9] == head + joined[..9];
    s
  }

  /** `generate_forwarder_and_stub`: fails when an argument cannot be
      converted or when every parameter is an array size (there is no
      receiver to call through). */
  function ForwarderAndStub(structName: String, m: Method): (r: Result<(String, String), EmitError>)
    ensures var args := Filter(m.params, NotSize);
      r.Ok? <==> |args| > 0 && forall k :: 0 <= k < |args| ==> ArgConversion(args[k]).Ok?
    ensures r.Ok? ==> StartsWith(r.value.0, "extern fn " + ForwarderName(structName, m.name) + "(")
    ensures r.Ok? ==> StartsWith(r.value.1, "    pub fn " + m.name + "(&mut self")
    ensures r.Ok? ==> var args := ConvertArgs(m.params).value;
      |args| > 0 && r.value == (Forwarder(structName, m, args), Stub(m, args))
    ensures ConvertArgs(m.params).Err? ==> r == Err(ConvertArgs(m.params).error)
    ensures ConvertArgs(m.params) == Ok([]) ==> r == Err(NoReceiver(m.name))
  {
    var args :- ConvertArgs(m.params);
    if |args| == 0 then Err(NoReceiver(m.name))
    else Ok((Forwarder(structName, m, args), Stub(m, args)))
  }

  /** `generate_filler_stmt`: the v-table entry set to the forwarder. */
  function FillerStmt(structName: String, m: Method): String {
    "        " + m.name + ": " + ForwarderName(structName, m.name) + ","
  }

  // ---------------------------------------------------------------------
  // Structs

  /** The four pieces generated for one struct. */
  datatype StructOut = StructOut(structDef: String, forwarders: seq<String>, filler: String, stubImpl: String)

  /** The forwarder and stub of every method, in order; the first method that
      cannot be generated stops the generator. */
  function MethodsOut(structName: String, ms: seq<Method>): (r: Result<seq<(String, String)>, EmitError>)
    ensures r.Ok? <==> forall k :: 0 <= k < |ms| ==> ForwarderAndStub(structName, ms[k]).Ok?
    ensures r.Ok? ==> |r.value| == |ms| && forall k :: 0 <= k < |ms| ==> ForwarderAndStub(structName, ms[k]) == Ok(r.value[k])
  {
    MapResult(ms, m => ForwarderAndStub(structName, m))
  }

  function Fields(ms: seq<Method>): (fs: seq<String>)
    ensures |fs| == |ms| && forall k :: 0 <= k < |ms| ==> fs[k] == StructField(ms[k])
  {
    seq(|ms|, k requires 0 <= k < |ms| => StructField(ms[k]))
  }

  function FillerStmts(structName: String, ms: seq<Method>): (fs: seq<String>)
    ensures |fs| == |ms| && forall k :: 0 <= k < |ms| ==> fs[k] == FillerStmt(structName, ms[k])
  {
    seq(|ms|, k requires 0 <= k < |ms| => FillerStmt(structName, ms[k]))
  }

  /** A text template: fixed head lines, the variable lines, fixed tail
      lines, all separated by line breaks. */
  function Template(head: seq<String>, body: seq<String>, tail: seq<String>): String {
    Join(head, "\n") + "\n" + Join(body, "\n") + "\n" + Join(tail, "\n")
  }

  function StructDefHead(name: String): seq<String> {
    ["#[repr(C)]", "pub struct C" + name + " {", "    pub header: *mut c_void,"]
  }

  const StructDefTail: seq<String> := ["}", ""]

  /** The `#[repr(C)]` struct of function pointers. */
  function StructDef(name: String, fields: seq<String>): String {
    Template(StructDefHead(name), fields, StructDefTail)
  }

  function FillerHead(name: String): seq<String> {
    ["pub fn make_new_" + name + "(header: *mut c_void) -> *mut C" + name + " {",
     "    let bx = Box::new(C" + name + " {", "        header: header,"]
  }

  const FillerTail: seq<String> := ["    });", "", "    Box::into_raw(bx)", "}", ""]

  /** `make_new_X`, which fills the v-table with the forwarders. */
  function Filler(name: String, stmts: seq<String>): String {
    Template(FillerHead(name), stmts, FillerTail)
  }

  function StubImpl(name: String, stubs: seq<String>): String {
    Template(["impl " + name + " {"], stubs, ["}", ""])
  }

  /** Forwarder `k` of a struct is declared under the name of method `k`. */
  lemma ForwardersNamed(st: Struct)
    requires forall k :: 0 <= k < |st.methods| ==> ForwarderAndStub(st.name, st.methods[k]).Ok?
    ensures |ForwardersOf(st)| == |st.methods|
    ensures forall k :: 0 <= k < |st.methods| ==>
      StartsWith(ForwardersOf(st)[k], "extern fn " + ForwarderName(st.name, st.methods[k].name) + "(")
  {
  }

  /** `visit_struct` */
  function VisitStruct(st: Struct): (r: Result<StructOut, EmitError>)
    ensures r.Ok? <==> forall k :: 0 <= k < |st.methods| ==> ForwarderAndStub(st.name, st.methods[k]).Ok?
    ensures r.Ok? ==> |r.value.forwarders| == |st.methods|
    ensures r.Ok? ==> forall k :: 0 <= k < |st.methods| ==>
      StartsWith(r.value.forwarders[k], "extern fn " + ForwarderName(st.name, st.methods[k].name) + "(")
    ensures r.Ok? ==> r.value.structDef == StructDef(st.name, Fields(st.methods))
                      && r.value.filler == Filler(st.name, FillerStmts(st.name, st.methods))
    ensures r.Ok? ==> r.value.forwarders == ForwardersOf(st)
                      && r.value.stubImpl == StubImpl(st.name, StubsOf(st))
  {
    var outs := MethodsOut(st.name, st.methods);
    if outs.Err? then Err(outs.error)
    else
      ForwardersNamed(st);
      Ok(StructOut(StructDef(st.name, Fields(st.methods)), ForwardersOf(st),
                   Filler(st.name, FillerStmts(st.name, st.methods)), StubImpl(st.name, StubsOf(st))))
  }

  /** The forwarder of every method of a struct whose methods all generate. */
  function ForwardersOf(st: Struct): (fs: seq<String>)
    requires forall k :: 0 <= k < |st.methods| ==> ForwarderAndStub(st.name, st.methods[k]).Ok?
  {
    seq(|st.methods|, k requires 0 <= k < |st.methods| => ForwarderAndStub(st.name, st.methods[k]).value.0)
  }

  /** The stub of every method of a struct whose methods all generate. */
  function StubsOf(st: Struct): (ss: seq<String>)
    requires forall k :: 0 <= k < |st.methods| ==> ForwarderAndStub(st.name, st.methods[k]).Ok?
  {
    seq(|st.methods|, k requires 0 <= k < |st.methods| => ForwarderAndStub(st.name, st.methods[k]).value.1)
  }

  // ---------------------------------------------------------------------
  // Line structure of the generated text

  predicate OneLine(s: String) {
    '\n' !in s
  }

  predicate AllOneLine(lines: seq<String>) {
    forall k :: 0 <= k < |lines| ==> OneLine(lines[k])
  }

  /** A template with a fixed head, a variable body and a fixed tail, each
      joined by line breaks, splits back into its lines; an empty body
      leaves one empty line. */
  lemma TemplateLines(head: seq<String>, body: seq<String>, tail: seq<String>)
    requires |head| > 0 && |tail| > 0
    requires AllOneLine(head) && AllOneLine(body) && AllOneLine(tail)
    ensures Split(Template(head, body, tail), '\n') == head + (if |body| == 0 then [""] else body) + tail
  {
    var mid := if |body| == 0 then [""] else body;
    assert Join(mid, "\n") == Join(body, "\n");
    AllOneLineAppend(head, mid);
    AllOneLineAppend(head + mid, tail);
    JoinAppend(head, mid, "\n");
    JoinAppend(head + mid, tail, "\n");
    JoinSplit(head + mid + tail, '\n');
  }

  lemma AllOneLineAppend(a: seq<String>, b: seq<String>)
    requires AllOneLine(a) && AllOneLine(b)
    ensures AllOneLine(a + b)
  {
    forall k | 0 <= k < |a + b| ensures OneLine((a + b)[k]) {
      if k < |a| {
        assert (a + b)[k] == a[k];
      } else {
        assert (a + b)[k] == b[k - |a|];
      }
    }
  }

  /** Without line breaks in names and types, a v-table field is one line. */
  lemma StructFieldOneLine(m: Method)
    requires OneLine(m.name) && OneLine(m.retTy)
    requires forall k :: 0 <= k < |m.params| ==> OneLine(m.params[k].ty)
    ensures OneLine(StructField(m))
  {
    ParamTypesOneLine(m.params);
    RetTextOneLine(m.retTy);
    FieldTextOneLine(m.name, Join(ParamRustTypes(m.params), ", "), RetText(m.retTy));
  }

  lemma ParamTypesOneLine(ps: seq<Param>)
    requires forall k :: 0 <= k < |ps| ==> OneLine(ps[k].ty)
    ensures OneLine(Join(ParamRustTypes(ps), ", "))
  {
    ParamTypesFree(ps, '\n');
    JoinFree(ParamRustTypes(ps), ", ", '\n');
  }

  /** A character that no parameter type holds, and that `ToRustType` never
      adds, is in none of the Rust types. */
  lemma ParamTypesFree(ps: seq<Param>, c: char)
    requires !IsWordChar(c) && c != ' ' && c != '*'
    requires forall k :: 0 <= k < |ps| ==> c !in ps[k].ty
    ensures forall k :: 0 <= k < |ps| ==> c !in ParamRustTypes(ps)[k]
  {
    forall k | 0 <= k < |ps| ensures c !in ParamRustTypes(ps)[k] {
      RustTypeFree(ps[k].ty, c);
    }
  }

  lemma RetTextOneLine(retTy: String)
    requires OneLine(retTy)
    ensures OneLine(RetText(retTy))
  {
    if retTy != "void" {
      RustTypeFree(retTy, '\n');
    }
  }

  lemma FieldTextOneLine(name: String, args: String, rt: String)
    requires OneLine(name) && OneLine(args) && OneLine(rt)
    ensures OneLine("    pub " + name + ": extern fn(" + (args + ")" + rt + ","))
  {
  }

  predicate MethodOneLine(m: Method) {
    OneLine(m.name) && OneLine(m.retTy) && forall k :: 0 <= k < |m.params| ==> OneLine(m.params[k].ty)
  }

  /** Split at line breaks, `text` has `n` lines, then the lines of `body`
      (one empty line if there are none), then `m` more lines. */
  predicate BodyLinesAt(text: String, n: nat, body: seq<String>, m: nat) {
    var lines := Split(text, '\n');
    |lines| == n + (if |body| == 0 then 1 else |body|) + m
    && forall k :: 0 <= k < |body| ==> lines[n + k] == body[k]
  }

  /** Line `|head| + k` of a template is line `k` of its body. */
  lemma TemplateBodyLines(head: seq<String>, body: seq<String>, tail: seq<String>)
    requires |head| > 0 && |tail| > 0
    requires AllOneLine(head) && AllOneLine(body) && AllOneLine(tail)
    ensures BodyLinesAt(Template(head, body, tail), |head|, body, |tail|)
  {
    TemplateLines(head, body, tail);
    var lines := head + (if |body| == 0 then [""] else body) + tail;
    forall k | 0 <= k < |body| ensures lines[|head| + k] == body[k] {
    }
  }

  lemma FieldsOneLine(ms: seq<Method>)
    requires forall k :: 0 <= k < |ms| ==> MethodOneLine(ms[k])
    ensures AllOneLine(Fields(ms))
  {
    var fields := Fields(ms);
    forall k | 0 <= k < |fields| ensures OneLine(fields[k]) {
      StructFieldOneLine(ms[k]);
    }
  }

  lemma StructDefFixedLines(name: String)
    requires OneLine(name)
    ensures AllOneLine(StructDefHead(name)) && AllOneLine(StructDefTail)
  {
    var h := StructDefHead(name);
    assert OneLine(h[0]) && OneLine(h[1]) && OneLine(h[2]);
  }

  /** Line `3 + k` of the struct definition is the field of method `k`. */
  lemma StructDefLines(st: Struct)
    requires OneLine(st.name)
    requires forall k :: 0 <= k < |st.methods| ==> MethodOneLine(st.methods[k])
    ensures BodyLinesAt(StructDef(st.name, Fields(st.methods)), 3, Fields(st.methods), 2)
  {
    FieldsOneLine(st.methods);
    StructDefFixedLines(st.name);
    TemplateBodyLines(StructDefHead(st.name), Fields(st.methods), StructDefTail);
  }

  lemma FillerFixedLines(name: String)
    requires OneLine(name)
    ensures AllOneLine(FillerHead(name)) && AllOneLine(FillerTail)
  {
    var h := FillerHead(name);
    assert OneLine(h[0]) && OneLine(h[1]) && OneLine(h[2]);
  }

  lemma FillerStmtsOneLine(structName: String, ms: seq<Method>)
    requires OneLine(structName)
    requires forall k :: 0 <= k < |ms| ==> OneLine(ms[k].name)
    ensures AllOneLine(FillerStmts(structName, ms))
  {
    var stmts := FillerStmts(structName, ms);
    forall k | 0 <= k < |stmts| ensures OneLine(stmts[k]) {
      assert stmts[k] == "        " + ms[k].name + ": " + ForwarderName(structName, ms[k].name) + ",";
    }
  }

  /** Line `3 + k` of the filler sets the v-table entry of method `k` to
      method `k`'s forwarder. */
  lemma FillerLines(st: Struct)
    requires OneLine(st.name)
    requires forall k :: 0 <= k < |st.methods| ==> OneLine(st.methods[k].name)
    ensures BodyLinesAt(Filler(st.name, FillerStmts(st.name, st.methods)), 3, FillerStmts(st.name, st.methods), 5)
  {
    FillerStmtsOneLine(st.name, st.methods);
    FillerFixedLines(st.name);
    TemplateBodyLines(FillerHead(st.name), FillerStmts(st.name, st.methods), FillerTail);
  }

  /** `visit_structs`: every struct in order, the pieces joined by line breaks. */
  function VisitStructs(structs: seq<Struct>): (r: Result<seq<StructOut>, EmitError>)
    ensures r.Ok? <==> forall k :: 0 <= k < |structs| ==> VisitStruct(structs[k]).Ok?
    ensures r.Ok? ==> |r.value| == |structs| && forall k :: 0 <= k < |structs| ==> VisitStruct(structs[k]) == Ok(r.value[k])
    ensures r.Err? ==> exists k :: 0 <= k < |structs| && VisitStruct(structs[k]) == Err(r.error)
                         && forall j :: 0 <= j < k ==> VisitStruct(structs[j]).Ok?
  {
    MapResult(structs, VisitStruct)
  }

  /** All forwarders of all structs, struct by struct. */
  function AllForwarders(outs: seq<StructOut>): (fs: seq<String>)
  {
    if |outs| == 0 then [] else outs[0].forwarders + AllForwarders(outs[1..])
  }

  lemma {:induction false} AllForwardersCount(structs: seq<Struct>, outs: seq<StructOut>)
    requires VisitStructs(structs) == Ok(outs)
    ensures |AllForwarders(outs)| == MethodCount(structs)
  {
    if |structs| > 0 {
      assert VisitStruct(structs[0]) == Ok(outs[0]);
      AllForwardersCount(structs[1..], outs[1..]);
    }
  }

  function MethodCount(structs: seq<Struct>): nat {
    if |structs| == 0 then 0 else |structs[0].methods| + MethodCount(structs[1..])
  }

  // ---------------------------------------------------------------------
  // Enums and types

  /** `pub const CNAME: T = value;` for every definition of an enum. */
  function EnumConsts(e: Enum): (lines: seq<String>)
    ensures |lines| == |e.defs|
  {
    seq(|e.defs|, k requires 0 <= k < |e.defs| =>
      "pub const C" + e.defs[k].name + ": " + ToRustType(e.name) + " = " + e.defs[k].value + ";")
  }

  function ConstDefs(enums: seq<Enum>): (lines: seq<String>)
  {
    if |enums| == 0 then [] else EnumConsts(enums[0]) + ConstDefs(enums[1..])
  }

  function DefCount(enums: seq<Enum>): nat {
    if |enums| == 0 then 0 else |enums[0].defs| + DefCount(enums[1..])
  }

  /** `visit_enums` */
  function VisitEnums(enums: seq<Enum>): String {
    Join(ConstDefs(enums), "\n")
  }

  predicate EnumOneLine(e: Enum) {
    OneLine(e.name) && forall k :: 0 <= k < |e.defs| ==> OneLine(e.defs[k].name) && OneLine(e.defs[k].value)
  }

  /** One constant per definition, each on its own line, enum by enum. */
  lemma {:induction false} ConstDefsLines(enums: seq<Enum>)
    requires forall k :: 0 <= k < |enums| ==> EnumOneLine(enums[k])
    ensures |ConstDefs(enums)| == DefCount(enums)
    ensures AllOneLine(ConstDefs(enums))
  {
    if |enums| > 0 {
      ConstDefsLines(enums[1..]);
      EnumConstsOneLine(enums[0]);
      AllOneLineAppend(EnumConsts(enums[0]), ConstDefs(enums[1..]));
    }
  }

  lemma ConstLineOneLine(name: String, rty: String, value: String)
    requires OneLine(name) && OneLine(rty) && OneLine(value)
    ensures OneLine("pub const C" + name + ": " + rty + " = " + value + ";")
  {
  }

  lemma EnumConstsOneLine(e: Enum)
    requires EnumOneLine(e)
    ensures AllOneLine(EnumConsts(e))
  {
    var lines := EnumConsts(e);
    RustTypeFree(e.name, '\n');
    forall k | 0 <= k < |lines| ensures OneLine(lines[k]) {
      ConstLineOneLine(e.defs[k].name, ToRustType(e.name), e.defs[k].value);
    }
  }

  /** Splitting the generated constants at line breaks gives one line per
      definition. */
  lemma VisitEnumsLines(enums: seq<Enum>)
    requires forall k :: 0 <= k < |enums| ==> EnumOneLine(enums[k])
    requires DefCount(enums) > 0
    ensures Split(VisitEnums(enums), '\n') == ConstDefs(enums)
    ensures |Split(VisitEnums(enums), '\n')| == DefCount(enums)
  {
    ConstDefsLines(enums);
    JoinSplit(ConstDefs(enums), '\n');
  }

  /** Typedefs whose expansion starts with `_` are function types, written
      by hand on the Rust side. */
  predicate NotFunctionType(e: (String, String)) {
    !StartsWith(e.1, "_")
  }

  function TypeLine(e: (String, String)): String {
    "pub type " + ToRustType(e.0) + " = " + ToRustType(e.1) + ";"
  }

  function TypeLines(order: seq<(String, String)>): (lines: seq<String>)
    ensures |lines| == |Filter(order, NotFunctionType)|
  {
    var kept := Filter(order, NotFunctionType);
    seq(|kept|, k requires 0 <= k < |kept| => TypeLine(kept[k]))
  }

  /** `visit_types` */
  function VisitTypes(order: seq<(String, String)>): String {
    Join(TypeLines(order), "\n")
  }

  /** Every typedef that is not a function type gets its line, and every line
      comes from such a typedef. */
  lemma TypeLinesSpec(order: seq<(String, String)>)
    ensures forall e :: e in order && NotFunctionType(e) ==> TypeLine(e) in TypeLines(order)
    ensures forall l :: l in TypeLines(order) ==> exists e :: e in order && NotFunctionType(e) && l == TypeLine(e)
  {
    var kept := Filter(order, NotFunctionType);
    forall e | e in order && NotFunctionType(e) ensures TypeLine(e) in TypeLines(order) {
      var k :| 0 <= k < |kept| && kept[k] == e;
      assert TypeLines(order)[k] == TypeLine(e);
    }
    forall l | l in TypeLines(order) ensures exists e :: e in order && NotFunctionType(e) && l == TypeLine(e) {
      var k :| 0 <= k < |TypeLines(order)| && TypeLines(order)[k] == l;
      assert kept[k] in kept;
    }
  }

  /** Two texts cut before their first `c` are cut at the same place. */
  lemma CutAtFirst(ha: String, ta: String, hb: String, tb: String, c: char)
    requires c !in ha && c !in hb && |ta| > 0 && |tb| > 0 && ta[0] == c && tb[0] == c
    requires ha + ta == hb + tb
    ensures ha == hb && ta == tb
  {
    FirstIndexOfPrefix(ha, ta, c);
    FirstIndexOfPrefix(hb, tb, c);
    assert ha == (ha + ta)[..|ha|];
    assert hb == (hb + tb)[..|hb|];
    assert ta == (ha + ta)[|ha|..];
    assert tb == (hb + tb)[|hb|..];
  }

  /** Typed text between a fixed prefix and a fixed suffix is recovered. */
  lemma Unwrap(pre: String, x: String, y: String, post: String)
    requires pre + x + post == pre + y + post
    ensures x == y
  {
    assert x == (pre + x + post)[|pre|..|pre| + |x|];
    assert |x| == |y|;
    assert y == (pre + y + post)[|pre|..|pre| + |y|];
  }

  /** The two sides of a `pub type` line are recovered from it when the
      left side holds no `=`. */
  lemma TypeLineParts(ra: String, pa: String, rb: String, pb: String)
    requires '=' !in ra && '=' !in rb
    requires "pub type " + ra + " = " + pa + ";" == "pub type " + rb + " = " + pb + ";"
    ensures ra == rb && pa == pb
  {
    var ha := "pub type " + ra + " ";
    var hb := "pub type " + rb + " ";
    var ta := "= " + pa + ";";
    var tb := "= " + pb + ";";
    assert "pub type " + ra + " = " + pa + ";" == ha + ta;
    assert "pub type " + rb + " = " + pb + ";" == hb + tb;
    assert '=' !in ha && '=' !in hb;
    CutAtFirst(ha, ta, hb, tb, '=');
    Unwrap("pub type ", ra, rb, " ");
    Unwrap("= ", pa, pb, ";");
  }

  /** Different typedefs give different lines, provided no type holds `=`. */
  lemma TypeLineInjective(a: (String, String), b: (String, String))
    requires '=' !in a.0 && '=' !in b.0
    requires TypeLine(a) == TypeLine(b)
    ensures a == b
  {
    RustTypeFree(a.0, '=');
    RustTypeFree(b.0, '=');
    TypeLineParts(ToRustType(a.0), ToRustType(a.1), ToRustType(b.0), ToRustType(b.1));
    ToRustTypeInjective(a.0, b.0);
    ToRustTypeInjective(a.1, b.1);
  }

  // ---------------------------------------------------------------------
  // The whole generator

  /** The text injected into the two Rust files. */
  datatype Output = Output(types: String, structs: String, enums: String,
                           forwarders: String, fillers: String, stubImpls: String)

  /** `main` without the file I/O: the typedefs, the structs and the enums of
      a parsed header rendered as Rust. */
  function Generate(ast: Ast): (r: Result<Output, EmitError>)
    ensures r.Ok? <==> forall k :: 0 <= k < |ast.structs| ==> VisitStruct(ast.structs[k]).Ok?
    ensures r.Ok? ==> r.value.types == VisitTypes(ast.typedefsOrder) && r.value.enums == VisitEnums(ast.enums)
    ensures r.Ok? ==> var outs := VisitStructs(ast.structs).value;
      r.value.structs == Join(StructDefs(outs), "\n")
      && r.value.forwarders == Join(AllForwarders(outs), "\n")
      && r.value.fillers == Join(Fillers(outs), "\n")
      && r.value.stubImpls == Join(StubImpls(outs), "\n")
  {
    var outs :- VisitStructs(ast.structs);
    Ok(Output(VisitTypes(ast.typedefsOrder), Join(StructDefs(outs), "\n"), VisitEnums(ast.enums),
              Join(AllForwarders(outs), "\n"), Join(Fillers(outs), "\n"), Join(StubImpls(outs), "\n")))
  }

  /** The struct definitions, fillers and stub blocks of the structs, in order. */
  function StructDefs(outs: seq<StructOut>): (ts: seq<String>)
    ensures |ts| == |outs| && forall k :: 0 <= k < |outs| ==> ts[k] == outs[k].structDef
  {
    seq(|outs|, k requires 0 <= k < |outs| => outs[k].structDef)
  }

  function Fillers(outs: seq<StructOut>): (ts: seq<String>)
    ensures |ts| == |outs| && forall k :: 0 <= k < |outs| ==> ts[k] == outs[k].filler
  {
    seq(|outs|, k requires 0 <= k < |outs| => outs[k].filler)
  }

  function StubImpls(outs: seq<StructOut>): (ts: seq<String>)
    ensures |ts| == |outs| && forall k :: 0 <= k < |outs| ==> ts[k] == outs[k].stubImpl
  {
    seq(|outs|, k requires 0 <= k < |outs| => outs[k].stubImpl)
  }

  /** `structDef`, `filler` and `stubImpl` are the texts `visit_struct`
      renders for `st`: its v-table struct of one field per method, its filler
      of one entry per method, and the stub of every method. */
  predicate Rendered(st: Struct, structDef: String, filler: String, stubImpl: String) {
    && (forall j :: 0 <= j < |st.methods| ==> ForwarderAndStub(st.name, st.methods[j]).Ok?)
    && structDef == StructDef(st.name, Fields(st.methods))
    && filler == Filler(st.name, FillerStmts(st.name, st.methods))
    && stubImpl == StubImpl(st.name, StubsOf(st))
  }

  /** Struct `k` contributes its own definition, filler and stub block to the
      generator's texts. */
  lemma GenerateStructPieces(ast: Ast)
    ensures Generate(ast).Ok? <==> VisitStructs(ast.structs).Ok?
    ensures VisitStructs(ast.structs).Ok? ==> var outs := VisitStructs(ast.structs).value;
      forall k :: 0 <= k < |ast.structs| ==>
        Rendered(ast.structs[k], StructDefs(outs)[k], Fillers(outs)[k], StubImpls(outs)[k])
  {
    if VisitStructs(ast.structs).Ok? {
      StructPieces(ast.structs, VisitStructs(ast.structs).value);
    }
  }

  lemma StructPieces(structs: seq<Struct>, outs: seq<StructOut>)
    requires VisitStructs(structs) == Ok(outs)
    ensures forall k :: 0 <= k < |structs| ==>
      Rendered(structs[k], StructDefs(outs)[k], Fillers(outs)[k], StubImpls(outs)[k])
  {
    forall k | 0 <= k < |structs|
      ensures Rendered(structs[k], StructDefs(outs)[k], Fillers(outs)[k], StubImpls(outs)[k])
    {
      VisitStructPieces(structs[k], outs[k]);
    }
  }

  lemma VisitStructPieces(st: Struct, out: StructOut)
    requires VisitStruct(st) == Ok(out)
    ensures forall j :: 0 <= j < |st.methods| ==> ForwarderAndStub(st.name, st.methods[j]).Ok?
    ensures out.structDef == StructDef(st.name, Fields(st.methods))
    ensures out.filler == Filler(st.name, FillerStmts(st.name, st.methods))
    ensures out.forwarders == ForwardersOf(st) && out.stubImpl == StubImpl(st.name, StubsOf(st))
  {
  }

  /** The forwarders text holds one forwarder per method of every struct:
      as many as there are methods, and each method's among them. */
  lemma GenerateForwarders(ast: Ast)
    ensures Generate(ast).Ok? <==> VisitStructs(ast.structs).Ok?
    ensures VisitStructs(ast.structs).Ok? ==> var outs := VisitStructs(ast.structs).value;
      |AllForwarders(outs)| == MethodCount(ast.structs)
      && forall k, j :: 0 <= k < |ast.structs| && 0 <= j < |ast.structs[k].methods| ==>
        ForwarderAndStub(ast.structs[k].name, ast.structs[k].methods[j]).Ok?
        && ForwarderAndStub(ast.structs[k].name, ast.structs[k].methods[j]).value.0 in AllForwarders(outs)
  {
    if VisitStructs(ast.structs).Ok? {
      var outs := VisitStructs(ast.structs).value;
      AllForwardersCount(ast.structs, outs);
      ForwardersPresent(ast.structs, outs);
    }
  }

  lemma ForwardersPresent(structs: seq<Struct>, outs: seq<StructOut>)
    requires VisitStructs(structs) == Ok(outs)
    ensures forall k, j :: 0 <= k < |structs| && 0 <= j < |structs[k].methods| ==>
      ForwarderAndStub(structs[k].name, structs[k].methods[j]).Ok?
      && ForwarderAndStub(structs[k].name, structs[k].methods[j]).value.0 in AllForwarders(outs)
  {
    forall k, j | 0 <= k < |structs| && 0 <= j < |structs[k].methods|
      ensures ForwarderAndStub(structs[k].name, structs[k].methods[j]).Ok?
      ensures ForwarderAndStub(structs[k].name, structs[k].methods[j]).value.0 in AllForwarders(outs)
    {
      VisitStructPieces(structs[k], outs[k]);
      AllForwardersHas(outs, k, j);
    }
  }

  /** Forwarder `j` of output `k` is among all the forwarders. */
  lemma {:induction false} AllForwardersHas(outs: seq<StructOut>, k: nat, j: nat)
    requires k < |outs| && j < |outs[k].forwarders|
    ensures outs[k].forwarders[j] in AllForwarders(outs)
  {
    if k > 0 {
      AllForwardersHas(outs[1..], k - 1, j);
      assert outs[1..][k - 1] == outs[k];
    }
  }
}

=== FILE: muapi_parser.dfy ===
/**
 The Mu API header parser (`src/vm/api/muapiparser.py`).

 The parser reads the function-pointer fields of the three top-level
 structs, the `#define NAME ((TYPE)VALUE)` enum macros and the
 `typedef BASE NAME;` lines of `muapi.h`, and builds the AST the binding
 generator consumes. Each parameter carries the four flags set by the
 trailing `/// MUAPIPARSER name:kind[:arg];...` pragma of its declaration.

 The Python regular expressions are replaced by explicit matchers. Each
 matcher follows the order in which Python's backtracking engine tries the
 alternatives of its pattern, so it reports the same groups as the regular
 expression (the derivation is given at each matcher). Each reports the
 positions of its groups, and a soundness lemma shows that the text between
 them has the shape the pattern asks for.
 */
module MuApiParser {
  import opened Wrappers
  import opened Text

  // ---------------------------------------------------------------------
  // The AST

  datatype Param = Param(
    ty: String,
    name: String,
    arraySzParam: Option<String>,
    isSzParam: bool,
    isOptional: bool,
    isOut: bool)

  datatype Method = Method(name: String, params: seq<Param>, retTy: String)

  datatype Struct = Struct(name: String, methods: seq<Method>)

  datatype EnumDef = EnumDef(name: String, value: String, muname: Option<String>)

  datatype Enum = Enum(name: String, defs: seq<EnumDef>)

  datatype Ast = Ast(
    structs: seq<Struct>,
    enums: seq<Enum>,
    typedefs: map<String, String>,
    typedefsOrder: seq<(String, String)>)

  /** The exceptions the parser raises. `UndefinedName` is the `NameError`
      Python raises when an error message refers to a variable that does not
      exist. */
  datatype ParseError =
    | NoParamMatch(segment: String)
    | UnknownParam(methodName: String, pragma: String, param: String)
    | MissingPragmaPart(pragma: String)
    | UnknownSizeParam(methodName: String, param: String, szParam: String)
    | UnrecognisedPragma(methodName: String, param: String, pragma: String)
    | UndefinedName(name: String)

  /** A half-open range of positions in the text being scanned. */
  datatype Span = Span(start: nat, end: nat)

  predicate SpanIn(t: String, s: Span) {
    s.start <= s.end <= |t|
  }

  function Slice(t: String, s: Span): String
    requires SpanIn(t, s)
  {
    t[s.start..s.end]
  }

  /** `text` contains the literal `lit` at position `p`. */
  predicate LiteralAt(t: String, p: nat, lit: String) {
    p + |lit| <= |t| && t[p..p + |lit|] == lit
  }

  /** `^` with `re.MULTILINE`: the start of the text or just after a line break. */
  predicate LineStart(t: String, p: nat) {
    p <= |t| && (p == 0 || t[p - 1] == '\n')
  }

  /** `$` with `re.MULTILINE`: the end of the text or just before a line break. */
  predicate LineEnd(t: String, p: nat) {
    p == |t| || (p < |t| && t[p] == '\n')
  }

  /** The group `\w+\s*\*?` spans positions `start` to `end` of `t`: a word up
      to `wordEnd`, whitespace up to `spaceEnd`, and possibly one star. */
  predicate TypeShape(t: String, start: nat, wordEnd: nat, spaceEnd: nat, end: nat) {
    start < wordEnd <= spaceEnd <= end <= |t|
    && WordIn(t, start, wordEnd) && SpacesIn(t, wordEnd, spaceEnd)
    && (spaceEnd == end || (spaceEnd + 1 == end && t[spaceEnd] == '*'))
  }

  // ---------------------------------------------------------------------
  // r_param = \s*(?P<type>\w+\s*\*?)\s*(?P<name>\w+), used with `search`

  datatype ParamMatch = ParamMatch(at: nat, ty: Span, wordEnd: nat, spaceEnd: nat, name: Span)

  /** The groups of `m` cut `t` as the pattern requires, starting at `m.at`. */
  predicate ValidParamMatch(t: String, m: ParamMatch) {
    m.at <= m.ty.start <= m.ty.end <= m.name.start < m.name.end <= |t|
    && SpacesIn(t, m.at, m.ty.start)
    && TypeShape(t, m.ty.start, m.wordEnd, m.spaceEnd, m.ty.end)
    && SpacesIn(t, m.ty.end, m.name.start)
    && WordIn(t, m.name.start, m.name.end)
  }

  /** `r_param` anchored at `p`. After the leading whitespace, the greedy
      type word runs to `e`. With the whole word, the engine first tries a star
      after the whitespace and a name after that, then a name right after the
      whitespace. If both fail, it shortens the word by one character, and the
      last character becomes the name. A one-character word cannot be
      shortened, so the match fails. */
  function MatchParamAt(t: String, p: nat): (r: Option<ParamMatch>)
    requires p <= |t|
    ensures r.Some? ==> r.value.at == p && ValidParamMatch(t, r.value)
  {
    var q := SkipSpaces(t, p);
    var e := SkipWord(t, q);
    var f := SkipSpaces(t, e);
    if e == q then None
    else if f < |t| && t[f] == '*' && SkipSpaces(t, f + 1) < |t| && IsWordChar(t[SkipSpaces(t, f + 1)]) then
      var g := SkipSpaces(t, f + 1);
      Some(ParamMatch(p, Span(q, f + 1), e, f, Span(g, SkipWord(t, g))))
    else if f < |t| && IsWordChar(t[f]) then
      Some(ParamMatch(p, Span(q, f), e, f, Span(f, SkipWord(t, f))))
    else if e - q >= 2 then
      Some(ParamMatch(p, Span(q, e - 1), e - 1, e - 1, Span(e - 1, e)))
    else None
  }

  /** `r_param` anchored at a position, as a function value (no match past
      the end of the text), so that searching can be reasoned about without
      the pattern's details. */
  function ParamMatcher(): (f: (String, nat) -> Option<ParamMatch>)
    ensures forall t: String, p: nat {:trigger f(t, p)} :: f(t, p).Some? ==> f(t, p).value.at == p
  {
    (t: String, p: nat) => if p <= |t| then MatchParamAt(t, p) else None
  }

  /** `r_param.search(text)` from position `p`: the match at the leftmost
      position where the pattern matches. */
  function SearchParam(t: String, p: nat): (r: Option<ParamMatch>)
    requires p <= |t|
    ensures r.Some? ==> p <= r.value.at && ValidParamMatch(t, r.value)
    ensures r.Some? ==> MatchParamAt(t, r.value.at) == r
    decreases |t| - p
  {
    match MatchParamAt(t, p)
    case Some(m) => Some(m)
    case None => if p == |t| then None else SearchParam(t, p + 1)
  }

  /** The first position from `p` on where `f` matches. */
  function FirstMatch(f: (String, nat) -> Option<ParamMatch>, t: String, p: nat): (r: Option<ParamMatch>)
    requires p <= |t|
    decreases |t| - p
  {
    match f(t, p)
    case Some(m) => Some(m)
    case None => if p == |t| then None else FirstMatch(f, t, p + 1)
  }

  /** A match `FirstMatch` reports is one `f` gives at its own position. */
  lemma {:induction false} FirstMatchFound(f: (String, nat) -> Option<ParamMatch>, t: String, p: nat)
    requires p <= |t|
    requires forall t: String, p: nat {:trigger f(t, p)} :: f(t, p).Some? ==> f(t, p).value.at == p
    ensures FirstMatch(f, t, p).Some? ==>
      p <= FirstMatch(f, t, p).value.at <= |t| && f(t, FirstMatch(f, t, p).value.at) == FirstMatch(f, t, p)
    decreases |t| - p
  {
    if f(t, p).None? && p < |t| {
      FirstMatchFound(f, t, p + 1);
    }
  }

  /** `FirstMatch` finds no match only when `f` matches at no position from `p` on. */
  lemma {:induction false} FirstMatchNone(f: (String, nat) -> Option<ParamMatch>, t: String, p: nat, x: nat)
    requires p <= x <= |t| && FirstMatch(f, t, p).None?
    ensures f(t, x).None?
    decreases x - p
  {
    if p < x {
      FirstMatchNone(f, t, p + 1, x);
    }
  }

  /** `f` matches at no position between `p` and the match `FirstMatch` reports. */
  lemma {:induction false} FirstMatchLeftmost(f: (String, nat) -> Option<ParamMatch>, t: String, p: nat, x: nat)
    requires forall t: String, p: nat {:trigger f(t, p)} :: f(t, p).Some? ==> f(t, p).value.at == p
    requires p <= x <= |t| && FirstMatch(f, t, p).Some? && x < FirstMatch(f, t, p).value.at
    ensures f(t, x).None?
    decreases x - p
  {
    FirstMatchFound(f, t, p);
    if p < x {
      FirstMatchLeftmost(f, t, p + 1, x);
    }
  }

  /** `SearchParam` is `FirstMatch` of the parameter pattern. */
  lemma {:induction false} SearchParamIsFirstMatch(t: String, p: nat)
    requires p <= |t|
    ensures SearchParam(t, p) == FirstMatch(ParamMatcher(), t, p)
    decreases |t| - p
  {
    SearchStep(t, p);
    if MatchParamAt(t, p).None? && p < |t| {
      SearchParamIsFirstMatch(t, p + 1);
    }
  }

  /** One step of both searches: a match at `p` is what both report, and
      otherwise both go on from `p + 1`, or both end at the end of the text. */
  lemma SearchStep(t: String, p: nat)
    requires p <= |t|
    ensures MatchParamAt(t, p).Some? ==>
      SearchParam(t, p) == MatchParamAt(t, p) && FirstMatch(ParamMatcher(), t, p) == MatchParamAt(t, p)
    ensures MatchParamAt(t, p).None? && p < |t| ==>
      SearchParam(t, p) == SearchParam(t, p + 1) && FirstMatch(ParamMatcher(), t, p) == FirstMatch(ParamMatcher(), t, p + 1)
    ensures MatchParamAt(t, p).None? && p == |t| ==>
      SearchParam(t, p).None? && FirstMatch(ParamMatcher(), t, p).None?
  {
    assert ParamMatcher()(t, p) == MatchParamAt(t, p);
  }

  /** The match `SearchParam` finds is the leftmost one: the pattern matches
      at no position between `p` and the match. */
  lemma SearchParamLeftmost(t: String, p: nat, x: nat)
    requires p <= x <= |t| && SearchParam(t, p).Some? && x < SearchParam(t, p).value.at
    ensures MatchParamAt(t, x).None?
  {
    SearchParamIsFirstMatch(t, p);
    FirstMatchLeftmost(ParamMatcher(), t, p, x);
    assert ParamMatcher()(t, x) == MatchParamAt(t, x);
  }

  /** `SearchParam` finds no match only when the pattern matches at no
      position from `p` on. */
  lemma SearchParamNone(t: String, p: nat, x: nat)
    requires p <= x <= |t| && SearchParam(t, p).None?
    ensures MatchParamAt(t, x).None?
  {
    SearchParamIsFirstMatch(t, p);
    FirstMatchNone(ParamMatcher(), t, p, x);
    assert ParamMatcher()(t, x) == MatchParamAt(t, x);
  }

  // ---------------------------------------------------------------------
  // The patterns scanned with `findall` / `finditer`

  /** `r_decl`, `r_define` and `r_typedef`. */
  datatype Pattern = DeclPattern | DefinePattern | TypedefPattern

  /** One match: where it starts and ends, its groups in the order of the
      pattern, and the optional pragma group. For the patterns with a
      `\w+\s*\*?` group, `typeWordEnd` and `typeSpaceEnd` record where its word
      and its whitespace end. */
  datatype Match = Match(
    at: nat,
    end: nat,
    groups: seq<Span>,
    typeWordEnd: nat,
    typeSpaceEnd: nat,
    pragma: Option<Span>)

  /** The first occurrence of `c` at or after `p`. */
  function FindChar(t: String, p: nat, c: char): (r: Option<nat>)
    requires p <= |t|
    ensures r.Some? ==> p <= r.value < |t| && t[r.value] == c
    ensures r.Some? ==> forall k :: p <= k < r.value ==> t[k] != c
    ensures r.None? ==> forall k :: p <= k < |t| ==> t[k] != c
    decreases |t| - p
  {
    if p == |t| then None else if t[p] == c then Some(p) else FindChar(t, p + 1, c)
  }

  /** Where `.*` starting at `p` stops: the next line break, or the end. */
  function RestOfLine(t: String, p: nat): (e: nat)
    requires p <= |t|
    ensures p <= e <= |t| && LineEnd(t, e)
    ensures forall k :: p <= k < e ==> t[k] != '\n'
  {
    match FindChar(t, p, '\n')
    case Some(e) => e
    case None => |t|
  }

  /** The largest position in `lo..hi` (inclusive) where `$` holds: where
      `\s*$` stops after trying the longest run of whitespace first. */
  function LastLineEnd(t: String, lo: nat, hi: nat): (r: Option<nat>)
    requires lo <= hi <= |t|
    ensures r.Some? ==> lo <= r.value <= hi && LineEnd(t, r.value)
    ensures r.Some? ==> forall x :: r.value < x <= hi ==> !LineEnd(t, x)
    ensures r.None? ==> forall x :: lo <= x <= hi ==> !LineEnd(t, x)
    decreases hi
  {
    if LineEnd(t, hi) then Some(hi)
    else if hi == lo then None
    else LastLineEnd(t, lo, hi - 1)
  }

  /** The three slashes that open a doc comment. */
  const TripleSlash: String := ['/', '/', '/']

  /** `(?:///\s*MUAPIPARSER\s+(?P<pragma>.*))` at `p`: the pragma text runs
      from after the whitespace to the end of the line. */
  function MatchPragmaAt(t: String, p: nat): (r: Option<Span>)
    requires p <= |t|
    ensures r.Some? ==> p + 15 <= r.value.start <= r.value.end <= |t| && LineEnd(t, r.value.end)
    ensures r.Some? ==> LiteralAt(t, p, TripleSlash)
    ensures r.Some? ==> forall k :: r.value.start <= k < r.value.end ==> t[k] != '\n'
  {
    if !LiteralAt(t, p, TripleSlash) then None
    else
      var i := SkipSpaces(t, p + 3);
      if !LiteralAt(t, i, "MUAPIPARSER") then None
      else
        var j := SkipSpaces(t, i + 11);
        if j == i + 11 then None else Some(Span(j, RestOfLine(t, j)))
  }

  /** `r_decl` anchored at `p`:
      `(?P<ret>\w+\s*\*?)\s*\(\s*\*\s*(?P<name>\w+)\s*\)\s*\((?P<params>[^)]*)\)\s*;\s*` followed by the
      optional pragma. Every step is forced: shortening a greedy word leaves a
      word character where `(`, `)` or whitespace is needed, a shorter
      whitespace run leaves whitespace where a literal is needed, and
      `[^)]*` must stop at the first `)`. So the first attempt decides. */
  function MatchDeclAt(t: String, p: nat): (r: Option<Match>)
    requires p <= |t|
  {
    match DeclHeadAt(t, p)
    case None => None
    case Some(hd) => DeclTailAt(t, hd.0, hd.1, hd.2, hd.3, hd.4)
  }

  /** The head of `r_decl` at `p`: `(?P<ret>\w+\s*\*?)\s*\(\s*\*\s*(?P<name>\w+)\s*\)\s*`.
      It gives the `ret` and `name` groups, where the word and the
      whitespace of `ret` end, and the position after the whitespace. */
  function DeclHeadAt(t: String, p: nat): (r: Option<(Span, Span, nat, nat, nat)>)
    requires p <= |t|
    ensures r.Some? ==> (r.value.0.start == p && r.value.4 <= |t|
                         && TypeShape(t, p, r.value.2, r.value.3, r.value.0.end)
                         && r.value.0.end < r.value.1.start < r.value.1.end < r.value.4
                         && WordIn(t, r.value.1.start, r.value.1.end))
  {
    var e := SkipWord(t, p);
    var f := SkipSpaces(t, e);
    var retEnd := if f < |t| && t[f] == '*' then f + 1 else f;
    var x := SkipSpaces(t, retEnd);
    if e == p || !(x < |t| && t[x] == '(') then None
    else
      var a := SkipSpaces(t, x + 1);
      if !(a < |t| && t[a] == '*') then None
      else
        var b := SkipSpaces(t, a + 1);
        var ne := SkipWord(t, b);
        var c := SkipSpaces(t, ne);
        if ne == b || !(c < |t| && t[c] == ')') then None
        else Some((Span(p, retEnd), Span(b, ne), e, f, SkipSpaces(t, c + 1)))
  }

  /** The rest of `r_decl` from position `d`, after the `ret` and `name`
      groups: `\((?P<params>[^)]*)\)\s*;\s*` and the optional pragma. */
  function DeclTailAt(t: String, ret: Span, name: Span, wordEnd: nat, spaceEnd: nat, d: nat): (r: Option<Match>)
    requires d <= |t|
  {
    if !(d < |t| && t[d] == '(') then None
    else
      match FindChar(t, d + 1, ')')
      case None => None
      case Some(pe) =>
        var g := SkipSpaces(t, pe + 1);
        if !(g < |t| && t[g] == ';') then None
        else
          var h := SkipSpaces(t, g + 1);
          var prag := MatchPragmaAt(t, h);
          var end := if prag.Some? then prag.value.end else h;
          Some(Match(ret.start, end, [ret, name, Span(d + 1, pe)], wordEnd, spaceEnd, prag))
  }

  /** `r_define` anchored at `p`:
      `^\s*#define\s+(?P<name>\w+)\s*\(\((?P<type>\w+)\)(?P<value>\w+)\)\s*` then
      the optional pragma, then `\s*$`. Up to the last `)` every step is forced.
      The engine tries the pragma only after the longest whitespace run, since a
      shorter run leaves whitespace where `/` is needed. Then `\s*$` ends at the
      last line end reachable through whitespace, because the engine tries
      the longest whitespace first. Without a pragma there may be no such
      position, and then the match fails. */
  function MatchDefineAt(t: String, p: nat): (r: Option<Match>)
    requires p <= |t|
  {
    var q := SkipSpaces(t, p);
    if !LineStart(t, p) || !LiteralAt(t, q, "#define") then None
    else
      var r := SkipSpaces(t, q + 7);
      var ne := SkipWord(t, r);
      var s := SkipSpaces(t, ne);
      if r == q + 7 || ne == r || !LiteralAt(t, s, "((") then None
      else
        var te := SkipWord(t, s + 2);
        if te == s + 2 || !(te < |t| && t[te] == ')') then None
        else
          var ve := SkipWord(t, te + 1);
          if ve == te + 1 || !(ve < |t| && t[ve] == ')') then None
          else DefineTail(t, p, [Span(r, ne), Span(s + 2, te), Span(te + 1, ve)])
  }

  /** After the closing `)` of a `#define` whose three groups are found: the
      optional pragma, then the whitespace up to a line end. */
  function DefineTail(t: String, p: nat, groups: seq<Span>): (m: Option<Match>)
    requires |groups| == 3 && LineStart(t, p)
    requires p < groups[0].start < groups[0].end < groups[1].start < groups[1].end < groups[2].start < groups[2].end < |t|
    requires forall k :: 0 <= k < 3 ==> WordIn(t, groups[k].start, groups[k].end)
    ensures m.Some? ==> ValidMatch(DefinePattern, t, m.value)
  {
    var ve := groups[2].end;
    var b := SkipSpaces(t, ve + 1);
    match MatchPragmaAt(t, b)
    case Some(prag) =>
      var x := LastLineEnd(t, prag.end, SkipSpaces(t, prag.end));
      Some(Match(p, x.value, groups, 0, 0, Some(prag)))
    case None =>
      match LastLineEnd(t, ve + 1, b)
      case None => None
      case Some(x) => Some(Match(p, x, groups, 0, 0, None))
  }

  /** `r_typedef` anchored at `p`:
      `^\s*typedef\s+(?P<expand_to>\w+\s*\*?)\s*(?P<name>\w+)\s*;`. With the
      whole first word, a star and then a name, or a name right away, must be
      followed by `;`. Otherwise the engine shortens the first word: its
      last characters become the name, and only a `;` right after the
      whitespace that follows the word lets this succeed. */
  function MatchTypedefAt(t: String, p: nat): (r: Option<Match>)
    requires p <= |t|
    ensures r.Some? ==> ValidMatch(TypedefPattern, t, r.value)
  {
    var q := SkipSpaces(t, p);
    if !LineStart(t, p) || !LiteralAt(t, q, "typedef") then None
    else
      var r := SkipSpaces(t, q + 7);
      var e := SkipWord(t, r);
      var f := SkipSpaces(t, e);
      if r == q + 7 || e == r || f == |t| then None
      else TypedefTail(t, p, r, e, f)
  }

  /** After `typedef`, the whitespace, the first word (`r` to `e`) and the
      whitespace after it (`e` to `f`): a star, a name, or a `;`. */
  function TypedefTail(t: String, p: nat, r: nat, e: nat, f: nat): (m: Option<Match>)
    requires LineStart(t, p) && p < r < e <= f < |t|
    requires WordIn(t, r, e) && SpacesIn(t, e, f)
    ensures m.Some? ==> ValidMatch(TypedefPattern, t, m.value)
  {
    if t[f] == '*' then
      var g := SkipSpaces(t, f + 1);
      var h := SkipWord(t, g);
      var i := SkipSpaces(t, h);
      if h > g && i < |t| && t[i] == ';' then
        Some(TypedefMatch(t, p, i + 1, Span(r, f + 1), e, f, Span(g, h)))
      else None
    else if IsWordChar(t[f]) then
      var h := SkipWord(t, f);
      var i := SkipSpaces(t, h);
      if i < |t| && t[i] == ';' then
        Some(TypedefMatch(t, p, i + 1, Span(r, f), e, f, Span(f, h)))
      else None
    else if t[f] == ';' && e - r >= 2 then
      Some(TypedefMatch(t, p, f + 1, Span(r, e - 1), e - 1, e - 1, Span(e - 1, e)))
    else None
  }

  function TypedefMatch(t: String, p: nat, end: nat, ty: Span, wordEnd: nat, spaceEnd: nat, name: Span): (m: Match)
    requires LineStart(t, p) && p < ty.start && ty.end <= name.start < name.end < end <= |t|
    requires TypeShape(t, ty.start, wordEnd, spaceEnd, ty.end)
    requires WordIn(t, name.start, name.end) && t[end - 1] == ';'
    ensures ValidMatch(TypedefPattern, t, m) && m.at == p
  {
    Match(p, end, [ty, name], wordEnd, spaceEnd, None)
  }

  /** The pattern anchored at `p`; no match starts past the end of the text. */
  function MatchAt(pat: Pattern, t: String, p: nat): (r: Option<Match>)
    ensures r.Some? ==> r.value.at == p && ValidMatch(pat, t, r.value)
  {
    if p > |t| then None
    else
      match pat
      case DeclPattern => DeclSound(t, p); MatchDeclAt(t, p)
      case DefinePattern => DefineSound(t, p); MatchDefineAt(t, p)
      case TypedefPattern => MatchTypedefAt(t, p)
  }

  predicate GroupsIn(t: String, m: Match, n: nat) {
    |m.groups| == n && forall k :: 0 <= k < n ==> SpanIn(t, m.groups[k])
  }

  /** What each pattern guarantees about the text it matched. */
  predicate ValidMatch(pat: Pattern, t: String, m: Match) {
    match pat
    case DeclPattern => ValidDecl(t, m)
    case DefinePattern => ValidDefine(t, m)
    case TypedefPattern => ValidTypedef(t, m)
  }

  /** `ret` is a `\w+\s*\*?` group at the start, `name` a word, `params` the
      text between a `(` and the first `)` after it, and the pragma, if any, is
      the rest of the match. */
  predicate ValidDecl(t: String, m: Match) {
    m.at < m.end <= |t|
    && GroupsIn(t, m, 3)
    && m.groups[0].start == m.at
    && TypeShape(t, m.at, m.typeWordEnd, m.typeSpaceEnd, m.groups[0].end)
    && m.groups[0].end < m.groups[1].start < m.groups[1].end < m.groups[2].start <= m.groups[2].end < m.end
    && WordIn(t, m.groups[1].start, m.groups[1].end)
    && t[m.groups[2].start - 1] == '(' && t[m.groups[2].end] == ')'
    && (forall k :: m.groups[2].start <= k < m.groups[2].end ==> t[k] != ')')
    && (m.pragma.Some? ==> m.groups[2].end < m.pragma.value.start <= m.pragma.value.end == m.end)
  }

  /** A line that starts a `#define` and whose name, type and value are words;
      the match ends at a line end. */
  predicate ValidDefine(t: String, m: Match) {
    m.at < m.end <= |t|
    && GroupsIn(t, m, 3) && LineStart(t, m.at) && LineEnd(t, m.end)
    && m.at < m.groups[0].start < m.groups[0].end < m.groups[1].start < m.groups[1].end < m.groups[2].start < m.groups[2].end < m.end
    && WordIn(t, m.groups[0].start, m.groups[0].end)
    && WordIn(t, m.groups[1].start, m.groups[1].end)
    && WordIn(t, m.groups[2].start, m.groups[2].end)
    && (m.pragma.Some? ==> m.groups[2].end < m.pragma.value.start <= m.pragma.value.end <= m.end)
  }

  /** A `typedef` line whose aliased type is a `\w+\s*\*?` group and whose
      name is a word, ending with `;`. */
  predicate ValidTypedef(t: String, m: Match) {
    m.at < m.end <= |t|
    && GroupsIn(t, m, 2) && LineStart(t, m.at) && m.pragma.None?
    && m.at < m.groups[0].start
    && TypeShape(t, m.groups[0].start, m.typeWordEnd, m.typeSpaceEnd, m.groups[0].end)
    && m.groups[0].end <= m.groups[1].start < m.groups[1].end < m.end
    && WordIn(t, m.groups[1].start, m.groups[1].end)
    && t[m.end - 1] == ';'
  }

  lemma DeclSound(t: String, p: nat)
    requires p <= |t|
    ensures MatchDeclAt(t, p).Some? ==> ValidMatch(DeclPattern, t, MatchDeclAt(t, p).value)
  {
    var hd := DeclHeadAt(t, p);
    if hd.Some? {
      DeclTailSound(t, hd.value.0, hd.value.1, hd.value.2, hd.value.3, hd.value.4);
    }
  }

  /** Whatever the tail of a declaration matches, given a well-formed `ret`
      and `name`, is a valid declaration match. */
  lemma DeclTailSound(t: String, ret: Span, name: Span, wordEnd: nat, spaceEnd: nat, d: nat)
    requires d <= |t|
    requires TypeShape(t, ret.start, wordEnd, spaceEnd, ret.end)
    requires ret.end < name.start < name.end < d && WordIn(t, name.start, name.end)
    ensures DeclTailAt(t, ret, name, wordEnd, spaceEnd, d).Some? ==>
      ValidDecl(t, DeclTailAt(t, ret, name, wordEnd, spaceEnd, d).value)
  {
  }

  lemma DefineSound(t: String, p: nat)
    requires p <= |t|
    ensures MatchDefineAt(t, p).Some? ==> ValidMatch(DefinePattern, t, MatchDefineAt(t, p).value)
  {
  }

  /** A pattern anchored at a position, as a function value, so that the
      scanning below can be reasoned about without the pattern's details. */
  type Matcher = (String, nat) -> Option<Match>

  /** A match found at `p` starts at `p` and ends after it, inside the text. */
  ghost predicate Advances(f: Matcher) {
    forall t: String, p: nat {:trigger f(t, p)} ::
      f(t, p).Some? ==> f(t, p).value.at == p && p < f(t, p).value.end <= |t|
  }

  function MatcherOf(pat: Pattern): (f: Matcher)
    ensures Advances(f)
  {
    (t: String, p: nat) => MatchAt(pat, t, p)
  }

  /** Repeated `search` from position `p`: scanning resumes where the previous
      match ended, as `findall` and `finditer` do. */
  function Scan(f: Matcher, t: String, p: nat): (ms: seq<Match>)
    requires Advances(f) && p <= |t|
    ensures forall k :: 0 <= k < |ms| ==> p <= ms[k].at < ms[k].end <= |t|
    decreases |t| - p
  {
    match f(t, p)
    case Some(m) => [m] + Scan(f, t, m.end)
    case None => if p == |t| then [] else Scan(f, t, p + 1)
  }

  /** `pattern.findall(text)` */
  function FindAll(pat: Pattern, t: String): (ms: seq<Match>)
    ensures forall k :: 0 <= k < |ms| ==> ValidMatch(pat, t, ms[k])
  {
    ScanValid(pat, t);
    Scan(MatcherOf(pat), t, 0)
  }

  lemma ScanValid(pat: Pattern, t: String)
    ensures forall k :: 0 <= k < |Scan(MatcherOf(pat), t, 0)| ==> ValidMatch(pat, t, Scan(MatcherOf(pat), t, 0)[k])
  {
    var f := MatcherOf(pat);
    ScanMatches(f, t, 0);
    forall k | 0 <= k < |Scan(f, t, 0)|
      ensures ValidMatch(pat, t, Scan(f, t, 0)[k])
    {
      assert f(t, Scan(f, t, 0)[k].at) == Some(Scan(f, t, 0)[k]);
    }
  }

  /** Each match the scan reports is what the matcher finds at its position. */
  lemma {:induction false} ScanMatches(f: Matcher, t: String, p: nat)
    requires Advances(f) && p <= |t|
    ensures forall k :: 0 <= k < |Scan(f, t, p)| ==> f(t, Scan(f, t, p)[k].at) == Some(Scan(f, t, p)[k])
    decreases |t| - p
  {
    var r := f(t, p);
    if r.Some? {
      ScanMatches(f, t, r.value.end);
      var rest := Scan(f, t, r.value.end);
      var ms := Scan(f, t, p);
      assert ms == [r.value] + rest;
      forall k | 0 <= k < |ms|
        ensures f(t, ms[k].at) == Some(ms[k])
      {
        if k > 0 {
          assert ms[k] == rest[k - 1];
          assert f(t, rest[k - 1].at) == Some(rest[k - 1]);
        } else {
          assert ms[0] == r.value && r.value.at == p;
          assert f(t, p) == r;
        }
      }
    } else if p < |t| {
      ScanMatches(f, t, p + 1);
      assert Scan(f, t, p) == Scan(f, t, p + 1);
    }
  }

  /** The matches come in text order and do not overlap, and the matcher
      finds nothing at any position the scan skipped: they are the leftmost
      ones. */
  lemma ScanLeftmost(f: Matcher, t: String, p: nat)
    requires Advances(f) && p <= |t|
    ensures var ms := Scan(f, t, p);
      && (forall k :: 0 <= k < |ms| - 1 ==> ms[k].end <= ms[k + 1].at)
      && (|ms| == 0 ==> forall x :: p <= x <= |t| ==> f(t, x).None?)
      && (|ms| > 0 ==> forall x :: p <= x < ms[0].at ==> f(t, x).None?)
      && (forall k, x :: 0 <= k < |ms| - 1 && ms[k].end <= x < ms[k + 1].at ==> f(t, x).None?)
  {
    ScanOrdered(f, t, p);
    ScanSkipsStart(f, t, p);
    ScanSkipsGaps(f, t, p);
  }

  lemma {:induction false} ScanOrdered(f: Matcher, t: String, p: nat)
    requires Advances(f) && p <= |t|
    ensures forall k :: 0 <= k < |Scan(f, t, p)| - 1 ==> Scan(f, t, p)[k].end <= Scan(f, t, p)[k + 1].at
    decreases |t| - p
  {
    var r := f(t, p);
    if r.Some? {
      var m := r.value;
      ScanOrdered(f, t, m.end);
      var rest := Scan(f, t, m.end);
      var ms := Scan(f, t, p);
      assert ms == [m] + rest;
      forall k | 0 <= k < |ms| - 1
        ensures ms[k].end <= ms[k + 1].at
      {
        if k > 0 {
          assert ms[k] == rest[k - 1] && ms[k + 1] == rest[k];
          assert 0 <= k - 1 < |rest| - 1;
        } else {
          assert ms[0] == m && ms[1] == rest[0];
          assert m.end <= rest[0].at;
        }
      }
    } else if p < |t| {
      ScanOrdered(f, t, p + 1);
      assert Scan(f, t, p) == Scan(f, t, p + 1);
    }
  }

  /** The matcher finds nothing before the first match, and nothing at all
      when the scan reports none. */
  lemma {:induction false} ScanSkipsStart(f: Matcher, t: String, p: nat)
    requires Advances(f) && p <= |t|
    ensures var ms := Scan(f, t, p);
      && (|ms| == 0 ==> forall x :: p <= x <= |t| ==> f(t, x).None?)
      && (|ms| > 0 ==> forall x :: p <= x < ms[0].at ==> f(t, x).None?)
    decreases |t| - p
  {
    if f(t, p).None? && p < |t| {
      ScanSkipsStart(f, t, p + 1);
      assert Scan(f, t, p) == Scan(f, t, p + 1);
    }
  }

  /** The matcher finds nothing between two consecutive matches. */
  lemma {:induction false} ScanSkipsGaps(f: Matcher, t: String, p: nat)
    requires Advances(f) && p <= |t|
    ensures var ms := Scan(f, t, p);
      forall k, x :: 0 <= k < |ms| - 1 && ms[k].end <= x < ms[k + 1].at ==> f(t, x).None?
    decreases |t| - p
  {
    var r := f(t, p);
    if r.Some? {
      var m := r.value;
      ScanSkipsGaps(f, t, m.end);
      ScanSkipsStart(f, t, m.end);
      var rest := Scan(f, t, m.end);
      var ms := Scan(f, t, p);
      assert ms == [m] + rest;
      forall k, x | 0 <= k < |ms| - 1 && ms[k].end <= x < ms[k + 1].at
        ensures f(t, x).None?
      {
        if k > 0 {
          assert ms[k] == rest[k - 1] && ms[k + 1] == rest[k];
        } else {
          assert ms[1] == rest[0];
        }
      }
    } else if p < |t| {
      ScanSkipsGaps(f, t, p + 1);
      assert Scan(f, t, p) == Scan(f, t, p + 1);
    }
  }

  /** What `findall` reports: valid matches of the pattern, in text order,
      not overlapping, leftmost. */
  lemma FindAllSpec(pat: Pattern, t: String)
    ensures var ms := FindAll(pat, t);
      && (forall k :: 0 <= k < |ms| ==> MatchAt(pat, t, ms[k].at) == Some(ms[k]) && ValidMatch(pat, t, ms[k]))
      && (forall k :: 0 <= k < |ms| - 1 ==> ms[k].end <= ms[k + 1].at)
      && (|ms| > 0 ==> forall x :: 0 <= x < ms[0].at ==> MatchAt(pat, t, x).None?)
      && (forall k, x :: 0 <= k < |ms| - 1 && ms[k].end <= x < ms[k + 1].at ==> MatchAt(pat, t, x).None?)
  {
    var f := MatcherOf(pat);
    ScanMatches(f, t, 0);
    ScanLeftmost(f, t, 0);
    var ms := FindAll(pat, t);
    forall k | 0 <= k < |ms|
      ensures MatchAt(pat, t, ms[k].at) == Some(ms[k]) && ValidMatch(pat, t, ms[k])
    {
      assert f(t, ms[k].at) == Some(ms[k]);
    }
    forall x | |ms| > 0 && 0 <= x < ms[0].at
      ensures MatchAt(pat, t, x).None?
    {
      assert f(t, x).None?;
    }
    forall k, x | 0 <= k < |ms| - 1 && ms[k].end <= x < ms[k + 1].at
      ensures MatchAt(pat, t, x).None?
    {
      assert f(t, x).None?;
    }
  }

  // ---------------------------------------------------------------------
  // extract_params, extract_pragmas

  /** No pragma has touched the parameter. */
  predicate Unflagged(prm: Param) {
    prm.arraySzParam.None? && !prm.isSzParam && !prm.isOptional && !prm.isOut
  }

  /** The parameter a matched segment describes: blanks are removed from the
      type, and no flag is set yet. */
  function ParamOf(seg: String, m: ParamMatch): (prm: Param)
    requires ValidParamMatch(seg, m)
    ensures ' ' !in prm.ty && |prm.name| > 0
    ensures Unflagged(prm)
  {
    RemoveBlanksSpec(seg[m.ty.start..m.ty.end]);
    Param(RemoveBlanks(seg[m.ty.start..m.ty.end]), seg[m.name.start..m.name.end], None, false, false, false)
  }

  /** The `{type, name}` of one comma-separated segment, or the error of
      calling `.groups()` on a failed search. */
  function ParseSegment(seg: String): (r: Result<Param, ParseError>)
    ensures r.Ok? <==> SearchParam(seg, 0).Some?
    ensures r.Err? ==> r.error == NoParamMatch(seg)
    ensures r.Ok? ==> ' ' !in r.value.ty && Unflagged(r.value)
  {
    match SearchParam(seg, 0)
    case Some(m) => Ok(ParamOf(seg, m))
    case None => Err(NoParamMatch(seg))
  }

  function ParseSegments(segs: seq<String>): (r: Result<seq<Param>, ParseError>)
    ensures r.Ok? <==> forall k :: 0 <= k < |segs| ==> ParseSegment(segs[k]).Ok?
    ensures r.Ok? ==> |r.value| == |segs|
    ensures r.Ok? ==> forall k :: 0 <= k < |segs| ==> r.value[k] == ParseSegment(segs[k]).value
  {
    MapResult(segs, ParseSegment)
  }

  /** `extract_params`: one parameter per comma-separated segment, in order; a
      segment the pattern does not match aborts the whole method. */
  function ExtractParams(text: String): (r: Result<seq<Param>, ParseError>)
    ensures var segs := Split(text, ',');
      && (r.Ok? <==> forall k :: 0 <= k < |segs| ==> ParseSegment(segs[k]).Ok?)
      && (r.Ok? ==> |r.value| == |segs|
                    && forall k :: 0 <= k < |segs| ==> r.value[k] == ParseSegment(segs[k]).value)
    ensures r.Ok? ==> forall k :: 0 <= k < |r.value| ==> ' ' !in r.value[k].ty && Unflagged(r.value[k])
  {
    var segs := Split(text, ',');
    var r := ParseSegments(segs);
    assert (forall k :: 0 <= k < |segs| ==> ParseSegment(segs[k]).Ok?) ==> r.Ok?;
    assert r.Ok? ==> (forall k :: 0 <= k < |segs| ==> ParseSegment(segs[k]).Ok?);
    ParseSegmentsUnflagged(segs);
    r
  }

  lemma ParseSegmentsUnflagged(segs: seq<String>)
    ensures ParseSegments(segs).Ok? ==> forall k :: 0 <= k < |segs| ==>
      ' ' !in ParseSegments(segs).value[k].ty && Unflagged(ParseSegments(segs).value[k])
  {
    if ParseSegments(segs).Ok? {
      forall k | 0 <= k < |segs|
        ensures ' ' !in ParseSegments(segs).value[k].ty && Unflagged(ParseSegments(segs).value[k])
      {
        assert ParseSegment(segs[k]).Ok?;
      }
    }
  }

  /** `extract_pragmas`: nothing for blank text, otherwise the stripped text
      cut at every `;`. */
  function ExtractPragmas(text: String): (prs: seq<String>)
    ensures |prs| == 0 <==> |Strip(text)| == 0
    ensures |prs| > 0 ==> Join(prs, ";") == Strip(text)
    ensures forall k :: 0 <= k < |prs| ==> ';' !in prs[k]
  {
    var s := Strip(text);
    if |s| == 0 then [] else SplitJoin(s, ';'); Split(s, ';')
  }

  // ---------------------------------------------------------------------
  // Pragmas

  /** `params_index[name]`: the dictionary comprehension keeps the last
      parameter of a given name. */
  function IndexOfName(ps: seq<Param>, name: String): (r: Option<nat>)
    ensures r.Some? ==> r.value < |ps| && ps[r.value].name == name
    ensures r.Some? ==> forall j :: r.value < j < |ps| ==> ps[j].name != name
    ensures r.None? ==> forall j :: 0 <= j < |ps| ==> ps[j].name != name
  {
    if |ps| == 0 then None
    else if ps[|ps| - 1].name == name then Some(|ps| - 1)
    else IndexOfName(ps[..|ps| - 1], name)
  }

  predicate SameNamesAndTypes(a: seq<Param>, b: seq<Param>) {
    |a| == |b| && forall k :: 0 <= k < |a| ==> a[k].name == b[k].name && a[k].ty == b[k].ty
  }

  /** One pragma `name:kind[:arg]` applied to the parameters of `method`. The
      `array` kind records the size parameter on the array parameter and flags
      the size parameter; `optional` and `out` set their flag. An unknown
      parameter, a missing part or an unknown kind is an error. */
  function ApplyPragma(methodName: String, ps: seq<Param>, pragma: String): (r: Result<seq<Param>, ParseError>)
    ensures r.Ok? ==> SameNamesAndTypes(ps, r.value)
  {
    var parts := Split(pragma, ':');
    var pn := parts[0];
    match IndexOfName(ps, pn)
    case None => Err(UnknownParam(methodName, pragma, pn))
    case Some(i) =>
      if |parts| < 2 then Err(MissingPragmaPart(pragma))
      else if parts[1] == "array" then
        if |parts| < 3 then Err(MissingPragmaPart(pragma))
        else MarkArray(methodName, ps, i, pn, parts[2])
      else if parts[1] == "optional" then Ok(ps[i := ps[i].(isOptional := true)])
      else if parts[1] == "out" then Ok(ps[i := ps[i].(isOut := true)])
      else Err(UnrecognisedPragma(methodName, pn, pragma))
  }

  /** The `array` pragma on parameter `i`: it records `sz` as the length
      of `i`, then flags the parameter named `sz` as a size. */
  function MarkArray(methodName: String, ps: seq<Param>, i: nat, pn: String, sz: String): (r: Result<seq<Param>, ParseError>)
    requires i < |ps|
    ensures r.Ok? ==> SameNamesAndTypes(ps, r.value)
  {
    var marked := ps[i := ps[i].(arraySzParam := Some(sz))];
    match IndexOfName(marked, sz)
    case None => Err(UnknownSizeParam(methodName, pn, sz))
    case Some(j) => Ok(marked[j := marked[j].(isSzParam := true)])
  }

  /** The pragmas applied left to right; the first failure aborts. */
  function ApplyPragmas(methodName: String, ps: seq<Param>, prs: seq<String>): (r: Result<seq<Param>, ParseError>)
    ensures r.Ok? ==> SameNamesAndTypes(ps, r.value)
    decreases |prs|
  {
    if |prs| == 0 then Ok(ps)
    else
      var ps' :- ApplyPragma(methodName, ps, prs[0]);
      ApplyPragmas(methodName, ps', prs[1..])
  }

  /** `extract_method`. */
  function ExtractMethod(name: String, paramsText: String, retText: String, pragmaText: String): (r: Result<Method, ParseError>)
    ensures r.Ok? ==> r.value.name == name && r.value.retTy == RemoveBlanks(retText)
    ensures r.Ok? ==> ExtractParams(paramsText).Ok? && SameNamesAndTypes(ExtractParams(paramsText).value, r.value.params)
    ensures ExtractParams(paramsText).Err? ==> r == Err(ExtractParams(paramsText).error)
    ensures ExtractParams(paramsText).Ok? ==>
      var applied := ApplyPragmas(name, ExtractParams(paramsText).value, ExtractPragmas(pragmaText));
      (r.Ok? <==> applied.Ok?)
      && (r.Ok? ==> r.value.params == applied.value)
      && (applied.Err? ==> r == Err(applied.error))
  {
    var ps :- ExtractParams(paramsText);
    var ps' :- ApplyPragmas(name, ps, ExtractPragmas(pragmaText));
    Ok(Method(name, ps', RemoveBlanks(retText)))
  }

  /** What Python raises for `e` as the code is written: the messages of the
      unknown-size-parameter and unknown-kind errors refer to a variable `pn`
      that is not defined, so formatting them raises `NameError` instead. */
  function RaisedAsWritten(e: ParseError): (r: ParseError)
    ensures (e.UnknownSizeParam? || e.UnrecognisedPragma?) ==> r == UndefinedName("pn")
    ensures !(e.UnknownSizeParam? || e.UnrecognisedPragma?) ==> r == e
  {
    if e.UnknownSizeParam? || e.UnrecognisedPragma? then UndefinedName("pn") else e
  }

  /** `extract_method` as written, with the `NameError` of the two faulty messages. */
  function ExtractMethodAsWritten(name: String, paramsText: String, retText: String, pragmaText: String): (r: Result<Method, ParseError>)
    ensures r.Ok? <==> ExtractMethod(name, paramsText, retText, pragmaText).Ok?
  {
    match ExtractMethod(name, paramsText, retText, pragmaText)
    case Ok(m) => Ok(m)
    case Err(e) => Err(RaisedAsWritten(e))
  }

  /** The `name` group of a field declaration. */
  function DeclName(body: String, m: Match): String
    requires ValidDecl(body, m)
  {
    Slice(body, m.groups[1])
  }

  /** The `params`, `ret_ty` and pragma parts of a field declaration. */
  function DeclParamsText(body: String, m: Match): String
    requires ValidDecl(body, m)
  {
    Slice(body, m.groups[2])
  }

  function DeclRetText(body: String, m: Match): String
    requires ValidDecl(body, m)
  {
    Slice(body, m.groups[0])
  }

  function DeclPragmaText(body: String, m: Match): String
    requires ValidDecl(body, m)
  {
    if m.pragma.Some? then Slice(body, m.pragma.value) else ""
  }

  /** The pragmas of a declaration applied to its parameters. */
  function DeclParams(body: String, m: Match): Result<seq<Param>, ParseError>
    requires ValidDecl(body, m)
  {
    var ps :- ExtractParams(DeclParamsText(body, m));
    ApplyPragmas(DeclName(body, m), ps, ExtractPragmas(DeclPragmaText(body, m)))
  }

  /** The method a field-declaration match describes: built exactly when its
      parameters parse and its pragmas apply, with the parameters they give
      and the return type without blanks. */
  function MethodOfMatch(body: String, m: Match): (r: Result<Method, ParseError>)
    requires ValidDecl(body, m)
    ensures r.Ok? ==> r.value.name == DeclName(body, m)
    ensures r.Ok? <==> DeclParams(body, m).Ok?
    ensures r.Ok? ==> (r.value.params == DeclParams(body, m).value
                       && r.value.retTy == RemoveBlanks(DeclRetText(body, m)))
    ensures r.Err? ==> r.error == DeclParams(body, m).error
  {
    ExtractMethod(DeclName(body, m), DeclParamsText(body, m), DeclRetText(body, m), DeclPragmaText(body, m))
  }

  function MethodsOfMatches(body: String, ms: seq<Match>): (r: Result<seq<Method>, ParseError>)
    requires forall k :: 0 <= k < |ms| ==> ValidDecl(body, ms[k])
    ensures r.Ok? ==> |r.value| == |ms|
    ensures r.Ok? ==> forall k :: 0 <= k < |ms| ==> r.value[k].name == DeclName(body, ms[k])
    ensures r.Ok? <==> forall k :: 0 <= k < |ms| ==> MethodOfMatch(body, ms[k]).Ok?
    ensures r.Ok? ==> forall k :: 0 <= k < |ms| ==> MethodOfMatch(body, ms[k]) == Ok(r.value[k])
    ensures r.Err? ==> exists k :: (0 <= k < |ms| && MethodOfMatch(body, ms[k]) == Err(r.error)
                                    && forall j :: 0 <= j < k ==> MethodOfMatch(body, ms[j]).Ok?)
  {
    var f := m requires ValidDecl(body, m) => MethodOfMatch(body, m);
    assert forall k :: 0 <= k < |ms| ==> f(ms[k]) == MethodOfMatch(body, ms[k]);
    MapResult(ms, f)
  }

  /** `extract_methods`: one method per field declaration, in the order the
      declarations appear in the struct body. */
  function ExtractMethods(body: String): (r: Result<seq<Method>, ParseError>)
    ensures r.Ok? ==> |r.value| == |FindAll(DeclPattern, body)|
    ensures r.Ok? ==> forall k :: 0 <= k < |r.value| ==>
      r.value[k].name == DeclName(body, FindAll(DeclPattern, body)[k])
    ensures var ms := FindAll(DeclPattern, body);
      r.Ok? <==> forall k :: 0 <= k < |ms| ==> MethodOfMatch(body, ms[k]).Ok?
    ensures var ms := FindAll(DeclPattern, body);
      r.Ok? ==> forall k :: 0 <= k < |ms| ==> MethodOfMatch(body, ms[k]) == Ok(r.value[k])
  {
    MethodsOfMatches(body, FindAll(DeclPattern, body))
  }

  // ---------------------------------------------------------------------
  // What each pragma kind does

  lemma {:induction false} IndexOfNameSameNames(a: seq<Param>, b: seq<Param>, name: String)
    requires |a| == |b| && forall k :: 0 <= k < |a| ==> a[k].name == b[k].name
    ensures IndexOfName(a, name) == IndexOfName(b, name)
  {
    if |a| > 0 {
      IndexOfNameSameNames(a[..|a| - 1], b[..|b| - 1], name);
    }
  }

  /** The pieces of `pn:kind`, and of `pn:kind:arg`, when no piece holds a colon. */
  lemma SplitPragma2(pn: String, kind: String)
    requires ':' !in pn && ':' !in kind
    ensures Split(pn + ":" + kind, ':') == [pn, kind]
  {
    JoinSplit([pn, kind], ':');
  }

  lemma SplitPragma3(pn: String, kind: String, arg: String)
    requires ':' !in pn && ':' !in kind && ':' !in arg
    ensures Split(pn + ":" + kind + ":" + arg, ':') == [pn, kind, arg]
  {
    var parts := [pn, kind, arg];
    assert parts[1..] == [kind, arg];
    assert Join(parts[1..], [':']) == kind + [':'] + arg;
    assert Join(parts, [':']) == pn + [':'] + (kind + [':'] + arg);
    assert pn + [':'] + (kind + [':'] + arg) == pn + ":" + kind + ":" + arg;
    JoinSplit(parts, ':');
  }

  /** `pn:array:sz` names `sz` as the length of the array `pn` and flags `sz`
      as a size parameter; nothing else changes. Naming a parameter that does
      not exist, for either role, is an error. */
  lemma PragmaArray(mn: String, ps: seq<Param>, pn: String, sz: String)
    requires ':' !in pn && ':' !in sz
    ensures var r := ApplyPragma(mn, ps, pn + ":array:" + sz);
      && (IndexOfName(ps, pn).None? ==> r == Err(UnknownParam(mn, pn + ":array:" + sz, pn)))
      && (IndexOfName(ps, pn).Some? ==> MarkedArray(mn, ps, IndexOfName(ps, pn).value, pn, sz, r))
  {
    ArrayPragmaParts(pn, sz);
    match IndexOfName(ps, pn)
    case None =>
    case Some(i) =>
      MarkArraySpec(mn, ps, i, pn, sz);
  }

  lemma ArrayPragmaParts(pn: String, sz: String)
    requires ':' !in pn && ':' !in sz
    ensures Split(pn + ":array:" + sz, ':') == [pn, "array", sz]
  {
    assert pn + ":" + "array" + ":" + sz == pn + ":array:" + sz;
    SplitPragma3(pn, "array", sz);
  }

  /** What the `array` pragma on parameter `i` promises: an error when no
      parameter is named `sz`, and otherwise the two marks and nothing else. */
  predicate MarkedArray(mn: String, ps: seq<Param>, i: nat, pn: String, sz: String, r: Result<seq<Param>, ParseError>)
    requires i < |ps|
  {
    && (IndexOfName(ps, sz).None? ==> r == Err(UnknownSizeParam(mn, pn, sz)))
    && (IndexOfName(ps, sz).Some? ==>
          && r.Ok? && |r.value| == |ps|
          && r.value[i].arraySzParam == Some(sz)
          && r.value[IndexOfName(ps, sz).value].isSzParam
          && (forall k :: 0 <= k < |ps| && k != i && k != IndexOfName(ps, sz).value ==> r.value[k] == ps[k])
          && (i != IndexOfName(ps, sz).value ==>
                && r.value[i] == ps[i].(arraySzParam := Some(sz))
                && r.value[IndexOfName(ps, sz).value] == ps[IndexOfName(ps, sz).value].(isSzParam := true)))
  }

  lemma MarkArraySpec(mn: String, ps: seq<Param>, i: nat, pn: String, sz: String)
    requires i < |ps|
    ensures MarkedArray(mn, ps, i, pn, sz, MarkArray(mn, ps, i, pn, sz))
  {
    var marked := ps[i := ps[i].(arraySzParam := Some(sz))];
    IndexOfNameSameNames(ps, marked, sz);
  }

  /** `pn:optional` sets only the optional flag of `pn`. */
  lemma PragmaOptional(mn: String, ps: seq<Param>, pn: String)
    requires ':' !in pn
    ensures var r := ApplyPragma(mn, ps, pn + ":optional");
      && (IndexOfName(ps, pn).None? ==> r == Err(UnknownParam(mn, pn + ":optional", pn)))
      && (IndexOfName(ps, pn).Some? ==>
            && r.Ok? && |r.value| == |ps|
            && r.value[IndexOfName(ps, pn).value] == ps[IndexOfName(ps, pn).value].(isOptional := true)
            && forall k :: 0 <= k < |ps| && k != IndexOfName(ps, pn).value ==> r.value[k] == ps[k])
  {
    assert pn + ":" + "optional" == pn + ":optional";
    SplitPragma2(pn, "optional");
  }

  /** `pn:out` sets only the out flag of `pn`. */
  lemma PragmaOut(mn: String, ps: seq<Param>, pn: String)
    requires ':' !in pn
    ensures var r := ApplyPragma(mn, ps, pn + ":out");
      && (IndexOfName(ps, pn).None? ==> r == Err(UnknownParam(mn, pn + ":out", pn)))
      && (IndexOfName(ps, pn).Some? ==>
            && r.Ok? && |r.value| == |ps|
            && r.value[IndexOfName(ps, pn).value] == ps[IndexOfName(ps, pn).value].(isOut := true)
            && forall k :: 0 <= k < |ps| && k != IndexOfName(ps, pn).value ==> r.value[k] == ps[k])
  {
    assert pn + ":" + "out" == pn + ":out";
    SplitPragma2(pn, "out");
  }

  /** Any other kind of a known parameter is rejected. */
  lemma PragmaUnrecognised(mn: String, ps: seq<Param>, pn: String, kind: String)
    requires ':' !in pn && ':' !in kind
    requires kind != "array" && kind != "optional" && kind != "out"
    requires IndexOfName(ps, pn).Some?
    ensures ApplyPragma(mn, ps, pn + ":" + kind) == Err(UnrecognisedPragma(mn, pn, pn + ":" + kind))
  {
    SplitPragma2(pn, kind);
  }

  /** A pragma with no kind, for a known parameter, is rejected. */
  lemma PragmaWithoutKind(mn: String, ps: seq<Param>, pn: String)
    requires ':' !in pn && IndexOfName(ps, pn).Some?
    ensures ApplyPragma(mn, ps, pn) == Err(MissingPragmaPart(pn))
  {
    assert ':' !in pn;
  }

  // ---------------------------------------------------------------------
  // The undefined `pn` in two error messages

  /** As written, an array pragma whose size parameter does not exist raises
      `NameError` for `pn`, not the intended message naming the parameter. */
  lemma NameErrorAsWritten()
    ensures var ps := [Param("int*", "ids", None, false, false, false)];
      && ApplyPragma("f", ps, "ids:array:n") == Err(UnknownSizeParam("f", "ids", "n"))
      && RaisedAsWritten(ApplyPragma("f", ps, "ids:array:n").error) == UndefinedName("pn")
  {
    PragmaArray("f", [Param("int*", "ids", None, false, false, false)], "ids", "n");
    assert "ids" + ":array:" + "n" == "ids:array:n";
  }

  /** Whenever the corrected method reports an unknown size parameter or an
      unknown kind, the code as written reports the undefined name instead;
      every other outcome is the same. */
  lemma NameErrorMasksMessage(name: String, paramsText: String, retText: String, pragmaText: String)
    ensures var r := ExtractMethod(name, paramsText, retText, pragmaText);
      var w := ExtractMethodAsWritten(name, paramsText, retText, pragmaText);
      && (r.Err? && (r.error.UnknownSizeParam? || r.error.UnrecognisedPragma?) ==> w == Err(UndefinedName("pn")))
      && (!(r.Err? && (r.error.UnknownSizeParam? || r.error.UnrecognisedPragma?)) ==> w == r)
  {
  }

  /** The corrected messages name the method and a parameter that exists: the
      one the pragma is for. */
  lemma ErrorsNameTheParam(mn: String, ps: seq<Param>, pragma: String)
    ensures var r := ApplyPragma(mn, ps, pragma);
      r.Err? && (r.error.UnknownSizeParam? || r.error.UnrecognisedPragma?) ==>
        r.error.methodName == mn && r.error.param == Split(pragma, ':')[0]
        && IndexOfName(ps, r.error.param).Some?
  {
  }

  // ---------------------------------------------------------------------
  // extract_enums

  /** The `name` group of a `#define` match. */
  function DefineName(t: String, m: Match): String
    requires ValidDefine(t, m)
  {
    Slice(t, m.groups[0])
  }

  /** A `muname:...` pragma. */
  predicate IsMuName(pr: String) {
    Split(pr, ':')[0] == "muname"
  }

  /** `extract_enum`: the last `muname:x` pragma gives the Mu name; a `muname`
      pragma without a value is an error. */
  function MuNameOf(prs: seq<String>, current: Option<String>): (r: Result<Option<String>, ParseError>)
    ensures r.Err? <==> exists k :: 0 <= k < |prs| && Split(prs[k], ':') == ["muname"]
    decreases |prs|
  {
    if |prs| == 0 then Ok(current)
    else
      var parts := Split(prs[0], ':');
      var next := if IsMuName(prs[0]) && |parts| >= 2 then Some(parts[1]) else current;
      if IsMuName(prs[0]) && |parts| < 2 then
        assert parts == ["muname"];
        Err(MissingPragmaPart(prs[0]))
      else
        var r := MuNameOf(prs[1..], next);
        assert forall k :: 1 <= k < |prs| ==> prs[k] == prs[1..][k - 1];
        r
  }

  /** Pragma `k` is the last `muname` pragma. */
  predicate LastMuName(prs: seq<String>, k: int) {
    0 <= k < |prs| && IsMuName(prs[k]) && forall j :: k < j < |prs| ==> !IsMuName(prs[j])
  }

  /** Without a `muname` pragma the name stays as it was; otherwise the
      last one decides it. */
  lemma {:induction false} MuNameOfLast(prs: seq<String>, current: Option<String>)
    requires MuNameOf(prs, current).Ok?
    ensures (forall k :: 0 <= k < |prs| ==> !IsMuName(prs[k])) ==> MuNameOf(prs, current).value == current
    ensures forall k :: LastMuName(prs, k) ==>
      |Split(prs[k], ':')| >= 2 && MuNameOf(prs, current).value == Some(Split(prs[k], ':')[1])
    decreases |prs|
  {
    if |prs| > 0 {
      var parts := Split(prs[0], ':');
      var next := if IsMuName(prs[0]) && |parts| >= 2 then Some(parts[1]) else current;
      var tail := prs[1..];
      assert MuNameOf(prs, current) == MuNameOf(tail, next);
      MuNameOfLast(tail, next);
      forall k | LastMuName(prs, k)
        ensures |Split(prs[k], ':')| >= 2 && MuNameOf(prs, current).value == Some(Split(prs[k], ':')[1])
      {
        if k == 0 {
          assert forall j :: 0 <= j < |tail| ==> !IsMuName(tail[j]) by {
            forall j | 0 <= j < |tail| ensures !IsMuName(tail[j]) {
              assert tail[j] == prs[j + 1];
            }
          }
        } else {
          assert LastMuName(tail, k - 1) by {
            forall j | k - 1 < j < |tail| ensures !IsMuName(tail[j]) {
              assert tail[j] == prs[j + 1];
            }
          }
        }
      }
      if forall k :: 0 <= k < |prs| ==> !IsMuName(prs[k]) {
        assert !IsMuName(prs[0]);
        forall j | 0 <= j < |tail| ensures !IsMuName(tail[j]) {
          assert tail[j] == prs[j + 1];
        }
      }
    }
  }

  /** `extract_enums`' inner step: the definition keeps its name and value,
      and takes its `muname` from the pragmas, failing on a bare `muname`. */
  function ExtractEnum(name: String, value: String, pragmaText: String): (r: Result<EnumDef, ParseError>)
    ensures r.Ok? ==> r.value.name == name && r.value.value == value
    ensures var mn := MuNameOf(ExtractPragmas(pragmaText), None);
      (r.Ok? <==> mn.Ok?)
      && (r.Ok? ==> r.value.muname == mn.value)
      && (r.Err? ==> r.error == mn.error)
  {
    var muname :- MuNameOf(ExtractPragmas(pragmaText), None);
    Ok(EnumDef(name, value, muname))
  }

  /** An enum is selected by the prefixes its names start with (`^MU_DEST_`,
      or `^MU_(THREAD|REBIND)` as two prefixes). */
  datatype EnumSpec = EnumSpec(typeName: String, prefixes: seq<String>)

  predicate Selects(spec: EnumSpec, name: String) {
    exists k :: 0 <= k < |spec.prefixes| && StartsWith(name, spec.prefixes[k])
  }

  /** The ten enums of the header, in the order the AST lists them. */
  const EnumSpecs: seq<EnumSpec> := [
    EnumSpec("MuTrapHandlerResult", ["MU_THREAD", "MU_REBIND"]),
    EnumSpec("MuDestKind", ["MU_DEST_"]),
    EnumSpec("MuBinOpStatus", ["MU_BOS_"]),
    EnumSpec("MuBinOptr", ["MU_BINOP_"]),
    EnumSpec("MuCmpOptr", ["MU_CMP_"]),
    EnumSpec("MuConvOptr", ["MU_CONV_"]),
    EnumSpec("MuMemOrd", ["MU_ORD_"]),
    EnumSpec("MuAtomicRMWOptr", ["MU_ARMW_"]),
    EnumSpec("MuCallConv", ["MU_CC_"]),
    EnumSpec("MuCommInst", ["MU_CI_"])
  ]

  /** The elements `keep` accepts, in their original order. */
  function Filter<T>(xs: seq<T>, keep: T -> bool): (ys: seq<T>)
    ensures |ys| <= |xs|
    ensures forall y :: y in ys ==> y in xs && keep(y)
    ensures forall x :: x in xs && keep(x) ==> x in ys
  {
    if |xs| == 0 then []
    else
      var rest := Filter(xs[1..], keep);
      assert forall x :: x in xs ==> x == xs[0] || x in xs[1..];
      if keep(xs[0]) then [xs[0]] + rest else rest
  }

  /** Filtering a sequence sorted by `key` leaves it sorted. */
  lemma {:induction false} FilterSorted<T>(xs: seq<T>, keep: T -> bool, key: T -> int)
    requires forall i, j :: 0 <= i < j < |xs| ==> key(xs[i]) < key(xs[j])
    ensures forall i, j :: 0 <= i < j < |Filter(xs, keep)| ==> key(Filter(xs, keep)[i]) < key(Filter(xs, keep)[j])
  {
    if |xs| > 0 {
      FilterSorted(xs[1..], keep, key);
      var rest := Filter(xs[1..], keep);
      var ys := Filter(xs, keep);
      if keep(xs[0]) {
        assert ys == [xs[0]] + rest;
        forall i, j | 0 <= i < j < |ys| ensures key(ys[i]) < key(ys[j]) {
          var y := rest[j - 1];
          assert ys[j] == y;
          if i > 0 {
            assert ys[i] == rest[i - 1];
          } else {
            assert y in xs[1..];
            var m :| 0 <= m < |xs[1..]| && xs[1..][m] == y;
            assert xs[m + 1] == y;
          }
        }
      } else {
        assert ys == rest;
      }
    }
  }

  /** The `#define` matches whose name the enum selects. */
  function SelectedDefines(t: String, spec: EnumSpec): (sel: seq<Match>)
    ensures forall k :: 0 <= k < |sel| ==> ValidDefine(t, sel[k]) && Selects(spec, DefineName(t, sel[k]))
    ensures forall m :: m in FindAll(DefinePattern, t) && Selects(spec, DefineName(t, m)) ==> m in sel
  {
    var ms := FindAll(DefinePattern, t);
    var sel := Filter(ms, DefineSelector(t, spec));
    assert forall k :: 0 <= k < |sel| ==> sel[k] in sel;
    sel
  }

  function DefineSelector(t: String, spec: EnumSpec): (Match -> bool) {
    (m: Match) => ValidDefine(t, m) && Selects(spec, DefineName(t, m))
  }

  function DefsOf(t: String, ms: seq<Match>): (r: Result<seq<EnumDef>, ParseError>)
    requires forall k :: 0 <= k < |ms| ==> ValidDefine(t, ms[k])
    ensures r.Ok? ==> |r.value| == |ms|
    ensures r.Ok? ==> forall k :: 0 <= k < |ms| ==>
      r.value[k].name == DefineName(t, ms[k]) && r.value[k].value == Slice(t, ms[k].groups[2])
    ensures r.Ok? <==> forall k :: 0 <= k < |ms| ==> DefOfMatch(t, ms[k]).Ok?
    ensures r.Ok? ==> forall k :: 0 <= k < |ms| ==> DefOfMatch(t, ms[k]) == Ok(r.value[k])
  {
    MapResult(ms, m requires ValidDefine(t, m) => DefOfMatch(t, m))
  }

  /** The enum definition a `#define` match describes. */
  function DefOfMatch(t: String, m: Match): (r: Result<EnumDef, ParseError>)
    requires ValidDefine(t, m)
    ensures r.Ok? ==> r.value.name == DefineName(t, m) && r.value.value == Slice(t, m.groups[2])
    ensures var mn := MuNameOf(ExtractPragmas(DefinePragma(t, m)), None);
      (r.Ok? <==> mn.Ok?) && (r.Ok? ==> r.value.muname == mn.value)
  {
    ExtractEnum(DefineName(t, m), Slice(t, m.groups[2]), DefinePragma(t, m))
  }

  /** The pragma text of a `#define` match, empty when it has none. */
  function DefinePragma(t: String, m: Match): String
    requires ValidDefine(t, m)
  {
    if m.pragma.Some? then Slice(t, m.pragma.value) else ""
  }

  /** `extract_enums`: one definition per selected `#define`. */
  function ExtractEnums(t: String, spec: EnumSpec): (r: Result<Enum, ParseError>)
    ensures r.Ok? ==> r.value.name == spec.typeName
    ensures r.Ok? ==> var sel := SelectedDefines(t, spec);
      |r.value.defs| == |sel|
      && forall k :: 0 <= k < |sel| ==> r.value.defs[k].name == DefineName(t, sel[k]) && Selects(spec, r.value.defs[k].name)
    ensures var sel := SelectedDefines(t, spec);
      r.Ok? <==> forall k :: 0 <= k < |sel| ==> MuNameOf(ExtractPragmas(DefinePragma(t, sel[k])), None).Ok?
    ensures r.Ok? ==> var sel := SelectedDefines(t, spec);
      forall k :: 0 <= k < |sel| ==>
        r.value.defs[k].value == Slice(t, sel[k].groups[2])
        && r.value.defs[k].muname == MuNameOf(ExtractPragmas(DefinePragma(t, sel[k])), None).value
  {
    var defs :- DefsOf(t, SelectedDefines(t, spec));
    Ok(Enum(spec.typeName, defs))
  }

  /** The `#define`s an enum keeps come in the order they appear in the text. */
  lemma SelectedInTextOrder(t: String, spec: EnumSpec)
    ensures var sel := SelectedDefines(t, spec);
      forall i, j :: 0 <= i < j < |sel| ==> sel[i].at < sel[j].at
  {
    var ms := FindAll(DefinePattern, t);
    FindAllOrdered(DefinePattern, t);
    FilterSorted(ms, DefineSelector(t, spec), (m: Match) => m.at);
  }

  /** `findall` reports its matches at increasing positions. */
  lemma FindAllOrdered(pat: Pattern, t: String)
    ensures var ms := FindAll(pat, t);
      forall i, j :: 0 <= i < j < |ms| ==> ms[i].at < ms[j].at
  {
    var ms := FindAll(pat, t);
    ScanLeftmost(MatcherOf(pat), t, 0);
    forall i, j | 0 <= i < j < |ms| ensures ms[i].at < ms[j].at {
      OrderedChain(ms, i, j);
    }
  }

  /** In a sequence of non-overlapping matches in text order, positions increase. */
  lemma {:induction false} OrderedChain(ms: seq<Match>, i: nat, j: nat)
    requires forall k :: 0 <= k < |ms| - 1 ==> ms[k].end <= ms[k + 1].at
    requires forall k :: 0 <= k < |ms| ==> ms[k].at < ms[k].end
    requires i < j < |ms|
    ensures ms[i].at < ms[j].at
    decreases j - i
  {
    if i + 1 < j {
      OrderedChain(ms, i + 1, j);
    }
  }

  // ---------------------------------------------------------------------
  // extract_typedefs

  /** The alias a typedef match defines and the type it expands to, blanks removed. */
  function TypedefEntry(t: String, m: Match): (e: (String, String))
    requires ValidTypedef(t, m)
    ensures e.0 == Slice(t, m.groups[1]) && ' ' !in e.1
  {
    RemoveBlanksSpec(Slice(t, m.groups[0]));
    (Slice(t, m.groups[1]), RemoveBlanks(Slice(t, m.groups[0])))
  }

  function TypedefEntries(t: String, ms: seq<Match>): (es: seq<(String, String)>)
    requires forall k :: 0 <= k < |ms| ==> ValidTypedef(t, ms[k])
    ensures |es| == |ms|
    ensures forall k :: 0 <= k < |ms| ==> es[k] == TypedefEntry(t, ms[k])
  {
    if |ms| == 0 then [] else [TypedefEntry(t, ms[0])] + TypedefEntries(t, ms[1..])
  }

  function Names(es: seq<(String, String)>): (ns: seq<String>)
    ensures |ns| == |es| && forall k :: 0 <= k < |es| ==> ns[k] == es[k].0
  {
    if |es| == 0 then [] else [es[0].0] + Names(es[1..])
  }

  /** Assigning the entries into a dictionary one after the other. */
  function AssignAll(d: map<String, String>, es: seq<(String, String)>): (r: map<String, String>)
    decreases |es|
  {
    if |es| == 0 then d else AssignAll(d[es[0].0 := es[0].1], es[1..])
  }

  /** The keys afterwards are the earlier keys and the assigned names. */
  lemma {:induction false} AssignAllKeys(d: map<String, String>, es: seq<(String, String)>)
    ensures forall n :: n in AssignAll(d, es) <==> n in d || n in Names(es)
    decreases |es|
  {
    if |es| > 0 {
      AssignAllKeys(d[es[0].0 := es[0].1], es[1..]);
      assert Names(es) == [es[0].0] + Names(es[1..]);
    }
  }

  /** A key no entry assigns keeps its value. */
  lemma {:induction false} AssignAllKeeps(d: map<String, String>, es: seq<(String, String)>, n: String)
    requires n in d && n !in Names(es)
    ensures n in AssignAll(d, es) && AssignAll(d, es)[n] == d[n]
    decreases |es|
  {
    if |es| > 0 {
      assert Names(es) == [es[0].0] + Names(es[1..]);
      AssignAllKeeps(d[es[0].0 := es[0].1], es[1..], n);
    }
  }

  /** The last entry for a name decides its value. */
  lemma {:induction false} AssignAllLast(d: map<String, String>, es: seq<(String, String)>, k: nat)
    requires k < |es| && es[k].0 !in Names(es[k + 1..])
    ensures es[k].0 in AssignAll(d, es) && AssignAll(d, es)[es[k].0] == es[k].1
    decreases |es|
  {
    var d' := d[es[0].0 := es[0].1];
    if k == 0 {
      AssignAllKeeps(d', es[1..], es[0].0);
    } else {
      assert es[1..][k - 1] == es[k] && es[1..][k - 1 + 1..] == es[k + 1..];
      AssignAllLast(d', es[1..], k - 1);
    }
  }

  /** `extract_typedefs`: the dictionary of the last definition of each alias,
      and every definition in text order. */
  function ExtractTypedefs(t: String): (r: (map<String, String>, seq<(String, String)>))
    ensures |r.1| == |FindAll(TypedefPattern, t)|
    ensures forall k :: 0 <= k < |r.1| ==> r.1[k] == TypedefEntry(t, FindAll(TypedefPattern, t)[k])
    ensures forall k :: 0 <= k < |r.1| ==> ' ' !in r.1[k].1
    ensures forall n :: n in r.0 <==> n in Names(r.1)
  {
    var es := TypedefEntries(t, FindAll(TypedefPattern, t));
    AssignAllKeys(map[], es);
    (AssignAll(map[], es), es)
  }

  /** Each alias maps to the type of its last definition. */
  lemma TypedefLastWins(t: String, k: nat)
    requires k < |ExtractTypedefs(t).1|
    requires ExtractTypedefs(t).1[k].0 !in Names(ExtractTypedefs(t).1[k + 1..])
    ensures ExtractTypedefs(t).0[ExtractTypedefs(t).1[k].0] == ExtractTypedefs(t).1[k].1
  {
    AssignAllLast(map[], ExtractTypedefs(t).1, k);
  }

  // ---------------------------------------------------------------------
  // parse_muapi

  const TopLevelStructs: seq<String> := ["MuVM", "MuCtx", "MuIRBuilder"]

  function StructsOf(names: seq<String>, bodyOf: String -> String): (r: Result<seq<Struct>, ParseError>)
    ensures r.Ok? ==> |r.value| == |names|
    ensures r.Ok? ==> forall k :: 0 <= k < |names| ==>
      r.value[k].name == names[k] && ExtractMethods(bodyOf(names[k])) == Ok(r.value[k].methods)
    ensures r.Ok? <==> forall k :: 0 <= k < |names| ==> ExtractMethods(bodyOf(names[k])).Ok?
  {
    MapResult(names, n => StructOf(n, bodyOf))
  }

  /** One top-level struct: its name and the methods of its body. */
  function StructOf(name: String, bodyOf: String -> String): (r: Result<Struct, ParseError>)
    ensures r.Ok? ==> r.value.name == name && ExtractMethods(bodyOf(name)) == Ok(r.value.methods)
    ensures r.Ok? <==> ExtractMethods(bodyOf(name)).Ok?
  {
    var methods :- ExtractMethods(bodyOf(name));
    Ok(Struct(name, methods))
  }

  function EnumsOf(t: String, specs: seq<EnumSpec>): (r: Result<seq<Enum>, ParseError>)
    ensures r.Ok? ==> |r.value| == |specs|
    ensures r.Ok? ==> forall k :: 0 <= k < |specs| ==> ExtractEnums(t, specs[k]) == Ok(r.value[k])
    ensures r.Ok? <==> forall k :: 0 <= k < |specs| ==> ExtractEnums(t, specs[k]).Ok?
  {
    MapResult(specs, spec => ExtractEnums(t, spec))
  }

  /** `parse_muapi`. The body of each top-level struct is cut out of the text
      by a helper that is not part of this model, so it is a parameter. */
  function ParseMuApi(t: String, bodyOf: String -> String): (r: Result<Ast, ParseError>)
    ensures r.Ok? ==> |r.value.structs| == 3 && |r.value.enums| == 10
    ensures r.Ok? ==> forall k :: 0 <= k < 3 ==>
      r.value.structs[k].name == TopLevelStructs[k]
      && ExtractMethods(bodyOf(TopLevelStructs[k])) == Ok(r.value.structs[k].methods)
    ensures r.Ok? ==> forall k :: 0 <= k < 10 ==>
      r.value.enums[k].name == EnumSpecs[k].typeName && ExtractEnums(t, EnumSpecs[k]) == Ok(r.value.enums[k])
    ensures r.Ok? ==> (r.value.typedefs, r.value.typedefsOrder) == ExtractTypedefs(t)
    ensures r.Ok? <==> (forall k :: 0 <= k < 3 ==> ExtractMethods(bodyOf(TopLevelStructs[k])).Ok?)
                       && (forall k :: 0 <= k < 10 ==> ExtractEnums(t, EnumSpecs[k]).Ok?)
  {
    var structs :- StructsOf(TopLevelStructs, bodyOf);
    var enums :- EnumsOf(t, EnumSpecs);
    var (typedefs, order) := ExtractTypedefs(t);
    Ok(Ast(structs, enums, typedefs, order))
  }

  /** The methods of a struct body are its field declarations in text order:
      each comes from a leftmost `DeclPattern` match, carries that
      declaration's name and its pragma-adjusted parameters, and earlier
      methods come from earlier declarations. */
  lemma ExtractMethodsInTextOrder(body: String)
    ensures var r := ExtractMethods(body); var ms := FindAll(DeclPattern, body);
      r.Ok? ==> forall k :: 0 <= k < |ms| ==>
        MatchAt(DeclPattern, body, ms[k].at) == Some(ms[k])
        && r.value[k].name == DeclName(body, ms[k])
        && DeclParams(body, ms[k]) == Ok(r.value[k].params)
    ensures var r := ExtractMethods(body); var ms := FindAll(DeclPattern, body);
      r.Ok? ==> forall i, j :: 0 <= i < j < |ms| ==> ms[i].at < ms[j].at
  {
    FindAllSpec(DeclPattern, body);
    FindAllOrdered(DeclPattern, body);
  }

  /** `parse_muapi` succeeds exactly when every field declaration of the three
      top-level structs has parameters that parse and pragmas that apply, and
      every `#define` the ten enum specifications select has at most one
      well-formed `muname` pragma value. */
  lemma ParseMuApiSucceeds(t: String, bodyOf: String -> String)
    ensures ParseMuApi(t, bodyOf).Ok? <==>
      (forall k :: 0 <= k < 3 ==> DeclsParse(bodyOf(TopLevelStructs[k])))
      && (forall k :: 0 <= k < 10 ==> DefinesNamed(t, EnumSpecs[k]))
  {
    var structs := StructsOf(TopLevelStructs, bodyOf);
    var enums := EnumsOf(t, EnumSpecs);
    assert ParseMuApi(t, bodyOf).Ok? <==> structs.Ok? && enums.Ok?;
    StructsSucceed(TopLevelStructs, bodyOf);
    EnumsSucceed(t, EnumSpecs);
  }

  lemma StructsSucceed(names: seq<String>, bodyOf: String -> String)
    ensures StructsOf(names, bodyOf).Ok? <==> forall k :: 0 <= k < |names| ==> DeclsParse(bodyOf(names[k]))
  {
    forall k | 0 <= k < |names|
      ensures ExtractMethods(bodyOf(names[k])).Ok? <==> DeclsParse(bodyOf(names[k]))
    {
    }
  }

  lemma EnumsSucceed(t: String, specs: seq<EnumSpec>)
    ensures EnumsOf(t, specs).Ok? <==> forall k :: 0 <= k < |specs| ==> DefinesNamed(t, specs[k])
  {
    forall k | 0 <= k < |specs|
      ensures ExtractEnums(t, specs[k]).Ok? <==> DefinesNamed(t, specs[k])
    {
    }
  }

  /** Every field declaration of `body` has parameters that parse and pragmas
      that apply. */
  ghost predicate DeclsParse(body: String) {
    var ms := FindAll(DeclPattern, body);
    forall k :: 0 <= k < |ms| ==> ValidDecl(body, ms[k]) && DeclParams(body, ms[k]).Ok?
  }

  /** Every `#define` `spec` selects has a usable `muname`. */
  ghost predicate DefinesNamed(t: String, spec: EnumSpec) {
    var sel := SelectedDefines(t, spec);
    forall k :: 0 <= k < |sel| ==> MuNameOf(ExtractPragmas(DefinePragma(t, sel[k])), None).Ok?
  }
}

=== FILE: mutypes.dfy ===
/**
 Mu IR types: the seventeen kinds of `MuType_`, the classification
 predicates the compiler asks of a type, the accessors for referents,
 elements and signatures, the strong variant of a weak reference, the
 textual form, and the registry that maps struct and hybrid tags to their
 field types.

 A type carries an entity header, but type equality ignores headers at
 every level: two types are equal when their kinds are, kinds compare their
 parts structurally, and signatures compare their return and argument types.
 The registry is the process-wide tag map, passed explicitly; a panic on
 misuse is an `Err`.
 */
module MuTypes {
  import opened Wrappers
  import opened Text
  import opened Headers

  datatype MuType = MuType(hdr: Header, v: TypeKind)

  datatype TypeKind =
    | Int(len: nat)
    | Float
    | Double
    | Ref(ty: MuType)
    | IRef(ty: MuType)
    | WeakRef(ty: MuType)
    | UPtr(ty: MuType)
    | Struct(tag: String)
    | Array(ty: MuType, len: nat)
    | Hybrid(tag: String)
    | Void
    | ThreadRef
    | StackRef
    | Tagref64
    | Vector(ty: MuType, len: nat)
    | FuncRef(sig: FuncSig)
    | UFuncPtr(sig: FuncSig)

  datatype FuncSig = FuncSig(hdr: Header, retTys: seq<MuType>, argTys: seq<MuType>)

  // ---------------------------------------------------------------------
  // Equality up to headers
  // ---------------------------------------------------------------------

  predicate TypeEq(a: MuType, b: MuType)
    decreases a
  {
    KindEq(a.v, b.v)
  }

  predicate KindEq(a: TypeKind, b: TypeKind)
    decreases a
  {
    match a
    case Int(n) => b.Int? && b.len == n
    case Float => b.Float?
    case Double => b.Double?
    case Ref(t) => b.Ref? && TypeEq(t, b.ty)
    case IRef(t) => b.IRef? && TypeEq(t, b.ty)
    case WeakRef(t) => b.WeakRef? && TypeEq(t, b.ty)
    case UPtr(t) => b.UPtr? && TypeEq(t, b.ty)
    case Struct(tag) => b.Struct? && b.tag == tag
    case Array(t, n) => b.Array? && TypeEq(t, b.ty) && b.len == n
    case Hybrid(tag) => b.Hybrid? && b.tag == tag
    case Void => b.Void?
    case ThreadRef => b.ThreadRef?
    case StackRef => b.StackRef?
    case Tagref64 => b.Tagref64?
    case Vector(t, n) => b.Vector? && TypeEq(t, b.ty) && b.len == n
    case FuncRef(s) => b.FuncRef? && SigEq(s, b.sig)
    case UFuncPtr(s) => b.UFuncPtr? && SigEq(s, b.sig)
  }

  predicate SigEq(a: FuncSig, b: FuncSig)
    decreases a
  {
    && |a.retTys| == |b.retTys|
    && (forall i :: 0 <= i < |a.retTys| ==> TypeEq(a.retTys[i], b.retTys[i]))
    && |a.argTys| == |b.argTys|
    && (forall i :: 0 <= i < |a.argTys| ==> TypeEq(a.argTys[i], b.argTys[i]))
  }

  /** The header every erased entity gets. */
  const Anonymous: Header := Header(0, None)

  /** The same type with every header, at every depth, replaced by `Anonymous`. */
  function Erase(t: MuType): (r: MuType)
    ensures r.hdr == Anonymous
    decreases t
  {
    MuType(Anonymous, EraseKind(t.v))
  }

  function EraseKind(k: TypeKind): (r: TypeKind)
    decreases k
  {
    match k
    case Ref(t) => Ref(Erase(t))
    case IRef(t) => IRef(Erase(t))
    case WeakRef(t) => WeakRef(Erase(t))
    case UPtr(t) => UPtr(Erase(t))
    case Array(t, n) => Array(Erase(t), n)
    case Vector(t, n) => Vector(Erase(t), n)
    case FuncRef(s) => FuncRef(EraseSig(s))
    case UFuncPtr(s) => UFuncPtr(EraseSig(s))
    case _ => k
  }

  function EraseSig(s: FuncSig): (r: FuncSig)
    ensures |r.retTys| == |s.retTys| && |r.argTys| == |s.argTys|
    ensures forall i :: 0 <= i < |s.retTys| ==> r.retTys[i] == Erase(s.retTys[i])
    ensures forall i :: 0 <= i < |s.argTys| ==> r.argTys[i] == Erase(s.argTys[i])
    decreases s
  {
    FuncSig(Anonymous,
            seq(|s.retTys|, i requires 0 <= i < |s.retTys| => Erase(s.retTys[i])),
            seq(|s.argTys|, i requires 0 <= i < |s.argTys| => Erase(s.argTys[i])))
  }

  /** Type equality is exactly equality once headers are erased: headers are
      ignored at every level and nothing else is. */
  lemma {:induction false} TypeEqErase(a: MuType, b: MuType)
    ensures TypeEq(a, b) <==> Erase(a) == Erase(b)
    decreases a
  {
    KindEqErase(a.v, b.v);
  }

  lemma {:induction false} KindEqErase(a: TypeKind, b: TypeKind)
    ensures KindEq(a, b) <==> EraseKind(a) == EraseKind(b)
    decreases a, 1
  {
    if HasParts(a) {
      PartsEqErase(a, b);
    } else {
      LeafEqErase(a, b);
    }
  }

  /** The kinds built from other types or from a signature. */
  predicate HasParts(k: TypeKind) {
    k.Ref? || k.IRef? || k.WeakRef? || k.UPtr? || k.Array? || k.Vector? || k.FuncRef? || k.UFuncPtr?
  }

  /** A kind without parts is its own erasure. */
  lemma LeafEqErase(a: TypeKind, b: TypeKind)
    requires !HasParts(a)
    ensures KindEq(a, b) <==> EraseKind(a) == EraseKind(b)
  {
    assert EraseKind(a) == a;
  }

  lemma {:induction false} PartsEqErase(a: TypeKind, b: TypeKind)
    requires HasParts(a)
    ensures KindEq(a, b) <==> EraseKind(a) == EraseKind(b)
    decreases a, 0
  {
    match a
    case Ref(t) => if b.Ref? { TypeEqErase(t, b.ty); }
    case IRef(t) => if b.IRef? { TypeEqErase(t, b.ty); }
    case WeakRef(t) => if b.WeakRef? { TypeEqErase(t, b.ty); }
    case UPtr(t) => if b.UPtr? { TypeEqErase(t, b.ty); }
    case Array(t, n) => if b.Array? { TypeEqErase(t, b.ty); }
    case Vector(t, n) => if b.Vector? { TypeEqErase(t, b.ty); }
    case FuncRef(s) => if b.FuncRef? { SigEqErase(s, b.sig); }
    case UFuncPtr(s) => if b.UFuncPtr? { SigEqErase(s, b.sig); }
  }

  lemma {:induction false} SigEqErase(a: FuncSig, b: FuncSig)
    ensures SigEq(a, b) <==> EraseSig(a) == EraseSig(b)
    decreases a
  {
    ListEqErase(a, a.retTys, b.retTys);
    ListEqErase(a, a.argTys, b.argTys);
    var ea, eb := EraseSig(a), EraseSig(b);
    assert ea == eb <==> ea.retTys == eb.retTys && ea.argTys == eb.argTys;
  }

  /** Pointwise equality of a signature's type list, against erasure. */
  lemma ListEqErase(owner: FuncSig, xs: seq<MuType>, ys: seq<MuType>)
    requires xs == owner.retTys || xs == owner.argTys
    ensures (|xs| == |ys| && forall i :: 0 <= i < |xs| ==> TypeEq(xs[i], ys[i]))
        <==> (|xs| == |ys| && forall i :: 0 <= i < |xs| ==> Erase(xs[i]) == Erase(ys[i]))
    decreases owner, 0
  {
    if |xs| == |ys| {
      forall i | 0 <= i < |xs|
        ensures TypeEq(xs[i], ys[i]) <==> Erase(xs[i]) == Erase(ys[i])
      {
        assert xs[i] in xs;
        TypeEqErase(xs[i], ys[i]);
      }
    }
  }

  /** Type equality is an equivalence, and changing a header never changes
      which type is meant. */
  lemma TypeEqEquivalence(a: MuType, b: MuType, c: MuType, h: Header)
    ensures TypeEq(a, a)
    ensures TypeEq(a, b) ==> TypeEq(b, a)
    ensures TypeEq(a, b) && TypeEq(b, c) ==> TypeEq(a, c)
    ensures TypeEq(a, MuType(h, a.v))
  {
    TypeEqErase(a, a);
    TypeEqErase(a, b);
    TypeEqErase(b, a);
    TypeEqErase(b, c);
    TypeEqErase(a, c);
    TypeEqErase(a, MuType(h, a.v));
  }

  // ---------------------------------------------------------------------
  // Classification
  // ---------------------------------------------------------------------

  predicate IsTagref64(t: MuType) { t.v.Tagref64? }
  predicate IsStackref(t: MuType) { t.v.StackRef? }
  predicate IsFuncref(t: MuType) { t.v.FuncRef? }
  predicate IsStruct(t: MuType) { t.v.Struct? }
  predicate IsVoid(t: MuType) { t.v.Void? }
  predicate IsHybrid(t: MuType) { t.v.Hybrid? }
  predicate IsInt(t: MuType) { t.v.Int? }
  predicate IsFloat(t: MuType) { t.v.Float? }
  predicate IsDouble(t: MuType) { t.v.Double? }
  predicate IsFp(t: MuType) { t.v.Float? || t.v.Double? }
  predicate IsRef(t: MuType) { t.v.Ref? }
  predicate IsIRef(t: MuType) { t.v.IRef? }
  predicate IsPtr(t: MuType) { t.v.UPtr? || t.v.UFuncPtr? }

  predicate IsOpaqueReference(t: MuType) {
    t.v.FuncRef? || t.v.StackRef? || t.v.ThreadRef?
  }

  predicate IsHeapReference(t: MuType) {
    t.v.Ref? || t.v.IRef? || t.v.WeakRef?
  }

  predicate IsAggregate(t: MuType) {
    t.v.Struct? || t.v.Hybrid? || t.v.Array?
  }

  predicate IsScalar(t: MuType) {
    match t.v
    case Int(_) | Float | Double | Ref(_) | IRef(_) | WeakRef(_) | FuncRef(_)
      | UFuncPtr(_) | ThreadRef | StackRef | Tagref64 | UPtr(_) => true
    case _ => false
  }

  predicate IsEqComparable(t: MuType) {
    IsInt(t) || IsPtr(t) || IsIRef(t) || IsRef(t) || IsOpaqueReference(t)
  }

  predicate IsUltComparable(t: MuType) {
    IsInt(t) || IsPtr(t) || IsIRef(t)
  }

  /** The width in bits of an integer type; every reference and pointer kind
      is taken to be 64 bits wide; other types have no integer width. */
  function GetIntLength(t: MuType): (r: Option<nat>)
  {
    match t.v
    case Int(n) => Some(n)
    case Ref(_) | IRef(_) | WeakRef(_) | UPtr(_) | ThreadRef | StackRef | Tagref64
      | FuncRef(_) | UFuncPtr(_) => Some(64)
    case _ => None
  }

  predicate IsIntN(t: MuType, n: nat) {
    match GetIntLength(t)
    case Some(width) => width == n
    case None => false
  }

  /** Exactly the non-floating-point scalars have an integer width; it is the
      declared one for `int<n>` and 64 for every other kind. */
  lemma IntLengthSpec(t: MuType)
    ensures GetIntLength(t).Some? <==> IsScalar(t) && !IsFp(t)
    ensures IsInt(t) ==> GetIntLength(t) == Some(t.v.len)
    ensures GetIntLength(t).Some? && !IsInt(t) ==> GetIntLength(t) == Some(64)
  {
  }

  /** `is_int_n(n)` holds exactly when the integer width is `n`: for an
      `int<m>` when m = n, and for every reference or pointer kind when n = 64. */
  lemma IsIntNSpec(t: MuType, n: nat)
    ensures IsIntN(t, n) <==> GetIntLength(t) == Some(n)
    ensures IsIntN(t, n) <==>
      (IsInt(t) && t.v.len == n) || (n == 64 && IsScalar(t) && !IsFp(t) && !IsInt(t))
  {
  }

  /** Every type that may be compared for order may be compared for equality,
      and every type comparable for equality has a 64-bit or integer width;
      the only word-sized kinds that cannot be compared are weak references
      and tagged references. */
  lemma ComparableSpec(t: MuType)
    ensures IsUltComparable(t) ==> IsEqComparable(t)
    ensures IsEqComparable(t) ==> GetIntLength(t).Some?
    ensures GetIntLength(t).Some? && !IsEqComparable(t) <==> t.v.WeakRef? || t.v.Tagref64?
    ensures IsEqComparable(t) && !IsUltComparable(t) <==> IsRef(t) || IsOpaqueReference(t)
  {
  }

  /** Scalars and aggregates are disjoint, and every type is a scalar, an
      aggregate, a vector, or void. */
  lemma KindPartition(t: MuType)
    ensures !(IsScalar(t) && IsAggregate(t))
    ensures IsScalar(t) || IsAggregate(t) || t.v.Vector? || IsVoid(t)
    ensures IsHeapReference(t) ==> IsScalar(t) && !IsOpaqueReference(t) && !IsPtr(t)
  {
  }

  // ---------------------------------------------------------------------
  // Accessors
  // ---------------------------------------------------------------------

  function GetStructHybridTag(t: MuType): (r: Option<String>)
    ensures r.Some? <==> IsStruct(t) || IsHybrid(t)
  {
    match t.v
    case Hybrid(tag) => Some(tag)
    case Struct(tag) => Some(tag)
    case _ => None
  }

  function GetElemTy(t: MuType): (r: Option<MuType>)
    ensures r.Some? <==> t.v.Array?
  {
    match t.v
    case Array(e, _) => Some(e)
    case _ => None
  }

  /** The signature of a `funcref` or `ufuncptr` (`get_sig` and
      `get_func_sig` compute the same thing). */
  function GetFuncSig(t: MuType): (r: Option<FuncSig>)
    ensures r.Some? <==> IsFuncref(t) || t.v.UFuncPtr?
  {
    match t.v
    case FuncRef(s) => Some(s)
    case UFuncPtr(s) => Some(s)
    case _ => None
  }

  function GetReferentTy(t: MuType): (r: Option<MuType>)
  {
    match t.v
    case Ref(x) => Some(x)
    case IRef(x) => Some(x)
    case WeakRef(x) => Some(x)
    case UPtr(x) => Some(x)
    case _ => None
  }

  /** Exactly heap references and untraced pointers have a referent; every
      heap reference is a 64-bit scalar. */
  lemma ReferentSpec(t: MuType)
    ensures GetReferentTy(t).Some? <==> IsHeapReference(t) || t.v.UPtr?
    ensures IsHeapReference(t) ==> GetIntLength(t) == Some(64)
    ensures GetReferentTy(t).Some? ==> GetFuncSig(t).None? && GetElemTy(t).None?
  {
  }

  /** The referent of a reference built from `x` is `x`, for each kind that has one. */
  lemma ReferentOfBuilt(h: Header, x: MuType)
    ensures GetReferentTy(MuType(h, Ref(x))) == Some(x)
    ensures GetReferentTy(MuType(h, IRef(x))) == Some(x)
    ensures GetReferentTy(MuType(h, WeakRef(x))) == Some(x)
    ensures GetReferentTy(MuType(h, UPtr(x))) == Some(x)
  {
  }

  // ---------------------------------------------------------------------
  // Strong variant
  // ---------------------------------------------------------------------

  /** The strong counterpart of a kind: a weak reference becomes a strong
      reference to the same referent, every other kind stays as it is. */
  function StrongVariant(k: TypeKind): (r: TypeKind)
    ensures !r.WeakRef?
    ensures k.WeakRef? ==> r == Ref(k.ty)
    ensures !k.WeakRef? ==> r == k
  {
    match k
    case WeakRef(t) => Ref(t)
    case _ => k
  }

  /** Making a kind strong is idempotent, changes only weak references, and
      keeps the referent, the integer width and whether it is a heap
      reference; the strong variant of a heap reference is comparable for equality. */
  lemma StrongVariantSpec(h: Header, k: TypeKind)
    ensures StrongVariant(StrongVariant(k)) == StrongVariant(k)
    ensures StrongVariant(k) != k <==> k.WeakRef?
    ensures GetReferentTy(MuType(h, StrongVariant(k))) == GetReferentTy(MuType(h, k))
    ensures GetIntLength(MuType(h, StrongVariant(k))) == GetIntLength(MuType(h, k))
    ensures IsHeapReference(MuType(h, StrongVariant(k))) <==> IsHeapReference(MuType(h, k))
    ensures IsHeapReference(MuType(h, k)) ==> IsEqComparable(MuType(h, StrongVariant(k)))
    ensures k.WeakRef? ==> StrongVariant(k) == Ref(k.ty)
    ensures !k.WeakRef? ==> StrongVariant(k) == k
  {
  }

  // ---------------------------------------------------------------------
  // Display
  // ---------------------------------------------------------------------

  function TypeString(t: MuType): (r: String)
    decreases t
  {
    KindString(t.v)
  }

  function KindString(k: TypeKind): (r: String)
    decreases k
  {
    match k
    case Int(n) => "int<" + NatToDecimal(n) + ">"
    case Float => "float"
    case Double => "double"
    case Ref(t) => "ref<" + TypeString(t) + ">"
    case IRef(t) => "iref<" + TypeString(t) + ">"
    case WeakRef(t) => "weakref<" + TypeString(t) + ">"
    case UPtr(t) => "uptr<" + TypeString(t) + ">"
    case Array(t, n) => "array<" + TypeString(t) + " " + NatToDecimal(n) + ">"
    case Void => "void"
    case ThreadRef => "threadref"
    case StackRef => "stackref"
    case Tagref64 => "tagref64"
    case Vector(t, n) => "vector<" + TypeString(t) + " " + NatToDecimal(n) + ">"
    case FuncRef(s) => "funcref<" + SigString(s) + ">"
    case UFuncPtr(s) => "ufuncptr<" + SigString(s) + ">"
    case Struct(tag) => tag
    case Hybrid(tag) => tag
  }

  /** `(args)->(rets)`, each list written space-separated. */
  function SigString(s: FuncSig): (r: String)
    decreases s
  {
    "(" + Join(seq(|s.argTys|, i requires 0 <= i < |s.argTys| => TypeString(s.argTys[i])), " ")
    + ")->("
    + Join(seq(|s.retTys|, i requires 0 <= i < |s.retTys| => TypeString(s.retTys[i])), " ")
    + ")"
  }

  /** The textual form does not depend on any header. */
  lemma {:induction false} DisplayErase(t: MuType)
    ensures TypeString(Erase(t)) == TypeString(t)
    decreases t
  {
    KindDisplayErase(t.v);
  }

  lemma {:induction false} KindDisplayErase(k: TypeKind)
    ensures KindString(EraseKind(k)) == KindString(k)
    decreases k
  {
    match k
    case Ref(t) => DisplayErase(t);
    case IRef(t) => DisplayErase(t);
    case WeakRef(t) => DisplayErase(t);
    case UPtr(t) => DisplayErase(t);
    case Array(t, _) => DisplayErase(t);
    case Vector(t, _) => DisplayErase(t);
    case FuncRef(s) => SigDisplayErase(s);
    case UFuncPtr(s) => SigDisplayErase(s);
    case _ =>
  }

  lemma {:induction false} SigDisplayErase(s: FuncSig)
    ensures SigString(EraseSig(s)) == SigString(s)
    decreases s
  {
    var e := EraseSig(s);
    forall i | 0 <= i < |s.argTys|
      ensures TypeString(e.argTys[i]) == TypeString(s.argTys[i])
    {
      assert s.argTys[i] in s.argTys;
      DisplayErase(s.argTys[i]);
    }
    forall i | 0 <= i < |s.retTys|
      ensures TypeString(e.retTys[i]) == TypeString(s.retTys[i])
    {
      assert s.retTys[i] in s.retTys;
      DisplayErase(s.retTys[i]);
    }
    assert seq(|e.argTys|, i requires 0 <= i < |e.argTys| => TypeString(e.argTys[i]))
        == seq(|s.argTys|, i requires 0 <= i < |s.argTys| => TypeString(s.argTys[i]));
    assert seq(|e.retTys|, i requires 0 <= i < |e.retTys| => TypeString(e.retTys[i]))
        == seq(|s.retTys|, i requires 0 <= i < |s.retTys| => TypeString(s.retTys[i]));
  }

  /** Equal types are displayed identically. */
  lemma DisplayRespectsEq(a: MuType, b: MuType)
    requires TypeEq(a, b)
    ensures TypeString(a) == TypeString(b)
  {
    TypeEqErase(a, b);
    DisplayErase(a);
    DisplayErase(b);
  }

  /** A reference to a 64-bit integer and an array of ten of them, whatever
      their headers. */
  lemma DisplayExamples(h1: Header, h2: Header)
    ensures TypeString(MuType(h1, Ref(MuType(h2, Int(64))))) == "ref<int<64>>"
    ensures TypeString(MuType(h1, Array(MuType(h2, Double), 10))) == "array<double 10>"
  {
    assert NatToDecimal(6) == "6" && DigitChar(4) == '4';
    assert NatToDecimal(64) == "64";
    assert NatToDecimal(1) == "1" && DigitChar(0) == '0';
    assert NatToDecimal(10) == "10";
    assert TypeString(MuType(h2, Int(64))) == "int<64>";
    assert TypeString(MuType(h2, Double)) == "double";
  }

  // ---------------------------------------------------------------------
  // The tag registry
  // ---------------------------------------------------------------------

  datatype StructType = StructType(tys: seq<MuType>)
  datatype HybridType = HybridType(fixTys: seq<MuType>, varTy: MuType)

  datatype Registry = Registry(structs: map<String, StructType>, hybrids: map<String, HybridType>)

  predicate FieldsEq(xs: seq<MuType>, ys: seq<MuType>) {
    |xs| == |ys| && forall i :: 0 <= i < |xs| ==> TypeEq(xs[i], ys[i])
  }

  predicate HybridEq(a: HybridType, b: HybridType) {
    FieldsEq(a.fixTys, b.fixTys) && TypeEq(a.varTy, b.varTy)
  }

  lemma FieldsEqRefl(xs: seq<MuType>)
    ensures FieldsEq(xs, xs)
  {
    forall i | 0 <= i < |xs| ensures TypeEq(xs[i], xs[i]) {
      TypeEqErase(xs[i], xs[i]);
    }
  }

  function StructString(s: StructType): (r: String)
  {
    "struct<" + Join(seq(|s.tys|, i requires 0 <= i < |s.tys| => TypeString(s.tys[i])), " ") + ">"
  }

  /** The fixed part, space-separated, then a space and the variable part:
      a hybrid with no fixed part prints as `hybrid< v>`. */
  function HybridString(h: HybridType): (r: String)
  {
    "hybrid<" + Join(seq(|h.fixTys|, i requires 0 <= i < |h.fixTys| => TypeString(h.fixTys[i])), " ")
    + " " + TypeString(h.varTy) + ">"
  }

  lemma HybridStringEmptyFix(v: MuType)
    ensures HybridString(HybridType([], v)) == "hybrid< " + TypeString(v) + ">"
  {
  }

  /** Registers `tag` with no fields, replacing any earlier entry. */
  function MustructEmpty(reg: Registry, tag: String): (r: (Registry, TypeKind))
    ensures r.1 == Struct(tag) && r.0.hybrids == reg.hybrids
    ensures tag in r.0.structs && r.0.structs[tag].tys == []
    ensures forall other :: other != tag ==> (other in r.0.structs <==> other in reg.structs)
    ensures forall other :: other != tag && other in reg.structs ==> r.0.structs[other] == reg.structs[other]
  {
    (reg.(structs := reg.structs[tag := StructType([])]), Struct(tag))
  }

  /** Replaces the fields of a registered struct; an unregistered tag is an error. */
  function MustructPut(reg: Registry, tag: String, list: seq<MuType>): (r: Result<Registry, String>)
    ensures r.Ok? <==> tag in reg.structs
    ensures r.Ok? ==> r.value.hybrids == reg.hybrids && r.value.structs.Keys == reg.structs.Keys
    ensures r.Ok? ==> r.value.structs[tag].tys == list
    ensures r.Ok? ==> forall other :: other in reg.structs && other != tag ==> r.value.structs[other] == reg.structs[other]
  {
    if tag in reg.structs then Ok(reg.(structs := reg.structs[tag := StructType(list)]))
    else Err("call mustruct_empty() to create an empty struct before mustruct_put()")
  }

  /** Registers `tag` with `list`; registering a tag again is an error unless
      the fields are equal to the registered ones. */
  function Mustruct(reg: Registry, tag: String, list: seq<MuType>): (r: Result<(Registry, TypeKind), String>)
    ensures r.Err? <==> tag in reg.structs && !FieldsEq(list, reg.structs[tag].tys)
    ensures r.Ok? ==> r.value.1 == Struct(tag) && r.value.0.hybrids == reg.hybrids
    ensures r.Ok? ==> tag in r.value.0.structs && r.value.0.structs[tag].tys == list
    ensures r.Ok? ==> forall other :: other != tag ==> (other in r.value.0.structs <==> other in reg.structs)
    ensures r.Ok? ==> forall other :: other != tag && other in reg.structs ==> r.value.0.structs[other] == reg.structs[other]
  {
    if tag in reg.structs && !FieldsEq(list, reg.structs[tag].tys) then
      Err("trying to insert a struct under a tag defined as a different struct")
    else Ok((reg.(structs := reg.structs[tag := StructType(list)]), Struct(tag)))
  }

  /** Registers `tag` with no fixed part and a void variable part (whose
      header is `voidHdr`), replacing any earlier entry. */
  function HybridEmpty(reg: Registry, tag: String, voidHdr: Header): (r: (Registry, TypeKind))
    ensures r.1 == Hybrid(tag) && r.0.structs == reg.structs
    ensures tag in r.0.hybrids && r.0.hybrids[tag].fixTys == [] && IsVoid(r.0.hybrids[tag].varTy)
    ensures forall other :: other != tag ==> (other in r.0.hybrids <==> other in reg.hybrids)
  {
    (reg.(hybrids := reg.hybrids[tag := HybridType([], MuType(voidHdr, Void))]), Hybrid(tag))
  }

  function HybridPut(reg: Registry, tag: String, fixTys: seq<MuType>, varTy: MuType): (r: Result<Registry, String>)
    ensures r.Ok? <==> tag in reg.hybrids
    ensures r.Ok? ==> r.value.structs == reg.structs && r.value.hybrids.Keys == reg.hybrids.Keys
    ensures r.Ok? ==> r.value.hybrids[tag] == HybridType(fixTys, varTy)
  {
    if tag in reg.hybrids then Ok(reg.(hybrids := reg.hybrids[tag := HybridType(fixTys, varTy)]))
    else Err("call hybrid_empty() to create an empty struct before hybrid_put()")
  }

  function MuHybrid(reg: Registry, tag: String, fixTys: seq<MuType>, varTy: MuType): (r: Result<(Registry, TypeKind), String>)
    ensures r.Err? <==> tag in reg.hybrids && !HybridEq(HybridType(fixTys, varTy), reg.hybrids[tag])
    ensures r.Ok? ==> r.value.1 == Hybrid(tag) && r.value.0.structs == reg.structs
    ensures r.Ok? ==> tag in r.value.0.hybrids && r.value.0.hybrids[tag] == HybridType(fixTys, varTy)
  {
    var h := HybridType(fixTys, varTy);
    if tag in reg.hybrids && !HybridEq(h, reg.hybrids[tag]) then
      Err("trying to insert a hybrid under a tag defined as a different hybrid")
    else Ok((reg.(hybrids := reg.hybrids[tag := h]), Hybrid(tag)))
  }

  /** The type of field `index` of a struct, or of the fixed part of a hybrid;
      `None` for any other type. An unregistered tag or an index past the
      fields is an error. */
  function GetFieldTy(reg: Registry, t: MuType, index: nat): (r: Result<Option<MuType>, String>)
    ensures r.Ok? && r.value.None? <==> !IsStruct(t) && !IsHybrid(t)
    ensures IsStruct(t) && t.v.tag in reg.structs && index < |reg.structs[t.v.tag].tys| ==>
      r == Ok(Some(reg.structs[t.v.tag].tys[index]))
    ensures IsHybrid(t) && t.v.tag in reg.hybrids && index < |reg.hybrids[t.v.tag].fixTys| ==>
      r == Ok(Some(reg.hybrids[t.v.tag].fixTys[index]))
    ensures r.Err? <==>
      || (IsStruct(t) && (t.v.tag !in reg.structs || index >= |reg.structs[t.v.tag].tys|))
      || (IsHybrid(t) && (t.v.tag !in reg.hybrids || index >= |reg.hybrids[t.v.tag].fixTys|))
  {
    match t.v
    case Struct(tag) =>
      if tag !in reg.structs then Err("unregistered struct tag")
      else if index >= |reg.structs[tag].tys| then Err("field index out of bounds")
      else Ok(Some(reg.structs[tag].tys[index]))
    case Hybrid(tag) =>
      if tag !in reg.hybrids then Err("unregistered hybrid tag")
      else if index >= |reg.hybrids[tag].fixTys| then Err("field index out of bounds")
      else Ok(Some(reg.hybrids[tag].fixTys[index]))
    case _ => Ok(None)
  }

  function GetHybridVarpartTy(reg: Registry, t: MuType): (r: Result<Option<MuType>, String>)
    ensures r.Ok? && r.value.None? <==> !IsHybrid(t)
    ensures IsHybrid(t) && t.v.tag in reg.hybrids ==> r == Ok(Some(reg.hybrids[t.v.tag].varTy))
    ensures r.Err? <==> IsHybrid(t) && t.v.tag !in reg.hybrids
  {
    match t.v
    case Hybrid(tag) =>
      if tag !in reg.hybrids then Err("unregistered hybrid tag")
      else Ok(Some(reg.hybrids[tag].varTy))
    case _ => Ok(None)
  }

  /** The two-step construction of a (possibly recursive) struct: after
      `mustruct_empty` then `mustruct_put`, field `i` of the struct type is
      the `i`th given type, and nothing past the list can be read. */
  lemma EmptyThenPut(reg: Registry, tag: String, list: seq<MuType>, h: Header, i: nat)
    ensures MustructPut(MustructEmpty(reg, tag).0, tag, list).Ok?
    ensures var reg' := MustructPut(MustructEmpty(reg, tag).0, tag, list).value;
      GetFieldTy(reg', MuType(h, MustructEmpty(reg, tag).1), i)
        == if i < |list| then Ok(Some(list[i])) else Err("field index out of bounds")
  {
  }

  /** Registering the same fields again succeeds and changes nothing. */
  lemma MustructIdempotent(reg: Registry, tag: String, list: seq<MuType>)
    requires Mustruct(reg, tag, list).Ok?
    ensures Mustruct(Mustruct(reg, tag, list).value.0, tag, list) == Mustruct(reg, tag, list)
  {
    FieldsEqRefl(list);
    var reg1 := Mustruct(reg, tag, list).value.0;
    assert reg1.structs[tag := StructType(list)] == reg1.structs;
  }

  /** After `tag` is registered with `first`, registering it with `second`
      succeeds exactly when the two field lists are equal up to headers; on
      success the newer list is the one stored. */
  lemma MustructReregister(reg: Registry, tag: String, first: seq<MuType>, second: seq<MuType>)
    requires Mustruct(reg, tag, first).Ok?
    ensures var reg1 := Mustruct(reg, tag, first).value.0;
      Mustruct(reg1, tag, second).Ok? <==> FieldsEq(second, first)
  {
  }

  /** The struct registry accepts a new tag with any fields, and a struct
      registration never disturbs the hybrid registry. */
  lemma MustructFreshTag(reg: Registry, tag: String, list: seq<MuType>, h: Header, i: nat)
    requires tag !in reg.structs && i < |list|
    ensures Mustruct(reg, tag, list).Ok?
    ensures GetFieldTy(Mustruct(reg, tag, list).value.0, MuType(h, Struct(tag)), i) == Ok(Some(list[i]))
  {
  }

  /** The hybrid counterpart: `hybrid_empty` then `hybrid_put` stores the
      given parts, and re-registering is accepted exactly for equal parts. */
  lemma HybridRegistry(reg: Registry, tag: String, fixTys: seq<MuType>, varTy: MuType, voidHdr: Header, h: Header)
    ensures HybridPut(HybridEmpty(reg, tag, voidHdr).0, tag, fixTys, varTy).Ok?
    ensures var reg' := HybridPut(HybridEmpty(reg, tag, voidHdr).0, tag, fixTys, varTy).value;
      GetHybridVarpartTy(reg', MuType(h, Hybrid(tag))) == Ok(Some(varTy))
    ensures var reg' := HybridPut(HybridEmpty(reg, tag, voidHdr).0, tag, fixTys, varTy).value;
      MuHybrid(reg', tag, fixTys, varTy).Ok?
  {
    FieldsEqRefl(fixTys);
    TypeEqErase(varTy, varTy);
  }
}

=== FILE: text.dfy ===
/**
 Character classes and the few string operations of Python's `str` that the
 header parser and the code generator use (`split`, `strip`, `replace(" ", "")`,
 `", ".join`, `startswith`, `endswith`), together with decimal rendering of
 naturals.

 `\w` is taken as ASCII letters, digits and underscore, which is narrower
 than Python 3, whose `\w` on `str` also matches every non-ASCII letter and
 digit; identifiers are therefore ASCII in this model. `\s` is the set of
 characters Python counts as whitespace.
 */
module Text {

  type String = seq<char>

  predicate IsSpace(c: char) {
    c == ' ' || c == '\t' || c == '\n' || c == '\r' || c == '\U{B}' || c == '\U{C}'
    || ('\U{1C}' <= c <= '\U{1F}') || c == '\U{85}' || c == '\U{A0}' || c == '\U{1680}'
    || ('\U{2000}' <= c <= '\U{200A}') || c == '\U{2028}' || c == '\U{2029}'
    || c == '\U{202F}' || c == '\U{205F}' || c == '\U{3000}'
  }

  predicate IsWordChar(c: char) {
    ('a' <= c <= 'z') || ('A' <= c <= 'Z') || ('0' <= c <= '9') || c == '_'
  }

  predicate AllWord(s: String) {
    forall i :: 0 <= i < |s| ==> IsWordChar(s[i])
  }

  predicate AllSpace(s: String) {
    forall i :: 0 <= i < |s| ==> IsSpace(s[i])
  }

  /** Every character in positions `a` to `b` (exclusive) is whitespace. */
  predicate SpacesIn(s: String, a: nat, b: nat)
    requires a <= b <= |s|
  {
    forall k :: a <= k < b ==> IsSpace(s[k])
  }

  /** Every character in positions `a` to `b` (exclusive) is a word character. */
  predicate WordIn(s: String, a: nat, b: nat)
    requires a <= b <= |s|
  {
    forall k :: a <= k < b ==> IsWordChar(s[k])
  }

  lemma SpaceNotWord(c: char)
    ensures !(IsSpace(c) && IsWordChar(c))
  {
  }

  /** The end of the run of whitespace that starts at `p`. */
  function SkipSpaces(s: String, p: nat): (e: nat)
    requires p <= |s|
    ensures p <= e <= |s|
    ensures SpacesIn(s, p, e)
    ensures e == |s| || !IsSpace(s[e])
    decreases |s| - p
  {
    if p < |s| && IsSpace(s[p]) then SkipSpaces(s, p + 1) else p
  }

  /** The end of the run of word characters that starts at `p`. */
  function SkipWord(s: String, p: nat): (e: nat)
    requires p <= |s|
    ensures p <= e <= |s|
    ensures WordIn(s, p, e)
    ensures e == |s| || !IsWordChar(s[e])
    decreases |s| - p
  {
    if p < |s| && IsWordChar(s[p]) then SkipWord(s, p + 1) else p
  }

  predicate StartsWith(s: String, prefix: String) {
    |prefix| <= |s| && s[..|prefix|] == prefix
  }

  predicate EndsWith(s: String, suffix: String) {
    |suffix| <= |s| && s[|s| - |suffix|..] == suffix
  }

  lemma StartsWithConcat(a: String, b: String)
    ensures StartsWith(a + b, a)
  {
    assert (a + b)[..|a|] == a;
  }

  lemma EndsWithConcat(a: String, b: String)
    ensures EndsWith(a + b, b)
  {
    assert (a + b)[|a|..] == b;
  }

  /** `s[:-1]` in Python: everything but the last character (empty stays empty). */
  function DropLast(s: String): (r: String)
    ensures |s| > 0 ==> s == r + [s[|s| - 1]]
    ensures |s| == 0 ==> r == []
  {
    if |s| == 0 then [] else s[..|s| - 1]
  }

  /** `s.replace(" ", "")`: only the blank character is removed. */
  function RemoveBlanks(s: String): (r: String)
  {
    if |s| == 0 then []
    else if s[0] == ' ' then RemoveBlanks(s[1..])
    else [s[0]] + RemoveBlanks(s[1..])
  }

  /** Removing blanks leaves no blank and keeps every other character in order. */
  lemma {:induction false} RemoveBlanksSpec(s: String)
    ensures ' ' !in RemoveBlanks(s)
    ensures RemoveBlanks(s) == s <==> ' ' !in s
    ensures |RemoveBlanks(s)| <= |s|
    ensures forall c :: c != ' ' ==> (c in RemoveBlanks(s) <==> c in s)
  {
    if |s| > 0 {
      RemoveBlanksSpec(s[1..]);
      assert s == [s[0]] + s[1..];
    }
  }

  lemma {:induction false} RemoveBlanksAppend(a: String, b: String)
    ensures RemoveBlanks(a + b) == RemoveBlanks(a) + RemoveBlanks(b)
  {
    if |a| > 0 {
      assert (a + b)[1..] == a[1..] + b;
      RemoveBlanksAppend(a[1..], b);
    } else {
      assert a + b == b;
    }
  }

  /** Python's `s.strip()`. */
  function Strip(s: String): (r: String)
  {
    StripRight(StripLeft(s))
  }

  function StripLeft(s: String): (r: String)
  {
    if |s| > 0 && IsSpace(s[0]) then StripLeft(s[1..]) else s
  }

  function StripRight(s: String): (r: String)
  {
    if |s| > 0 && IsSpace(s[|s| - 1]) then StripRight(s[..|s| - 1]) else s
  }

  /** `StripLeft` drops a prefix of whitespace, and all of it: `k` is its length. */
  lemma {:induction false} StripLeftSpec(s: String) returns (k: nat)
    ensures k <= |s| && AllSpace(s[..k]) && StripLeft(s) == s[k..]
    ensures |StripLeft(s)| == 0 || !IsSpace(StripLeft(s)[0])
  {
    if |s| > 0 && IsSpace(s[0]) {
      var k' := StripLeftSpec(s[1..]);
      k := k' + 1;
      assert s[..k] == [s[0]] + s[1..][..k'];
      assert s[k..] == s[1..][k'..];
    } else {
      k := 0;
      assert s[..0] == [] && s[0..] == s;
    }
  }

  /** `StripRight` drops a suffix of whitespace, and all of it: `k` is what remains. */
  lemma {:induction false} StripRightSpec(s: String) returns (k: nat)
    ensures k <= |s| && AllSpace(s[k..]) && StripRight(s) == s[..k]
    ensures |StripRight(s)| == 0 || !IsSpace(StripRight(s)[|StripRight(s)| - 1])
  {
    if |s| > 0 && IsSpace(s[|s| - 1]) {
      var t := s[..|s| - 1];
      k := StripRightSpec(t);
      assert s[k..] == t[k..] + [s[|s| - 1]];
      assert s[..k] == t[..k];
    } else {
      k := |s|;
      assert s[|s|..] == [] && s[..|s|] == s;
    }
  }

  /** `Strip` removes only surrounding whitespace, and all of it: `s[i..j]` is what is kept. */
  lemma StripSpec(s: String) returns (i: nat, j: nat)
    ensures i <= j <= |s| && Strip(s) == s[i..j]
    ensures AllSpace(s[..i]) && AllSpace(s[j..])
    ensures |Strip(s)| == 0 || (!IsSpace(Strip(s)[0]) && !IsSpace(Strip(s)[|Strip(s)| - 1]))
  {
    i := StripLeftSpec(s);
    var t := s[i..];
    var k := StripRightSpec(t);
    j := i + k;
    assert Strip(s) == s[i..j];
    assert s[j..] == t[k..];
    if |Strip(s)| > 0 {
      assert Strip(s)[0] == StripLeft(s)[0];
    }
  }

  /** Python's `s.split(sep)` for a single-character separator. */
  function Split(s: String, sep: char): (parts: seq<String>)
    ensures |parts| >= 1
    decreases |s|
  {
    if sep in s then
      var i := FirstIndex(s, sep);
      [s[..i]] + Split(s[i + 1..], sep)
    else [s]
  }

  function FirstIndex(s: String, c: char): (i: nat)
    requires c in s
    ensures i < |s| && s[i] == c && c !in s[..i]
  {
    if s[0] == c then 0 else FirstIndex(s[1..], c) + 1
  }

  /** `sep.join(parts)` */
  function Join(parts: seq<String>, sep: String): (r: String)
  {
    if |parts| == 0 then []
    else if |parts| == 1 then parts[0]
    else parts[0] + sep + Join(parts[1..], sep)
  }

  /** Splitting then joining with the same separator gives the text back, and
      no piece contains the separator. */
  lemma {:induction false} SplitJoin(s: String, sep: char)
    ensures Join(Split(s, sep), [sep]) == s
    ensures forall k :: 0 <= k < |Split(s, sep)| ==> sep !in Split(s, sep)[k]
    decreases |s|
  {
    if sep in s {
      var i := FirstIndex(s, sep);
      SplitJoin(s[i + 1..], sep);
      var rest := Split(s[i + 1..], sep);
      assert Split(s, sep) == [s[..i]] + rest;
      assert Split(s, sep)[1..] == rest;
      assert s == s[..i] + [sep] + s[i + 1..];
    }
  }

  /** Joining pieces free of the separator and splitting again gives the pieces back. */
  lemma {:induction false} JoinSplit(parts: seq<String>, sep: char)
    requires |parts| >= 1
    requires forall k :: 0 <= k < |parts| ==> sep !in parts[k]
    ensures Split(Join(parts, [sep]), sep) == parts
  {
    if |parts| > 1 {
      JoinSplit(parts[1..], sep);
      var a, rest := parts[0], Join(parts[1..], [sep]);
      var s := Join(parts, [sep]);
      assert s == a + ([sep] + rest);
      FirstIndexOfPrefix(a, [sep] + rest, sep);
      assert s[..|a|] == a;
      assert s[|a| + 1..] == rest;
      assert Split(s, sep) == [a] + Split(rest, sep);
      assert parts == [a] + parts[1..];
    }
  }

  /** Joining a concatenation joins the halves around one more separator. */
  lemma {:induction false} JoinAppend(a: seq<String>, b: seq<String>, sep: String)
    requires |a| > 0 && |b| > 0
    ensures Join(a + b, sep) == Join(a, sep) + sep + Join(b, sep)
  {
    if |a| == 1 {
      assert (a + b)[1..] == b;
    } else {
      JoinAppend(a[1..], b, sep);
      assert (a + b)[1..] == a[1..] + b;
    }
  }

  /** A character found in neither the pieces nor the separator is not in the join. */
  lemma {:induction false} JoinFree(parts: seq<String>, sep: String, c: char)
    requires c !in sep && forall k :: 0 <= k < |parts| ==> c !in parts[k]
    ensures c !in Join(parts, sep)
  {
    if |parts| > 1 {
      JoinFree(parts[1..], sep, c);
    }
  }

  lemma FirstIndexOfPrefix(a: String, b: String, c: char)
    requires c !in a && |b| > 0 && b[0] == c
    ensures c in a + b && FirstIndex(a + b, c) == |a|
  {
    var s := a + b;
    assert s[|a|] == c;
  }

  /** Decimal digits of a natural, most significant first (Rust's and Python's `{}`). */
  function NatToDecimal(n: nat): (r: String)
    ensures |r| >= 1
    ensures forall i :: 0 <= i < |r| ==> '0' <= r[i] <= '9'
    decreases n
  {
    if n < 10 then [DigitChar(n)]
    else NatToDecimal(n / 10) + [DigitChar(n % 10)]
  }

  function DigitChar(d: nat): (c: char)
    requires d < 10
    ensures '0' <= c <= '9'
  {
    ['0', '1', '2', '3', '4', '5', '6', '7', '8', '9'][d]
  }

  function DigitValue(c: char): (d: nat)
    requires '0' <= c <= '9'
    ensures d < 10 && DigitChar(d) == c
  {
    if c == '0' then 0 else if c == '1' then 1 else if c == '2' then 2
    else if c == '3' then 3 else if c == '4' then 4 else if c == '5' then 5
    else if c == '6' then 6 else if c == '7' then 7 else if c == '8' then 8 else 9
  }

  function DecimalValue(s: String): (n: nat)
    requires forall i :: 0 <= i < |s| ==> '0' <= s[i] <= '9'
    decreases |s|
  {
    if |s| == 0 then 0 else 10 * DecimalValue(s[..|s| - 1]) + DigitValue(s[|s| - 1])
  }

  /** Reading the rendered digits back gives the number: the rendering is injective. */
  lemma {:induction false} DecimalRoundTrip(n: nat)
    ensures DecimalValue(NatToDecimal(n)) == n
    decreases n
  {
    var r := NatToDecimal(n);
    if n >= 10 {
      DecimalRoundTrip(n / 10);
      assert r[..|r| - 1] == NatToDecimal(n / 10);
    }
    assert DigitValue(DigitChar(n % 10)) == n % 10;
  }

  lemma DecimalInjective(a: nat, b: nat)
    requires NatToDecimal(a) == NatToDecimal(b)
    ensures a == b
  {
    DecimalRoundTrip(a);
    DecimalRoundTrip(b);
  }
}

=== FILE: wrappers.dfy ===
/**
 Failure-compatible result types. A Rust `panic!`, a failed `unwrap`, a
 failed assertion or a Python exception is modelled as `Err` carrying a
 description of which check failed, so callers see the error path instead
 of a precondition that rules it out.
 */
module Wrappers {

  datatype Option<+T> = None | Some(value: T) {
    predicate IsFailure() {
      None?
    }

    function PropagateFailure<U>(): Option<U>
      requires None?
    {
      None
    }

    function Extract(): T
      requires Some?
    {
      value
    }
  }

  datatype Result<+T, +E> = Ok(value: T) | Err(error: E) {
    predicate IsFailure() {
      Err?
    }

    function PropagateFailure<U>(): Result<U, E>
      requires Err?
    {
      Err(error)
    }

    function Extract(): T
      requires Ok?
    {
      value
    }
  }

  /** Applies `f` to every element in order; the first element that fails
      stops the traversal and its error is the result. */
  function MapResult<A, B(==), E(==)>(xs: seq<A>, f: A --> Result<B, E>): (r: Result<seq<B>, E>)
    requires forall k :: 0 <= k < |xs| ==> f.requires(xs[k])
    ensures r.Ok? <==> forall k {:trigger xs[k]} :: 0 <= k < |xs| ==> f(xs[k]).Ok?
    ensures r.Ok? ==> |r.value| == |xs| && forall k {:trigger xs[k]} :: 0 <= k < |xs| ==> f(xs[k]) == Ok(r.value[k])
    ensures r.Err? ==> exists k :: 0 <= k < |xs| && f(xs[k]) == Err(r.error)
                                  && forall j :: 0 <= j < k ==> f(xs[j]).Ok?
  {
    if |xs| == 0 then Ok([])
    else
      match f(xs[0])
      case Err(e) => Err(e)
      case Ok(first) =>
        match MapResult(xs[1..], f)
        case Err(e) =>
          var k :| 0 <= k < |xs[1..]| && f(xs[1..][k]) == Err(e)
                   && forall j :: 0 <= j < k ==> f(xs[1..][j]).Ok?;
          assert xs[1..][k] == xs[k + 1];
          assert forall j :: 0 < j < k + 1 ==> xs[j] == xs[1..][j - 1];
          Err(e)
        case Ok(rest) =>
          assert forall k :: 0 < k < |xs| ==> xs[k] == xs[1..][k - 1];
          Ok([first] + rest)
  }
}
